=== FILE: README.md ===
# shinfuri weighted-average calculator, modelled in Dafny

shinfuri computes the weighted average score that decides course
allocation at the College of Arts and Sciences of the University of Tokyo
(進学選択). It takes a transcript and the completion requirements of a
program. Every credit of every course becomes a unit. The units are
allocated to a tree of quotas, each unit gets a weight (1, 0.1, 0 or a
specified weight), and the weighted points are averaged in exact rational
arithmetic. Department rules can add bonus points, multiply the average by
the earned credits, or try several required-course patterns.

This project models that core as Dafny modules, one per source file:

- `Rationals` (rational.dfy) is the reduced fraction type and its operations.
- `CourseCodes`, `Courses`, `Reports` and `Repetitions` are the course
  codes, courses, transcript rows and the year-repetition filter.
- `QuotaDefinitions` and `QuotaTrees` are the quota data model. The quotas
  are laid out as an index-based tree.
- `Allocation` and `AllocationProperties` are `allocate`. `Judge` is
  `judgeSatisfaction`. `JsUtils` holds `exclude` and `unreachable`.
- `Remains`, `Distributions`, `BasicWeights`, `EngWeights`, `ChoikiWeights`
  and `Weights` are the weight engine of src/weights.ts.
- `Aggregation` and `Tickets` are src/index.ts.
- `CourseRequirements`, `SpecificWeights`, `AdditionalPoints` and
  `AvgCrediting` are the department rules.
- `Seqs`, `OrderedMaps` and `Wrappers` are shared helpers: filtering,
  stable sort by key, a JavaScript `Map` with insertion order, Option and
  Result.

Report identity matters in the source: rows are keys of `Map`s and `Set`s.
The model gives every row an `id`. The rows that `apply` adds for missing
required courses are a variant of their own (`Injected`), without a `type`
tag, as in the source. Where the source updates fields in place, the model
uses classes: the weight engine's `Remain`, `Distribution` and `Distributor`,
the credit allocation's `Allocator`, the `JsArray` of the array helpers, and
the course `Catalog`.

## Model

| member | source | states |
|---|---|---|
| `Rationals.Gcd` | src/rational.ts:1-4 | the Euclid loop computes the recursive gcd, which is positive and divides both inputs when they are not both 0 |
| `Rationals.GcdDivides` | src/rational.ts:1-4 | gcd(a, b) divides a and b |
| `Rationals.DividesGcd` | src/rational.ts:1-4 | every common divisor of a and b divides gcd(a, b) |
| `Rationals.GcdPositive` | src/rational.ts:1-4 | gcd(a, b) > 0 unless both are 0 |
| `Rationals.Make` | src/rational.ts:14-18 | the constructor keeps the value n/d and gives a coprime pair; the denominator is positive exactly when d is, since the sign is not normalised |
| `Rationals.FromInt` | src/rational.ts:20-23 | `int(n)` on an integer is n/1 with value n |
| `Rationals.IntOf` | src/rational.ts:20-23 | `int(x)` fails exactly when x is not integral, and otherwise has value x |
| `Rationals.Deci` | src/rational.ts:26-29 | `deci` is 1/10 with value 0.1 |
| `Rationals.Rational.Add` | src/rational.ts:35-40 | the value of the sum is the sum of the values; positive denominators stay positive |
| `Rationals.Rational.Sub` | src/rational.ts:41-46 | the value of the difference is the difference of the values; positive denominators stay positive |
| `Rationals.Rational.Mul` | src/rational.ts:47-52 | the value of the product is the product of the values; positive denominators stay positive |
| `Rationals.Rational.Div` | src/rational.ts:53-58 | the value of the quotient is the quotient of the values; the denominator stays positive only when the divisor's numerator is positive |
| `Rationals.Rational.Exceeds` | src/index.ts:39 | the exact comparison that stands for `toNumber() > avg`: true exactly when the value is greater |
| `Rationals.NegativeDenominatorExample` | src/rational.ts:53-58 | 1 divided by -2 is stored as 1/-2: the sign is not moved to the numerator |
| `Rationals.MulInts` | src/rational.ts:47-52 | the product of two integers as rationals is the integer product |
| `Rationals.DivMulRoundTrip` | src/rational.ts:47-58 | (a/b)·b has value a for b ≠ 0 |
| `Rationals.AddSubExample` | src/rational.test.ts:5-12 | 1/2 + 1/3 = 5/6 and 1/2 − 1/3 = 1/6 |
| `Rationals.MulCancels` | src/rational.test.ts:13-17 | (p1/p2)(p2/p3)(p3/p1) = 1 for non-zero p1, p2, p3 |
| `Rationals.DivSelf` | src/rational.test.ts:18-22 | a/a = 1 for every non-zero a |
| `Rationals.QuotientSign` | src/rational.ts:31-33 | n/d is positive exactly when n and d have the same sign |
| `CourseCodes.DepartmentRank` | src/course-code.ts:26 | the rank of a department code is its position in FC, IC, GC, TC, PF, PI, PG, PT |
| `CourseCodes.SmallRank` | src/course-code.ts:28 | the rank of a small-division character is below 36 |
| `CourseCodes.MiddleRank` | src/course-code.ts:27 | the rank of a middle-division character is below 17 |
| `CourseCodes.CodeToInt` | src/course-code.ts:29-34 | `courseCodeToInt` is bounded by 861295 |
| `CourseCodes.CodeToIntWithinDepartment` | src/course-code.ts:29-34 | within one department the rank is injective and ordered by middle, then first small, then second small character |
| `CourseCodes.CodeToIntCollides` | src/course-code.ts:29-34 | the rank is not injective across departments: FCE10 and IC510 both rank 150036 |
| `CourseCodes.CodeEq` | src/course-code.ts:10 | two codes of five equal characters are equal |
| `CourseCodes.IncludesSound` | src/course-code.ts:14-19 | when `outer.includes(inner)` and `inner.match(code)`, `outer.match(code)` |
| `CourseCodes.MatchBetween` | src/course-code.ts:14-19 | a string lying between an include prefix and a matched code is matched too |
| `CourseCodes.PrefixComparable` | src/course-code.ts:14-19 | two prefixes of one code are prefixes of each other |
| `CourseCodes.IncludesExamples` | src/course-code.test.ts:37-40 | `includes` is true, false, true, false on the four scope pairs of course-code.test.ts |
| `CourseCodes.IsSubcourseOf` | src/course-code.ts:39-46 | the predicate holds exactly when the code starts with one of the prefixes, in both branches |
| `CourseCodes.Not` | src/course-code.ts:48 | `$not` is pointwise negation |
| `CourseCodes.And` | src/course-code.ts:49 | `$and` is pointwise "all", so `$and()` always holds |
| `CourseCodes.Or` | src/course-code.ts:50 | `$or` is pointwise "some", so `$or()` never holds |
| `CourseCodes.NotAndIsOrNot` | src/course-code.ts:48-50 | `$not($and(ps))` agrees with `$or` of the negations |
| `CourseCodes.SubCodeKishu` | src/course-code.ts:52-55 | the first-language sub-code is FC1 followed by the language digit 1-9 |
| `CourseCodes.SubCodeShoshu` | src/course-code.ts:56-59 | the beginner-language sub-code is FC2 followed by the digit 1-7 |
| `CourseCodes.SubCodeSecondL` | src/course-code.ts:60-63 | the second-language sub-code is GCL followed by the digit 2-8 |
| `CourseCodes.KishuSubCodeInjective` | src/course-code.ts:52-55 | distinct languages get distinct sub-codes, and English gets FC11 |
| `CourseCodes.ShoshuSubCodesShifted` | src/course-code.ts:52-63 | a beginner digit is one less than the first-language digit, and the GCL digit equals it |
| `CourseCodes.ShoshuSubCodesInjective` | src/course-code.ts:56-63 | distinct beginner languages get distinct FC2 and GCL sub-codes |
| `CourseCodes.Row` | src/course-code.ts:81-85 | the codes of one department are the department code joined with each serial, in table order |
| `CourseCodes.FindCodeSpec` | src/course-code.ts:76-90 | the lookup finds nothing exactly when no entry both passes the language test and lists the title, and otherwise returns the first such entry |
| `CourseCodes.FindCodeConcat` | src/course-code.ts:81-89 | a lookup over two parts of the table is the first part's hit, else the second part's |
| `CourseCodes.GetCourseCode` | src/course-code.ts:76-90 | the nested loops with early return compute the lookup |
| `CourseCodes.ScanDepartment` | src/course-code.ts:84-88 | the inner loop over one department computes the lookup over its row |
| `CourseCodes.RowStep` | src/course-code.ts:84-88 | one more serial is found exactly when nothing before it was and it is a selectable hit |
| `CourseCodes.RowRest` | src/course-code.ts:84-88 | the first hit among the first serials is the hit of the whole department |
| `CourseCodes.EntriesPrefix` | src/course-code.ts:81-89 | the entries of the first departments are a prefix of all entries |
| `CourseCodes.ExcerptSelectable` | src/course-code.ts:77-79 | with German first and French as a beginner language, only the chosen language blocks are selectable |
| `CourseCodes.ExcerptLanguageBlocks` | src/course-code.ts:79 | `isSubcourseOf('FC1', 'FC2')` holds for the language codes of the excerpt only |
| `CourseCodes.ExcerptOwnBlocks` | src/course-code.ts:79 | the own-language test holds for the chosen language codes only |
| `CourseCodes.ExcerptEntriesAre` | src/course-code.ts:94-100 | the entries of the catalog excerpt, in order |
| `CourseCodes.GetCourseCodeFirstLanguage` | src/course-code.test.ts:24-32 | ドイツ語一列② is found as FC122 |
| `CourseCodes.GetCourseCodeSecondLanguage` | src/course-code.test.ts:24-32 | フランス語二列 is found as FC223 |
| `CourseCodes.GetCourseCodeSameCode` | src/course-code.test.ts:24-32 | 情報α is found as FC300 |
| `CourseCodes.Codes` | src/course-code.ts:674-685 | the code list has one code per table entry, in table order |
| `CourseCodes.EntriesDepartment` | src/course-code.ts:677-681 | every listed code is five characters long and starts with a department of the table |
| `CourseCodes.CodesDistinct` | src/course-code.ts:674-685 | each (department, serial) key is listed once |
| `CourseCodes.MapOfLookup` | src/course-code.ts:688-699 | the code map holds exactly the listed codes, each with its titles |
| `CourseCodes.AddDepartment` | src/course-code.ts:691-695 | the inner loop adds one department's codes to the map |
| `CourseCodes.Catalog.GetCourseCodes` | src/course-code.ts:673-685 | returns the code list and memoises it; a memoised list is returned as is |
| `CourseCodes.Catalog.GetCourseCodeMap` | src/course-code.ts:687-699 | returns the code map and memoises it |
| `CourseCodes.Catalog.constructor` | src/course-code.ts:673-687 | both memo variables start unset |
| `Courses.TermToInt` | src/course.ts:23 | the position of a term is at most 4 |
| `Courses.TermToIntMonotone` | src/course.ts:19-23 | `termToInt` never decreases along `termList` |
| `Courses.ValidatorsExact` | src/course.ts:16-20 | `isCredit` accepts exactly 1 and 2; `isTerm` accepts exactly S, S1, S2, A, A1, A2, W |
| `Courses.IsCourseIgnoresCode` | src/course.ts:9-14 | `isCourse` does not look at `code` |
| `Courses.IsCourseOfCourse` | src/course.ts:9-14 | a course passes `isCourse` exactly when its year and term are present |
| `Reports.ReportKinds` | src/report.ts:7-17 | `isSpecificReport` holds exactly when the row is not an unenrolled-somewhat placeholder, `isScoredReport` exactly when it is not unscored; unenrolled rows have point 0 and grade 未履修 |
| `Reports.OrderingAntisymmetric` | src/report.ts:25-30 | ordering(a, b) = −ordering(b, a) |
| `Reports.RankKeyAgrees` | src/report.ts:25-30 | the integer sort key orders rows as `-ordering` does, in all three cases |
| `Reports.PointToGrade` | src/report.ts:32-40 | a grade exists exactly for points 0-100, and it is 不可 exactly below 50 |
| `Reports.PointToGradeMonotone` | src/report.ts:32-40 | a higher point never gets a lower grade |
| `Repetitions.KeepsReportCases` | src/repetition.ts:8-15 | later year kept, earlier year dropped, no year kept, same year kept exactly for 降年 outside S/S1/S2 |
| `Repetitions.RyunenStricter` | src/repetition.ts:12 | what 留年 keeps, 降年 keeps |
| `Repetitions.LaterRepetitionStricter` | src/repetition.ts:11-13 | a later repetition keeps no more rows than an earlier one |
| `JsUtils.JsArray.Exclude` | src/utils.ts:5-20 | the returned array holds exactly the matching elements in order, and the array keeps exactly the others in order |
| `JsUtils.JsArray.constructor` | src/utils.ts:5 | the array holds the given elements |
| `JsUtils.RunStart` | src/utils.ts:12-13 | the inner loop stops just before the run of flagged elements ending at i |
| `JsUtils.SpliceRun` | src/utils.ts:14 | splicing one run moves it to the front of the excluded elements and leaves the rest in order |
| `JsUtils.KeepOne` | src/utils.ts:16 | stepping over an unflagged element keeps both invariants |
| `JsUtils.Unreachable` | src/utils.ts:1-3 | always the error carrying the description |
| `QuotaDefinitions.MakeQuota` | src/quota/definition.ts:20-22 | `$quota` stores each given field unchanged |
| `QuotaDefinitions.MakeQuotaDefaults` | src/quota/definition.ts:20-22 | without optional arguments: no sub-quotas, `minSub` 0, no constraints |
| `QuotaDefinitions.MakeWithSub` | src/quota/definition.ts:24 | `withSub` keeps the sub-quotas in order with the given minimum |
| `QuotaDefinitions.MergeWithSubsConcat` | src/quota/definition.ts:25-28 | merging concatenates sub-quotas and adds minimums, so it splits over concatenated argument lists |
| `QuotaDefinitions.MergeWithSubsUnits` | src/quota/definition.ts:25-28 | no argument and an undefined argument contribute nothing; one argument is returned as is |
| `QuotaDefinitions.WithForCalculation` | src/quota/definition.ts:30-32 | the constraints are kept unchanged and in order |
| `QuotaTrees.ChainFacts` | src/quota/definition.ts:8 | siblings occupy consecutive disjoint id ranges inside their parent's range |
| `QuotaTrees.ChainCovers` | src/quota/definition.ts:8 | every id in the children's range lies in exactly one child's subtree |
| `QuotaTrees.ValidIsLaid` | src/quota/definition.ts:4-13 | a valid tree has the layout the engine relies on |
| `QuotaTrees.AncestorsOrSelf` | src/weights.ts:304-308 | the chain walked by `#updateCount` starts at q and only goes to lower ids |
| `QuotaTrees.AncestorsEnclose` | src/weights.ts:304-308 | the chain holds exactly the quotas whose subtree contains q |
| `QuotaTrees.FirstMatch` | src/quota/utils.ts:8-10 | the first sibling whose filter accepts the code, or none when none does |
| `OrderedMaps.OrderedMap.Put` | src/quota/utils.ts:11 | `map.set` updates the value and appends a new key at the end of the order |
| `OrderedMaps.OrderedMap.Delete` | src/weights.ts:243 | `map.delete` removes the key and its place in the order |
| `OrderedMaps.OrderedMap.ValuesInOrder` | src/quota/utils.ts:40 | the values in key insertion order |
| `OrderedMaps.PutValid` | src/quota/utils.ts:11 | setting keeps every key listed once |
| `OrderedMaps.DeleteValid` | src/weights.ts:243 | deleting keeps every key listed once |
| `Allocation.Allocator.Internal` | src/quota/utils.ts:7-14 | the loop over sibling quotas computes the allocation walk, including the early `return` |
| `Allocation.Allocator.Place` | src/quota/utils.ts:9-12 | one quota: set its entry to the accepted reports, recurse into its children, leave the rest to the next sibling |
| `Allocation.Allocator.constructor` | src/quota/utils.ts:6 | the allocation map starts empty |
| `Allocation.Allocate` | src/quota/utils.ts:5-17 | `allocate` computes the walk over the top-level quotas on a copy of the reports |
| `Allocation.Lowest` | src/quota/utils.ts:7-14 | the smallest id among siblings, which bounds the recursion |
| `AllocationProperties.AllocateTree` | src/quota/utils.ts:5-17 | on a tree, every quota gets an entry, holding exactly the reports whose deepest first-matching quota it is, in input order |
| `AllocationProperties.AllocatedOnce` | src/quota/utils.ts:5-17 | a report is in at most one list, and in none when no top-level quota accepts it |
| `AllocationProperties.AllocatedSomewhere` | src/quota/utils.ts:5-17 | a report some top-level quota accepts is in the list of its deepest first-matching quota |
| `AllocationProperties.Deepest` | src/quota/utils.ts:10-12 | descending through first-matching children stays inside the tree |
| `AllocationProperties.DeepestIn` | src/quota/utils.ts:10-12 | the quota reached lies in the subtree it started from |
| `AllocationProperties.DeepestKeeps` | src/quota/utils.ts:10-12 | the quota reached accepts the code, and none of its children does |
| `AllocationProperties.FirstMatchIsFirst` | src/quota/utils.ts:8-10 | no sibling before the first match accepts the code |
| `AllocationProperties.OwnerInRange` | src/quota/utils.ts:8-12 | the owning quota lies in the range the siblings span |
| `AllocationProperties.OwnerInSingle` | src/quota/utils.ts:10-12 | a quota owns a code it accepts unless one of its children takes it first |
| `AllocationProperties.OwnerInCons` | src/quota/utils.ts:8-10 | the first sibling that accepts a code decides where it goes |
| `AllocationProperties.BelowQuota` | src/quota/utils.ts:10-12 | filtering by a quota and then by its children equals filtering by ownership |
| `AllocationProperties.SiblingSplit` | src/quota/utils.ts:8-12 | after a sibling splices its reports out, the rest go to the later siblings |
| `AllocationProperties.OpenEntry` | src/quota/utils.ts:10-11 | setting a new quota's entry leaves every earlier entry but the parent's unchanged |
| `AllocationProperties.TurnShape` | src/quota/utils.ts:9-12 | one quota's turn adds exactly its subtree's entries and leaves the rejected reports |
| `AllocationProperties.StepShape` | src/quota/utils.ts:8-13 | a sibling walk adds exactly the entries of the siblings' subtrees |
| `AllocationProperties.TurnContents` | src/quota/utils.ts:9-12 | after a quota's turn each entry of its subtree holds exactly the reports it owns |
| `AllocationProperties.StepContents` | src/quota/utils.ts:8-13 | after a sibling walk each entry holds exactly the reports it owns, and the reports no sibling accepts are left |
| `AllocationProperties.SharedQuotaTree` | src/quota/utils.ts:9 | a quota graph in which one quota is reachable twice |
| `AllocationProperties.SharedQuotaSkipsSiblings` | src/quota/utils.ts:9 | meeting an allocated quota again returns from the whole sibling loop, so a later sibling gets no entry |
| `Judge.Credits` | src/quota/utils.ts:49 | the credits of a list are positive when it is not empty |
| `Judge.InternalJudge` | src/quota/utils.ts:24-36 | the recursive check computes its specification |
| `Judge.JudgeSubQuotas` | src/quota/utils.ts:26-31 | the loop over sub-quotas stops at the first failure and sums the rest |
| `Judge.Results` | src/quota/utils.ts:44 | the judgement of every listed quota, in order |
| `Judge.ChildrenFold` | src/quota/utils.ts:26-31 | the loop fails exactly when a child fails, and otherwise adds up the sums and the counted children |
| `Judge.JudgeCases` | src/quota/utils.ts:24-36 | a quota fails exactly when a child fails, fewer than `minSub` children count, or the sum is below `n`; otherwise it returns the sum |
| `Judge.OwnAntitone` | src/quota/utils.ts:33 | a larger surplus leaves a quota fewer credits of its own |
| `Judge.JudgeMonotone` | src/quota/utils.ts:24-36 | a quota that holds with a larger surplus also holds with a smaller one, with at least the same sum |
| `Judge.ChildrenMonotone` | src/quota/utils.ts:26-31 | the same for the loop over sub-quotas |
| `Judge.Totals` | src/quota/utils.ts:45 | the total is undefined exactly when some quota fails, and is the sum otherwise |
| `Judge.TotalsMonotone` | src/quota/utils.ts:44-45 | a smaller surplus never lowers the total |
| `Judge.JudgeAll` | src/quota/utils.ts:44 | the loop over the top-level quotas computes their judgements |
| `Judge.Add` | src/quota/utils.ts:43 | adding to the surplus set adds exactly the report and keeps it free of repetitions |
| `Judge.ConsiderNew` | src/quota/utils.ts:42-46 | a report stays in the surplus exactly when every constraint accepts it and all quotas hold with total ≥ `min` after adding it; nothing else changes |
| `Judge.GreedyKeeps` | src/quota/utils.ts:41-48 | the surplus stays free of repetitions, holds only offered reports, and keeps the requirements satisfied |
| `Judge.InOrder` | src/quota/utils.ts:40 | every report offered comes from some quota's list |
| `Judge.Allocated` | src/quota/utils.ts:21 | every quota has a list |
| `Judge.VerdictSound` | src/quota/utils.ts:20-51 | when the answer is yes, every quota holds, the surplus has at least `surplusMin` credits, and it keeps the requirements satisfied |
| `Judge.Offer` | src/quota/utils.ts:42-46 | offering one report computes its specification |
| `Judge.JudgeSatisfaction` | src/quota/utils.ts:20-51 | the answer is false when a quota fails before the surplus pass, and otherwise whether the surplus credits reach `surplusMin` |
| `Weights.Weight.Tenths` | src/index.ts:49 | `Math.round(weight * 10)` is 0 exactly for weight 0 and below 10 exactly for 0 and 0.1 |
| `Weights.TenthsInjective` | src/weights.ts:23 | different weights are different numbers of tenths |
| `Weights.RemoveAt` | src/weights.ts:40 | `splice(i, 1)` removes one element and shifts the rest |
| `Weights.SameBefore` | src/weights.ts:37-38 | the inner loop finds the first earlier group with the same weight, if any |
| `Weights.Merge` | src/weights.ts:35-44 | the nested splice loop computes its specification |
| `Weights.MergeKeepsSums` | src/weights.ts:36-44 | merging keeps every per-weight sum of credits |
| `Weights.MergeStepSum` | src/weights.ts:38-40 | one merge step keeps every per-weight sum |
| `Weights.MergeDistinctSmall` | src/weights.ts:36-44 | after merging, the groups of a report with at most two units have distinct weights |
| `Weights.MergeThreeEqual` | src/weights.ts:36-44 | three units of one weight leave two groups, of two credits and one: the unit shifted into the spliced position is never compared (a report has at most two credits, so this does not arise from a transcript) |
| `Weights.BundleOf` | src/weights.ts:30-47 | one entry per report, in order of first appearance |
| `Weights.EmptyLists` | src/weights.ts:32 | the first loop sets an empty list for every report, in first-appearance order |
| `Weights.FillLists` | src/weights.ts:33 | the second loop gives every report exactly its units |
| `Weights.FillStep` | src/weights.ts:33 | pushing one unit keeps every list equal to its report's units so far |
| `Weights.UnitsOfSnoc` | src/weights.ts:33 | one more unit extends only its own report's list |
| `Weights.MergeAll` | src/weights.ts:34-46 | every report's units are merged, in key order |
| `Weights.Bundle` | src/weights.ts:30-47 | `bundle` computes its specification |
| `Weights.BundleKeepsSums` | src/weights.ts:30-47 | every weighted sum over the bundled reports equals the sum over the units |
| `Weights.BundleDistinct` | src/weights.ts:30-47 | no report is bundled twice |
| `Weights.BundleCovers` | src/weights.ts:30-47 | every unit's report is bundled |
| `Weights.BundleListed` | src/weights.ts:30-47 | every bundled report has a unit |
| `Weights.BundleOrder` | src/weights.ts:31-34 | reports keep their first-appearance order |
| `Weights.BundleCredits` | src/weights.ts:35-44 | a report's group credits add up to its number of units |
| `Weights.FirstsOrdered` | src/weights.ts:32 | the keys come in first-appearance order |
| `Weights.GroupsOfUnits` | src/weights.ts:35 | one group per unit carries the unit sums |
| `Weights.ByReport` | src/weights.ts:34-46 | summing report by report gives the sum over all units |
| `Weights.UnitSumOne` | src/weights.ts:8 | every unit counts one credit |
| `Remains.CreditsOfFacts` | src/weights.ts:211-215 | a quota's map holds exactly its reports, each with its credit |
| `Remains.FillCredits` | src/weights.ts:212-213 | the loop builds that map |
| `Remains.CreditsPerQuota` | src/weights.ts:211-215 | the outer loop builds one credit map per allocated quota, in the order of the allocation's keys |
| `Remains.AllocatedCredits` | src/weights.ts:211-215 | over the allocation of a laid-out tree those maps are, quota by quota, the credits of the quota's own reports, each listing its reports once |
| `Remains.Remain.constructor` | src/weights.ts:208-216 | each quota starts with the credits of the reports `allocate` gives it |
| `Remains.Remain.Under` | src/weights.ts:258-259 | the snapshot of `under(q)` is sorted best first and holds one unit per remaining credit of q's subtree |
| `Remains.Remain.All` | src/weights.ts:222-229 | the snapshot of `all()` is sorted best first and holds one unit per remaining credit |
| `Remains.Remain.Consume` | src/weights.ts:238-250 | `consume` lowers the unit's credit from 2 to 1 or deletes it at 1, and changes no other entry |
| `Remains.ConsumedLowers` | src/weights.ts:241-250 | consuming lowers one report's credit by one and no other |
| `Remains.OwnCount` | src/weights.ts:220 | a quota yields one unit per remaining credit of each of its reports |
| `Remains.OwnReportCount` | src/weights.ts:220 | a report yields as many units as its remaining credit |
| `Remains.OwnCredit` | src/weights.ts:220 | the slots of one quota hold each unit as often as its remaining credit |
| `Remains.OwnReports` | src/weights.ts:220 | the slots of one quota hold a report as often as its remaining credit there |
| `Remains.UnderCount` | src/weights.ts:218-221 | `under(q)` yields units of q's subtree only, each as often as its remaining credit |
| `Remains.UnderOfCount` | src/weights.ts:219 | the sub-quotas yield the units of their id range |
| `Remains.AllCount` | src/weights.ts:222-226 | `all()` yields every remaining unit as often as its credit |
| `Remains.AllReports` | src/weights.ts:222-226 | a report yields its remaining credit in units across all quotas |
| `Remains.RepeatReports` | src/weights.ts:220 | repeating a unit yields its report that many times |
| `Remains.LeftInUpdate` | src/weights.ts:238-250 | updating one quota changes the remaining total by that quota's change |
| `Remains.SnapshotOrder` | src/weights.ts:229 | earlier units have higher points, and on equal points a lower code rank |
| `Distributions.Distribution.constructor` | src/weights.ts:291-303 | every quota starts with no reports and count 0 |
| `Distributions.Distribution.UpdateCount` | src/weights.ts:304-308 | the count of q and of every quota above it changes by delta, and no other count |
| `Distributions.Distribution.Add` | src/weights.ts:309-313 | the report is appended to q's list and the counts of q and its ancestors grow by one |
| `Distributions.Distribution.Filter` | src/weights.ts:314-321 | every list of q's subtree is filtered, and the counts stay consistent |
| `Distributions.Distribution.FilterChildren` | src/weights.ts:320 | the sub-quotas' subtrees are filtered |
| `Distributions.Distribution.CountSplits` | src/weights.ts:304-321 | count(q) = own reports + the counts of the children |
| `Distributions.ChildCountsHeld` | src/weights.ts:304-321 | when every count is its subtree's report total, the children's counts add up to the reports held in their id range |
| `Distributions.Distribution.CountUnenrolled` | src/weights.ts:328-331 | `countUnenrolled(q)` is the number of unenrolled rows held anywhere in q's subtree |
| `Distributions.UnenrolledRange` | src/weights.ts:328-331 | the recursion over the sub-quotas counts the unenrolled rows of q's id range |
| `Distributions.UnenrolledOfRange` | src/weights.ts:330 | the sub-quotas' unenrolled rows are those of their id range |
| `Distributions.CheckUpPasses` | src/weights.ts:332-341 | the walk of `check` up the parents is empty exactly when every constraint on the way accepts the report |
| `Distributions.Distribution.CheckPasses` | src/weights.ts:332-341 | `check` is empty exactly when every constraint of q and of its ancestors accepts the report, shown only the accepted `scored` rows |
| `Distributions.Failures` | src/weights.ts:336-338 | the failing constraints are at most all of them |
| `Distributions.FailuresEmpty` | src/weights.ts:336-338 | no failure exactly when every constraint accepts |
| `Distributions.EnclosesStep` | src/weights.ts:307 | q's ancestors are its parent's ancestors and q itself |
| `Distributions.FilteredRange` | src/weights.ts:314-321 | filtering a range of lists changes those lists only |
| `Distributions.FilteredRangeSplit` | src/weights.ts:320 | filtering two adjacent ranges is filtering their union |
| `Distributions.HeldUpdate` | src/weights.ts:311-318 | changing one list changes the held total of a range by its change |
| `Distributions.HeldSplit` | src/weights.ts:304-321 | the held total splits over adjacent ranges |
| `Distributions.UnenrolledSplit` | src/weights.ts:328-331 | the unenrolled total splits over adjacent ranges |
| `Distributions.HeldEmpty` | src/weights.ts:295-297 | fresh lists hold nothing |
| `Distributions.CountInUpdate` | src/weights.ts:311-318 | changing one list changes a report's count over a range by its change |
| `Distributions.FlattenCount` | src/weights.ts:343-345 | `values()` holds a report as often as the lists do |
| `Distributions.CountFilterKept` | src/weights.ts:316 | filtering never adds occurrences, and keeps all of a report that passes |
| `BasicWeights.DistributeBasic` | src/weights.ts:52-154 | every report yields at most its allocated credits in units, exactly them unless the trim removed a placeholder row; the output is the weight-1 units, then 0.1, then 0; every unit not of weight 1 has a course |
| `BasicWeights.Distributor.constructor` | src/weights.ts:53-57 | the remaining credits start at what `allocate` gives each quota, and new placeholder ids lie above every report id |
| `BasicWeights.Distributor.DistributeEach` | src/weights.ts:61 | `forEach(distribute1)` over sibling subtrees that cover an id range: afterwards every listed quota with `n` counts at least `n`, because a later sibling never touches an earlier one's subtree, and no list outside the range has changed |
| `BasicWeights.Distributor.Distribute1` | src/weights.ts:60-133 | afterwards count(quota) ≥ n whenever the quota has an `n`, and no list outside the quota's subtree has changed |
| `BasicWeights.Distributor.DistributeChildren` | src/weights.ts:61 | the sub-quotas' `distribute1` calls change no list outside the quota's subtree |
| `BasicWeights.Distributor.FillQuota` | src/weights.ts:63-131 | the quota's own phases leave count(quota) ≥ n whenever `n` is set, and change only the quota's subtree |
| `BasicWeights.Distributor.MinSubPhase` | src/weights.ts:63-102 | the `minSub` phase and the trim change only the quota's subtree |
| `BasicWeights.Distributor.CountSubQuotas` | src/weights.ts:63-96 | every counted sub-quota is one of the quota's sub-quotas or `undefined`; beyond `minSub` all of them are quotas of the tree; only the quota's subtree changes |
| `BasicWeights.Distributor.FillMinSub` | src/weights.ts:66-82 | the new lists and counted sub-quotas are `MinSubRun` of the old lists over the `under(quota)` snapshot; the new entries are sub-quotas of the quota or `undefined`, each once and none past `minSub`; only the quota's subtree changes |
| `BasicWeights.Distributor.MinSubLoop` | src/weights.ts:67-82 | the loop over a snapshot, with its early exit once `minSub` sub-quotas count, computes `MinSubRun` |
| `BasicWeights.Distributor.MinSubTurn` | src/weights.ts:68-81 | one turn is `MinSubTake`; when the unit is taken its credit is consumed and its reason is the `minSub` reason, otherwise credits and reasons stay |
| `BasicWeights.MinSubTake` | src/weights.ts:68-81 | one visit of the `minSub` loop keeps the number of lists |
| `BasicWeights.MinSubRun` | src/weights.ts:67-82 | the `minSub` loop keeps the number of lists; what it does is stated by `MinSubGrows`, `MinSubCounts` and `MinSubLists` |
| `BasicWeights.MinSubGrows` | src/weights.ts:67-82 | the `minSub` loop only appends, and only inside the quota's subtree when the snapshot lies there |
| `BasicWeights.MinSubCounts` | src/weights.ts:67-82 | the `minSub` loop takes exactly one unit for each sub-quota it newly counts |
| `BasicWeights.MinSubLists` | src/weights.ts:69-79 | the `minSub` loop counts only sub-quotas of the quota or `undefined`, each at most once and none past `minSub` |
| `BasicWeights.Distributor.FillPlaceholders` | src/weights.ts:85-96 | point-0 placeholders are added until `minSub` sub-quotas count or all of them do; only uncounted sub-quotas of the quota are appended; only the quota's subtree changes |
| `BasicWeights.Distributor.PlaceholderTurn` | src/weights.ts:86-95 | an uncounted sub-quota gets one fresh point-0 placeholder and is counted; a counted one changes nothing |
| `BasicWeights.Distributor.Trim` | src/weights.ts:99-102 | beyond `minSub`, the sub-quotas with the most placeholders lose their unenrolled rows; nothing else changes |
| `BasicWeights.Distributor.TrimAll` | src/weights.ts:101 | each dropped sub-quota's subtree is filtered |
| `BasicWeights.Distributor.FillCapacity` | src/weights.ts:104-131 | the new lists are `Capacity` of the old lists over the `under(quota)` snapshot, plus `n − held` placeholders when still short; count(quota) = max(old count, n); only the quota's subtree changes |
| `BasicWeights.Distributor.CapacityLoop` | src/weights.ts:106-119 | the loop over a snapshot, with its early exit once count(quota) ≥ n, computes `Capacity` |
| `BasicWeights.Distributor.CapacityTurn` | src/weights.ts:109-118 | one turn is `Take` at weight 1; when the unit is taken its credit is consumed and its reason is the capacity reason, otherwise credits and reasons stay |
| `BasicWeights.Capacity` | src/weights.ts:106-119 | the capacity loop keeps the number of lists; what it does is stated by `CapacityGrows`, `CapacityBounds` and `CapacityFills` |
| `BasicWeights.CapacityGrows` | src/weights.ts:106-119 | the capacity loop only appends, and only inside the quota's subtree when the snapshot lies there |
| `BasicWeights.CapacityBounds` | src/weights.ts:107 | a quota already holding `n` is left alone; one holding fewer never passes `n`; the held count never drops |
| `BasicWeights.CapacityFills` | src/weights.ts:106-119 | without constraints the quota ends holding min(held + snapshot length, n) |
| `BasicWeights.CapacityAfter` | src/weights.ts:106-121 | after the capacity loop the quota holds what it held if that was at least `n`, else between that and `n`, and nothing outside its subtree changed |
| `BasicWeights.Distributor.PadCapacity` | src/weights.ts:121-131 | exactly `lack` fresh placeholders are appended to the quota's own list, numbered from the next id, and its count grows by `lack` |
| `BasicWeights.Distributor.PadTurn` | src/weights.ts:123-129 | one turn appends the next placeholder |
| `BasicWeights.Placeholders` | src/weights.ts:123-124 | `k` placeholders numbered from `id`, none with a course |
| `BasicWeights.Take` | src/weights.ts:109-111 | offering a unit keeps the number of lists; `TakeGrows` states what it does |
| `BasicWeights.TakeGrows` | src/weights.ts:109-111 | offering a unit only appends, and a range's held total grows by one exactly when the unit's quota lies in it and `check` finds nothing |
| `BasicWeights.Distributor.FillTenths` | src/weights.ts:136-147 | `point1`'s new lists are `Tenths` of the old ones over the `all()` snapshot; weight-1 reasons and ids stay |
| `BasicWeights.Distributor.TenthLoop` | src/weights.ts:137-147 | the loop over a snapshot computes `Tenths` |
| `BasicWeights.Distributor.TenthTurn` | src/weights.ts:138-146 | one turn is `Take` at 0.1; the unit's reasons are what the weight-1 slot has against it followed by the 0.1 reason when taken, or by the 0.1 failures; its credit is consumed only when taken |
| `BasicWeights.Tenths` | src/weights.ts:137-147 | the 0.1 loop keeps the number of lists; `TenthsTakes` states what it does |
| `BasicWeights.TenthsTakes` | src/weights.ts:137-147 | the 0.1 loop only appends, at most one unit per snapshot unit, and without constraints it takes every one |
| `BasicWeights.Distributor.TakeOne` | src/weights.ts:73-78 | taking a unit at weight 1 adds it to the quota and its ancestors and consumes its credit |
| `BasicWeights.Distributor.TakeTenth` | src/weights.ts:141-143 | taking a unit at 0.1 records it and consumes its credit |
| `BasicWeights.Distributor.AddPlaceholder` | src/weights.ts:88-93 | a fresh point-0 unenrolled-somewhat row is added at weight 1 |
| `BasicWeights.Distributor.ResultCounts` | src/weights.ts:149-153 | the result holds each report at most as often as its starting credits, exactly as often unless it is an unenrolled row the trim may drop |
| `BasicWeights.Distributor.ResultShape` | src/weights.ts:149-153 | the result lists weight 1, then 0.1, then 0 |
| `BasicWeights.CountedAmong` | src/weights.ts:63 | the sub-quotas counted at the start are those with `n` set or a positive count |
| `BasicWeights.TrimmedOnlyUnenrolled` | src/weights.ts:99-102 | the trim only removes unenrolled rows, and only inside dropped subtrees |
| `BasicWeights.TrimmedOutside` | src/weights.ts:99-102 | a node outside every counted sub-quota's subtree keeps its rows through the trim |
| `BasicWeights.DroppedHaveMost` | src/weights.ts:100-101 | the dropped sub-quotas are those after the first `minSub` by ascending placeholder count |
| `BasicWeights.DroppedAmong` | src/weights.ts:101 | every dropped sub-quota is a counted one |
| `BasicWeights.DroppedListed` | src/weights.ts:101 | every dropped sub-quota is one of the counted sub-quotas and a quota of the tree |
| `BasicWeights.SplitOrdered` | src/weights.ts:100-101 | kept sub-quotas have no more placeholders than dropped ones |
| `BasicWeights.Units` | src/weights.ts:149-151 | one unit per row, at the given weight |
| `BasicWeights.UnitsCount` | src/weights.ts:149-151 | a row occurs among the units as often as in the list |
| `BasicWeights.OutputCount` | src/weights.ts:149-153 | the output holds a report as often as the three lists do |
| `BasicWeights.OutputShape` | src/weights.ts:149-153 | weights come in the order 1, 0.1, 0, and units not of weight 1 have a course |
| `BasicWeights.BalanceSum` | src/weights.ts:52-154 | units given out plus credits left never exceed the starting credits, with equality for rows the trim keeps |
| `BasicWeights.StartTotal` | src/weights.ts:211-215 | a report starts with its credit in its owning quota and nothing elsewhere |
| `BasicWeights.FreshId` | src/weights.ts:88 | placeholder ids lie above every report id |
| `BasicWeights.UnderSafe` | src/weights.ts:66 | every unit of the `under` snapshot lies in the quota's subtree and has credit left |
| `BasicWeights.AllSafe` | src/weights.ts:136 | every unit of the `all` snapshot lies in the tree and has credit left |
| `BasicWeights.BalancedTakeOne` | src/weights.ts:73-78 | taking a unit at weight 1 keeps the balance of credits |
| `BasicWeights.BalancedTakeTenth` | src/weights.ts:141-143 | taking a unit at 0.1 keeps the balance |
| `BasicWeights.BalancedPlaceholder` | src/weights.ts:89 | adding a placeholder keeps the balance |
| `BasicWeights.BalancedTrim` | src/weights.ts:101 | the trim keeps the balance |
| `BasicWeights.ExtendsStep` | src/weights.ts:94 | recording one more counted sub-quota keeps the `minSub` invariant |
| `BasicWeights.UnenrolledCounts` | src/weights.ts:100 | each counted sub-quota paired with the number of unenrolled rows in its subtree |
| `EngWeights.DistributeEng` | src/weights.ts:159-177 | the result is the promotion (`EngPromoted`) of a unit list that meets every promise of `distributeBasic` (`BasicUnits`); the report counts are the same as there, and every weight is 1, 0.1 or 0; explanations are as intended, only a lifted unit gaining the engineering reason (the shared-array behaviour as written is `EngPromotedAsWritten`, shown by `SharedArraysMislabel`) |
| `EngWeights.PromoteTenths` | src/weights.ts:165-174 | the promotion loop computes its specification |
| `EngWeights.EngPromotedShape` | src/weights.ts:159-177 | only weight-0.1 units change, each to weight 1 with the engineering reason; the changed ones are a prefix of the visiting order; the first unchanged one scores no more than the average |
| `EngWeights.VisitOrder` | src/weights.ts:161-163 | the visiting order lists positions of weight-0.1 units |
| `EngWeights.VisitOrderDistinct` | src/weights.ts:161-163 | no unit is visited twice |
| `EngWeights.VisitOrderCovers` | src/weights.ts:161-163 | every weight-0.1 unit is visited |
| `EngWeights.VisitOrderDescending` | src/weights.ts:163 | units are visited by descending point |
| `EngWeights.PromoteFromShape` | src/weights.ts:165-174 | from any step on, the visited units up to the stop are lifted and nothing else changes |
| `EngWeights.PromoteFromStops` | src/weights.ts:168 | the loop stops at the first unit whose score is not above the average |
| `EngWeights.Lifted` | src/weights.ts:169-173 | a lifted unit has weight 1 and one more explanation |
| `EngWeights.AtMostAverageExact` | src/weights.ts:168 | the integer test equals comparing the score with the exact engineering average |
| `EngWeights.NotAboveAverage` | src/weights.ts:166-168 | the method computes that test |
| `EngWeights.CreditsPositive` | src/weights.ts:168 | the weighted credits are positive while some unit has a non-zero weight |
| `EngWeights.SameReports` | src/weights.ts:159-177 | lifting never changes how often a report occurs |
| `EngWeights.SharedLift` | src/weights.ts:169-173 | lifting one unit as written: the pushed reason shows in every unit holding the same array |
| `EngWeights.SharedFromWeights` | src/weights.ts:165-174 | the shared arrays change no weight and no decision to stop |
| `EngWeights.SharedFromGrows` | src/weights.ts:170 | the loop as written only appends explanations |
| `EngWeights.SharedFirstStep` | src/weights.ts:165-174 | the loop as written starts by lifting the best weight-0.1 unit |
| `EngWeights.SharedReasonShows` | src/weights.ts:170 | a weight-0 unit sharing the lifted unit's array ends up with the engineering reason |
| `EngWeights.SharedArraysMislabel` | src/weights.ts:165-174 | as written a weight-0 unit gets the engineering reason while keeping weight 0; the corrected loop leaves it untouched |
| `ChoikiWeights.DistributeChoiki` | src/weights.ts:182-203 | the nested push loops compute the specification |
| `ChoikiWeights.PrefixStep` | src/weights.ts:188-197 | the units of the next ranked report extend the output by one unit per credit |
| `ChoikiWeights.TopCount` | src/weights.ts:184 | `Math.round(len * 6 / 10)`: at most len and within one half of six tenths of len |
| `ChoikiWeights.TopCountNearest` | src/weights.ts:184 | every integer within one half of six tenths of len is `TopCount(len)`, so the rounding has no tie to break |
| `ChoikiWeights.UnitAt` | src/weights.ts:189-197 | a unit weighs 1 exactly when its report ranks below the cut-off, 0.1 otherwise |
| `ChoikiWeights.Ranked` | src/weights.ts:183 | the ranking is as long as the input |
| `ChoikiWeights.ChoikiCounts` | src/weights.ts:187-200 | each report yields exactly its credits in units, per occurrence |
| `ChoikiWeights.ChoikiShape` | src/weights.ts:182-203 | weights are 1 or 0.1 with the matching reason, weight-1 units come first, and none has a lower point than a 0.1 unit |
| `ChoikiWeights.ChoikiTop` | src/weights.ts:183-191 | among distinct reports, a unit weighs 1 exactly when its report's rank is below round(6·len/10) |
| `ChoikiWeights.PrefixOrigin` | src/weights.ts:187-200 | every unit comes from a ranked report |
| `ChoikiWeights.PrefixWeights` | src/weights.ts:191 | weight-1 units are those of the first reports |
| `ChoikiWeights.PrefixCounts` | src/weights.ts:188 | each report yields its credits in units |
| `ChoikiWeights.PrefixReasons` | src/weights.ts:191-196 | every unit carries the reason that matches its weight |
| `ChoikiWeights.PrefixPointsOrdered` | src/weights.ts:183-191 | over a best-first ranking no weight-1 unit has a lower point than a weight-0.1 unit |
| `Aggregation.CeilFifth` | src/index.ts:56 | `Math.ceil(a / 5)` on integers |
| `Aggregation.EngPoint` | src/index.ts:56 | `engPoint` lies in [0, 10], is 0 up to 49, 10 from 95, and one more per started five points between |
| `Aggregation.EngPointMonotone` | src/index.ts:56 | `engPoint` never decreases |
| `Aggregation.SumWeightedCredit` | src/index.ts:45-54 | the sum keeps a positive denominator, so it can be divided by |
| `Aggregation.SumWeightedPoint` | src/index.ts:57-67 | the sum keeps a positive denominator |
| `Aggregation.SumWeightedCreditValue` | src/index.ts:45-54 | its value is Σ credit × tenths / 10 over every group of every report |
| `Aggregation.SumWeightedPointValue` | src/index.ts:57-67 | its value is Σ score × credit × tenths / 10, with `engPoint` as the score when `eng` is set |
| `Aggregation.AddCreditsValue` | src/index.ts:47-51 | the inner reduction adds the group sum |
| `Aggregation.AddPointsValue` | src/index.ts:61-65 | the inner reduction adds the weighted points |
| `Aggregation.AddAllCreditsValue` | src/index.ts:46-53 | the outer reduction adds every report's sum |
| `Aggregation.AddAllPointsValue` | src/index.ts:58-66 | the same for points |
| `Aggregation.CreditTermValue` | src/index.ts:48-50 | one group adds credit × tenths / 10 |
| `Aggregation.PointTermValue` | src/index.ts:62-64 | one group adds score × credit × tenths / 10 |
| `Aggregation.NoCreditsNoPoints` | src/index.ts:45-67 | weighted credits are never negative, and no credits means no points |
| `Aggregation.CreditsVanish` | src/index.ts:72 | the credit sum is zero exactly when its tenths are |
| `Aggregation.AverageValue` | src/index.ts:72 | points / credits is the ratio of the two tenths sums |
| `Aggregation.AddBonusesValue` | src/index.ts:73-76 | the bonus loop adds the tenths of the valid entries only |
| `Aggregation.FactorOf` | src/index.ts:72 | the factor, or 1 when absent |
| `Aggregation.Calculated` | src/index.ts:69-79 | no average (0/0) exactly when the weighted credits are zero |
| `Aggregation.Calculate` | src/index.ts:69-79 | the loop computes it |
| `Aggregation.CalculateNaN` | src/index.ts:72 | the average is undefined exactly when the credit tenths are zero |
| `Aggregation.CalculateValue` | src/index.ts:69-79 | the average is points / credits × factor (or 1) plus the tenths of the valid bonuses |
| `Aggregation.EngComparison` | src/weights.ts:168 | comparing a score with the engineering average is an integer cross-multiplication |
| `Tickets.Patterns` | src/index.ts:23 | at least one pattern: the department's, or one empty pattern when it has none |
| `Tickets.BonusesFromRules` | src/index.ts:25 | a bonus entry comes from exactly some rule's `calc` |
| `Tickets.BonusesCount` | src/index.ts:25 | the number of entries is the sum over the rules |
| `Tickets.AcquiredConcat` | src/index.ts:26 | the earned credits split over concatenation |
| `Tickets.AcquiredIgnoresApply` | src/index.ts:26 | the injected 未履修 rows add no earned credits |
| `Tickets.Factor` | src/index.ts:26-27 | a factor exists exactly when the department multiplies, and it is an integer |
| `Tickets.FreshId` | src/index.ts:33 | the ids of injected rows lie above every transcript row |
| `Tickets.ScoredOnly` | src/index.ts:34 | exactly the rows with a point |
| `Tickets.TicketWeights` | src/index.ts:35-36 | a ticket keeps exactly the bundled reports whose grade is not excluded, and all of them when nothing is excluded |
| `Tickets.KeptBundles` | src/index.ts:35-36 | dropping excluded grades keeps exactly the other bundles, all of them when nothing is excluded |
| `Tickets.PatternTicket` | src/index.ts:33-38 | one pattern's ticket: apply, distribute by the kind of average, specified weights, bundle, drop the excluded grades; the distributed units are `distributeChoiki`'s exactly, meet every promise of `distributeBasic` (`BasicUnits`: counts, weight order, course rule), or are the engineering promotion of such a list |
| `Tickets.Averages` | src/index.ts:39 | one `calculate` result per ticket |
| `Tickets.AveragesSnoc` | src/index.ts:39 | one more ticket adds one more average |
| `Tickets.MinusOne` | src/index.ts:30 | the starting bar has value −1 |
| `Tickets.LastAbove` | src/index.ts:29-42 | as written: the last pattern whose average exceeds −1, or none |
| `Tickets.LastAboveStep` | src/index.ts:29-42 | as written, one more average is kept when it exceeds −1 and the earlier choice stands otherwise |
| `Tickets.SelectAsWritten` | src/index.ts:29-42 | the loop as written, with `avg` never updated, returns that last pattern |
| `Tickets.AsWrittenKeepsLower` | src/index.ts:29-42 | two averages above −1 in decreasing order: as written the lower one is kept, the intended choice is the higher |
| `Tickets.Best` | src/index.ts:29-42 | the corrected choice: none with bar −1, or a pattern and its average |
| `Tickets.BestStep` | src/index.ts:39 | the corrected step: a strictly higher average replaces the kept one |
| `Tickets.BestIsHighest` | src/index.ts:29-42 | the kept average exceeds −1, is at least every average, and strictly above every earlier one |
| `Tickets.Consider` | src/index.ts:39 | one corrected step updates both the kept ticket and the bar |
| `Tickets.BuiltShared` | src/index.ts:25-38 | every ticket carries the department's kind of average, the shared bonus entries and factor, and no excluded grade |
| `Tickets.BuiltSnoc` | src/index.ts:32-40 | one more pattern adds one more ticket |
| `Tickets.MakeTicket` | src/index.ts:21-43 | one ticket per pattern, each built as `PatternTicket` specifies (with the same description of the distributed units), and the result is the one with the highest average |
| `CourseRequirements.AllSatisfy` | src/department/course-requirements.ts:28-43 | the index loops of `All.satisfy` compute the mixed-radix listing |
| `CourseRequirements.AllPatterns` | src/department/course-requirements.ts:29-42 | as many patterns as the product of the children's counts |
| `CourseRequirements.ProductFront` | src/department/course-requirements.ts:31 | the product is positive exactly when no child has zero patterns |
| `CourseRequirements.Digits` | src/department/course-requirements.ts:35-39 | the digits of a pattern index, one per child |
| `CourseRequirements.DigitsChoice` | src/department/course-requirements.ts:33-41 | pattern j chooses one pattern of every child, and its digits recompose to j |
| `CourseRequirements.ChoiceDigits` | src/department/course-requirements.ts:33-41 | every choice of one pattern per child has an index that decomposes back to it |
| `CourseRequirements.AllPatternsAreChoices` | src/department/course-requirements.ts:28-43 | every pattern concatenates one pattern of every child |
| `CourseRequirements.AllPatternsHaveChoices` | src/department/course-requirements.ts:28-43 | every choice of one pattern per child is listed, at its mixed-radix index |
| `CourseRequirements.ProductReverse` | src/department/course-requirements.ts:30-31 | reversing the children keeps the count |
| `CourseRequirements.AllCount` | src/department/course-requirements.ts:28-43 | `All.satisfy` has the product of the children's counts, and `All([])` gives [[]] |
| `CourseRequirements.SinglesPattern` | src/department/course-requirements.ts:17-19 | single-value children give one pattern |
| `CourseRequirements.AllOfSingles` | src/department/course-requirements.ts:28-43 | `All` of values gives the one pattern of those values, last child first |
| `CourseRequirements.CombosCount` | src/department/course-requirements.ts:74-79 | `iterateCombination(n, s)` yields C(|s|, n) combinations |
| `CourseRequirements.CombosFromCount` | src/department/course-requirements.ts:76-78 | the loop from i yields C(|s| − i, n) |
| `CourseRequirements.BinomialAbove` | src/department/course-requirements.ts:76 | nothing is yielded when n > |s| |
| `CourseRequirements.CombosShape` | src/department/course-requirements.ts:74-79 | each combination is the picked prefix followed by n elements of s in s's order |
| `CourseRequirements.CombosFromShape` | src/department/course-requirements.ts:76-78 | the same for the loop from i |
| `CourseRequirements.SubsequenceDrop` | src/department/course-requirements.ts:77 | a subsequence of a suffix is a subsequence |
| `CourseRequirements.SubsequenceMembers` | src/department/course-requirements.ts:77 | a subsequence holds only elements of s |
| `CourseRequirements.CombosMap` | src/department/course-requirements.ts:74-79 | combinations commute with mapping the elements |
| `CourseRequirements.CombosFromMap` | src/department/course-requirements.ts:76-78 | the same for the loop from i |
| `CourseRequirements.CombosLex` | src/department/course-requirements.ts:74-79 | combinations of indices come in lexicographic order |
| `CourseRequirements.CombosFromLex` | src/department/course-requirements.ts:76-78 | the same for the loop from i |
| `CourseRequirements.CombosHeads` | src/department/course-requirements.ts:77 | each combination's next element is at least the start of the range |
| `CourseRequirements.CombosFromRange` | src/department/course-requirements.ts:76-78 | on an index range, the loop's turn at i picks element lo + i and goes on at i + 1 |
| `CourseRequirements.CombinationsDistinct` | src/department/course-requirements.ts:74-79 | the combinations of indices are sorted and pairwise distinct |
| `CourseRequirements.SatisfyEach` | src/department/course-requirements.ts:29 | the children's patterns, in order |
| `CourseRequirements.CollectEach` | src/department/course-requirements.ts:46 | the children's collected values, in order |
| `CourseRequirements.PickNOrder` | src/department/course-requirements.ts:53-55 | `PickN.satisfy` is `All(c).satisfy()` over each combination c, concatenated |
| `CourseRequirements.PickNLeaves` | src/department/course-requirements.ts:53-55 | `PickN` of values gives C(|vs|, n) patterns, each a combination reversed |
| `CourseRequirements.PickOneLeaf` | src/department/course-requirements.ts:156-160 | `PickN(1, [a, b, c])` gives [[a], [b], [c]] |
| `CourseRequirements.CombosFromOne` | src/department/course-requirements.ts:76-78 | combinations of one element are the singletons in order |
| `CourseRequirements.AnyPatterns` | src/department/course-requirements.ts:65-67 | `Any.satisfy` holds exactly its children's patterns, and its count is the sum of theirs |
| `CourseRequirements.CollectCovers` | src/department/course-requirements.ts:45-71 | every course of every pattern is among the collected values |
| `CourseRequirements.AnyCovered` | src/department/course-requirements.ts:65-71 | the same for `Any` |
| `CourseRequirements.AllCovered` | src/department/course-requirements.ts:28-47 | the same for `All` |
| `CourseRequirements.PickNCovered` | src/department/course-requirements.ts:53-59 | the same for `PickN` |
| `CourseRequirements.CombinationParts` | src/department/course-requirements.ts:54 | a combination holds only children |
| `CourseRequirements.EachWithin` | src/department/course-requirements.ts:45-47 | each child's patterns use only collected values |
| `CourseRequirements.FlattenWithin` | src/department/course-requirements.ts:54 | concatenated pattern lists stay within the values |
| `CourseRequirements.AllPatternsWithin` | src/department/course-requirements.ts:37 | the mixed-radix patterns stay within the values |
| `CourseRequirements.PartCollected` | src/department/course-requirements.ts:46 | a child's collected value is collected by the parent |
| `CourseRequirements.ChosenMembers` | src/department/course-requirements.ts:37 | every course of a chosen pattern comes from one child's pattern |
| `CourseRequirements.PatternPart` | src/department/course-requirements.ts:28-43 | every course of an `All` pattern comes from some child pattern |
| `CourseRequirements.Yet` | src/department/course-requirements.ts:88 | the required courses whose code no row has, in requirement order |
| `CourseRequirements.InjectedRow` | src/department/course-requirements.ts:89 | an added row has the course, point 0, grade 未履修 and no `type` tag |
| `CourseRequirements.ApplyRows` | src/department/course-requirements.ts:87-90 | `apply` keeps every input row first and appends one row per missing course, in requirement order |
| `CourseRequirements.ApplyAdded` | src/department/course-requirements.ts:87-90 | every added row is a point-0 未履修 row of a required course missing from the input |
| `CourseRequirements.ApplyCovers` | src/department/course-requirements.ts:87-90 | afterwards every required course has a row |
| `CourseRequirements.ApplyIdempotent` | src/department/course-requirements.ts:87-90 | applying again adds nothing |
| `SpecificWeights.Apply` | src/department/specific-weights.ts:20-36 | the loops over rules and targets compute the rules applied in order |
| `SpecificWeights.ApplyOne` | src/department/specific-weights.ts:22-34 | one rule's pass computes its specification |
| `SpecificWeights.ChangeTargets` | src/department/specific-weights.ts:28-34 | the inner loop changes the first `Limit` targets |
| `SpecificWeights.ReportsOf` | src/department/specific-weights.ts:20 | the reports of the units, in order |
| `SpecificWeights.Targets` | src/department/specific-weights.ts:22-26 | only units with a course in the scope, earned when `shutokuOnly` |
| `SpecificWeights.TargetsDistinct` | src/department/specific-weights.ts:22-26 | no unit is targeted twice |
| `SpecificWeights.TargetsCover` | src/department/specific-weights.ts:22-25 | every qualifying unit is a target |
| `SpecificWeights.TargetsRanked` | src/department/specific-weights.ts:26 | targets come in descending point, ascending code rank |
| `SpecificWeights.Limit` | src/department/specific-weights.ts:30 | at most `n` changes, all targets when `n` is absent |
| `SpecificWeights.Overridden` | src/department/specific-weights.ts:31-32 | overriding keeps the number of units |
| `SpecificWeights.OverriddenStep` | src/department/specific-weights.ts:31-33 | one more target overrides one more unit |
| `SpecificWeights.ApplyRule` | src/department/specific-weights.ts:22-34 | one rule keeps the number of units |
| `SpecificWeights.ApplyRules` | src/department/specific-weights.ts:21-35 | the rules keep the number of units |
| `SpecificWeights.ApplyRuleUnits` | src/department/specific-weights.ts:28-34 | the selected units get the rule's weight and exactly one explanation; the others are untouched |
| `SpecificWeights.ApplyRuleChanges` | src/department/specific-weights.ts:28-34 | a unit changes exactly when it is selected |
| `SpecificWeights.SelectedTargets` | src/department/specific-weights.ts:22-34 | the selected units are distinct targets, `Limit` of them, and all targets when `n` is absent |
| `SpecificWeights.SelectedBest` | src/department/specific-weights.ts:26-30 | no unselected target ranks above a selected one |
| `SpecificWeights.ApplyRulesReports` | src/department/specific-weights.ts:21-35 | the reports of the units never change |
| `SpecificWeights.ApplyRulesUntouched` | src/department/specific-weights.ts:21-35 | a unit no rule selects is untouched |
| `SpecificWeights.ApplyRulesLast` | src/department/specific-weights.ts:21-35 | a unit gets the weight of the last rule that selects it |
| `SpecificWeights.RequiredCourseAllOneWeighs` | src/department/specific-weights.ts:39-41 | every unit of a required course ends with weight 1 |
| `AdditionalPoints.Calc` | src/department/additional-point.ts:20-27 | one entry per earned in-scope report, in order, with the rule's point; `valid` exactly for the first `max` entries, or all when `max` is absent |
| `AdditionalPoints.CalcCodes` | src/department/additional-point.ts:22-25 | the codes are exactly those of earned reports in scope, in report order |
| `AdditionalPoints.CalcValidCount` | src/department/additional-point.ts:26 | the number of valid entries is min(max, count), 0 when `max` ≤ 0, and count when `max` is absent |
| `AvgCrediting.Collect` | src/avg-crediting.ts:12-18 | nothing unless every rule holds; only failed rows in some rule's scope; all of them when every rule holds |
| `AvgCrediting.AverageAtLeastMeans` | src/avg-crediting.ts:15-21 | the cross-multiplied test means a non-empty block whose credit-weighted average reaches the threshold |
| `AvgCrediting.CreditSum` | src/avg-crediting.ts:21 | the credit sum is at least the number of rows |
| `AvgCrediting.EnglishRules` | src/avg-crediting.ts:31-58 | for English the pair rule uses FC114 in groups 1 and 3 and FC113 otherwise |
| `AvgCrediting.ShoshuRules` | src/avg-crediting.ts:67-73 | a beginner language's rules use its FC2 sub-code |
| `AvgCrediting.AddEach` | src/avg-crediting.ts:45 | `forEach(r => res.add(r))` adds exactly the collected rows |
| `AvgCrediting.CollectCreditedAvg` | src/avg-crediting.ts:25-87 | the union of the three blocks' results, all failed rows of the transcript |
| `AvgCrediting.CollectedNotTaken` | src/avg-crediting.ts:17-23 | every collected row is a failed row of the transcript |
| `AvgCrediting.CreditOfCourse` | src/avg-crediting.ts:98-100 | 1 exactly for codes in the one-credit scope |
| `AvgCrediting.CreditOfCourseDefined` | src/avg-crediting.ts:89-100 | defined exactly for FC codes, and 2 for the FC codes outside the one-credit scope |

## Left out

- The catalog contents (src/course-code.ts:94-671) and `getTitle`. The catalog is a parameter `Table`, with a short excerpt for the worked lookups.
- Per-program configuration: src/quota/shuryo.ts, src/quota/sentaku.ts, src/department/index.ts and the rule tables of the department files. `getDepartmentInfo` becomes the parameter `DepartmentInfo` of `Tickets.MakeTicket`. Scopes, filters and constraint `verify` functions are abstract predicates.
- src/type-utils.ts holds only types; its language and group names are small datatypes here.
- `Reports.Report`: a point (src/report.ts:8, a JavaScript `number`) is a whole number in the model, so `Reports.PointToGrade` (src/report.ts:32-40), `Aggregation.EngPoint` (src/index.ts:56) and the ordering (src/report.ts:25-30) are stated for whole points only. Fractional points are not modelled: neither the grade of a point such as 89.5, nor the engineering point of 49.5, nor the throw of `Rational.int` (src/rational.ts:20-23) that a fractional point causes at src/index.ts:59 in a basic or 超域 average, which makes `makeTicket` throw.
- Floating point. `Rational.toNumber` is left out. The comparison `calculate(ticket).toNumber() > avg` becomes the exact `Rational.Exceeds`. The float comparison of `distributeEng` (src/weights.ts:168) becomes an exact integer cross-multiplication. JavaScript number overflow is not modelled: integers are unbounded.
- A NaN average (0/0) is `None` in `Aggregation.Calculated`. NaN never exceeds −1, so such a pattern is never chosen.
- `Tickets.MakeTicket` returns the corrected choice. It also returns every candidate ticket and, as a ghost value, the units of each, so that its contract can describe them. `getDepartmentInfo` is a parameter, and the `phase` and `karui` arguments that only select it are dropped.
- The comment on `factor` (src/index.ts:18) mentions a cap of 90 credits. The code applies no cap, and neither does the model.
- `Tickets.PatternTicket` describes the units of `distributeBasic` and `distributeEng` by the proved contracts of those methods, not by a function computing them. For `distributeBasic` these are the report counts, the weight order 1, 0.1, 0 and the course rule (`BasicUnits`). For `distributeEng` they are the engineering promotion (`EngPromoted`) of such a list. Which rows get weight 1 rather than 0.1 in `distributeBasic` is not fixed beyond that. The ticket is tied to the units it was built from.
- Explanations are kept as values with their text. The texts built from quota names follow the source, but `describe*` (src/department/course-requirements.ts:96-116) is left out. `describeAny` would loop forever on identical titles. The misspelled `descriotion` field of injected rows carries no meaning and is dropped.
- `distributeChoiki` rounds a float with `Math.round`. `ChoikiWeights.TopCount` is the exact integer rounding; six tenths of a whole number never end in one half.
- In `distributeBasic`, `expls1.get(r)!` and `expls01.get(r) ?? []` read JavaScript maps. A missing entry gives `[]` in the model.
- The unenrolled-somewhat placeholders carry a `scope` predicate in the source. The model stores the quota id instead, since the scope is only ever the quota's own.
- The trim of `distributeBasic` (src/weights.ts:101) removes unenrolled-specific rows even after their credits were consumed. Those credits then vanish from the output.
  - `BasicWeights.DistributeBasic`: for such rows the count is stated as "at most the allocated credits"; for all other rows it is exact.
  - `EngWeights.DistributeEng`: the result is `EngPromoted` of a unit list that meets every promise of `distributeBasic` (`BasicUnits`), so the same "at most" holds for such rows.
- `BasicWeights.Distributor.Distribute1`, `DistributeChildren`, `DistributeEach`, `FillQuota`, `MinSubPhase` and `CountSubQuotas` do not give the new lists as a function of the old state. They state the count bound, the frame (what lies outside the subtree or range is unchanged) and the balance of credits. The steps inside them are stated exactly: `FillMinSub`, `FillCapacity` and `FillTenths` as the run functions `MinSubRun`, `Capacity` and `Tenths`, and `PadCapacity` as `Placeholders`.
- The comment at src/quota/definition.ts:8 asks that the filters of sibling sub-quotas be mutually exclusive. The model does not assume this. `find` takes the first sub-quota whose filter matches, and that is proved for every input (`QuotaTrees.FirstMatch`, `AllocationProperties.FirstMatchIsFirst`).
- `SpecificWeights.Apply` works on units as values. The source pushes onto `expls` arrays that several units of one report share. That aliasing is modelled for `distributeEng` (see Findings) but not here.
- `CourseRequirements` uses one datatype for `Value`, `All`, `PickN` and `Any`. The source's limits on which class may hold which are not enforced. The lemmas hold for any nesting.
- `Reports.ReportKinds`: the TypeScript type guards are stated as predicates on the variant of the row.
- `Judge.VerdictSound` states one direction: what a "yes" implies. The exact answer is `Judge.JudgeSatisfaction`'s contract with `Verdict`.
- `AvgCrediting.CollectCreditedAvg`: the exception branches `throw new Error('壊れてるよ！')` (src/avg-crediting.ts:54,61) cannot happen, because the sub-codes are fixed. The branches are kept and proved unreachable.
- Quota identity: quotas are nodes of an index-based tree in preorder. `allocate` is modelled on a general graph so that the early `return` can be shown. The weight engine requires a valid tree.

## Findings

| source | as written | input that shows it | evidently intended | confidence | as-written member | corrected member |
|---|---|---|---|---|---|---|
| src/index.ts:29-42 | `avg` starts at −1 and is never updated, so every pattern whose average exceeds −1 replaces `res`; the last such pattern is returned | two patterns with averages 80 and 70, in that order: the pattern with 70 is returned | return the pattern with the highest average | high (not executed) | `Tickets.AsWrittenKeepsLower` | `Tickets.BestIsHighest` |
| src/weights.ts:142-151,165-173 | every unit of weight 0.1 or 0 of one report holds the same array `expls01.get(r)`, so `u.expls.push` in `distributeEng` shows in all of them | a report with one credit at weight 0.1 and one at weight 0 whose 0.1 unit is lifted: its weight-0 unit also receives the reason "重率1に含める" | only the lifted unit gets the explanation | high (not executed) | `EngWeights.SharedArraysMislabel` | `EngWeights.EngPromotedShape` |

=== FILE: additional_point.dfy ===
/**
 * Bonus points (src/department/additional-point.ts): a rule grants a fixed
 * bonus for each earned course in its scope, valid for at most `max` of them.
 */
module AdditionalPoints {
  import opened Wrappers
  import opened Seqs
  import opened CourseCodes
  import opened Reports

  /** 履修点: 0.1, 0.5, 1 or 2. */
  datatype BonusPoint = PointTenth | PointHalf | PointOne | PointTwo
  {
    /** The bonus in tenths of a point. */
    function Tenths(): nat
    {
      match this case PointTenth => 1 case PointHalf => 5 case PointOne => 10 case PointTwo => 20
    }
  }

  /** A bonus rule; `max` is absent when every matching course earns the bonus. */
  datatype AdditionalPointRule = AdditionalPointRule(scope: Scope, max: Option<int>, point: BonusPoint)

  /** One bonus entry: the course, its bonus, and whether it falls within `max`. */
  datatype AdditionalPoint = AdditionalPoint(code: CourseCode, point: BonusPoint, valid: bool)

  /** The course was earned: its grade is none of 不可, 欠席, 不合格, 未履修. */
  predicate Earned(r: SpecificReport)
  {
    r.GradeOf() !in {Fuka, Kesseki, Fugokaku, Mirishu}
  }

  /** The report earns the bonus of `rule`. */
  predicate Counts(rule: AdditionalPointRule, r: SpecificReport)
  {
    Earned(r) && rule.scope.Match(r.course.code)
  }

  /** The course code of a report. */
  function CodeOf(x: SpecificReport): CourseCode
  {
    x.course.code
  }

  /** The test `rule.scope.match` on course codes. */
  function InScope(rule: AdditionalPointRule): CourseCode -> bool
  {
    (c: CourseCode) => rule.scope.Match(c)
  }

  /** The test `Counts(rule, ·)` on reports. */
  function CountsFor(rule: AdditionalPointRule): SpecificReport -> bool
  {
    (x: SpecificReport) => Counts(rule, x)
  }

  /** The codes `calc` walks: those of the earned reports in scope, in report order. */
  lemma CalcCodes(reports: seq<SpecificReport>, rule: AdditionalPointRule)
    ensures Filter(Map(Filter(reports, Earned), CodeOf), InScope(rule)) == Map(Filter(reports, CountsFor(rule)), CodeOf)
  {
    var earned := Filter(reports, Earned);
    FilterMap(earned, CodeOf, InScope(rule), (x: SpecificReport) => rule.scope.Match(x.course.code));
    FilterFilter(reports, Earned, (x: SpecificReport) => rule.scope.Match(x.course.code), CountsFor(rule));
  }

  /**
   * `calc`: one entry per earned report in scope, in report order, each
   * carrying the rule's bonus; the first `max` entries are valid.
   */
  function Calc(reports: seq<SpecificReport>, rule: AdditionalPointRule): (r: seq<AdditionalPoint>)
    ensures var counted := Filter(reports, CountsFor(rule));
      |r| == |counted|
      && forall i :: 0 <= i < |r| ==> r[i].code == counted[i].course.code && r[i].point == rule.point
    ensures forall i :: 0 <= i < |r| ==> (r[i].valid <==> rule.max.None? || i + 1 <= rule.max.value)
  {
    var codes := Filter(Map(Filter(reports, Earned), CodeOf), InScope(rule));
    CalcCodes(reports, rule);
    seq(|codes|, i requires 0 <= i < |codes| =>
      AdditionalPoint(codes[i], rule.point, rule.max.None? || i + 1 <= rule.max.value))
  }

  /** Exactly min(entries, max) entries are valid, or all of them without a `max`. */
  lemma CalcValidCount(reports: seq<SpecificReport>, rule: AdditionalPointRule)
    ensures var r := Calc(reports, rule);
      |Filter(r, (e: AdditionalPoint) => e.valid)|
        == if rule.max.None? then |r| else if rule.max.value <= 0 then 0
           else if rule.max.value < |r| then rule.max.value else |r|
  {
    var r := Calc(reports, rule);
    var k := if rule.max.None? || rule.max.value >= |r| then |r| else if rule.max.value <= 0 then 0 else rule.max.value;
    FilterPrefix(r, (e: AdditionalPoint) => e.valid, k);
  }
}

=== FILE: aggregation.dfy ===
/**
 * The arithmetic of src/index.ts: the engineering score scale `engPoint`,
 * the exact sums of weighted credits and weighted points over the bundled
 * reports, and `calculate`, which turns them into an average with the
 * optional credit factor and the bonus points.
 *
 * Weights enter every sum as whole tenths (`Math.round(weight * 10)`), so
 * each sum is an integer number of tenths: `Tenths10Credit` and
 * `Tenths10Point` give those integers, and the lemmas below show that the
 * rational sums are exactly them divided by ten.
 */
module Aggregation {
  import opened Wrappers
  import opened Rationals
  import opened Reports
  import opened Weights
  import opened AdditionalPoints

  /** `Math.ceil(a / 5)` on an integer. */
  function CeilFifth(a: int): (r: int)
    ensures 5 * r - 5 < a <= 5 * r
  {
    (a + 4) / 5
  }

  /**
   * `engPoint`: 0 up to 49, then one more for every started five points,
   * and 10 from 95 on.
   */
  function EngPoint(point: int): (r: int)
    ensures 0 <= r <= 10
    ensures point <= 49 ==> r == 0
    ensures point >= 95 ==> r == 10
    ensures 49 < point < 95 ==> 5 * r - 5 < point - 49 <= 5 * r
  {
    var c := CeilFifth(point - 49);
    var lower := if c < 0 then 0 else c;
    if lower < 10 then lower else 10
  }

  /** A higher point never gives a lower engineering score. */
  lemma EngPointMonotone(p: int, q: int)
    requires p <= q
    ensures EngPoint(p) <= EngPoint(q)
  {
    var cp, cq := CeilFifth(p - 49), CeilFifth(q - 49);
    assert 5 * cp - 5 < 5 * cq;
  }

  /** The weight in tenths, as a function value. */
  function WeightTenths(w: Weight): int
  {
    w.Tenths()
  }

  /** The weight in tenths, whatever the report. */
  function CreditTenths(r: ScoredReport, w: Weight): int
  {
    w.Tenths()
  }

  /** The score a report counts with: its point, or `engPoint` of it for the engineering average. */
  function Score(r: ScoredReport, eng: bool): int
  {
    if eng then EngPoint(r.PointOf()) else r.PointOf()
  }

  /** The score times the weight in tenths. */
  function PointTenths(eng: bool): (ScoredReport, Weight) -> int
  {
    (r: ScoredReport, w: Weight) => Score(r, eng) * w.Tenths()
  }

  /** The weighted credits in tenths: the sum of credit times weight-tenths. */
  function Tenths10Credit(ws: seq<Weighted>): int
  {
    WeightedSum(ws, CreditTenths)
  }

  /** The weighted points in tenths: the sum of score times credit times weight-tenths. */
  function Tenths10Point(ws: seq<Weighted>, eng: bool): int
  {
    WeightedSum(ws, PointTenths(eng))
  }

  /** `Rational.int(credit).mul(Rational.deci.mul(Rational.int(Math.round(weight * 10))))`. */
  function CreditTerm(g: Group): (r: Rational)
    ensures r.den > 0
  {
    FromInt(g.credit).Mul(Deci().Mul(FromInt(g.value.Tenths())))
  }

  /** `sr.mul(cr).mul(wr)` for the score `s`. */
  function PointTerm(s: int, g: Group): (r: Rational)
    ensures r.den > 0
  {
    FromInt(s).Mul(FromInt(g.credit)).Mul(Deci().Mul(FromInt(g.value.Tenths())))
  }

  /** The inner `reduce` of `sumWeightedCredit`: adds the terms of the groups to `p`, left to right. */
  function AddCredits(p: Rational, gs: seq<Group>): (r: Rational)
    requires p.den > 0
    ensures r.den > 0
    decreases |gs|
  {
    if gs == [] then p else AddCredits(p.Add(CreditTerm(gs[0])), gs[1..])
  }

  /** The outer `reduce` of `sumWeightedCredit`. */
  function AddAllCredits(p: Rational, ws: seq<Weighted>): (r: Rational)
    requires p.den > 0
    ensures r.den > 0
    decreases |ws|
  {
    if ws == [] then p else AddAllCredits(AddCredits(p, ws[0].weights), ws[1..])
  }

  /** `sumWeightedCredit`. */
  function SumWeightedCredit(ws: seq<Weighted>): (r: Rational)
    ensures r.den > 0
  {
    AddAllCredits(FromInt(0), ws)
  }

  /** The inner `reduce` of `sumWeightedPoint` for a report with score `s`. */
  function AddPoints(p: Rational, s: int, gs: seq<Group>): (r: Rational)
    requires p.den > 0
    ensures r.den > 0
    decreases |gs|
  {
    if gs == [] then p else AddPoints(p.Add(PointTerm(s, gs[0])), s, gs[1..])
  }

  /** The outer `reduce` of `sumWeightedPoint`. */
  function AddAllPoints(p: Rational, ws: seq<Weighted>, eng: bool): (r: Rational)
    requires p.den > 0
    ensures r.den > 0
    decreases |ws|
  {
    if ws == [] then p
    else AddAllPoints(AddPoints(p, Score(ws[0].report, eng), ws[0].weights), ws[1..], eng)
  }

  /** `sumWeightedPoint(weights, eng)`. */
  function SumWeightedPoint(ws: seq<Weighted>, eng: bool): (r: Rational)
    ensures r.den > 0
  {
    AddAllPoints(FromInt(0), ws, eng)
  }

  /** A credit times a tenth-weight, over reals standing for the operands' values. */
  lemma CreditArithmetic(x: real, y: real, c: int, t: int)
    requires x == c as real && y == (t as real) / 10.0
    ensures x * y == ((c * t) as real) / 10.0
  {
    assert (c * t) as real == (c as real) * (t as real);
  }

  /** `Rational.deci.mul(Rational.int(t))` is t tenths. */
  lemma WeightTermValue(t: int)
    ensures Deci().Mul(FromInt(t)).Value() == (t as real) / 10.0
  {
  }

  /** The credit term for credit `c` and weight `t` tenths. */
  lemma CreditTermOf(c: int, t: int)
    ensures FromInt(c).Mul(Deci().Mul(FromInt(t))).Value() == ((c * t) as real) / 10.0
  {
    var x, y := c as real, (t as real) / 10.0;
    WeightTermValue(t);
    MulValues(FromInt(c), Deci().Mul(FromInt(t)), x, y);
    CreditArithmetic(x, y, c, t);
  }

  /** The point term for score `s`, credit `c` and weight `t` tenths. */
  lemma PointTermOf(s: int, c: int, t: int)
    ensures FromInt(s).Mul(FromInt(c)).Mul(Deci().Mul(FromInt(t))).Value() == ((c * (s * t)) as real) / 10.0
  {
    MulInts(s, c);
    CreditTermOf(s * c, t);
    ProductOrder(s, c, t);
  }

  lemma ProductOrder(s: int, c: int, t: int)
    ensures (s * c) * t == c * (s * t)
  {
  }

  lemma CreditTermValue(g: Group)
    ensures CreditTerm(g).Value() == ((g.credit * g.value.Tenths()) as real) / 10.0
  {
    CreditTermOf(g.credit, g.value.Tenths());
  }

  lemma PointTermValue(s: int, g: Group)
    ensures PointTerm(s, g).Value() == ((g.credit * (s * g.value.Tenths())) as real) / 10.0
  {
    PointTermOf(s, g.credit, g.value.Tenths());
  }

  lemma {:induction false} AddCreditsValue(p: Rational, gs: seq<Group>)
    requires p.den > 0
    ensures AddCredits(p, gs).Value() == p.Value() + (GroupSum(gs, WeightTenths) as real) / 10.0
    decreases |gs|
  {
    if gs != [] {
      CreditTermValue(gs[0]);
      AddCreditsValue(p.Add(CreditTerm(gs[0])), gs[1..]);
    }
  }

  lemma {:induction false} AddPointsValue(p: Rational, r: ScoredReport, eng: bool, gs: seq<Group>)
    requires p.den > 0
    ensures AddPoints(p, Score(r, eng), gs).Value()
         == p.Value() + (GroupSum(gs, At(PointTenths(eng), r)) as real) / 10.0
    decreases |gs|
  {
    if gs != [] {
      PointTermValue(Score(r, eng), gs[0]);
      AddPointsValue(p.Add(PointTerm(Score(r, eng), gs[0])), r, eng, gs[1..]);
    }
  }

  /** `At(CreditTenths, r)` weighs a group like `WeightTenths`. */
  lemma CreditTenthsAt(gs: seq<Group>, r: ScoredReport)
    ensures GroupSum(gs, At(CreditTenths, r)) == GroupSum(gs, WeightTenths)
  {
    GroupSumExt(gs, At(CreditTenths, r), WeightTenths);
  }

  lemma {:induction false} AddAllCreditsValue(p: Rational, ws: seq<Weighted>)
    requires p.den > 0
    ensures AddAllCredits(p, ws).Value() == p.Value() + (Tenths10Credit(ws) as real) / 10.0
    decreases |ws|
  {
    if ws != [] {
      AddCreditsValue(p, ws[0].weights);
      CreditTenthsAt(ws[0].weights, ws[0].report);
      AddAllCreditsValue(AddCredits(p, ws[0].weights), ws[1..]);
    }
  }

  lemma {:induction false} AddAllPointsValue(p: Rational, ws: seq<Weighted>, eng: bool)
    requires p.den > 0
    ensures AddAllPoints(p, ws, eng).Value() == p.Value() + (Tenths10Point(ws, eng) as real) / 10.0
    decreases |ws|
  {
    if ws != [] {
      AddPointsValue(p, ws[0].report, eng, ws[0].weights);
      AddAllPointsValue(AddPoints(p, Score(ws[0].report, eng), ws[0].weights), ws[1..], eng);
    }
  }

  /** `sumWeightedCredit` is the sum of credit times weight, exactly. */
  lemma SumWeightedCreditValue(ws: seq<Weighted>)
    ensures SumWeightedCredit(ws).Value() == (Tenths10Credit(ws) as real) / 10.0
  {
    AddAllCreditsValue(FromInt(0), ws);
  }

  /** `sumWeightedPoint` is the sum of score times credit times weight, exactly. */
  lemma SumWeightedPointValue(ws: seq<Weighted>, eng: bool)
    ensures SumWeightedPoint(ws, eng).Value() == (Tenths10Point(ws, eng) as real) / 10.0
  {
    AddAllPointsValue(FromInt(0), ws, eng);
  }

  /** No group weighs less than nothing. */
  lemma {:induction false} GroupSumsNonNegative(gs: seq<Group>, r: ScoredReport, eng: bool)
    ensures GroupSum(gs, WeightTenths) >= 0
    ensures GroupSum(gs, WeightTenths) == 0 ==> GroupSum(gs, At(PointTenths(eng), r)) == 0
    decreases |gs|
  {
    if gs != [] {
      GroupSumsNonNegative(gs[1..], r, eng);
      var c, t := gs[0].credit, gs[0].value.Tenths();
      assert c * t >= 0;
      if c * t == 0 {
        assert c * (Score(r, eng) * t) == 0 by {
          if c != 0 { assert t == 0; }
        }
      }
    }
  }

  /**
   * Without weighted credits there are no weighted points: then
   * `points.div(credits)` is 0/0, which the source evaluates to NaN.
   */
  lemma {:induction false} NoCreditsNoPoints(ws: seq<Weighted>, eng: bool)
    ensures Tenths10Credit(ws) >= 0
    ensures Tenths10Credit(ws) == 0 ==> Tenths10Point(ws, eng) == 0
    decreases |ws|
  {
    if ws != [] {
      NoCreditsNoPoints(ws[1..], eng);
      GroupSumsNonNegative(ws[0].weights, ws[0].report, eng);
      CreditTenthsAt(ws[0].weights, ws[0].report);
    }
  }

  /** The three averages of a program (`AverageType`): 基本, 工学 and 超域. */
  datatype AverageType = Basic | Eng | Choiki

  /** What `calculate` needs (`CalculationTicket`). */
  datatype CalculationTicket = CalculationTicket(
    avgType: AverageType,
    weights: seq<Weighted>,
    additionalPoint: seq<AdditionalPoint>,
    factor: Option<Rational>)

  /** `Rational.deci.mul(Rational.int(Math.round(p * 10)))` for a bonus point. */
  function BonusTerm(p: BonusPoint): (r: Rational)
    ensures r.den > 0
  {
    Deci().Mul(FromInt(p.Tenths()))
  }

  /** The bonus loop of `calculate`: adds the bonus of every valid entry, in order. */
  function AddBonuses(avg: Rational, entries: seq<AdditionalPoint>): (r: Rational)
    requires avg.den != 0
    ensures r.den != 0
    decreases |entries|
  {
    if entries == [] then avg
    else AddBonuses(if entries[0].valid then avg.Add(BonusTerm(entries[0].point)) else avg, entries[1..])
  }

  /** The bonus tenths of the valid entries. */
  function ValidBonusTenths(entries: seq<AdditionalPoint>): int
  {
    if entries == [] then 0
    else (if entries[0].valid then entries[0].point.Tenths() else 0) + ValidBonusTenths(entries[1..])
  }

  lemma {:induction false} AddBonusesValue(avg: Rational, entries: seq<AdditionalPoint>)
    requires avg.den != 0
    ensures AddBonuses(avg, entries).Value() == avg.Value() + (ValidBonusTenths(entries) as real) / 10.0
    decreases |entries|
  {
    if entries != [] {
      var e := entries[0];
      var next := if e.valid then avg.Add(BonusTerm(e.point)) else avg;
      assert BonusTerm(e.point).Value() == (e.point.Tenths() as real) / 10.0;
      AddBonusesValue(next, entries[1..]);
    }
  }

  /** `ticket.factor ?? Rational.int(1)`. */
  function FactorOf(factor: Option<Rational>): (r: Rational)
    requires factor.Some? ==> factor.value.den != 0
    ensures r.den != 0
    ensures factor.Some? ==> r == factor.value
    ensures factor.None? ==> r.Value() == 1.0
  {
    if factor.Some? then factor.value else FromInt(1)
  }

  /** `points.div(credits)`, for weighted credits that are not zero. */
  function Average(ws: seq<Weighted>, eng: bool): (r: Rational)
    requires SumWeightedCredit(ws).num != 0
    ensures r.den != 0
  {
    SumWeightedPoint(ws, eng).Div(SumWeightedCredit(ws))
  }

  /**
   * What `calculate(ticket)` returns. When the weighted credits are zero
   * the source divides 0 by 0 and gets NaN; that outcome is `None` here.
   */
  function Calculated(ticket: CalculationTicket): (r: Option<Rational>)
    requires ticket.factor.Some? ==> ticket.factor.value.den != 0
    ensures r.None? <==> SumWeightedCredit(ticket.weights).num == 0
    ensures r.Some? ==> r.value.den != 0
  {
    if SumWeightedCredit(ticket.weights).num == 0 then None
    else
      var avg := Average(ticket.weights, ticket.avgType == Eng).Mul(FactorOf(ticket.factor));
      Some(AddBonuses(avg, ticket.additionalPoint))
  }

  /**
   * `calculate(ticket)`: the average times the factor, then one addition
   * per valid bonus entry.
   */
  method Calculate(ticket: CalculationTicket) returns (r: Option<Rational>)
    requires ticket.factor.Some? ==> ticket.factor.value.den != 0
    ensures r == Calculated(ticket)
  {
    var credits := SumWeightedCredit(ticket.weights);
    if credits.num == 0 {
      return None;
    }
    var avg := Average(ticket.weights, ticket.avgType == Eng).Mul(FactorOf(ticket.factor));
    ghost var start := avg;
    var k := 0;
    while k < |ticket.additionalPoint|
      invariant 0 <= k <= |ticket.additionalPoint| && avg.den != 0
      invariant AddBonuses(avg, ticket.additionalPoint[k..]) == AddBonuses(start, ticket.additionalPoint)
    {
      var e := ticket.additionalPoint[k];
      assert ticket.additionalPoint[k..][0] == e;
      assert ticket.additionalPoint[k..][1..] == ticket.additionalPoint[k + 1..];
      if e.valid {
        avg := avg.Add(BonusTerm(e.point));
      }
      k := k + 1;
    }
    r := Some(avg);
  }

  /** The weighted credits are zero exactly when their sum in tenths is. */
  lemma CreditsVanish(ws: seq<Weighted>)
    ensures SumWeightedCredit(ws).num == 0 <==> Tenths10Credit(ws) == 0
  {
    SumWeightedCreditValue(ws);
    var credits := SumWeightedCredit(ws);
    assert credits.Value() == (credits.num as real) / (credits.den as real);
  }

  /** `points.div(credits)` is the ratio of the two sums in tenths. */
  lemma AverageValue(ws: seq<Weighted>, eng: bool)
    requires Tenths10Credit(ws) != 0
    ensures SumWeightedCredit(ws).num != 0
    ensures Average(ws, eng).Value() == (Tenths10Point(ws, eng) as real) / (Tenths10Credit(ws) as real)
  {
    CreditsVanish(ws);
    SumWeightedCreditValue(ws);
    SumWeightedPointValue(ws, eng);
    var x, y := SumWeightedPoint(ws, eng).Value(), SumWeightedCredit(ws).Value();
    DivValues(SumWeightedPoint(ws, eng), SumWeightedCredit(ws), x, y);
    TenthsRatio(x, y, Tenths10Point(ws, eng), Tenths10Credit(ws));
  }

  /** `calculate` is NaN exactly when no credit carries weight. */
  lemma CalculateNaN(ticket: CalculationTicket)
    requires ticket.factor.Some? ==> ticket.factor.value.den != 0
    ensures Calculated(ticket).None? <==> Tenths10Credit(ticket.weights) == 0
  {
    CreditsVanish(ticket.weights);
  }

  /**
   * Otherwise `calculate` is the weighted average of the scores
   * (engineering scores for the engineering average), times the factor,
   * plus the bonuses of the valid entries.
   */
  lemma CalculateValue(ticket: CalculationTicket)
    requires ticket.factor.Some? ==> ticket.factor.value.den != 0
    requires Tenths10Credit(ticket.weights) != 0
    ensures Calculated(ticket).Some?
    ensures Calculated(ticket).value.Value()
         == (Tenths10Point(ticket.weights, ticket.avgType == Eng) as real) / (Tenths10Credit(ticket.weights) as real)
            * FactorOf(ticket.factor).Value()
            + (ValidBonusTenths(ticket.additionalPoint) as real) / 10.0
  {
    AverageValue(ticket.weights, ticket.avgType == Eng);
    MulValues(Average(ticket.weights, ticket.avgType == Eng), FactorOf(ticket.factor),
              (Tenths10Point(ticket.weights, ticket.avgType == Eng) as real) / (Tenths10Credit(ticket.weights) as real),
              FactorOf(ticket.factor).Value());
    BonusedValue(Average(ticket.weights, ticket.avgType == Eng).Mul(FactorOf(ticket.factor)), ticket.additionalPoint,
                 (Tenths10Point(ticket.weights, ticket.avgType == Eng) as real) / (Tenths10Credit(ticket.weights) as real)
                 * FactorOf(ticket.factor).Value());
  }

  lemma BonusedValue(avg: Rational, entries: seq<AdditionalPoint>, v: real)
    requires avg.den != 0 && avg.Value() == v
    ensures AddBonuses(avg, entries).Value() == v + (ValidBonusTenths(entries) as real) / 10.0
  {
    AddBonusesValue(avg, entries);
  }

  /** (p/10) / (c/10) is p/c, over reals standing for the two sums. */
  lemma TenthsRatio(x: real, y: real, p: int, c: int)
    requires c != 0 && x == (p as real) / 10.0 && y == (c as real) / 10.0
    ensures x / y == (p as real) / (c as real)
  {
  }

  /**
   * The comparison of `distributeEng`: a score is at most the exact
   * engineering average iff it is at most that average in tenths, cross-multiplied.
   */
  lemma EngComparison(ws: seq<Weighted>, score: int)
    requires Tenths10Credit(ws) > 0
    ensures SumWeightedCredit(ws).num != 0
    ensures (score as real) <= Average(ws, true).Value()
        <==> score * Tenths10Credit(ws) <= Tenths10Point(ws, true)
  {
    var c, p := Tenths10Credit(ws), Tenths10Point(ws, true);
    AverageValue(ws, true);
    CrossMultiplied(score, p, c);
  }

  lemma CrossMultiplied(s: int, p: int, c: int)
    requires c > 0
    ensures (s as real) <= (p as real) / (c as real) <==> s * c <= p
  {
    var q := (p as real) / (c as real);
    assert q * (c as real) == p as real;
    assert (s * c) as real == (s as real) * (c as real);
    if (s as real) <= q {
      assert (s as real) * (c as real) <= q * (c as real);
    } else {
      assert (s as real) * (c as real) > q * (c as real);
    }
  }
}

=== FILE: allocation.dfy ===
/**
 * `allocate` (src/quota/utils.ts): every report goes to the deepest quota
 * whose filter accepts it, taking the first accepting quota among siblings.
 * The source builds a `Map` from quotas to arrays; each array is filled by
 * `exclude` from the array of the parent, and is itself the array the
 * children splice their reports out of, so what a quota keeps is what none
 * of its children took.
 */
module Allocation {
  import opened Wrappers
  import opened Seqs
  import opened OrderedMaps
  import opened JsUtils
  import opened CourseCodes
  import opened QuotaTrees

  /** The report is accepted by the filter of quota `q`. */
  function Accepts<T>(t: QuotaTree, codeOf: T -> CourseCode, q: nat): T -> bool
    requires q < |t.nodes|
  {
    r => t.nodes[q].filter(codeOf(r))
  }

  /** While the parent's array is being split, the parent's entry shows what is left in it. */
  function View<T>(m: OrderedMap<nat, seq<T>>, owner: Option<nat>, rest: seq<T>): OrderedMap<nat, seq<T>>
  {
    if owner.Some? then m.Put(owner.value, rest) else m
  }

  /**
   * What `internal(ids, reports)` does to the map `m`: the new map and what
   * is left in `reports`. `owner` is the quota whose array `reports` is, if
   * any. A quota already in the map ends the whole walk of `ids` (the
   * source's `return`).
   */
  function Step<T>(t: QuotaTree, codeOf: T -> CourseCode, ids: seq<nat>, reports: seq<T>,
                   m: OrderedMap<nat, seq<T>>, owner: Option<nat>): (OrderedMap<nat, seq<T>>, seq<T>)
    requires ChildIdsAbove(t)
    requires forall k :: 0 <= k < |ids| ==> ids[k] < |t.nodes|
    decreases |t.nodes| - Lowest(ids, |t.nodes|), |ids| + 1
  {
    if ids == [] || ids[0] in m.entries then (m, reports)
    else
      var turn := Turn(t, codeOf, ids[0], reports, m, owner);
      Step(t, codeOf, ids[1..], turn.1, turn.0, owner)
  }

  /**
   * One turn of the `for` loop of `internal`, for a quota `q` not yet in the
   * map: the reports `q` accepts are spliced out of `reports` into the
   * entry of `q`, the sub-quotas of `q` take theirs from that entry, and
   * the rest stays in `reports`.
   */
  function Turn<T>(t: QuotaTree, codeOf: T -> CourseCode, q: nat, reports: seq<T>,
                   m: OrderedMap<nat, seq<T>>, owner: Option<nat>): (OrderedMap<nat, seq<T>>, seq<T>)
    requires ChildIdsAbove(t) && q < |t.nodes|
    decreases |t.nodes| - q, 0
  {
    var qualified := Filter(reports, Accepts(t, codeOf, q));
    var rest := Filter(reports, Negate(Accepts(t, codeOf, q)));
    var m1 := View(m, owner, rest).Put(q, qualified);
    LowestBelow(t.nodes[q].children, |t.nodes|, q + 1);
    (Step(t, codeOf, t.nodes[q].children, qualified, m1, Some(q)).0, rest)
  }

  /** The smallest of `ids`, or `top` when there is none; it only serves to show the walk ends. */
  function Lowest(ids: seq<nat>, top: nat): (r: nat)
    requires forall k :: 0 <= k < |ids| ==> ids[k] < top
    ensures r <= top && forall k :: 0 <= k < |ids| ==> r <= ids[k]
  {
    if ids == [] then top
    else var r := Lowest(ids[1..], top); if ids[0] < r then ids[0] else r
  }

  lemma LowestBelow(ids: seq<nat>, top: nat, lo: nat)
    requires forall k :: 0 <= k < |ids| ==> lo <= ids[k] < top
    requires lo <= top
    ensures lo <= Lowest(ids, top)
  {
  }

  /**
   * The `allocations` map of one `allocate` call. The source stores in the
   * map the very array that the sub-quotas then splice their reports out
   * of; here the map holds the lists themselves, and the entry of the quota
   * whose array is being spliced is written again after every splice.
   */
  class Allocator<T> {
    const tree: QuotaTree
    const codeOf: T -> CourseCode
    var allocations: OrderedMap<nat, seq<T>>

    ghost predicate Valid()
      reads this
    {
      ChildIdsAbove(tree)
    }

    constructor (tree: QuotaTree, codeOf: T -> CourseCode)
      requires ChildIdsAbove(tree)
      ensures Valid() && this.tree == tree && this.codeOf == codeOf
      ensures allocations == Empty()
    {
      this.tree := tree;
      this.codeOf := codeOf;
      allocations := Empty();
    }

    /**
     * `internal(ids, reports)`: returns what is left in `reports`, which is
     * the array of quota `owner` when there is one.
     */
    method Internal(ids: seq<nat>, reports: seq<T>, owner: Option<nat>) returns (left: seq<T>)
      requires Valid()
      requires forall k :: 0 <= k < |ids| ==> ids[k] < |tree.nodes|
      modifies this
      ensures (allocations, left) == Step(tree, codeOf, ids, reports, old(allocations), owner)
      decreases |tree.nodes| - Lowest(ids, |tree.nodes|), |ids| + 1
    {
      ghost var spec := Step(tree, codeOf, ids, reports, allocations, owner);
      left := reports;
      var k := 0;
      while k < |ids|
        invariant 0 <= k <= |ids|
        invariant Step(tree, codeOf, ids[k..], left, allocations, owner) == spec
      {
        var q := ids[k];
        assert ids[k..][0] == q && ids[k..][1..] == ids[k + 1..];
        if q in allocations.entries {
          return;
        }
        left := Place(q, left, owner);
        k := k + 1;
      }
    }

    /** The body of the `for` loop of `internal` for quota `q`, which is not in the map yet. */
    method Place(q: nat, reports: seq<T>, owner: Option<nat>) returns (left: seq<T>)
      requires Valid() && q < |tree.nodes|
      modifies this
      ensures (allocations, left) == Turn(tree, codeOf, q, reports, old(allocations), owner)
      decreases |tree.nodes| - q, 0
    {
      var arr := new JsArray(reports);
      var excluded := arr.Exclude(Accepts(tree, codeOf, q));
      var qualified := excluded.items;
      left := arr.items;
      if owner.Some? {
        allocations := allocations.Put(owner.value, left);
      }
      allocations := allocations.Put(q, qualified);
      LowestBelow(tree.nodes[q].children, |tree.nodes|, q + 1);
      var _ := Internal(tree.nodes[q].children, qualified, Some(q));
    }
  }

  /** `allocate(quotas, reports)`: works on a copy of `reports` (`Array.from`). */
  method Allocate<T>(t: QuotaTree, codeOf: T -> CourseCode, reports: seq<T>) returns (allocations: OrderedMap<nat, seq<T>>)
    requires ChildIdsAbove(t)
    ensures allocations == Step(t, codeOf, t.roots, reports, Empty(), None).0
  {
    var allocator := new Allocator(t, codeOf);
    var _ := allocator.Internal(t.roots, reports, None);
    allocations := allocator.allocations;
  }
}

=== FILE: allocation_props.dfy ===
/**
 * What `allocate` computes on a tree of quotas: every report goes to the
 * deepest quota that takes it when the first accepting quota is chosen
 * among siblings at every level, and reports no top-level quota accepts go
 * nowhere. On a shape where a quota is reachable twice, the walk stops at
 * the second visit and skips the remaining siblings.
 */
module AllocationProperties {
  import opened Wrappers
  import opened Seqs
  import opened OrderedMaps
  import opened CourseCodes
  import opened QuotaTrees
  import opened Allocation

  /** Where a course accepted by quota `q` ends up: the first accepting child, recursively. */
  function Deepest(t: QuotaTree, q: nat, code: CourseCode): (r: nat)
    requires ChildIdsAbove(t) && q < |t.nodes|
    ensures q <= r < |t.nodes|
    decreases |t.nodes| - q
  {
    match FirstMatch(t, t.nodes[q].children, code)
    case None => q
    case Some(c) =>
      assert exists k :: 0 <= k < |t.nodes[q].children| && t.nodes[q].children[k] == c;
      Deepest(t, c, code)
  }

  /** The quota a course lands in when it is allocated among `ids`, if any accepts it. */
  function OwnerIn(t: QuotaTree, ids: seq<nat>, code: CourseCode): Option<nat>
    requires ChildIdsAbove(t) && forall k :: 0 <= k < |ids| ==> ids[k] < |t.nodes|
  {
    match FirstMatch(t, ids, code)
    case None => None
    case Some(c) => Some(Deepest(t, c, code))
  }

  /** The report lands in quota `x` when allocated among `ids`. */
  function OwnedIn<T>(t: QuotaTree, codeOf: T -> CourseCode, ids: seq<nat>, x: nat): T -> bool
    requires ChildIdsAbove(t) && forall k :: 0 <= k < |ids| ==> ids[k] < |t.nodes|
  {
    r => OwnerIn(t, ids, codeOf(r)) == Some(x)
  }

  /** No quota among `ids` accepts the report. */
  function Unmatched<T>(t: QuotaTree, codeOf: T -> CourseCode, ids: seq<nat>): T -> bool
    requires forall k :: 0 <= k < |ids| ==> ids[k] < |t.nodes|
  {
    r => FirstMatch(t, ids, codeOf(r)).None?
  }

  /** In a tree the deepest quota lies in the subtree of the quota it starts from. */
  lemma {:induction false} DeepestIn(t: QuotaTree, q: nat, code: CourseCode)
    requires Laid(t) && q < |t.nodes|
    ensures q <= Deepest(t, q, code) < t.End(q)
    decreases |t.nodes| - q
  {
    var children := t.nodes[q].children;
    match FirstMatch(t, children, code)
    case None =>
    case Some(c) =>
      ChainFacts(t, children, q + 1, t.End(q));
      var k :| 0 <= k < |children| && children[k] == c;
      DeepestIn(t, c, code);
  }

  /** Allocating among a chain of subtrees lands inside the chain. */
  lemma OwnerInRange(t: QuotaTree, ids: seq<nat>, lo: nat, hi: nat, code: CourseCode)
    requires Laid(t) && Chain(t, ids, lo, hi)
    requires forall k :: 0 <= k < |ids| ==> ids[k] < |t.nodes|
    ensures OwnerIn(t, ids, code).Some? ==> lo <= OwnerIn(t, ids, code).value < hi
  {
    match FirstMatch(t, ids, code)
    case None =>
    case Some(c) =>
      ChainFacts(t, ids, lo, hi);
      var k :| 0 <= k < |ids| && ids[k] == c;
      DeepestIn(t, c, code);
  }

  /** Allocating among one quota: into the deepest accepting sub-quota, else into the quota itself. */
  lemma OwnerInSingle(t: QuotaTree, q: nat, code: CourseCode)
    requires ChildIdsAbove(t) && q < |t.nodes|
    ensures var children := t.nodes[q].children;
      && (forall k :: 0 <= k < |children| ==> children[k] < |t.nodes|)
      && OwnerIn(t, [q], code)
           == (if !t.nodes[q].filter(code) then None
               else if OwnerIn(t, children, code).None? then Some(q)
               else OwnerIn(t, children, code))
      && (OwnerIn(t, children, code).Some? ==> OwnerIn(t, children, code).value > q)
  {
    assert FirstMatch(t, [q], code) == if t.nodes[q].filter(code) then Some(q) else FirstMatch(t, [q][1..], code);
    var children := t.nodes[q].children;
    match FirstMatch(t, children, code)
    case None =>
    case Some(c) =>
      var k :| 0 <= k < |children| && children[k] == c;
  }

  /** Allocating among siblings: the first sibling if it accepts, else the later ones. */
  lemma OwnerInCons(t: QuotaTree, ids: seq<nat>, code: CourseCode)
    requires ChildIdsAbove(t) && ids != [] && forall k :: 0 <= k < |ids| ==> ids[k] < |t.nodes|
    ensures OwnerIn(t, ids, code)
      == if t.nodes[ids[0]].filter(code) then OwnerIn(t, [ids[0]], code) else OwnerIn(t, ids[1..], code)
    ensures FirstMatch(t, ids, code).None?
      == (!t.nodes[ids[0]].filter(code) && FirstMatch(t, ids[1..], code).None?)
  {
    assert FirstMatch(t, [ids[0]], code) == if t.nodes[ids[0]].filter(code) then Some(ids[0]) else FirstMatch(t, [ids[0]][1..], code);
  }

  /** The map holds exactly the quotas below `lo`. */
  ghost predicate Upto<T>(m: OrderedMap<nat, seq<T>>, lo: nat)
  {
    forall x: nat :: x in m.entries <==> x < lo
  }

  /** What the children of `q` take from the reports `q` accepts is what lands below `q`. */
  lemma BelowQuota<T>(t: QuotaTree, codeOf: T -> CourseCode, q: nat, x: nat, reports: seq<T>)
    requires ChildIdsAbove(t) && q < |t.nodes|
    ensures forall k :: 0 <= k < |t.nodes[q].children| ==> t.nodes[q].children[k] < |t.nodes|
    ensures x > q ==> Filter(Filter(reports, Accepts(t, codeOf, q)), OwnedIn(t, codeOf, t.nodes[q].children, x))
                      == Filter(reports, OwnedIn(t, codeOf, [q], x))
    ensures Filter(Filter(reports, Accepts(t, codeOf, q)), Unmatched(t, codeOf, t.nodes[q].children))
            == Filter(reports, OwnedIn(t, codeOf, [q], q))
  {
    var children := t.nodes[q].children;
    forall r
      ensures x > q ==> OwnedIn(t, codeOf, [q], x)(r)
                        == (Accepts(t, codeOf, q)(r) && OwnedIn(t, codeOf, children, x)(r))
      ensures OwnedIn(t, codeOf, [q], q)(r)
              == (Accepts(t, codeOf, q)(r) && Unmatched(t, codeOf, children)(r))
    {
      OwnerInSingle(t, q, codeOf(r));
    }
    if x > q {
      FilterFilter(reports, Accepts(t, codeOf, q), OwnedIn(t, codeOf, children, x), OwnedIn(t, codeOf, [q], x));
    }
    FilterFilter(reports, Accepts(t, codeOf, q), Unmatched(t, codeOf, children), OwnedIn(t, codeOf, [q], q));
  }

  /**
   * Among siblings `ids = [q] + rest` covering `[lo, hi)`, the subtree of `q`
   * gets what `q` alone would give it, the later subtrees get what they give
   * to the reports `q` rejected, and the reports left over are those nobody
   * accepts.
   */
  lemma SiblingSplit<T>(t: QuotaTree, codeOf: T -> CourseCode, ids: seq<nat>, lo: nat, hi: nat, x: nat, reports: seq<T>)
    requires Laid(t) && Chain(t, ids, lo, hi) && ids != []
    requires forall k :: 0 <= k < |ids| ==> ids[k] < |t.nodes|
    ensures forall k :: 0 <= k < |ids| - 1 ==> ids[1..][k] < |t.nodes|
    ensures ids[0] <= x < t.End(ids[0]) ==>
              Filter(reports, OwnedIn(t, codeOf, [ids[0]], x)) == Filter(reports, OwnedIn(t, codeOf, ids, x))
    ensures t.End(ids[0]) <= x ==>
              Filter(Filter(reports, Negate(Accepts(t, codeOf, ids[0]))), OwnedIn(t, codeOf, ids[1..], x))
              == Filter(reports, OwnedIn(t, codeOf, ids, x))
    ensures Filter(Filter(reports, Negate(Accepts(t, codeOf, ids[0]))), Unmatched(t, codeOf, ids[1..]))
            == Filter(reports, Unmatched(t, codeOf, ids))
  {
    var q, rest := ids[0], ids[1..];
    var mid := t.End(q);
    assert Chain(t, rest, mid, hi);
    assert Chain(t, [q], q, mid) by {
      assert [q][1..] == [];
    }
    forall r
      ensures OwnedIn(t, codeOf, ids, x)(r)
              == (if x < mid then OwnedIn(t, codeOf, [q], x)(r)
                  else Negate(Accepts(t, codeOf, q))(r) && OwnedIn(t, codeOf, rest, x)(r))
      ensures Unmatched(t, codeOf, ids)(r)
              == (Negate(Accepts(t, codeOf, q))(r) && Unmatched(t, codeOf, rest)(r))
    {
      var code := codeOf(r);
      OwnerInCons(t, ids, code);
      OwnerInRange(t, rest, mid, hi, code);
      OwnerInRange(t, [q], q, mid, code);
      OwnerInSingle(t, q, code);
    }
    if q <= x < mid {
      FilterExt(reports, OwnedIn(t, codeOf, [q], x), OwnedIn(t, codeOf, ids, x));
    }
    if mid <= x {
      FilterFilter(reports, Negate(Accepts(t, codeOf, q)), OwnedIn(t, codeOf, rest, x), OwnedIn(t, codeOf, ids, x));
    }
    FilterFilter(reports, Negate(Accepts(t, codeOf, q)), Unmatched(t, codeOf, rest), Unmatched(t, codeOf, ids));
  }

  /**
   * The map right after `q`'s reports are spliced out of the owner's array:
   * `q` is added last with what it accepted, the owner's entry shows the
   * rest, and nothing else changes.
   */
  lemma OpenEntry<T>(m: OrderedMap<nat, seq<T>>, owner: Option<nat>, q: nat, qualified: seq<T>, rest: seq<T>)
    requires Upto(m, q)
    requires owner.Some? ==> owner.value < q
    ensures var m1 := View(m, owner, rest).Put(q, qualified);
      && Upto(m1, q + 1)
      && m1.keys == m.keys + Range(q, q + 1)
      && m1.entries[q] == qualified
      && (forall x: nat :: x < q && Some(x) != owner ==> m1.entries[x] == m.entries[x])
      && (owner.Some? ==> m1.entries[owner.value] == rest)
  {
    assert Range(q, q + 1) == [q];
  }

  /**
   * The shape of the map after one quota `q` of a tree: its subtree is
   * added in preorder, the owner's entry holds the reports `q` rejected,
   * and no other entry changes.
   */
  lemma {:induction false} TurnShape<T>(t: QuotaTree, codeOf: T -> CourseCode, q: nat, reports: seq<T>,
                                         m: OrderedMap<nat, seq<T>>, owner: Option<nat>)
    requires Laid(t) && q < |t.nodes|
    requires Upto(m, q)
    requires owner.Some? ==> owner.value < q
    ensures var res := Turn(t, codeOf, q, reports, m, owner);
      && Upto(res.0, t.End(q))
      && res.0.keys == m.keys + Range(q, t.End(q))
      && (forall x: nat :: x < q && Some(x) != owner ==> res.0.entries[x] == m.entries[x])
      && res.1 == Filter(reports, Negate(Accepts(t, codeOf, q)))
      && (owner.Some? ==> res.0.entries[owner.value] == res.1)
    decreases |t.nodes| - q, 0
  {
    var children := t.nodes[q].children;
    var qualified := Filter(reports, Accepts(t, codeOf, q));
    var rest := Filter(reports, Negate(Accepts(t, codeOf, q)));
    var m1 := View(m, owner, rest).Put(q, qualified);
    OpenEntry(m, owner, q, qualified, rest);
    ChainFacts(t, children, q + 1, t.End(q));
    StepShape(t, codeOf, children, q + 1, t.End(q), qualified, m1, Some(q));
    assert Turn(t, codeOf, q, reports, m, owner) == (Step(t, codeOf, children, qualified, m1, Some(q)).0, rest);
    RangeAppend(m.keys, q, q + 1, t.End(q));
  }

  /**
   * The shape of the map after a chain of sibling subtrees covering
   * `[lo, hi)`: the chain is added in preorder, the owner's entry holds what
   * is left, and no other entry changes.
   */
  lemma {:induction false} StepShape<T>(t: QuotaTree, codeOf: T -> CourseCode, ids: seq<nat>, lo: nat, hi: nat,
                                         reports: seq<T>, m: OrderedMap<nat, seq<T>>, owner: Option<nat>)
    requires Laid(t) && Chain(t, ids, lo, hi) && lo <= hi
    requires forall k :: 0 <= k < |ids| ==> ids[k] < |t.nodes|
    requires Upto(m, lo)
    requires owner.Some? ==> owner.value < lo && m.entries[owner.value] == reports
    ensures var res := Step(t, codeOf, ids, reports, m, owner);
      && Upto(res.0, hi)
      && res.0.keys == m.keys + Range(lo, hi)
      && (forall x: nat :: x < lo && Some(x) != owner ==> res.0.entries[x] == m.entries[x])
      && (owner.Some? ==> res.0.entries[owner.value] == res.1)
    decreases |t.nodes| - lo, |ids| + 1
  {
    ChainFacts(t, ids, lo, hi);
    if ids == [] {
      assert Range(lo, hi) == [];
    } else {
      var q := ids[0];
      var mid := t.End(q);
      TurnShape(t, codeOf, q, reports, m, owner);
      var turn := Turn(t, codeOf, q, reports, m, owner);
      var rest := ids[1..];
      assert forall k :: 0 <= k < |rest| ==> rest[k] == ids[k + 1];
      assert Step(t, codeOf, ids, reports, m, owner) == Step(t, codeOf, rest, turn.1, turn.0, owner);
      StepShape(t, codeOf, rest, mid, hi, turn.1, turn.0, owner);
      RangeAppend(m.keys, lo, mid, hi);
    }
  }

  /** Each quota of the subtree of `q` gets the reports that land there. */
  lemma {:induction false} TurnContents<T>(t: QuotaTree, codeOf: T -> CourseCode, q: nat, reports: seq<T>,
                                            m: OrderedMap<nat, seq<T>>, owner: Option<nat>)
    requires Laid(t) && q < |t.nodes|
    requires Upto(m, q)
    requires owner.Some? ==> owner.value < q
    ensures forall x :: q <= x < t.End(q) ==>
      x in Turn(t, codeOf, q, reports, m, owner).0.entries
      && Turn(t, codeOf, q, reports, m, owner).0.entries[x] == Filter(reports, OwnedIn(t, codeOf, [q], x))
    decreases |t.nodes| - q, 0
  {
    var children := t.nodes[q].children;
    var qualified := Filter(reports, Accepts(t, codeOf, q));
    var rest := Filter(reports, Negate(Accepts(t, codeOf, q)));
    var m1 := View(m, owner, rest).Put(q, qualified);
    ChainFacts(t, children, q + 1, t.End(q));
    StepShape(t, codeOf, children, q + 1, t.End(q), qualified, m1, Some(q));
    StepContents(t, codeOf, children, q + 1, t.End(q), qualified, m1, Some(q));
    forall x | q <= x < t.End(q)
      ensures x in Turn(t, codeOf, q, reports, m, owner).0.entries
      ensures Turn(t, codeOf, q, reports, m, owner).0.entries[x] == Filter(reports, OwnedIn(t, codeOf, [q], x))
    {
      BelowQuota(t, codeOf, q, x, reports);
    }
  }

  /**
   * Each quota of a chain of sibling subtrees gets the reports that land
   * there, and what is left is the reports no sibling accepts.
   */
  lemma {:induction false} StepContents<T>(t: QuotaTree, codeOf: T -> CourseCode, ids: seq<nat>, lo: nat, hi: nat,
                                            reports: seq<T>, m: OrderedMap<nat, seq<T>>, owner: Option<nat>)
    requires Laid(t) && Chain(t, ids, lo, hi) && lo <= hi
    requires forall k :: 0 <= k < |ids| ==> ids[k] < |t.nodes|
    requires Upto(m, lo)
    requires owner.Some? ==> owner.value < lo
    ensures var res := Step(t, codeOf, ids, reports, m, owner);
      && (forall x :: lo <= x < hi ==> x in res.0.entries && res.0.entries[x] == Filter(reports, OwnedIn(t, codeOf, ids, x)))
      && res.1 == Filter(reports, Unmatched(t, codeOf, ids))
    decreases |t.nodes| - lo, |ids| + 1
  {
    ChainFacts(t, ids, lo, hi);
    if ids == [] {
      forall r
        ensures Unmatched(t, codeOf, ids)(r)
      {
      }
      FilterAll(reports, Unmatched(t, codeOf, ids));
    } else {
      var q := ids[0];
      var mid := t.End(q);
      TurnShape(t, codeOf, q, reports, m, owner);
      TurnContents(t, codeOf, q, reports, m, owner);
      var turn := Turn(t, codeOf, q, reports, m, owner);
      var rest := ids[1..];
      assert forall k :: 0 <= k < |rest| ==> rest[k] == ids[k + 1];
      assert Step(t, codeOf, ids, reports, m, owner) == Step(t, codeOf, rest, turn.1, turn.0, owner);
      StepShape(t, codeOf, rest, mid, hi, turn.1, turn.0, owner);
      StepContents(t, codeOf, rest, mid, hi, turn.1, turn.0, owner);
      var res := Step(t, codeOf, rest, turn.1, turn.0, owner);
      forall x | lo <= x < hi
        ensures x in res.0.entries && res.0.entries[x] == Filter(reports, OwnedIn(t, codeOf, ids, x))
      {
        SiblingSplit(t, codeOf, ids, lo, hi, x, reports);
        if x < mid {
          assert res.0.entries[x] == turn.0.entries[x];
        }
      }
      SiblingSplit(t, codeOf, ids, lo, hi, lo, reports);
    }
  }

  /**
   * `allocate` on a tree: the map lists every quota, in preorder, and the
   * list of quota `x` holds, in input order, exactly the reports that land
   * in `x` when the first accepting top-level quota is taken and then the
   * first accepting sub-quota at every level.
   */
  lemma AllocateTree<T>(t: QuotaTree, codeOf: T -> CourseCode, reports: seq<T>)
    requires Laid(t) && Chain(t, t.roots, 0, |t.nodes|)
    ensures var m := Step(t, codeOf, t.roots, reports, Empty(), None).0;
      && m.keys == Range(0, |t.nodes|)
      && forall x :: 0 <= x < |t.nodes| ==>
           x in m.entries && m.entries[x] == Filter(reports, OwnedIn(t, codeOf, t.roots, x))
  {
    ChainFacts(t, t.roots, 0, |t.nodes|);
    var m0: OrderedMap<nat, seq<T>> := Empty();
    assert Upto(m0, 0);
    StepShape(t, codeOf, t.roots, 0, |t.nodes|, reports, Empty(), None);
    StepContents(t, codeOf, t.roots, 0, |t.nodes|, reports, Empty(), None);
  }

  /** No report is in two lists, and a report no top-level quota accepts is in none. */
  lemma AllocatedOnce<T>(t: QuotaTree, codeOf: T -> CourseCode, reports: seq<T>, r: T, x: nat, y: nat)
    requires Laid(t) && Chain(t, t.roots, 0, |t.nodes|)
    requires x < |t.nodes| && y < |t.nodes|
    ensures var m := Step(t, codeOf, t.roots, reports, Empty(), None).0;
      && x in m.entries && y in m.entries
      && (r in m.entries[x] && r in m.entries[y] ==> x == y)
      && (FirstMatch(t, t.roots, codeOf(r)).None? ==> r !in m.entries[x])
  {
    AllocateTree(t, codeOf, reports);
    FilterMembers(reports, OwnedIn(t, codeOf, t.roots, x));
    FilterMembers(reports, OwnedIn(t, codeOf, t.roots, y));
    var m := Step(t, codeOf, t.roots, reports, Empty(), None).0;
    if r in m.entries[x] {
      assert OwnedIn(t, codeOf, t.roots, x)(r);
    }
    if r in m.entries[y] {
      assert OwnedIn(t, codeOf, t.roots, y)(r);
    }
  }

  /** A report some top-level quota accepts is in the list of the quota it lands in. */
  lemma AllocatedSomewhere<T>(t: QuotaTree, codeOf: T -> CourseCode, reports: seq<T>, r: T)
    requires Laid(t) && Chain(t, t.roots, 0, |t.nodes|)
    requires r in reports && FirstMatch(t, t.roots, codeOf(r)).Some?
    ensures var x := OwnerIn(t, t.roots, codeOf(r)).value;
      && x < |t.nodes|
      && var m := Step(t, codeOf, t.roots, reports, Empty(), None).0;
         x in m.entries && r in m.entries[x]
  {
    AllocateTree(t, codeOf, reports);
    var x := OwnerIn(t, t.roots, codeOf(r)).value;
    FilterMembers(reports, OwnedIn(t, codeOf, t.roots, x));
    var i :| 0 <= i < |reports| && reports[i] == r;
    assert OwnedIn(t, codeOf, t.roots, x)(reports[i]);
  }

  /**
   * The quota a report lands in accepts it and none of its sub-quotas do,
   * so a quota keeps exactly what it accepts and its children leave.
   */
  lemma {:induction false} DeepestKeeps(t: QuotaTree, q: nat, code: CourseCode)
    requires ChildIdsAbove(t) && q < |t.nodes| && t.nodes[q].filter(code)
    ensures var d := Deepest(t, q, code);
      && t.nodes[d].filter(code)
      && forall k :: 0 <= k < |t.nodes[d].children| ==> !t.nodes[t.nodes[d].children[k]].filter(code)
    decreases |t.nodes| - q
  {
    match FirstMatch(t, t.nodes[q].children, code)
    case None =>
    case Some(c) =>
      var k :| 0 <= k < |t.nodes[q].children| && t.nodes[q].children[k] == c;
      DeepestKeeps(t, c, code);
  }

  /** Among siblings the first accepting one is taken: none before it accepts. */
  lemma {:induction false} FirstMatchIsFirst(t: QuotaTree, ids: seq<nat>, code: CourseCode)
    requires forall k :: 0 <= k < |ids| ==> ids[k] < |t.nodes|
    ensures FirstMatch(t, ids, code).Some? ==>
      exists k :: 0 <= k < |ids| && ids[k] == FirstMatch(t, ids, code).value
                  && forall j :: 0 <= j < k ==> !t.nodes[ids[j]].filter(code)
  {
    if ids != [] && !t.nodes[ids[0]].filter(code) {
      FirstMatchIsFirst(t, ids[1..], code);
      if FirstMatch(t, ids[1..], code).Some? {
        var k :| 0 <= k < |ids[1..]| && ids[1..][k] == FirstMatch(t, ids[1..], code).value
                 && forall j :: 0 <= j < k ==> !t.nodes[ids[1..][j]].filter(code);
        assert ids[k + 1] == FirstMatch(t, ids, code).value;
        forall j | 0 <= j < k + 1
          ensures !t.nodes[ids[j]].filter(code)
        {
          if j > 0 {
            assert ids[j] == ids[1..][j - 1];
          }
        }
      }
    } else if ids != [] {
      assert ids[0] == FirstMatch(t, ids, code).value;
    }
  }

  /** Quota 0 with sub-quota 1, and quota 1 listed again at the top level before quota 2. */
  function SharedQuotaTree(): (t: QuotaTree)
    ensures ChildIdsAbove(t)
  {
    QuotaTree([QuotaNode("a", c => true, None, [1], 0, [], None, 2),
               QuotaNode("b", c => true, None, [], 0, [], Some(0), 2),
               QuotaNode("c", c => true, None, [], 0, [], None, 3)],
              [0, 1, 2])
  }

  /**
   * Meeting a quota that is already in the map ends the walk of its
   * siblings: after quota 1 is met again, quota 2 is never allocated.
   */
  lemma SharedQuotaSkipsSiblings<T>(codeOf: T -> CourseCode, reports: seq<T>)
    ensures var m := Step(SharedQuotaTree(), codeOf, [0, 1, 2], reports, Empty(), None).0;
      m.keys == [0, 1] && 2 !in m.entries
  {
    var t := SharedQuotaTree();
    var turn0 := Turn(t, codeOf, 0, reports, Empty(), None);
    assert turn0.0.keys == [0, 1] by {
      var m1 := View(Empty(), None, Filter(reports, Negate(Accepts(t, codeOf, 0)))).Put(0, Filter(reports, Accepts(t, codeOf, 0)));
      assert m1.keys == [0];
      var q1 := Filter(reports, Accepts(t, codeOf, 0));
      var turn1 := Turn(t, codeOf, 1, q1, m1, Some(0));
      assert Step(t, codeOf, [1], q1, m1, Some(0)) == Step(t, codeOf, [1][1..], turn1.1, turn1.0, Some(0));
      assert [1][1..] == [];
    }
    assert [0, 1, 2][1..] == [1, 2];
    assert Step(t, codeOf, [0, 1, 2], reports, Empty(), None) == Step(t, codeOf, [1, 2], turn0.1, turn0.0, None);
  }
}

=== FILE: avg_crediting.dfy ===
/**
 * Average crediting (src/avg-crediting.ts): a failed required language or
 * physical-education course is credited when its block was otherwise
 * completed with a high enough average.
 */
module AvgCrediting {
  import opened Wrappers
  import opened Seqs
  import opened CourseCodes
  import opened Courses
  import opened Reports

  /** A block must hold exactly `n` reports in `scope`, averaging at least `threshold`. */
  datatype Rule = Rule(scope: Scope, n: int, threshold: int)

  /** Σ point·credit. */
  function WeightedPointSum(rs: seq<SpecificScoredReport>): int
  {
    if rs == [] then 0 else rs[0].PointOf() * rs[0].course.credit + WeightedPointSum(rs[1..])
  }

  /** Σ credit; every course has at least one credit. */
  function CreditSum(rs: seq<SpecificScoredReport>): (r: int)
    ensures r >= |rs|
  {
    if rs == [] then 0 else rs[0].course.credit + CreditSum(rs[1..])
  }

  /**
   * `averagePointOf(rs) >= threshold`, decided by cross-multiplication. For
   * no reports the average is 0/0, which compares false.
   */
  predicate AverageAtLeast(rs: seq<SpecificScoredReport>, threshold: int)
  {
    CreditSum(rs) > 0 && WeightedPointSum(rs) >= threshold * CreditSum(rs)
  }

  /** The cross-multiplied test is the comparison of the credit-weighted average. */
  lemma AverageAtLeastMeans(rs: seq<SpecificScoredReport>, threshold: int)
    ensures AverageAtLeast(rs, threshold) <==>
      |rs| > 0 && (WeightedPointSum(rs) as real) / (CreditSum(rs) as real) >= threshold as real
  {
    if |rs| > 0 {
      CrossMultiply(WeightedPointSum(rs), CreditSum(rs), threshold);
    }
  }

  lemma CrossMultiply(w: int, c: int, t: int)
    requires c > 0
    ensures w >= t * c <==> (w as real) / (c as real) >= t as real
  {
    var avg := (w as real) / (c as real);
    assert avg * (c as real) == w as real;
    RealScale(avg, t as real, c as real);
    assert (t * c) as real == (t as real) * (c as real);
  }

  lemma RealScale(x: real, t: real, c: real)
    requires c > 0.0
    ensures x >= t <==> x * c >= t * c
  {
    if x >= t {
      assert x * c - t * c == (x - t) * c;
    } else {
      assert t * c - x * c == (t - x) * c;
    }
  }

  predicate InScope(rule: Rule, r: SpecificScoredReport)
  {
    rule.scope.Match(r.course.code)
  }

  /** The reports in the rule's scope number exactly `n` and average at least `threshold`. */
  predicate RulePasses(rule: Rule, reports: seq<SpecificScoredReport>)
  {
    var target := Filter(reports, r => InScope(rule, r));
    |target| == rule.n && AverageAtLeast(target, rule.threshold)
  }

  /** `isNotTaken`: graded 不可, 欠席 or 未履修. */
  predicate NotTaken(r: SpecificScoredReport)
  {
    r.GradeOf() in {Fuka, Kesseki, Mirishu}
  }

  predicate InSomeScope(rules: seq<Rule>, r: SpecificScoredReport)
  {
    exists j :: 0 <= j < |rules| && InScope(rules[j], r)
  }

  /**
   * `collect`: when every rule passes, the not-taken reports in some rule's
   * scope, in report order; otherwise nothing.
   */
  function Collect(rules: seq<Rule>, reports: seq<SpecificScoredReport>): (res: seq<SpecificScoredReport>)
    ensures (exists i :: 0 <= i < |rules| && !RulePasses(rules[i], reports)) ==> res == []
    ensures forall i :: 0 <= i < |res| ==> res[i] in reports && NotTaken(res[i]) && InSomeScope(rules, res[i])
    ensures (forall i :: 0 <= i < |rules| ==> RulePasses(rules[i], reports)) ==>
      forall k :: 0 <= k < |reports| && NotTaken(reports[k]) && InSomeScope(rules, reports[k]) ==> reports[k] in res
  {
    var flag := forall i :: 0 <= i < |rules| ==> RulePasses(rules[i], reports);
    if flag then
      var open := Filter(reports, NotTaken);
      FilterMembers(reports, NotTaken);
      FilterMembers(open, r => InSomeScope(rules, r));
      Filter(open, r => InSomeScope(rules, r))
    else []
  }

  /** The English first-language pair rule counts FC114 for groups 1 and 3 and FC113 otherwise. */
  function EnglishPair(group: int): string
  {
    "FC11" + (if group == 1 || group == 3 then "4" else "3")
  }

  /** The rules for the first foreign language. */
  function FirstLanguageRules(lang: Lang, group: int): seq<Rule>
  {
    var subcode := SubCodeKishu(lang);
    if lang == En then [
      Rule(Scope([subcode], []), 4, 50),
      Rule(Scope([subcode + "2", EnglishPair(group)], []), 2, 50)
    ]
    else if lang == Ja then [
      Rule(Scope([subcode], []), 3, 50),
      Rule(Scope([subcode + "2"], []), 1, 50)
    ]
    else [
      Rule(Scope([subcode + "1", subcode + "3"], []), 2, 40),
      Rule(Scope([subcode + "2"], []), 1, 40),
      Rule(Scope([subcode], []), 3, 50)
    ]
  }

  /** The rules for the second foreign language, by its language alone. */
  function SecondLanguageRules(lang: Lang, group: int): seq<Rule>
  {
    if lang == En then
      var subcode := SubCodeKishu(lang);
      [
        Rule(Scope([subcode + "2", EnglishPair(group)], []), 2, 50),
        Rule(Scope([subcode], []), 3, 50)
      ]
    else if lang == Ja then
      var subcode := SubCodeKishu(lang);
      [
        Rule(Scope([subcode + "1", subcode + "3", subcode + "4"], []), 2, 40),
        Rule(Scope([subcode + "2"], []), 1, 40),
        Rule(Scope([subcode], []), 3, 50)
      ]
    else
      var subcode := SubCodeShoshu(lang);
      [
        Rule(Scope([subcode + "1", subcode + "3"], []), 2, 40),
        Rule(Scope([subcode + "2"], []), 1, 40),
        Rule(Scope([subcode], []), 3, 50)
      ]
  }

  /**
   * With English as first language the whole FC11 block needs four reports,
   * and the pair rule counts FC112 with FC114 for groups 1 and 3 and with
   * FC113 otherwise; as second language English drops the four-report rule.
   */
  lemma EnglishRules(group: int)
    ensures var pair := if group == 1 || group == 3 then "FC114" else "FC113";
      && FirstLanguageRules(En, group)
           == [Rule(Scope(["FC11"], []), 4, 50), Rule(Scope(["FC112", pair], []), 2, 50)]
      && SecondLanguageRules(En, group)
           == [Rule(Scope(["FC112", pair], []), 2, 50), Rule(Scope(["FC11"], []), 3, 50)]
  {
    assert SubCodeKishu(En) == "FC11";
    assert "FC11" + "2" == "FC112";
    assert EnglishPair(group) == if group == 1 || group == 3 then "FC114" else "FC113";
  }

  /** A second language begun at university uses its FC2 block. */
  lemma ShoshuRules(lang: ShoshuLang, group: int)
    ensures var sub := SubCodeShoshu(lang);
      SecondLanguageRules(lang, group)
        == [Rule(Scope([sub + "1", sub + "3"], []), 2, 40), Rule(Scope([sub + "2"], []), 1, 40), Rule(Scope([sub], []), 3, 50)]
  {
  }

  /** The physical-education rule: two FC4 reports averaging at least 50. */
  const PhysicalEducationRules: seq<Rule> := [Rule(Scope(["FC4"], []), 2, 50)]

  /** The elements of a sequence as a set. */
  function Elements<T>(s: seq<T>): set<T>
  {
    set i | 0 <= i < |s| :: s[i]
  }

  /** `forEach(r => res.add(r))`. */
  method AddEach(acc: set<SpecificScoredReport>, xs: seq<SpecificScoredReport>) returns (res: set<SpecificScoredReport>)
    ensures res == acc + Elements(xs)
  {
    res := acc;
    var i := 0;
    while i < |xs|
      invariant 0 <= i <= |xs|
      invariant res == acc + Elements(xs[..i])
    {
      assert Elements(xs[..i + 1]) == Elements(xs[..i]) + {xs[i]} by {
        assert forall k :: 0 <= k < i ==> xs[..i + 1][k] == xs[..i][k];
      }
      res := res + {xs[i]};
      i := i + 1;
    }
    assert xs[..i] == xs;
  }

  /**
   * `collectCreditedAvg`: the union of what the first-language,
   * second-language and physical-education blocks credit.
   */
  method CollectCreditedAvg(reports: seq<SpecificScoredReport>, option: LanguageOption, group: int)
    returns (res: set<SpecificScoredReport>)
    ensures res == Elements(Collect(FirstLanguageRules(option.first, group), reports))
                 + Elements(Collect(SecondLanguageRules(option.second.Lang(), group), reports))
                 + Elements(Collect(PhysicalEducationRules, reports))
    ensures forall r :: r in res ==> r in reports && NotTaken(r)
  {
    res := {};
    var first := Collect(FirstLanguageRules(option.first, group), reports);
    res := AddEach(res, first);
    var lang := option.second.Lang();
    if lang == En {
      if SubCodeKishu(lang) != "FC11" {
        assert false;
      }
    } else if lang == Ja {
      if SubCodeKishu(lang) != "FC19" {
        assert false;
      }
    }
    var second := Collect(SecondLanguageRules(lang, group), reports);
    res := AddEach(res, second);
    var pe := Collect(PhysicalEducationRules, reports);
    res := AddEach(res, pe);
    CollectedNotTaken(first, reports);
    CollectedNotTaken(second, reports);
    CollectedNotTaken(pe, reports);
  }

  /** Whatever a rule set collects is a report of the input that was not taken. */
  lemma CollectedNotTaken(collected: seq<SpecificScoredReport>, reports: seq<SpecificScoredReport>)
    requires forall i :: 0 <= i < |collected| ==> collected[i] in reports && NotTaken(collected[i])
    ensures forall r :: r in Elements(collected) ==> r in reports && NotTaken(r)
  {
  }

  /** The `one` scope: the one-credit FC courses. */
  const OneCredit: Scope := Scope([
    "FC111", "FC112", "FC113",
    "FC193", "FC194",
    "FC4",
    "FC81", "FC82", "FC83", "FC84", "FC85", "FC86",
    "FC873", "FC875", "FC877", "FC878", "FC879", "FC87a",
    "FC891"
  ], [])

  const Fc: Scope := Scope(["FC"], [])

  /** `creditOfCourse`: 1 for the one-credit block, 2 for other FC courses, undefined otherwise. */
  function CreditOfCourse(code: CourseCode): (r: Option<Credit>)
    ensures r == Some(1) <==> OneCredit.Match(code)
  {
    if OneCredit.Match(code) then Some(1) else if Fc.Match(code) then Some(2) else None
  }

  /** A credit is known exactly for the FC courses. */
  lemma CreditOfCourseDefined(code: CourseCode)
    ensures CreditOfCourse(code).Some? <==> "FC" <= code
    ensures CreditOfCourse(code) == Some(2) <==> "FC" <= code && !OneCredit.Match(code)
  {
    if OneCredit.Match(code) {
      var i :| 0 <= i < |OneCredit.included| && OneCredit.included[i] <= code;
      assert "FC" <= OneCredit.included[i];
      PrefixTrans("FC", OneCredit.included[i], code);
    }
    assert Fc.Match(code) <==> Fc.included[0] <= code;
  }
}

=== FILE: course.dfy ===
/**
 * Courses (src/course.ts): credit, term and the runtime validators that
 * decide whether an untyped value is a course.
 */
module Courses {
  import opened Wrappers
  import opened CourseCodes

  /** Every course is worth one or two credits. */
  type Credit = c: int | c == 1 || c == 2 witness 1

  datatype Term = S | S1 | S2 | A | A1 | A2 | W

  /** `termList`, in calendar order. */
  const TermList: seq<Term> := [S, S1, S2, A, A1, A2, W]

  /** `termToInt`: the position of the term in the academic year. */
  function TermToInt(t: Term): (r: nat)
    ensures r <= 4
  {
    match t
    case S => 0 case S1 => 0 case S2 => 1 case A => 2 case A1 => 2 case A2 => 3 case W => 4
  }

  /** `termToInt` never decreases along `termList`. */
  lemma TermToIntMonotone(i: nat, j: nat)
    requires i <= j < |TermList|
    ensures TermToInt(TermList[i]) <= TermToInt(TermList[j])
  {
  }

  /**
   * A course. `year` and `term` are absent on the course of an unenrolled
   * report, whose type omits them.
   */
  datatype Course = Course(code: CourseCode, year: Option<int>, term: Option<Term>, credit: Credit)

  /** An untyped value as the validators see it. */
  datatype JsValue =
    | JNum(n: real)
    | JStr(s: string)
    | JBool(b: bool)
    | JNull
    | JUndefined
    | JObj(fields: map<string, JsValue>)

  function TermName(t: Term): string
  {
    match t
    case S => "S" case S1 => "S1" case S2 => "S2" case A => "A"
    case A1 => "A1" case A2 => "A2" case W => "W"
  }

  /** `isCredit`: membership in `creditList`, so exactly the numbers 1 and 2. */
  predicate IsCredit(v: JsValue)
  {
    v in [JNum(1.0), JNum(2.0)]
  }

  /** `isTerm`: membership in `termList`. */
  predicate IsTerm(v: JsValue)
  {
    exists i :: 0 <= i < |TermList| && v == JStr(TermName(TermList[i]))
  }

  /** `isCredit` accepts exactly 1 and 2, and `isTerm` exactly the seven term names. */
  lemma ValidatorsExact(v: JsValue)
    ensures IsCredit(v) <==> v == JNum(1.0) || v == JNum(2.0)
    ensures IsTerm(v) <==> v.JStr? && v.s in {"S", "S1", "S2", "A", "A1", "A2", "W"}
  {
    if v.JStr? && v.s in {"S", "S1", "S2", "A", "A1", "A2", "W"} {
      if v.s == "S" { assert v == JStr(TermName(TermList[0])); }
      else if v.s == "S1" { assert v == JStr(TermName(TermList[1])); }
      else if v.s == "S2" { assert v == JStr(TermName(TermList[2])); }
      else if v.s == "A" { assert v == JStr(TermName(TermList[3])); }
      else if v.s == "A1" { assert v == JStr(TermName(TermList[4])); }
      else if v.s == "A2" { assert v == JStr(TermName(TermList[5])); }
      else { assert v == JStr(TermName(TermList[6])); }
    }
  }

  /**
   * `isCourse`: a non-null object whose `year` is a number, whose `term` is a
   * term and whose `credit` is a credit.
   */
  predicate IsCourse(v: JsValue)
  {
    v.JObj?
    && "year" in v.fields && v.fields["year"].JNum?
    && "term" in v.fields && IsTerm(v.fields["term"])
    && "credit" in v.fields && IsCredit(v.fields["credit"])
  }

  /** `isCourse` does not look at `code`: adding, changing or removing it changes nothing. */
  lemma IsCourseIgnoresCode(fields: map<string, JsValue>, code: JsValue)
    ensures IsCourse(JObj(fields["code" := code])) == IsCourse(JObj(fields))
    ensures IsCourse(JObj(fields - {"code"})) == IsCourse(JObj(fields))
  {
  }

  /** The value a course has at run time; absent fields are absent keys. */
  function ToJs(c: Course): JsValue
  {
    var base := map["code" := JStr(c.code), "credit" := JNum(c.credit as real)];
    var withYear := match c.year case Some(y) => base["year" := JNum(y as real)] case None => base;
    JObj(match c.term case Some(t) => withYear["term" := JStr(TermName(t))] case None => withYear)
  }

  /** A course with a year and a term passes `isCourse`; one without a year does not. */
  lemma IsCourseOfCourse(c: Course)
    ensures IsCourse(ToJs(c)) <==> c.year.Some? && c.term.Some?
  {
    var f := ToJs(c).fields;
    assert IsCredit(f["credit"]);
    if c.term.Some? {
      match c.term.value
      case S => assert f["term"] == JStr(TermName(TermList[0]));
      case S1 => assert f["term"] == JStr(TermName(TermList[1]));
      case S2 => assert f["term"] == JStr(TermName(TermList[2]));
      case A => assert f["term"] == JStr(TermName(TermList[3]));
      case A1 => assert f["term"] == JStr(TermName(TermList[4]));
      case A2 => assert f["term"] == JStr(TermName(TermList[5]));
      case W => assert f["term"] == JStr(TermName(TermList[6]));
    }
  }
}

=== FILE: course_code.dfy ===
/**
 * Course codes (src/course-code.ts): the five-character code made of a
 * department code and a serial number, its rank used as a tie-break in
 * orderings, scopes built from code prefixes, the per-language sub-codes and
 * the lookups over the catalog table, which the model keeps abstract.
 */
module CourseCodes {
  import opened Wrappers
  import opened Seqs

  /** Department codes in table order; the rank of a department is its position. */
  const Departments: seq<string> := ["FC", "IC", "GC", "TC", "PF", "PI", "PG", "PT"]

  function DepartmentRank(d: string): (r: nat)
    ensures r < |Departments| && (IsDepartment(d) ==> Departments[r] == d)
  {
    if d == "FC" then 0 else if d == "IC" then 1 else if d == "GC" then 2
    else if d == "TC" then 3 else if d == "PF" then 4 else if d == "PI" then 5
    else if d == "PG" then 6 else if d == "PT" then 7 else 0
  }

  predicate IsDepartment(d: string)
  {
    d == "FC" || d == "IC" || d == "GC" || d == "TC" || d == "PF" || d == "PI" || d == "PG" || d == "PT"
  }

  /** The characters of "0123456789abcdefghijklmnopqrstuvwxyz". */
  predicate IsSmall(c: char)
  {
    '0' <= c <= '9' || 'a' <= c <= 'z'
  }

  /** Position of a small character in "0123456789abcdefghijklmnopqrstuvwxyz". */
  function SmallRank(c: char): (r: nat)
    requires IsSmall(c)
    ensures r < 36
  {
    if c <= '9' then c as int - '0' as int else c as int - 'a' as int + 10
  }

  /** The characters a serial number can start with: a nonzero digit, L, or A-F. */
  predicate IsSerialHead(c: char)
  {
    '1' <= c <= '9' || c == 'L' || 'A' <= c <= 'F'
  }

  /** Position of a middle character in "0123456789LABCDEF". */
  function MiddleRank(c: char): (r: nat)
    requires IsSerialHead(c)
    ensures r < 17
  {
    if c <= '9' then c as int - '0' as int
    else if c == 'L' then 10
    else c as int - 'A' as int + 11
  }

  predicate IsCourseCode(s: string)
  {
    |s| == 5 && IsDepartment(s[..2]) && IsSerialHead(s[2]) && IsSmall(s[3]) && IsSmall(s[4])
  }

  type CourseCode = s: string | IsCourseCode(s) witness "FC111"

  /**
   * `courseCodeToInt`: department rank * 100000 + middle rank * 10000
   * + rank of the fourth character * 36 + rank of the fifth.
   */
  function CodeToInt(code: CourseCode): (r: nat)
    ensures r <= 861295
  {
    DepartmentRank(code[..2]) * 100000 + MiddleRank(code[2]) * 10000
    + SmallRank(code[3]) * 36 + SmallRank(code[4])
  }

  lemma CodeEq(a: CourseCode, b: CourseCode)
    requires a[..2] == b[..2] && a[2] == b[2] && a[3] == b[3] && a[4] == b[4]
    ensures a == b
  {
    assert a == a[..2] + [a[2], a[3], a[4]];
    assert b == b[..2] + [b[2], b[3], b[4]];
  }

  /**
   * Within one department the rank is injective and orders codes
   * lexicographically by the ranks of their last three characters.
   */
  lemma CodeToIntWithinDepartment(a: CourseCode, b: CourseCode)
    requires a[..2] == b[..2]
    ensures CodeToInt(a) == CodeToInt(b) <==> a == b
    ensures CodeToInt(a) < CodeToInt(b) <==>
      MiddleRank(a[2]) < MiddleRank(b[2])
      || (MiddleRank(a[2]) == MiddleRank(b[2]) && SmallRank(a[3]) < SmallRank(b[3]))
      || (MiddleRank(a[2]) == MiddleRank(b[2]) && SmallRank(a[3]) == SmallRank(b[3])
          && SmallRank(a[4]) < SmallRank(b[4]))
  {
    if CodeToInt(a) == CodeToInt(b) {
      assert MiddleRank(a[2]) == MiddleRank(b[2]);
      assert SmallRank(a[3]) == SmallRank(b[3]);
      CodeEq(a, b);
    }
  }

  /**
   * Across departments the rank is not injective: a middle rank of 10 or more
   * carries into the department digit.
   */
  lemma CodeToIntCollides()
    ensures IsCourseCode("FCE10") && IsCourseCode("IC510")
    ensures CodeToInt("FCE10") == CodeToInt("IC510") == 150036
  {
    assert "FCE10"[..2] == "FC" && "IC510"[..2] == "IC";
    assert Departments[1] == "IC";
  }

  /** A set of codes given by prefixes to include and prefixes to exclude (`Scope`). */
  datatype Scope = Scope(included: seq<string>, excluded: seq<string>)
  {
    /** Some include prefix starts `code` and no exclude prefix does. */
    predicate Match(code: string)
    {
      (exists i :: 0 <= i < |included| && included[i] <= code)
      && (forall i :: 0 <= i < |excluded| ==> !(excluded[i] <= code))
    }

    /** Every include prefix of `inner` matches, and `inner` matches no exclude prefix of this scope. */
    predicate Includes(inner: Scope)
    {
      (forall i :: 0 <= i < |inner.included| ==> Match(inner.included[i]))
      && (forall i :: 0 <= i < |excluded| ==> !inner.Match(excluded[i]))
    }
  }

  /** Two prefixes of the same string are prefixes of each other one way or the other. */
  lemma PrefixComparable(a: string, b: string, c: string)
    ensures a <= c && b <= c ==> a <= b || b <= a
  {
    if a <= c && b <= c && |a| <= |b| {
      assert a == c[..|a|] && b == c[..|b|];
      assert a == b[..|a|];
    } else if a <= c && b <= c {
      assert a == c[..|a|] && b == c[..|b|];
      assert b == a[..|b|];
    }
  }

  /** `includes` is sound: every code the inner scope matches, the outer one matches. */
  lemma IncludesSound(outer: Scope, inner: Scope, code: string)
    requires outer.Includes(inner) && inner.Match(code)
    ensures outer.Match(code)
  {
    var i :| 0 <= i < |inner.included| && inner.included[i] <= code;
    var p := inner.included[i];
    assert outer.Match(p);
    var j :| 0 <= j < |outer.included| && outer.included[j] <= p;
    PrefixTrans(outer.included[j], p, code);
    forall k | 0 <= k < |outer.excluded|
      ensures !(outer.excluded[k] <= code)
    {
      // an exclude prefix `e` of the code is comparable with `p`; it cannot
      // start `p`, which the outer scope matches, and if `p` starts it the
      // inner scope matches `e`, which the outer scope excludes
      var e := outer.excluded[k];
      assert !(e <= p) && !inner.Match(e);
      PrefixComparable(p, e, code);
      MatchBetween(inner, i, e, code);
    }
  }

  /** A string between an include prefix and a code the scope matches is matched too. */
  lemma MatchBetween(s: Scope, i: nat, e: string, code: string)
    requires i < |s.included|
    ensures s.included[i] <= e && e <= code && s.Match(code) ==> s.Match(e)
  {
    forall x | 0 <= x < |s.excluded|
      ensures e <= code ==> (s.excluded[x] <= e ==> s.excluded[x] <= code)
    {
      if e <= code && s.excluded[x] <= e {
        PrefixTrans(s.excluded[x], e, code);
      }
    }
  }

  /** The four pairs used in src/course-code.test.ts. */
  lemma IncludesExamples()
    ensures Scope(["FC"], []).Includes(Scope(["FC1", "FC2"], []))
    ensures !Scope(["FC1", "FC2"], []).Includes(Scope(["FC"], []))
    ensures Scope(["FC"], ["FC3"]).Includes(Scope(["FC"], ["FC3", "FC4"]))
    ensures !Scope(["FC"], ["FC3", "FC4"]).Includes(Scope(["FC"], ["FC4"]))
  {
    var s1, s2 := Scope(["FC"], []), Scope(["FC1", "FC2"], []);
    assert s1.Match("FC1") by { assert "FC" <= "FC1"; }
    assert s1.Match("FC2") by { assert "FC" <= "FC2"; }
    assert !s2.Match("FC") by {
      assert !("FC1" <= "FC") && !("FC2" <= "FC");
    }
    var s3, s4 := Scope(["FC"], ["FC3"]), Scope(["FC"], ["FC3", "FC4"]);
    assert s3.Match("FC") by {
      assert s3.included[0] <= "FC";
      assert !(s3.excluded[0] <= "FC");
    }
    assert !s4.Match("FC3") by { assert s4.excluded[0] <= "FC3"; }
    var s5 := Scope(["FC"], ["FC4"]);
    assert s5.Match("FC3") by {
      assert s5.included[0] <= "FC3";
      assert "FC4"[2] != "FC3"[2];
      assert !(s5.excluded[0] <= "FC3");
    }
    assert !s4.Includes(s5) by {
      assert s4.excluded[0] == "FC3";
    }
  }

  /** A predicate over course codes (`Pred`). */
  type Pred = string -> bool

  predicate StartsWithAny(codes: seq<string>, code: string)
  {
    exists i :: 0 <= i < |codes| && codes[i] <= code
  }

  /** `isSubcourseOf`: holds of a code that starts with one of `codes`; both branches agree. */
  function IsSubcourseOf(codes: seq<string>): (r: Pred)
    ensures forall code :: r(code) <==> StartsWithAny(codes, code)
  {
    if |codes| == 1 then
      var n := codes[0];
      code => n <= code
    else
      code => exists i :: 0 <= i < |codes| && codes[i] <= code
  }

  /** `$not`. */
  function Not(pred: Pred): (r: Pred)
    ensures forall code :: r(code) == !pred(code)
  {
    code => !pred(code)
  }

  /** `$and`: every predicate holds; with no predicates, always true. */
  function And(preds: seq<Pred>): (r: Pred)
    ensures forall code :: r(code) <==> forall i :: 0 <= i < |preds| ==> preds[i](code)
    ensures preds == [] ==> forall code :: r(code)
  {
    code => forall i :: 0 <= i < |preds| ==> preds[i](code)
  }

  /** `$or`: some predicate holds; with no predicates, always false. */
  function Or(preds: seq<Pred>): (r: Pred)
    ensures forall code :: r(code) <==> exists i :: 0 <= i < |preds| && preds[i](code)
    ensures preds == [] ==> forall code :: !r(code)
  {
    code => exists i :: 0 <= i < |preds| && preds[i](code)
  }

  /** De Morgan: the negation of a conjunction is the disjunction of the negations. */
  lemma NotAndIsOrNot(preds: seq<Pred>, code: string)
    ensures Not(And(preds))(code) == Or(seq(|preds|, i requires 0 <= i < |preds| => Not(preds[i])))(code)
  {
    var negs := seq(|preds|, i requires 0 <= i < |preds| => Not(preds[i]));
    if !And(preds)(code) {
      var i :| 0 <= i < |preds| && !preds[i](code);
      assert negs[i](code);
    }
  }

  /** Languages a student can take as a first foreign language (`KishuForeignLang`). */
  datatype Lang = En | De | Fr | Zh | Ru | Es | Ko | It | Ja

  /** Languages a student can take as a second foreign language (`ShoshuForeignLang`). */
  type ShoshuLang = l: Lang | l != En && l != Ja witness De

  function Digit(d: nat): (c: char)
    requires d <= 9
    ensures '0' <= c <= '9' && c as int == '0' as int + d
  {
    ('0' as int + d) as char
  }

  function KishuDigit(lang: Lang): nat
  {
    match lang
    case En => 1 case De => 2 case Fr => 3 case Zh => 4 case Ru => 5
    case Es => 6 case Ko => 7 case It => 8 case Ja => 9
  }

  function ShoshuDigit(lang: ShoshuLang): nat
  {
    match lang
    case De => 1 case Fr => 2 case Zh => 3 case Ru => 4
    case Es => 5 case Ko => 6 case It => 7
  }

  function SecondLDigit(lang: ShoshuLang): nat
  {
    match lang
    case De => 2 case Fr => 3 case Zh => 4 case Ru => 5
    case Es => 6 case Ko => 7 case It => 8
  }

  /** `subCodeKishu`: the prefix FC1 followed by the language's digit 1-9. */
  function SubCodeKishu(lang: Lang): (r: string)
    ensures |r| == 4 && r[..3] == "FC1" && '1' <= r[3] <= '9'
  {
    "FC1" + [Digit(KishuDigit(lang))]
  }

  /** `subCodeShoshu`: the prefix FC2 followed by the language's digit 1-7. */
  function SubCodeShoshu(lang: ShoshuLang): (r: string)
    ensures |r| == 4 && r[..3] == "FC2" && '1' <= r[3] <= '7'
  {
    "FC2" + [Digit(ShoshuDigit(lang))]
  }

  /** `subCodeSecondL`: the prefix GCL followed by the language's digit 2-8. */
  function SubCodeSecondL(lang: ShoshuLang): (r: string)
    ensures |r| == 4 && r[..3] == "GCL" && '2' <= r[3] <= '8'
  {
    "GCL" + [Digit(SecondLDigit(lang))]
  }

  /** Distinct languages get distinct FC1 sub-codes; English's is FC11. */
  lemma KishuSubCodeInjective(a: Lang, b: Lang)
    ensures SubCodeKishu(a) == SubCodeKishu(b) <==> a == b
    ensures SubCodeKishu(En) == "FC11"
  {
    if SubCodeKishu(a) == SubCodeKishu(b) {
      assert SubCodeKishu(a)[3] == SubCodeKishu(b)[3];
    }
  }

  /** A second language's FC2 digit is one below its FC1 digit, and its GCL digit equals its FC1 digit. */
  lemma ShoshuSubCodesShifted(a: ShoshuLang)
    ensures SubCodeShoshu(a)[3] as int == SubCodeKishu(a)[3] as int - 1
    ensures SubCodeSecondL(a)[3] == SubCodeKishu(a)[3]
  {
  }

  /** Distinct second languages get distinct FC2 and GCL sub-codes. */
  lemma ShoshuSubCodesInjective(a: ShoshuLang, b: ShoshuLang)
    ensures SubCodeShoshu(a) == SubCodeShoshu(b) <==> a == b
    ensures SubCodeSecondL(a) == SubCodeSecondL(b) <==> a == b
  {
    if SubCodeShoshu(a) == SubCodeShoshu(b) {
      assert SubCodeShoshu(a)[3] == SubCodeShoshu(b)[3];
    }
    if SubCodeSecondL(a) == SubCodeSecondL(b) {
      assert SubCodeSecondL(a)[3] == SubCodeSecondL(b)[3];
    }
  }

  /** The language choice that decides which FC1/FC2 codes a student can have (`LanguageOption`). */
  datatype LanguageOption = LanguageOption(first: Lang, second: SecondLanguage)

  /**
   * The second foreign language: one learned before entering (any language,
   * FC1 block) or one begun at university (never English or Japanese, FC2 block).
   */
  datatype SecondLanguage = Learned(learnedLang: Lang) | NotLearned(newLang: ShoshuLang)
  {
    function Lang(): Lang
    {
      match this case Learned(l) => l case NotLearned(l) => l
    }

    /** The block of the second language: FC1x if learned before, FC2x otherwise. */
    function SubCode(): string
    {
      match this case Learned(l) => SubCodeKishu(l) case NotLearned(l) => SubCodeShoshu(l)
    }
  }

  /**
   * The catalog: per department code, its serial numbers with their titles,
   * in table order. Its contents are not part of the model.
   */
  type Table = seq<(string, seq<(string, seq<string>)>)>

  /** One department's (code, titles) entries in table order. */
  function Row(dept: string, serials: seq<(string, seq<string>)>): (r: seq<(string, seq<string>)>)
    ensures |r| == |serials|
    ensures forall i :: 0 <= i < |serials| ==> r[i] == (dept + serials[i].0, serials[i].1)
  {
    if serials == [] then []
    else Row(dept, serials[..|serials| - 1]) + [(dept + serials[|serials| - 1].0, serials[|serials| - 1].1)]
  }

  /** All (code, titles) entries of the table, department by department. */
  function Entries(table: Table): seq<(string, seq<string>)>
  {
    if table == [] then []
    else Entries(table[..|table| - 1]) + Row(table[|table| - 1].0, table[|table| - 1].1)
  }

  /**
   * A code that `getCourseCode` may return for a student: codes of the
   * FC1/FC2 language blocks only for the student's own two languages.
   */
  predicate Selectable(code: string, option: LanguageOption)
  {
    var kishu := SubCodeKishu(option.first);
    var shoshu := option.second.SubCode();
    !(IsSubcourseOf(["FC1", "FC2"])(code) && !IsSubcourseOf([kishu, shoshu])(code))
  }

  /** The first selectable entry whose titles contain `title`. */
  function FindCode(entries: seq<(string, seq<string>)>, title: string, option: LanguageOption): Option<string>
  {
    if entries == [] then None
    else if Selectable(entries[0].0, option) && title in entries[0].1 then Some(entries[0].0)
    else FindCode(entries[1..], title, option)
  }

  predicate Hit(e: (string, seq<string>), title: string, option: LanguageOption)
  {
    Selectable(e.0, option) && title in e.1
  }

  /** `FindCode` returns the code of the first hit in table order, or None when there is none. */
  lemma {:induction false} FindCodeSpec(entries: seq<(string, seq<string>)>, title: string, option: LanguageOption)
    ensures FindCode(entries, title, option).None? <==> forall i :: 0 <= i < |entries| ==> !Hit(entries[i], title, option)
    ensures FindCode(entries, title, option).Some? ==>
      exists i :: 0 <= i < |entries| && entries[i].0 == FindCode(entries, title, option).value
        && Hit(entries[i], title, option)
        && forall j :: 0 <= j < i ==> !Hit(entries[j], title, option)
  {
    if entries != [] {
      FindCodeSpec(entries[1..], title, option);
      if !Hit(entries[0], title, option) {
        if FindCode(entries, title, option).Some? {
          var i :| 0 <= i < |entries[1..]| && entries[1..][i].0 == FindCode(entries, title, option).value
            && Hit(entries[1..][i], title, option)
            && forall j :: 0 <= j < i ==> !Hit(entries[1..][j], title, option);
          assert entries[i + 1] == entries[1..][i];
          forall j | 0 <= j < i + 1
            ensures !Hit(entries[j], title, option)
          {
            if j > 0 {
              assert entries[j] == entries[1..][j - 1];
            }
          }
        } else {
          forall j | 0 <= j < |entries|
            ensures !Hit(entries[j], title, option)
          {
            if j > 0 {
              assert entries[j] == entries[1..][j - 1];
            }
          }
        }
      }
    }
  }

  lemma FindCodeConcat(a: seq<(string, seq<string>)>, b: seq<(string, seq<string>)>, title: string, option: LanguageOption)
    ensures FindCode(a + b, title, option) == if FindCode(a, title, option).Some? then FindCode(a, title, option) else FindCode(b, title, option)
  {
    if a != [] {
      assert (a + b)[1..] == a[1..] + b;
      FindCodeConcat(a[1..], b, title, option);
    } else {
      assert a + b == b;
    }
  }

  /** `getCourseCode`: scans the table department by department, serial by serial. */
  method GetCourseCode(table: Table, title: string, option: LanguageOption) returns (r: Option<string>)
    ensures r == FindCode(Entries(table), title, option)
  {
    var kishuSubCode := SubCodeKishu(option.first);
    var shoshuSubCode := option.second.SubCode();
    var predLang, predShu := IsSubcourseOf(["FC1", "FC2"]), IsSubcourseOf([kishuSubCode, shoshuSubCode]);
    var a := 0;
    while a < |table|
      invariant 0 <= a <= |table|
      invariant FindCode(Entries(table[..a]), title, option).None?
    {
      var (k, v) := table[a];
      r := ScanDepartment(k, v, title, option, predLang, predShu);
      assert table[..a + 1][..a] == table[..a];
      assert Entries(table[..a + 1]) == Entries(table[..a]) + Row(k, v);
      FindCodeConcat(Entries(table[..a]), Row(k, v), title, option);
      if r.Some? {
        EntriesPrefix(table, a + 1);
        FindCodeConcat(Entries(table[..a + 1]), Entries(table)[|Entries(table[..a + 1])|..], title, option);
        return;
      }
      a := a + 1;
    }
    assert table[..a] == table;
    r := None;
  }

  /** The inner loop of `getCourseCode` over the serials of department `k`. */
  method ScanDepartment(k: string, v: seq<(string, seq<string>)>, title: string, option: LanguageOption,
                        predLang: string -> bool, predShu: string -> bool) returns (r: Option<string>)
    requires predLang == IsSubcourseOf(["FC1", "FC2"])
    requires predShu == IsSubcourseOf([SubCodeKishu(option.first), option.second.SubCode()])
    ensures r == FindCode(Row(k, v), title, option)
  {
    var b := 0;
    while b < |v|
      invariant 0 <= b <= |v|
      invariant FindCode(Row(k, v[..b]), title, option).None?
    {
      var (l, w) := v[b];
      var code := k + l;
      RowStep(k, v, b, title, option);
      if predLang(code) && !predShu(code) {
        b := b + 1;
        continue;
      }
      if title in w {
        r := Some(code);
        RowRest(k, v, b + 1, title, option);
        return;
      }
      b := b + 1;
    }
    assert v[..b] == v;
    r := None;
  }

  /** One more serial: the scan finds it when nothing before it was found and it is a selectable hit. */
  lemma RowStep(k: string, v: seq<(string, seq<string>)>, b: nat, title: string, option: LanguageOption)
    requires b < |v|
    ensures FindCode(Row(k, v[..b + 1]), title, option) ==
      if FindCode(Row(k, v[..b]), title, option).Some? then FindCode(Row(k, v[..b]), title, option)
      else if Selectable(k + v[b].0, option) && title in v[b].1 then Some(k + v[b].0)
      else None
  {
    assert Row(k, v[..b + 1]) == Row(k, v[..b]) + [(k + v[b].0, v[b].1)] by {
      assert v[..b + 1][..b] == v[..b];
    }
    FindCodeConcat(Row(k, v[..b]), [(k + v[b].0, v[b].1)], title, option);
  }

  /** What the scan of the first `b` serials finds is what the scan of the whole department finds. */
  lemma RowRest(k: string, v: seq<(string, seq<string>)>, b: nat, title: string, option: LanguageOption)
    requires b <= |v| && FindCode(Row(k, v[..b]), title, option).Some?
    ensures FindCode(Row(k, v), title, option) == FindCode(Row(k, v[..b]), title, option)
  {
    assert Row(k, v) == Row(k, v[..b]) + Row(k, v)[b..];
    FindCodeConcat(Row(k, v[..b]), Row(k, v)[b..], title, option);
  }

  /** The entries of a prefix of the table are a prefix of its entries. */
  lemma {:induction false} EntriesPrefix(table: Table, a: nat)
    requires a <= |table|
    ensures Entries(table[..a]) <= Entries(table)
    ensures Entries(table) == Entries(table[..a]) + Entries(table)[|Entries(table[..a])|..]
    decreases |table|
  {
    if a < |table| {
      var init := table[..|table| - 1];
      EntriesPrefix(init, a);
      assert init[..a] == table[..a];
    } else {
      assert table[..a] == table;
    }
  }

  /** An excerpt of the FC block of the catalog around the titles used in src/course-code.test.ts. */
  function CatalogExcerpt(): Table
  {
    [("FC", [("111", ["英語一列①"]), ("122", ["ドイツ語一列②"]), ("133", ["フランス語二列"]),
             ("212", ["ドイツ語一列②"]), ("223", ["フランス語二列"]), ("300", ["情報", "情報α"])])]
  }

  /** The excerpt's entries in table order. */
  function ExcerptEntries(): seq<(string, seq<string>)>
  {
    [("FC111", ["英語一列①"]), ("FC122", ["ドイツ語一列②"]), ("FC133", ["フランス語二列"]),
     ("FC212", ["ドイツ語一列②"]), ("FC223", ["フランス語二列"]), ("FC300", ["情報", "情報α"])]
  }

  lemma ExcerptEntriesAre()
    ensures Entries(CatalogExcerpt()) == ExcerptEntries()
  {
    var fc := CatalogExcerpt()[0].1;
    assert Entries(CatalogExcerpt()) == Entries([]) + Row("FC", fc) by {
      assert CatalogExcerpt()[..0] == [];
    }
    var e := Entries(CatalogExcerpt());
    assert e[0] == ("FC111", ["英語一列①"]) by { assert "FC" + "111" == "FC111"; }
    assert e[1] == ("FC122", ["ドイツ語一列②"]) by { assert "FC" + "122" == "FC122"; }
    assert e[2] == ("FC133", ["フランス語二列"]) by { assert "FC" + "133" == "FC133"; }
    assert e[3] == ("FC212", ["ドイツ語一列②"]) by { assert "FC" + "212" == "FC212"; }
    assert e[4] == ("FC223", ["フランス語二列"]) by { assert "FC" + "223" == "FC223"; }
    assert e[5] == ("FC300", ["情報", "情報α"]) by { assert "FC" + "300" == "FC300"; }
  }

  /**
   * With German as first and French (not yet learned) as second language,
   * the FC1 block is open only for German (FC12) and the FC2 block only for
   * French (FC22).
   */
  lemma ExcerptSelectable()
    ensures var option := LanguageOption(De, NotLearned(Fr));
      && !Selectable("FC111", option) && Selectable("FC122", option) && !Selectable("FC133", option)
      && !Selectable("FC212", option) && Selectable("FC223", option) && Selectable("FC300", option)
  {
    assert SubCodeKishu(De) == "FC12" && NotLearned(Fr).SubCode() == "FC22";
    ExcerptLanguageBlocks();
    ExcerptOwnBlocks();
  }

  /** Which excerpt codes lie in the FC1/FC2 language blocks. */
  lemma ExcerptLanguageBlocks()
    ensures var lang := IsSubcourseOf(["FC1", "FC2"]);
      lang("FC111") && lang("FC122") && lang("FC133") && lang("FC212") && lang("FC223") && !lang("FC300")
  {
    var lang := IsSubcourseOf(["FC1", "FC2"]);
    assert lang("FC111") && lang("FC122") && lang("FC133") && lang("FC212") && lang("FC223") by {
      assert ["FC1", "FC2"][0] <= "FC111" && ["FC1", "FC2"][0] <= "FC122" && ["FC1", "FC2"][0] <= "FC133";
      assert ["FC1", "FC2"][1] <= "FC212" && ["FC1", "FC2"][1] <= "FC223";
    }
    assert !lang("FC300") by {
      assert "FC300"[2] != "FC1"[2] && "FC300"[2] != "FC2"[2];
    }
  }

  /** Which excerpt codes lie in the blocks of German as first and French as new second language. */
  lemma ExcerptOwnBlocks()
    ensures var shu := IsSubcourseOf(["FC12", "FC22"]);
      shu("FC122") && shu("FC223") && !shu("FC111") && !shu("FC133") && !shu("FC212")
  {
    var shu := IsSubcourseOf(["FC12", "FC22"]);
    assert shu("FC122") && shu("FC223") by {
      assert ["FC12", "FC22"][0] <= "FC122";
      assert ["FC12", "FC22"][1] <= "FC223";
    }
    assert !shu("FC111") && !shu("FC133") && !shu("FC212") by {
      assert "FC111"[3] != '2' && "FC133"[3] != '2' && "FC212"[2] != '1' && "FC212"[3] != '2';
      assert "FC111"[2] != '2' && "FC133"[2] != '2';
    }
  }

  /** The first title of src/course-code.test.ts: the German FC2 entry with the same title is skipped. */
  lemma GetCourseCodeFirstLanguage()
    ensures FindCode(Entries(CatalogExcerpt()), "ドイツ語一列②", LanguageOption(De, NotLearned(Fr))) == Some("FC122")
  {
    ExcerptEntriesAre();
    ExcerptSelectable();
    assert ExcerptEntries()[1..][0] == ("FC122", ["ドイツ語一列②"]);
  }

  /** The second title of src/course-code.test.ts: the French FC1 entry with the same title is skipped. */
  lemma GetCourseCodeSecondLanguage()
    ensures FindCode(Entries(CatalogExcerpt()), "フランス語二列", LanguageOption(De, NotLearned(Fr))) == Some("FC223")
  {
    ExcerptEntriesAre();
    ExcerptSelectable();
    var e := ExcerptEntries();
    assert "フランス語二列" !in e[1].1 by { assert "ドイツ語一列②"[0] != "フランス語二列"[0]; }
    assert e[1..][1..][1..][1..] == e[4..];
  }

  /** The third title of src/course-code.test.ts sits second in its entry's title list. */
  lemma GetCourseCodeSameCode()
    ensures FindCode(Entries(CatalogExcerpt()), "情報α", LanguageOption(De, NotLearned(Fr))) == Some("FC300")
  {
    ExcerptEntriesAre();
    ExcerptSelectable();
    var e := ExcerptEntries();
    assert "情報α" !in e[1].1 && "情報α" !in e[4].1;
    assert e[1..][1..][1..][1..][1..] == e[5..];
  }

  /** The codes of the table in table order. */
  function Codes(table: Table): (r: seq<string>)
    ensures |r| == |Entries(table)|
    ensures forall i :: 0 <= i < |r| ==> r[i] == Entries(table)[i].0
  {
    seq(|Entries(table)|, i requires 0 <= i < |Entries(table)| => Entries(table)[i].0)
  }

  /** Department codes of length 2 that are pairwise distinct, each with distinct serial numbers of length 3. */
  predicate WellFormed(table: Table)
  {
    (forall a, b :: 0 <= a < b < |table| ==> table[a].0 != table[b].0)
    && (forall a :: 0 <= a < |table| ==> |table[a].0| == 2)
    && (forall a, i :: 0 <= a < |table| && 0 <= i < |table[a].1| ==> |table[a].1[i].0| == 3)
    && (forall a, i, j :: 0 <= a < |table| && 0 <= i < j < |table[a].1| ==> table[a].1[i].0 != table[a].1[j].0)
  }

  /** Every entry's code starts with the department code of some department of the table. */
  lemma {:induction false} EntriesDepartment(table: Table, i: nat)
    requires WellFormed(table) && i < |Entries(table)|
    ensures |Entries(table)[i].0| == 5 && exists a :: 0 <= a < |table| && Entries(table)[i].0[..2] == table[a].0
    decreases |table|
  {
    var init, last := table[..|table| - 1], table[|table| - 1];
    assert WellFormed(init);
    if i < |Entries(init)| {
      EntriesDepartment(init, i);
      var a :| 0 <= a < |init| && Entries(init)[i].0[..2] == init[a].0;
      assert table[a] == init[a];
    } else {
      var j := i - |Entries(init)|;
      assert Entries(table)[i] == Row(last.0, last.1)[j];
      assert (last.0 + last.1[j].0)[..2] == last.0;
    }
  }

  /** On a well-formed table each code is listed once. */
  lemma {:induction false} CodesDistinct(table: Table)
    requires WellFormed(table)
    ensures forall i, j :: 0 <= i < j < |Codes(table)| ==> Codes(table)[i] != Codes(table)[j]
    decreases |table|
  {
    if table != [] {
      var init, last := table[..|table| - 1], table[|table| - 1];
      assert WellFormed(init);
      CodesDistinct(init);
      var e, ei, row := Entries(table), Entries(init), Row(last.0, last.1);
      assert e == ei + row;
      forall i, j | 0 <= i < j < |e|
        ensures e[i].0 != e[j].0
      {
        if j < |ei| {
          assert Codes(init)[i] != Codes(init)[j];
        } else if i < |ei| {
          EntriesDepartment(init, i);
          var a :| 0 <= a < |init| && ei[i].0[..2] == init[a].0;
          assert table[a] == init[a];
          assert e[j].0 == last.0 + last.1[j - |ei|].0;
          assert e[j].0[..2] == last.0;
        } else {
          var x, y := last.1[i - |ei|].0, last.1[j - |ei|].0;
          assert e[i].0 == last.0 + x && e[j].0 == last.0 + y;
          assert (last.0 + x)[|last.0|..] == x && (last.0 + y)[|last.0|..] == y;
        }
      }
    }
  }

  /** The code-to-titles map the table defines, later entries overriding earlier ones. */
  function MapOf(entries: seq<(string, seq<string>)>): (m: map<string, seq<string>>)
  {
    if entries == [] then map[]
    else MapOf(entries[..|entries| - 1])[entries[|entries| - 1].0 := entries[|entries| - 1].1]
  }

  /** On a table whose codes are distinct, the map sends each code to its own titles and has no other key. */
  lemma {:induction false} MapOfLookup(entries: seq<(string, seq<string>)>)
    requires forall i, j :: 0 <= i < j < |entries| ==> entries[i].0 != entries[j].0
    ensures forall code :: code in MapOf(entries) <==> exists i :: 0 <= i < |entries| && entries[i].0 == code
    ensures forall i :: 0 <= i < |entries| ==> MapOf(entries)[entries[i].0] == entries[i].1
  {
    if entries != [] {
      var init := entries[..|entries| - 1];
      MapOfLookup(init);
      forall code | code in MapOf(entries)
        ensures exists i :: 0 <= i < |entries| && entries[i].0 == code
      {
        if code != entries[|entries| - 1].0 {
          assert MapOf(entries) == MapOf(init)[entries[|entries| - 1].0 := entries[|entries| - 1].1];
          assert code in MapOf(init);
          var i :| 0 <= i < |init| && init[i].0 == code;
          assert entries[i] == init[i];
        } else {
          assert entries[|entries| - 1].0 == code;
        }
      }
      forall i | 0 <= i < |entries| - 1
        ensures MapOf(entries)[entries[i].0] == entries[i].1
      {
        assert entries[i] == init[i];
      }
    }
  }

  /** The inner loop of `getCourseCodeMap`: the serials of department `k` enter the map in order. */
  method AddDepartment(m0: map<string, seq<string>>, ghost e: seq<(string, seq<string>)>,
                       k: string, v: seq<(string, seq<string>)>) returns (m: map<string, seq<string>>)
    requires m0 == MapOf(e)
    ensures m == MapOf(e + Row(k, v))
  {
    m := m0;
    var b := 0;
    assert e + Row(k, v[..0]) == e;
    while b < |v|
      invariant 0 <= b <= |v|
      invariant m == MapOf(e + Row(k, v[..b]))
    {
      var e' := e + Row(k, v[..b]);
      assert Row(k, v[..b + 1]) == Row(k, v[..b]) + [(k + v[b].0, v[b].1)] by {
        assert v[..b + 1][..b] == v[..b];
      }
      assert (e' + [(k + v[b].0, v[b].1)])[..|e'|] == e';
      assert e + Row(k, v[..b + 1]) == e' + [(k + v[b].0, v[b].1)];
      m := m[k + v[b].0 := v[b].1];
      b := b + 1;
    }
    assert v[..b] == v;
  }

  /**
   * The memoised catalog lookups (`getCourseCodes`, `getCourseCodeMap`): the
   * module-level caches become fields, filled on the first call.
   */
  class Catalog {
    const table: Table
    var codes: Option<seq<string>>
    var codeMap: Option<map<string, seq<string>>>

    ghost predicate Valid()
      reads this
    {
      (codes.Some? ==> codes.value == Codes(table))
      && (codeMap.Some? ==> codeMap.value == MapOf(Entries(table)))
    }

    constructor (table: Table)
      ensures this.table == table && codes == None && codeMap == None && Valid()
    {
      this.table := table;
      codes := None;
      codeMap := None;
    }

    /** `getCourseCodes`: every code of the table in table order, computed once. */
    method GetCourseCodes() returns (r: seq<string>)
      requires Valid()
      modifies this
      ensures Valid() && codeMap == old(codeMap)
      ensures r == Codes(table) && codes == Some(r)
    {
      if codes.None? {
        var list: seq<string> := [];
        var a := 0;
        while a < |table|
          invariant 0 <= a <= |table|
          invariant list == Codes(table[..a])
        {
          var (k, v) := table[a];
          var b := 0;
          while b < |v|
            invariant 0 <= b <= |v|
            invariant list == Codes(table[..a]) + seq(b, i requires 0 <= i < b => k + v[i].0)
          {
            list := list + [k + v[b].0];
            b := b + 1;
          }
          assert table[..a + 1][..a] == table[..a];
          assert Entries(table[..a + 1]) == Entries(table[..a]) + Row(k, v);
          a := a + 1;
        }
        assert table[..a] == table;
        codes := Some(list);
      }
      r := codes.value;
    }

    /** `getCourseCodeMap`: the code-to-titles map of the table, computed once. */
    method GetCourseCodeMap() returns (r: map<string, seq<string>>)
      requires Valid()
      modifies this
      ensures Valid() && codes == old(codes)
      ensures r == MapOf(Entries(table)) && codeMap == Some(r)
    {
      if codeMap.None? {
        var m: map<string, seq<string>> := map[];
        var a := 0;
        while a < |table|
          invariant 0 <= a <= |table|
          invariant m == MapOf(Entries(table[..a]))
          invariant unchanged(this)
        {
          var (k, v) := table[a];
          m := AddDepartment(m, Entries(table[..a]), k, v);
          assert table[..a + 1][..a] == table[..a];
          assert Entries(table[..a + 1]) == Entries(table[..a]) + Row(k, v);
          a := a + 1;
        }
        assert table[..a] == table;
        codeMap := Some(m);
      }
      r := codeMap.value;
    }
  }
}

=== FILE: course_requirements.dfy ===
/**
 * Required-course rules (src/department/course-requirements.ts). A rule is
 * a single course (`Value`), every one of its parts (`All`), any `n` of its
 * parts (`PickN`) or any one of them (`Any`). `satisfy` lists the ways to
 * meet a rule, each a list of courses; `collect` lists every course the
 * rule mentions. `apply` adds a point-0 row for every required course of a
 * chosen way that the transcript lacks.
 *
 * The source's classes restrict nesting (`All` and `PickN` hold `Value`s
 * and `Any`s, `Any` holds the other three); the functions below mean the
 * same for any nesting, so one datatype stands for the four classes.
 */
module CourseRequirements {
  import opened Wrappers
  import opened Seqs
  import opened CourseCodes
  import opened Courses
  import opened Reports

  datatype Rule<T> =
    | Value(value: T)
    | All(choices: seq<Rule<T>>)
    | PickN(n: nat, choices: seq<Rule<T>>)
    | Any(choices: seq<Rule<T>>)

  // ---------------------------------------------------------------------
  // All.satisfy: one pattern of every part, counted in mixed radix
  // ---------------------------------------------------------------------

  /** `anys.reduce((p, c) => p * c.length, 1)`. */
  function Product<T>(anys: seq<seq<seq<T>>>): nat
  {
    if anys == [] then 1 else Product(anys[..|anys| - 1]) * |anys[|anys| - 1]|
  }

  /** Every part has at least one pattern. */
  predicate NoneEmpty<T>(anys: seq<seq<seq<T>>>)
  {
    forall k :: 0 <= k < |anys| ==> |anys[k]| > 0
  }

  /** The product is taken from the front as well as from the back; it is zero exactly when some part has no pattern. */
  lemma {:induction false} ProductFront<T>(anys: seq<seq<seq<T>>>)
    ensures anys != [] ==> Product(anys) == |anys[0]| * Product(anys[1..])
    ensures Product(anys) > 0 <==> NoneEmpty(anys)
  {
    if anys != [] {
      var init := anys[..|anys| - 1];
      ProductFront(init);
      if init != [] {
        ProductFront(anys[1..]);
        assert init[1..] == anys[1..][..|anys[1..]| - 1];
        assert init[0] == anys[0];
        ProductAssoc(|anys[0]|, Product(init[1..]), |anys[|anys| - 1]|);
      }
    }
  }

  lemma ProductAssoc(a: nat, b: nat, c: nat)
    ensures (a * b) * c == a * (b * c)
  {
  }

  /**
   * The pattern the inner loop builds for `j`: it takes pattern
   * `j % a.length` of the first part, then goes on with `floor(j / a.length)`.
   */
  function Pattern<T>(anys: seq<seq<seq<T>>>, j: nat): seq<T>
    requires NoneEmpty(anys)
  {
    if anys == [] then [] else anys[0][j % |anys[0]|] + Pattern(anys[1..], j / |anys[0]|)
  }

  /** The patterns of `All`, given the parts' patterns in the loop's order. */
  function AllPatterns<T>(anys: seq<seq<seq<T>>>): (ps: seq<seq<T>>)
    ensures |ps| == Product(anys)
  {
    ProductFront(anys);
    if Product(anys) == 0 then [] else seq(Product(anys), i requires 0 <= i < Product(anys) => Pattern(anys, i))
  }

  /** The two loops of `All.satisfy`, on the parts' patterns already reversed. */
  method AllSatisfy<T>(anys: seq<seq<seq<T>>>) returns (res: seq<seq<T>>)
    ensures res == AllPatterns(anys)
  {
    var n := 1;
    for k := 0 to |anys|
      invariant n == Product(anys[..k])
    {
      assert anys[..k + 1][..k] == anys[..k];
      n := n * |anys[k]|;
    }
    assert anys[..|anys|] == anys;
    ProductFront(anys);
    res := [];
    for i := 0 to n
      invariant |res| == i
      invariant forall t :: 0 <= t < i ==> res[t] == Pattern(anys, t)
    {
      assert NoneEmpty(anys);
      var r := [];
      var j: nat := i;
      for k := 0 to |anys|
        invariant r + Pattern(anys[k..], j) == Pattern(anys, i)
      {
        assert anys[k..][1..] == anys[k + 1..];
        r := r + anys[k][j % |anys[k]|];
        j := j / |anys[k]|;
      }
      res := res + [r];
    }
  }

  /** The choice of one pattern per part that a position stands for: its mixed-radix digits. */
  function Digits<T>(anys: seq<seq<seq<T>>>, j: nat): (d: seq<nat>)
    requires NoneEmpty(anys)
    ensures |d| == |anys|
  {
    if anys == [] then [] else [j % |anys[0]|] + Digits(anys[1..], j / |anys[0]|)
  }

  /** A choice of one pattern of every part. */
  predicate IsChoice<T>(anys: seq<seq<seq<T>>>, d: seq<nat>)
  {
    |d| == |anys| && forall k :: 0 <= k < |d| ==> d[k] < |anys[k]|
  }

  /** The position a choice stands at: the first part's digit is the least significant. */
  function Compose<T>(anys: seq<seq<seq<T>>>, d: seq<nat>): nat
    requires |d| == |anys|
  {
    if anys == [] then 0 else d[0] + |anys[0]| * Compose(anys[1..], d[1..])
  }

  /** The concatenation of the chosen patterns, the first part's first. */
  function Chosen<T>(anys: seq<seq<seq<T>>>, d: seq<nat>): seq<T>
    requires IsChoice(anys, d)
  {
    if anys == [] then [] else anys[0][d[0]] + Chosen(anys[1..], d[1..])
  }

  /** Every position below the product is a choice, at its own position. */
  lemma {:induction false} DigitsChoice<T>(anys: seq<seq<seq<T>>>, j: nat)
    requires NoneEmpty(anys) && j < Product(anys)
    ensures IsChoice(anys, Digits(anys, j))
    ensures Compose(anys, Digits(anys, j)) == j
    ensures Pattern(anys, j) == Chosen(anys, Digits(anys, j))
  {
    if anys != [] {
      var a := |anys[0]|;
      ProductFront(anys);
      QuotientBelow(j, a, Product(anys[1..]));
      DigitsChoice(anys[1..], j / a);
    }
  }

  lemma QuotientBelow(j: nat, a: nat, p: nat)
    requires a > 0 && j < a * p
    ensures j / a < p
    ensures j == j % a + a * (j / a)
  {
  }

  /** Every choice stands at a position below the product, whose digits are that choice. */
  lemma {:induction false} ChoiceDigits<T>(anys: seq<seq<seq<T>>>, d: seq<nat>)
    requires IsChoice(anys, d)
    ensures NoneEmpty(anys)
    ensures Compose(anys, d) < Product(anys)
    ensures Digits(anys, Compose(anys, d)) == d
  {
    if anys != [] {
      var a := |anys[0]|;
      ChoiceDigits(anys[1..], d[1..]);
      ProductFront(anys);
      var c := Compose(anys[1..], d[1..]);
      DigitBelow(d[0], a, c, Product(anys[1..]));
      assert d == [d[0]] + d[1..];
    }
  }

  lemma DigitBelow(x: nat, a: nat, c: nat, p: nat)
    requires x < a && c < p
    ensures x + a * c < a * p
    ensures (x + a * c) % a == x && (x + a * c) / a == c
  {
    MulMonotone(a, c + 1, p);
    DivUnique(x + a * c, a, c, x);
  }

  lemma MulMonotone(a: nat, b: nat, c: nat)
    requires b <= c
    ensures a * b <= a * c
  {
  }

  /** Euclidean division has one quotient and one remainder. */
  lemma DivUnique(n: int, a: int, q: int, r: int)
    requires a > 0 && 0 <= r < a && n == a * q + r
    ensures n / a == q && n % a == r
  {
    var q', r' := n / a, n % a;
    assert n == a * q' + r';
    if q' > q {
      MulMonotone(a, 1, q' - q);
    } else if q' < q {
      MulMonotone(a, 1, q - q');
    }
  }

  /**
   * `All.satisfy` lists choices of one pattern per part: the pattern at
   * position `i` is the choice given by the digits of `i`, which stand at `i`.
   */
  lemma AllPatternsAreChoices<T>(anys: seq<seq<seq<T>>>)
    ensures |AllPatterns(anys)| > 0 ==> NoneEmpty(anys)
    ensures forall i :: 0 <= i < |AllPatterns(anys)| ==>
      IsChoice(anys, Digits(anys, i)) && Compose(anys, Digits(anys, i)) == i &&
      AllPatterns(anys)[i] == Chosen(anys, Digits(anys, i))
  {
    ProductFront(anys);
    forall i | 0 <= i < |AllPatterns(anys)|
      ensures IsChoice(anys, Digits(anys, i)) && Compose(anys, Digits(anys, i)) == i &&
        AllPatterns(anys)[i] == Chosen(anys, Digits(anys, i))
    {
      assert AllPatterns(anys)[i] == Pattern(anys, i);
      DigitsChoice(anys, i);
    }
  }

  /** `All.satisfy` lists every choice of one pattern per part, at its own position. */
  lemma AllPatternsHaveChoices<T>(anys: seq<seq<seq<T>>>)
    ensures forall d :: IsChoice(anys, d) ==>
      Compose(anys, d) < |AllPatterns(anys)| && AllPatterns(anys)[Compose(anys, d)] == Chosen(anys, d)
  {
    forall d | IsChoice(anys, d)
      ensures Compose(anys, d) < |AllPatterns(anys)| && AllPatterns(anys)[Compose(anys, d)] == Chosen(anys, d)
    {
      ChoiceDigits(anys, d);
      DigitsChoice(anys, Compose(anys, d));
      ProductFront(anys);
      assert AllPatterns(anys)[Compose(anys, d)] == Pattern(anys, Compose(anys, d));
    }
  }

  // ---------------------------------------------------------------------
  // iterateCombination
  // ---------------------------------------------------------------------

  /** `iterateCombination(n, source, picked)`: `picked` followed by every `n` elements of `source`, in order. */
  function Combos<T>(n: nat, source: seq<T>, picked: seq<T>): seq<seq<T>>
    decreases |source|, 1, 0
  {
    if n == 0 then [picked] else CombosFrom(n, source, picked, 0)
  }

  /** The iterations of the `for` loop of `iterateCombination` from `i` on. */
  function CombosFrom<T>(n: nat, source: seq<T>, picked: seq<T>, i: nat): seq<seq<T>>
    requires n > 0
    decreases |source|, 0, |source| - i
  {
    if i + n > |source| then []
    else Combos(n - 1, source[i + 1..], picked + [source[i]]) + CombosFrom(n, source, picked, i + 1)
  }

  /** `[...iterateCombination(n, source)]`. */
  function Combinations<T>(n: nat, source: seq<T>): seq<seq<T>>
  {
    Combos(n, source, [])
  }

  /** Pascal's triangle: the number of ways to pick `k` of `m`, zero when `k > m`. */
  function Binomial(m: nat, k: nat): nat
  {
    if k == 0 then 1 else if m == 0 then 0 else Binomial(m - 1, k - 1) + Binomial(m - 1, k)
  }

  lemma {:induction false} BinomialAbove(m: nat, k: nat)
    requires m < k
    ensures Binomial(m, k) == 0
  {
    if m > 0 {
      BinomialAbove(m - 1, k - 1);
      BinomialAbove(m - 1, k);
    }
  }

  /** `iterateCombination(n, source)` yields C(|source|, n) lists, none when `n > |source|`. */
  lemma {:induction false} CombosCount<T>(n: nat, source: seq<T>, picked: seq<T>)
    ensures |Combos(n, source, picked)| == Binomial(|source|, n)
    decreases |source|, 1, 0
  {
    if n > 0 {
      CombosFromCount(n, source, picked, 0);
    }
  }

  lemma {:induction false} CombosFromCount<T>(n: nat, source: seq<T>, picked: seq<T>, i: nat)
    requires n > 0 && i <= |source|
    ensures |CombosFrom(n, source, picked, i)| == Binomial(|source| - i, n)
    decreases |source|, 0, |source| - i
  {
    if i + n > |source| {
      BinomialAbove(|source| - i, n);
    } else {
      CombosCount(n - 1, source[i + 1..], picked + [source[i]]);
      CombosFromCount(n, source, picked, i + 1);
    }
  }

  /** `a` is `s` with some elements left out, the rest kept in order. */
  predicate IsSubsequence<T(==)>(a: seq<T>, s: seq<T>)
    decreases |s|
  {
    if a == [] then true
    else if s == [] then false
    else (a[0] == s[0] && IsSubsequence(a[1..], s[1..])) || IsSubsequence(a, s[1..])
  }

  lemma {:induction false} SubsequenceDrop<T>(a: seq<T>, s: seq<T>, i: nat)
    requires i <= |s| && IsSubsequence(a, s[i..])
    ensures IsSubsequence(a, s)
    decreases i
  {
    if i > 0 {
      assert s[i..] == s[1..][i - 1..];
      SubsequenceDrop(a, s[1..], i - 1);
      if a != [] {
        assert IsSubsequence(a, s[1..]);
      }
    }
  }

  /** Every element of a subsequence is an element of the sequence. */
  lemma {:induction false} SubsequenceMembers<T>(a: seq<T>, s: seq<T>)
    requires IsSubsequence(a, s)
    ensures forall x :: x in a ==> x in s
    decreases |s|
  {
    if a != [] {
      if a[0] == s[0] && IsSubsequence(a[1..], s[1..]) {
        SubsequenceMembers(a[1..], s[1..]);
        assert a == [a[0]] + a[1..];
      } else {
        SubsequenceMembers(a, s[1..]);
      }
    }
  }

  /** Each list yielded is `picked` followed by `n` elements of `source` in their order. */
  lemma {:induction false} CombosShape<T>(n: nat, source: seq<T>, picked: seq<T>)
    ensures forall c :: c in Combos(n, source, picked) ==>
      |c| == |picked| + n && c[..|picked|] == picked && IsSubsequence(c[|picked|..], source)
    decreases |source|, 1, 0
  {
    if n > 0 {
      CombosFromShape(n, source, picked, 0);
    }
  }

  lemma {:induction false} CombosFromShape<T>(n: nat, source: seq<T>, picked: seq<T>, i: nat)
    requires n > 0 && i <= |source|
    ensures forall c :: c in CombosFrom(n, source, picked, i) ==>
      |c| == |picked| + n && c[..|picked|] == picked && IsSubsequence(c[|picked|..], source)
    decreases |source|, 0, |source| - i
  {
    if i + n <= |source| {
      var p' := picked + [source[i]];
      var rest := source[i + 1..];
      CombosShape(n - 1, rest, p');
      CombosFromShape(n, source, picked, i + 1);
      forall c | c in Combos(n - 1, rest, p')
        ensures |c| == |picked| + n && c[..|picked|] == picked && IsSubsequence(c[|picked|..], source)
      {
        var tail := c[|picked|..];
        assert c[..|p'|] == p';
        assert tail[0] == source[i];
        assert tail[1..] == c[|p'|..];
        assert source[i..][1..] == rest;
        assert IsSubsequence(tail, source[i..]);
        SubsequenceDrop(tail, source, i);
        assert c[..|picked|] == p'[..|picked|];
      }
    }
  }

  /** `c => c.map(f)`, named so that every use is the same function. */
  function MapEach<T, U>(f: T -> U): seq<T> -> seq<U>
  {
    (c: seq<T>) => Map(c, f)
  }

  /** Picking from mapped elements is mapping the picks. */
  lemma {:induction false} CombosMap<T, U>(n: nat, source: seq<T>, picked: seq<T>, f: T -> U)
    ensures Combos(n, Map(source, f), Map(picked, f)) == Map(Combos(n, source, picked), MapEach(f))
    decreases |source|, 1, 0
  {
    if n > 0 {
      CombosFromMap(n, source, picked, f, 0);
    }
  }

  lemma {:induction false} CombosFromMap<T, U>(n: nat, source: seq<T>, picked: seq<T>, f: T -> U, i: nat)
    requires n > 0
    ensures CombosFrom(n, Map(source, f), Map(picked, f), i) == Map(CombosFrom(n, source, picked, i), MapEach(f))
    decreases |source|, 0, |source| - i
  {
    if i + n <= |source| {
      CombosMap(n - 1, source[i + 1..], picked + [source[i]], f);
      CombosFromMap(n, source, picked, f, i + 1);
      assert Map(source, f)[i + 1..] == Map(source[i + 1..], f);
      assert Map(picked, f) + [Map(source, f)[i]] == Map(picked + [source[i]], f);
      MapConcat(Combos(n - 1, source[i + 1..], picked + [source[i]]), CombosFrom(n, source, picked, i + 1), MapEach(f));
    }
  }

  /** `a` comes before `b` in lexicographic order. */
  ghost predicate LexBefore(a: seq<nat>, b: seq<nat>)
  {
    exists k :: 0 <= k < |a| && k < |b| && a[..k] == b[..k] && a[k] < b[k]
  }

  ghost predicate LexSorted(cs: seq<seq<nat>>)
  {
    forall x, y :: 0 <= x < y < |cs| ==> LexBefore(cs[x], cs[y])
  }

  /** Every list of `cs` starts with `p` followed by an element at least `v`. */
  ghost predicate HeadsFrom(cs: seq<seq<nat>>, p: seq<nat>, v: nat)
  {
    forall x :: 0 <= x < |cs| ==> |cs[x]| > |p| && cs[x][..|p|] == p && cs[x][|p|] >= v
  }

  /** Lists that all start with `p` and then `v`, followed by lists that start with `p` and then more than `v`. */
  lemma LexSortedConcat(a: seq<seq<nat>>, b: seq<seq<nat>>, p: seq<nat>, v: nat)
    requires LexSorted(a) && LexSorted(b)
    requires HeadsFrom(a, p, v) && forall x :: 0 <= x < |a| ==> a[x][|p|] <= v
    requires HeadsFrom(b, p, v + 1)
    ensures LexSorted(a + b)
  {
    var ab := a + b;
    forall x, y | 0 <= x < y < |ab|
      ensures LexBefore(ab[x], ab[y])
    {
      if y < |a| {
        assert LexBefore(a[x], a[y]);
      } else if x >= |a| {
        assert LexBefore(b[x - |a|], b[y - |a|]);
      } else {
        var k := |p|;
        assert ab[x][..k] == p == ab[y][..k] && ab[x][k] < ab[y][k];
      }
    }
  }

  /** The lists picked after `picked + [v]` start with `picked` and then exactly `v`. */
  lemma CombosExactHeads(n: nat, source: seq<nat>, picked: seq<nat>, v: nat)
    ensures HeadsFrom(Combos<nat>(n, source, picked + [v]), picked, v)
    ensures forall x :: 0 <= x < |Combos<nat>(n, source, picked + [v])| ==> Combos<nat>(n, source, picked + [v])[x][|picked|] <= v
  {
    var p' := picked + [v];
    var a := Combos<nat>(n, source, p');
    CombosShape(n, source, p');
    forall x | 0 <= x < |a|
      ensures |a[x]| > |picked| && a[x][..|picked|] == picked && a[x][|picked|] == v
    {
      assert a[x] in a;
      assert a[x][..|p'|] == p';
      assert a[x][..|picked|] == p'[..|picked|];
    }
  }

  lemma HeadsConcat(a: seq<seq<nat>>, b: seq<seq<nat>>, p: seq<nat>, v: nat, w: nat)
    requires HeadsFrom(a, p, v) && HeadsFrom(b, p, w) && v <= w
    ensures HeadsFrom(a + b, p, v)
  {
    assert forall x :: |a| <= x < |a + b| ==> (a + b)[x] == b[x - |a|];
  }

  /** The picks from positions `[lo, hi)` start with `picked` followed by a position at least `lo`. */
  lemma {:induction false} CombosHeads(n: nat, lo: nat, hi: nat, picked: seq<nat>)
    requires n > 0
    ensures HeadsFrom(Combos<nat>(n, Range(lo, hi), picked), picked, lo)
  {
    CombosFromHeads(n, lo, hi, picked, 0);
  }

  lemma {:induction false} CombosFromHeads(n: nat, lo: nat, hi: nat, picked: seq<nat>, i: nat)
    requires n > 0
    ensures HeadsFrom(CombosFrom<nat>(n, Range(lo, hi), picked, i), picked, lo + i)
    decreases |Range(lo, hi)| - i
  {
    if i + n <= |Range(lo, hi)| {
      CombosFromRange(n, lo, hi, picked, i);
      CombosExactHeads(n - 1, Range(lo + i + 1, hi), picked, lo + i);
      CombosFromHeads(n, lo, hi, picked, i + 1);
      HeadsConcat(Combos<nat>(n - 1, Range(lo + i + 1, hi), picked + [lo + i]),
                  CombosFrom<nat>(n, Range(lo, hi), picked, i + 1), picked, lo + i, lo + i + 1);
    }
  }

  /** Picking from positions `[lo, hi)` yields the picks in strictly increasing lexicographic order. */
  lemma {:induction false} CombosLex(n: nat, lo: nat, hi: nat, picked: seq<nat>)
    ensures LexSorted(Combos<nat>(n, Range(lo, hi), picked))
    decreases hi - lo, 1, 0
  {
    if n > 0 {
      CombosFromLex(n, lo, hi, picked, 0);
    }
  }

  lemma {:induction false} CombosFromLex(n: nat, lo: nat, hi: nat, picked: seq<nat>, i: nat)
    requires n > 0
    ensures LexSorted(CombosFrom<nat>(n, Range(lo, hi), picked, i))
    decreases hi - lo, 0, |Range(lo, hi)| - i
  {
    if i + n <= |Range(lo, hi)| {
      CombosFromRange(n, lo, hi, picked, i);
      CombosLex(n - 1, lo + i + 1, hi, picked + [lo + i]);
      CombosExactHeads(n - 1, Range(lo + i + 1, hi), picked, lo + i);
      CombosFromLex(n, lo, hi, picked, i + 1);
      CombosFromHeads(n, lo, hi, picked, i + 1);
      LexSortedConcat(Combos<nat>(n - 1, Range(lo + i + 1, hi), picked + [lo + i]),
                      CombosFrom<nat>(n, Range(lo, hi), picked, i + 1), picked, lo + i);
    }
  }

  /** One iteration of the loop over positions: the picks starting with position `lo + i`, then the rest. */
  lemma CombosFromRange(n: nat, lo: nat, hi: nat, picked: seq<nat>, i: nat)
    requires n > 0 && i + n <= |Range(lo, hi)|
    ensures CombosFrom<nat>(n, Range(lo, hi), picked, i)
         == Combos<nat>(n - 1, Range(lo + i + 1, hi), picked + [lo + i]) + CombosFrom<nat>(n, Range(lo, hi), picked, i + 1)
  {
    var source := Range(lo, hi);
    assert source[i] == lo + i;
    assert source[i + 1..] == Range(lo + i + 1, hi);
  }

  // ---------------------------------------------------------------------
  // satisfy and collect
  // ---------------------------------------------------------------------

  /** `rule.satisfy()`: the ways to meet the rule, each the list of values it takes. */
  function Satisfy<T>(r: Rule<T>): seq<seq<T>>
    decreases r, 1
  {
    match r
    case Value(v) => [[v]]
    case All(cs) => AllOf(SatisfyEach(cs))
    case PickN(n, cs) => Flatten(Map(Combinations(n, SatisfyEach(cs)), AllOf<T>))
    case Any(cs) => Flatten(SatisfyEach(cs))
  }

  /** `choices.map(p => p.satisfy())`. */
  function SatisfyEach<T>(cs: seq<Rule<T>>): (ps: seq<seq<seq<T>>>)
    ensures |ps| == |cs|
    ensures forall k :: 0 <= k < |cs| ==> ps[k] == Satisfy(cs[k])
    decreases cs, 0
  {
    if cs == [] then [] else [Satisfy(cs[0])] + SatisfyEach(cs[1..])
  }

  /** The patterns of `All`, given its parts' patterns in the parts' order: they are reversed, then combined. */
  function AllOf<T>(parts: seq<seq<seq<T>>>): seq<seq<T>>
  {
    AllPatterns(Reverse(parts))
  }

  /** `rule.collect()`: every value the rule mentions, left to right. */
  function Collect<T>(r: Rule<T>): seq<T>
    decreases r, 1
  {
    match r
    case Value(v) => [v]
    case All(cs) => Flatten(CollectEach(cs))
    case PickN(_, cs) => Flatten(CollectEach(cs))
    case Any(cs) => Flatten(CollectEach(cs))
  }

  /** `choices.map(c => c.collect())`. */
  function CollectEach<T>(cs: seq<Rule<T>>): (vs: seq<seq<T>>)
    ensures |vs| == |cs|
    ensures forall k :: 0 <= k < |cs| ==> vs[k] == Collect(cs[k])
    decreases cs, 0
  {
    if cs == [] then [] else [Collect(cs[0])] + CollectEach(cs[1..])
  }

  /** `new All(ch).satisfy()`. */
  function SatisfyAll<T>(ch: seq<Rule<T>>): seq<seq<T>>
  {
    Satisfy(All(ch))
  }

  /** `$course`-style leaf: a rule met by one value. */
  function Leaf<T>(v: T): Rule<T>
  {
    Value(v)
  }

  /** The only pattern of a leaf. */
  function Single<T>(v: T): seq<seq<T>>
  {
    [[v]]
  }

  /**
   * `PickN.satisfy` combines the rules first and satisfies each combination
   * with `All`; satisfying the rules first and combining their patterns
   * lists the same patterns in the same order.
   */
  lemma PickNOrder<T>(n: nat, cs: seq<Rule<T>>)
    ensures Satisfy(PickN(n, cs)) == Flatten(Map(Combinations(n, cs), SatisfyAll<T>))
  {
    var se := SatisfyEach(cs);
    assert se == Map(cs, Satisfy<T>);
    assert Map([], Satisfy<T>) == [];
    CombosMap(n, cs, [], Satisfy<T>);
    var x := Combinations(n, cs);
    forall i | 0 <= i < |x|
      ensures Map(Map(x, MapEach(Satisfy<T>)), AllOf<T>)[i] == Map(x, SatisfyAll<T>)[i]
    {
      assert SatisfyEach(x[i]) == Map(x[i], Satisfy<T>);
    }
    assert Map(Map(x, MapEach(Satisfy<T>)), AllOf<T>) == Map(x, SatisfyAll<T>);
  }

  /** Parts with one pattern each have one combined pattern, their values in order. */
  lemma {:induction false} SinglesPattern<T>(s: seq<T>)
    ensures NoneEmpty(Map(s, Single<T>))
    ensures Product(Map(s, Single<T>)) == 1
    ensures Pattern(Map(s, Single<T>), 0) == s
  {
    var anys := Map(s, Single<T>);
    ProductFront(anys);
    if s != [] {
      SinglesPattern(s[1..]);
      assert anys[1..] == Map(s[1..], Single<T>);
    }
  }

  /** `All` over leaves has the one pattern listing their values last first. */
  lemma AllOfSingles<T>(s: seq<T>)
    ensures AllOf(Map(s, Single<T>)) == [Reverse(s)]
  {
    assert Reverse(Map(s, Single<T>)) == Map(Reverse(s), Single<T>);
    SinglesPattern(Reverse(s));
  }

  /**
   * `PickN` over leaves yields one pattern per way to pick `n` of the
   * values, in the order `iterateCombination` picks them, each listing its
   * values last first; so there are `C(|vs|, n)` of them.
   */
  lemma PickNLeaves<T>(n: nat, vs: seq<T>)
    ensures Satisfy(PickN(n, Map(vs, Leaf<T>))) == Map(Combinations(n, vs), Reverse<T>)
    ensures |Satisfy(PickN(n, Map(vs, Leaf<T>)))| == Binomial(|vs|, n)
  {
    var cs := Map(vs, Leaf<T>);
    var x := Combinations(n, vs);
    assert SatisfyEach(cs) == Map(vs, Single<T>);
    assert Map([], Single<T>) == [];
    CombosMap(n, vs, [], Single<T>);
    var y := Map(Map(x, MapEach(Single<T>)), AllOf<T>);
    assert Satisfy(PickN(n, cs)) == Flatten(y);
    forall i | 0 <= i < |x|
      ensures y[i] == [Reverse(x[i])]
    {
      assert Map(x, MapEach(Single<T>))[i] == Map(x[i], Single<T>);
      AllOfSingles(x[i]);
    }
    FlattenSingles(y);
    assert Flatten(y) == Map(x, Reverse<T>);
    CombosCount(n, vs, []);
  }

  /** The patterns of `Any` are those of its parts, one part after the other. */
  lemma AnyPatterns<T>(cs: seq<Rule<T>>)
    ensures forall p :: p in Satisfy(Any(cs)) <==> exists k :: 0 <= k < |cs| && p in Satisfy(cs[k])
    ensures |Satisfy(Any(cs))| == Sum(Map(SatisfyEach(cs), Length<seq<T>>))
  {
    forall p
      ensures p in Satisfy(Any(cs)) <==> exists k :: 0 <= k < |cs| && p in Satisfy(cs[k])
    {
      FlattenMembers(SatisfyEach(cs), p);
    }
    FlattenLength(SatisfyEach(cs));
  }

  /** The product does not depend on the order of the parts. */
  lemma {:induction false} ProductReverse<T>(anys: seq<seq<seq<T>>>)
    ensures Product(Reverse(anys)) == Product(anys)
  {
    if anys != [] {
      ProductReverse(anys[1..]);
      ProductFront(anys);
      var r := Reverse(anys);
      assert r[..|r| - 1] == Reverse(anys[1..]);
    }
  }

  /** `All` has as many patterns as the product of its parts' counts; `All([])` has the one empty pattern. */
  lemma AllCount<T>(cs: seq<Rule<T>>)
    ensures |Satisfy(All(cs))| == Product(SatisfyEach(cs))
    ensures cs == [] ==> Satisfy(All(cs)) == [[]]
  {
    ProductReverse(SatisfyEach(cs));
    if cs == [] {
      assert Reverse(SatisfyEach(cs)) == [];
      assert Pattern<T>([], 0) == [];
    }
  }

  /** A value in a chosen pattern comes from the pattern chosen for one part. */
  lemma {:induction false} ChosenMembers<T>(anys: seq<seq<seq<T>>>, d: seq<nat>, x: T)
    requires IsChoice(anys, d) && x in Chosen(anys, d)
    ensures exists k :: 0 <= k < |anys| && x in anys[k][d[k]]
  {
    if x !in anys[0][d[0]] {
      ChosenMembers(anys[1..], d[1..], x);
      var k :| 0 <= k < |anys[1..]| && x in anys[1..][k][d[1..][k]];
      assert x in anys[k + 1][d[k + 1]];
    }
  }

  /** A value in a pattern of `All` comes from a pattern of one of the parts. */
  lemma PatternPart<T>(anys: seq<seq<seq<T>>>, p: seq<T>, x: T)
    requires p in AllPatterns(anys) && x in p
    ensures exists k, q :: 0 <= k < |anys| && q in anys[k] && x in q
  {
    AllPatternsAreChoices(anys);
    var i :| 0 <= i < |AllPatterns(anys)| && AllPatterns(anys)[i] == p;
    var d := Digits(anys, i);
    ChosenMembers(anys, d, x);
    var k :| 0 <= k < |anys| && x in anys[k][d[k]];
    assert anys[k][d[k]] in anys[k];
  }

  lemma PartCollected<T>(cs: seq<Rule<T>>, j: nat, x: T)
    requires j < |cs| && x in Collect(cs[j])
    ensures x in Flatten(CollectEach(cs))
  {
    FlattenMembers(CollectEach(cs), x);
  }

  /** Whatever way the rule is met, every value it takes is among those `collect` lists. */
  ghost predicate Covered<T>(r: Rule<T>)
  {
    forall p, x :: p in Satisfy(r) && x in p ==> x in Collect(r)
  }

  /** Every choice of the rule is `Covered`. */
  ghost predicate PartsCovered<T>(cs: seq<Rule<T>>)
  {
    forall j :: 0 <= j < |cs| ==> Covered(cs[j])
  }

  /** Every value of every pattern of `ps` is in `xs`. */
  ghost predicate Within<T>(ps: seq<seq<T>>, xs: seq<T>)
  {
    forall p, x :: p in ps && x in p ==> x in xs
  }

  /** The parts' patterns take only values the rule collects. */
  lemma EachWithin<T>(cs: seq<Rule<T>>)
    requires PartsCovered(cs)
    ensures forall j :: 0 <= j < |cs| ==> Within(SatisfyEach(cs)[j], Flatten(CollectEach(cs)))
  {
    forall j, p, x | 0 <= j < |cs| && p in SatisfyEach(cs)[j] && x in p
      ensures x in Flatten(CollectEach(cs))
    {
      PartCollected(cs, j, x);
    }
  }

  lemma FlattenWithin<T>(pss: seq<seq<seq<T>>>, xs: seq<T>)
    requires forall i :: 0 <= i < |pss| ==> Within(pss[i], xs)
    ensures Within(Flatten(pss), xs)
  {
    forall p, x | p in Flatten(pss) && x in p
      ensures x in xs
    {
      FlattenMembers(pss, p);
    }
  }

  lemma AllPatternsWithin<T>(anys: seq<seq<seq<T>>>, xs: seq<T>)
    requires forall k :: 0 <= k < |anys| ==> Within(anys[k], xs)
    ensures Within(AllPatterns(anys), xs)
  {
    forall p, x | p in AllPatterns(anys) && x in p
      ensures x in xs
    {
      PatternPart(anys, p, x);
    }
  }

  lemma AnyCovered<T>(cs: seq<Rule<T>>)
    requires PartsCovered(cs)
    ensures Covered(Any(cs))
  {
    EachWithin(cs);
    FlattenWithin(SatisfyEach(cs), Flatten(CollectEach(cs)));
  }

  lemma AllCovered<T>(cs: seq<Rule<T>>)
    requires PartsCovered(cs)
    ensures Covered(All(cs))
  {
    EachWithin(cs);
    AllPatternsWithin(Reverse(SatisfyEach(cs)), Flatten(CollectEach(cs)));
  }

  /** The parts of a combination are parts of the source. */
  lemma CombinationParts<T>(n: nat, source: seq<T>, i: nat)
    requires i < |Combinations(n, source)|
    ensures forall e :: e in Combinations(n, source)[i] ==> e in source
  {
    var c := Combinations(n, source)[i];
    CombosShape(n, source, []);
    assert c in Combinations(n, source);
    assert c[0..] == c;
    SubsequenceMembers(c, source);
  }

  lemma PickNCovered<T>(n: nat, cs: seq<Rule<T>>)
    requires PartsCovered(cs)
    ensures Covered(PickN(n, cs))
  {
    var se := SatisfyEach(cs);
    var xs := Flatten(CollectEach(cs));
    var combos := Combinations(n, se);
    EachWithin(cs);
    forall i | 0 <= i < |combos|
      ensures Within(Map(combos, AllOf<T>)[i], xs)
    {
      CombinationParts(n, se, i);
      var anys := Reverse(combos[i]);
      forall k | 0 <= k < |anys|
        ensures Within(anys[k], xs)
      {
        assert anys[k] in combos[i];
      }
      AllPatternsWithin(anys, xs);
    }
    FlattenWithin(Map(combos, AllOf<T>), xs);
  }

  /** Whatever way a rule is met, every value it takes is among those `collect` lists. */
  lemma CollectCovers<T>(r: Rule<T>)
    ensures forall p, x :: p in Satisfy(r) && x in p ==> x in Collect(r)
    decreases r
  {
    if !r.Value? {
      forall j | 0 <= j < |r.choices|
        ensures Covered(r.choices[j])
      {
        CollectCovers(r.choices[j]);
      }
      match r
      case Any(cs) => AnyCovered(cs);
      case All(cs) => AllCovered(cs);
      case PickN(n, cs) => PickNCovered(n, cs);
    }
  }

  /** `iterateCombination` over positions yields distinct picks, in increasing lexicographic order. */
  lemma CombinationsDistinct(n: nat, m: nat)
    ensures LexSorted(Combinations<nat>(n, Range(0, m)))
    ensures forall x, y :: 0 <= x < y < |Combinations<nat>(n, Range(0, m))| ==>
      Combinations<nat>(n, Range(0, m))[x] != Combinations<nat>(n, Range(0, m))[y]
  {
    var cs := Combinations<nat>(n, Range(0, m));
    CombosLex(n, 0, m, []);
    forall x, y | 0 <= x < y < |cs|
      ensures cs[x] != cs[y]
    {
      assert LexBefore(cs[x], cs[y]);
      var k :| 0 <= k < |cs[x]| && k < |cs[y]| && cs[x][..k] == cs[y][..k] && cs[x][k] < cs[y][k];
    }
  }

  /** A one-element list. */
  function Unit<T>(x: T): seq<T>
  {
    [x]
  }

  lemma {:induction false} CombosFromOne<T>(s: seq<T>, i: nat)
    requires i <= |s|
    ensures CombosFrom(1, s, [], i) == Map(s[i..], Unit<T>)
    decreases |s| - i
  {
    if i < |s| {
      CombosFromOne(s, i + 1);
      var none: seq<T> := [];
      assert none + [s[i]] == [s[i]];
      assert Combos(0, s[i + 1..], none + [s[i]]) == [[s[i]]];
      assert s[i..] == [s[i]] + s[i + 1..];
      assert Map(s[i..], Unit<T>) == [[s[i]]] + Map(s[i + 1..], Unit<T>);
    }
  }

  /** Picking one of several leaves gives one pattern per leaf, in order (`pickBio` gives three). */
  lemma PickOneLeaf<T>(vs: seq<T>)
    ensures Satisfy(PickN(1, Map(vs, Leaf<T>))) == Map(vs, Unit<T>)
  {
    PickNLeaves(1, vs);
    CombosFromOne(vs, 0);
    assert vs[0..] == vs;
    var x := Combinations(1, vs);
    assert x == Map(vs, Unit<T>);
    forall i | 0 <= i < |vs|
      ensures Map(x, Reverse<T>)[i] == Map(vs, Unit<T>)[i]
    {
      assert Reverse([vs[i]]) == [vs[i]];
    }
  }

  // ---------------------------------------------------------------------
  // apply: rows for the required courses a transcript lacks
  // ---------------------------------------------------------------------

  /** `RequiredCourse`: a course code and its credit. */
  datatype RequiredCourse = RequiredCourse(code: CourseCode, credit: Credit)

  /** No row of `to` is of the course `code`: `!to.some(r => r.course.code == code)`. */
  predicate Absent(to: seq<SpecificReport>, code: CourseCode)
  {
    forall k :: 0 <= k < |to| ==> to[k].course.code != code
  }

  /** The test of `filter`: the course is required but `to` lacks it. */
  function Missing(to: seq<SpecificReport>): RequiredCourse -> bool
  {
    (c: RequiredCourse) => Absent(to, c.code)
  }

  /** `requiredCourse.filter(c => !to.some(...))`: the required courses `to` lacks, in requirement order. */
  function Yet(required: seq<RequiredCourse>, to: seq<SpecificReport>): (yet: seq<RequiredCourse>)
    ensures forall c :: c in yet <==> c in required && Absent(to, c.code)
  {
    FilterMembers(required, Missing(to));
    Filter(required, Missing(to))
  }

  /**
   * The row added for a missing required course: grade 未履修, point 0, and
   * a course with only a code and a credit. Its identity is `id`.
   */
  function InjectedRow(id: nat, c: RequiredCourse): (r: SpecificReport)
    ensures r.Injected? && r.id == id
    ensures r.course.code == c.code && r.course.credit == c.credit
    ensures r.HasPoint() && r.PointOf() == 0 && r.GradeOf() == Mirishu
  {
    Injected(id, Course(c.code, None, None, c.credit))
  }

  /**
   * `apply(requiredCourse, to)`: `to`, then one row per missing required
   * course; the new rows are the objects numbered from `firstId` on.
   */
  function Apply(required: seq<RequiredCourse>, to: seq<SpecificReport>, firstId: nat): seq<SpecificReport>
  {
    var yet := Yet(required, to);
    to + seq(|yet|, k requires 0 <= k < |yet| => InjectedRow(firstId + k, yet[k]))
  }

  /**
   * The rows of `to` come first and unchanged; after them comes one row per
   * required course whose code `to` lacks, in requirement order.
   */
  lemma ApplyRows(required: seq<RequiredCourse>, to: seq<SpecificReport>, firstId: nat)
    ensures to <= Apply(required, to, firstId)
    ensures |Apply(required, to, firstId)| == |to| + |Yet(required, to)|
    ensures forall k :: 0 <= k < |Yet(required, to)| ==>
      Apply(required, to, firstId)[|to| + k] == InjectedRow(firstId + k, Yet(required, to)[k])
  {
  }

  /** Every added row is a 未履修, point-0 row of a required course `to` lacks, with its credit. */
  lemma ApplyAdded(required: seq<RequiredCourse>, to: seq<SpecificReport>, firstId: nat, k: nat)
    requires |to| <= k < |Apply(required, to, firstId)|
    ensures Apply(required, to, firstId)[k].GradeOf() == Mirishu
    ensures Apply(required, to, firstId)[k].PointOf() == 0
    ensures Absent(to, Apply(required, to, firstId)[k].course.code)
    ensures exists c :: (c in required && c.code == Apply(required, to, firstId)[k].course.code &&
      c.credit == Apply(required, to, firstId)[k].course.credit)
  {
    var yet := Yet(required, to);
    var c := yet[k - |to|];
    assert c in yet;
    assert Apply(required, to, firstId)[k] == InjectedRow(firstId + k - |to|, c);
  }

  /** Afterwards every required course has a row. */
  lemma ApplyCovers(required: seq<RequiredCourse>, to: seq<SpecificReport>, firstId: nat)
    ensures forall c :: c in required ==> !Absent(Apply(required, to, firstId), c.code)
  {
    var yet := Yet(required, to);
    var r := Apply(required, to, firstId);
    forall c | c in required
      ensures !Absent(r, c.code)
    {
      if Absent(to, c.code) {
        assert c in yet;
        var k :| 0 <= k < |yet| && yet[k] == c;
        assert r[|to| + k].course.code == c.code;
      } else {
        var k :| 0 <= k < |to| && to[k].course.code == c.code;
        assert r[k] == to[k];
      }
    }
  }

  /** A second application adds nothing: the result no longer lacks a required course. */
  lemma ApplyIdempotent(required: seq<RequiredCourse>, to: seq<SpecificReport>, firstId: nat, nextId: nat)
    ensures Apply(required, Apply(required, to, firstId), nextId) == Apply(required, to, firstId)
  {
    var r := Apply(required, to, firstId);
    ApplyCovers(required, to, firstId);
    FilterNone(required, Missing(r));
    assert r + [] == r;
  }
}

=== FILE: distribute_basic.dfy ===
/**
 * `distributeBasic` (src/weights.ts): the weights of the basic average.
 * Every credit of every allocated report becomes one unit. Quotas are
 * visited children first; each fills its `minSub` sub-quotas and its
 * capacity `n` with the best units its constraints accept (weight 1),
 * padding with point-0 placeholders where reports are missing. Every
 * unit left then gets 0.1 where the constraints allow it and 0 otherwise.
 */
module BasicWeights {
  import opened Wrappers
  import opened Seqs
  import opened Courses
  import opened Reports
  import opened QuotaDefinitions
  import opened QuotaTrees
  import opened AllocationProperties
  import opened Weights
  import opened Remains
  import opened Distributions

  /** The test of the trim: `r.type != 'unenrolled-specific' && r.type != 'unenrolled-somewhat'`. */
  predicate Kept(r: ScoredReport)
  {
    !IsUnenrolledReport(r)
  }

  // ---------------------------------------------------------------------
  // Where the credits of a report are: the balance kept by every phase
  // ---------------------------------------------------------------------

  /** The units of report `r` quota `q` has given out at 1 and at 0.1, plus the credits it has left. */
  function Handled(ones: seq<seq<ScoredReport>>, tenth: seq<seq<ScoredReport>>, credits: seq<Credits>,
                   q: nat, r: SpecificScoredReport): nat
    requires q < |ones| && q < |tenth| && q < |credits|
  {
    Count<ScoredReport>(ones[q], r) + Count<ScoredReport>(tenth[q], r) + CreditOf(credits[q], r)
  }

  /**
   * No quota hands out more units of a report than the credits it started
   * with, and a report that is not `unenrolled-*` loses none: its units
   * are all in `ones`, in `tenth` or still left.
   */
  ghost predicate Balanced(ones: seq<seq<ScoredReport>>, tenth: seq<seq<ScoredReport>>, credits: seq<Credits>,
                           start: seq<Credits>)
  {
    |ones| == |start| && |tenth| == |start| && |credits| == |start|
    && forall q, r: SpecificScoredReport :: 0 <= q < |start| ==>
         Handled(ones, tenth, credits, q, r) <= CreditOf(start[q], r)
         && (Kept(r) ==> Handled(ones, tenth, credits, q, r) == CreditOf(start[q], r))
  }

  lemma CountSnoc<T>(s: seq<T>, x: T, y: T)
    ensures Count(s + [x], y) == Count(s, y) + (if x == y then 1 else 0)
  {
    CountConcat(s, [x], y);
  }

  /** Before anything is given out, every quota holds exactly its starting credits. */
  lemma BalancedStart(ones: seq<seq<ScoredReport>>, tenth: seq<seq<ScoredReport>>, start: seq<Credits>)
    requires |ones| == |start| && |tenth| == |start|
    requires forall q :: 0 <= q < |start| ==> ones[q] == [] && tenth[q] == []
    ensures Balanced(ones, tenth, start, start)
  {
  }

  /** Moving one credit of `s.r` from what is left to the weight-1 list of `s.q` keeps the balance. */
  lemma BalancedTakeOne(ones: seq<seq<ScoredReport>>, tenth: seq<seq<ScoredReport>>, credits: seq<Credits>,
                        start: seq<Credits>, s: Slot)
    requires Balanced(ones, tenth, credits, start) && AllValid(credits) && CreditAt(credits, s) >= 1
    ensures Balanced(ones[s.q := ones[s.q] + [s.r]], tenth, credits[s.q := Consumed(credits[s.q], s.r)], start)
  {
    var ones' := ones[s.q := ones[s.q] + [s.r]];
    var credits' := credits[s.q := Consumed(credits[s.q], s.r)];
    assert credits[s.q].Valid();
    ConsumedLowers(credits[s.q], s.r);
    forall q, r: SpecificScoredReport | 0 <= q < |start|
      ensures Handled(ones', tenth, credits', q, r) == Handled(ones, tenth, credits, q, r)
    {
      if q == s.q {
        CountSnoc<ScoredReport>(ones[q], s.r, r);
      }
    }
  }

  /** Moving one credit of `s.r` from what is left to the weight-0.1 list of `s.q` keeps the balance. */
  lemma BalancedTakeTenth(ones: seq<seq<ScoredReport>>, tenth: seq<seq<ScoredReport>>, credits: seq<Credits>,
                          start: seq<Credits>, s: Slot)
    requires Balanced(ones, tenth, credits, start) && AllValid(credits) && CreditAt(credits, s) >= 1
    ensures Balanced(ones, tenth[s.q := tenth[s.q] + [s.r]], credits[s.q := Consumed(credits[s.q], s.r)], start)
  {
    var tenth' := tenth[s.q := tenth[s.q] + [s.r]];
    var credits' := credits[s.q := Consumed(credits[s.q], s.r)];
    assert credits[s.q].Valid();
    ConsumedLowers(credits[s.q], s.r);
    forall q, r: SpecificScoredReport | 0 <= q < |start|
      ensures Handled(ones, tenth', credits', q, r) == Handled(ones, tenth, credits, q, r)
    {
      if q == s.q {
        CountSnoc<ScoredReport>(tenth[q], s.r, r);
      }
    }
  }

  /** A placeholder has no course, so it is none of the allocated reports and leaves the balance alone. */
  lemma BalancedPlaceholder(ones: seq<seq<ScoredReport>>, tenth: seq<seq<ScoredReport>>, credits: seq<Credits>,
                            start: seq<Credits>, q: nat, x: ScoredReport)
    requires Balanced(ones, tenth, credits, start) && q < |start| && !x.HasCourse()
    ensures Balanced(ones[q := ones[q] + [x]], tenth, credits, start)
  {
    var ones' := ones[q := ones[q] + [x]];
    forall p, r: SpecificScoredReport | 0 <= p < |start|
      ensures Handled(ones', tenth, credits, p, r) == Handled(ones, tenth, credits, p, r)
    {
      if p == q {
        CountSnoc<ScoredReport>(ones[p], x, r);
      }
    }
  }

  /** The trim only drops `unenrolled-*` reports, so the reports the balance is exact for keep every unit. */
  lemma BalancedTrim(ones: seq<seq<ScoredReport>>, tenth: seq<seq<ScoredReport>>, credits: seq<Credits>,
                     start: seq<Credits>, lo: nat, hi: nat)
    requires Balanced(ones, tenth, credits, start)
    ensures Balanced(FilteredRange(ones, lo, hi, Kept), tenth, credits, start)
  {
    var ones' := FilteredRange(ones, lo, hi, Kept);
    forall q, r: SpecificScoredReport | 0 <= q < |start|
      ensures Handled(ones', tenth, credits, q, r) <= Handled(ones, tenth, credits, q, r)
      ensures Kept(r) ==> Handled(ones', tenth, credits, q, r) == Handled(ones, tenth, credits, q, r)
    {
      if lo <= q < hi {
        assert ones'[q] == Filter(ones[q], Kept);
        CountFilterKept(ones[q], Kept, r);
      } else {
        assert ones'[q] == ones[q];
      }
    }
  }

  // ---------------------------------------------------------------------
  // The list of counted sub-quotas (`dsq`) only grows
  // ---------------------------------------------------------------------

  /**
   * `dsq` starts as `counted` and `distribute1` appends to it only entries
   * it does not hold yet, and only while fewer than `minSub` are listed.
   */
  ghost predicate Extends(counted: seq<Option<nat>>, dsq: seq<Option<nat>>, minSub: int)
  {
    && counted <= dsq
    && (|dsq| == |counted| || |dsq| <= minSub)
    && forall k :: |counted| <= k < |dsq| ==> dsq[k] !in dsq[..k]
  }

  lemma ExtendsStart(counted: seq<Option<nat>>, minSub: int)
    ensures Extends(counted, counted, minSub)
  {
  }

  lemma ExtendsStep(counted: seq<Option<nat>>, dsq: seq<Option<nat>>, minSub: int, x: Option<nat>)
    requires Extends(counted, dsq, minSub) && x !in dsq && |dsq| < minSub
    ensures Extends(counted, dsq + [x], minSub)
  {
    var d := dsq + [x];
    assert d[..|dsq|] == dsq;
    forall k | |counted| <= k < |d|
      ensures d[k] !in d[..k]
    {
      if k < |dsq| {
        assert d[..k] == dsq[..k];
      }
    }
  }

  /** The two loops of `distribute1` one after the other still only extend `counted`. */
  lemma ExtendsTrans(counted: seq<Option<nat>>, mid: seq<Option<nat>>, dsq: seq<Option<nat>>, minSub: int)
    requires Extends(counted, mid, minSub) && Extends(mid, dsq, minSub)
    ensures Extends(counted, dsq, minSub)
  {
    forall k | |counted| <= k < |dsq|
      ensures dsq[k] !in dsq[..k]
    {
      if k < |mid| {
        assert dsq[..k] == mid[..k];
      }
    }
  }

  /** What `dsq` lists beyond `counted` are sub-quotas among `ids`. */
  ghost predicate NewAmong(counted: seq<Option<nat>>, dsq: seq<Option<nat>>, ids: seq<nat>)
  {
    forall x :: x in dsq && x !in counted ==> x.Some? && x.value in ids
  }

  /** Every one of `ids` is listed in `dsq`. */
  ghost predicate ListsAll(dsq: seq<Option<nat>>, ids: seq<nat>)
  {
    forall c :: c in ids ==> Some(c) in dsq
  }

  lemma ListsAllStep(dsq: seq<Option<nat>>, ids: seq<nat>, k: nat, more: seq<Option<nat>>)
    requires k < |ids| && ListsAll(dsq, ids[..k])
    requires Some(ids[k]) in dsq + more
    ensures ListsAll(dsq + more, ids[..k + 1])
  {
    forall c | c in ids[..k + 1]
      ensures Some(c) in dsq + more
    {
      if c != ids[k] {
        assert c in ids[..k];
      }
    }
  }

  // ---------------------------------------------------------------------
  // The snapshot an iterator walks stays backed by credits
  // ---------------------------------------------------------------------

  /**
   * The units of the snapshot from position `i` on never outnumber the
   * credits left: `consume` is only ever called on a unit that still has
   * its credit.
   */
  ghost predicate SnapSafe(snap: seq<Slot>, i: nat, credits: seq<Credits>)
    requires i <= |snap|
  {
    forall s :: Count(snap[i..], s) <= CreditAt(credits, s)
  }

  /** The unit at the cursor has a credit left, and passing it over keeps the snapshot safe. */
  lemma SnapSkip(snap: seq<Slot>, i: nat, credits: seq<Credits>)
    requires i < |snap| && SnapSafe(snap, i, credits)
    ensures CreditAt(credits, snap[i]) >= 1
    ensures SnapSafe(snap, i + 1, credits)
  {
    assert snap[i..][1..] == snap[i + 1..];
    assert Count(snap[i..], snap[i]) >= 1;
  }

  /** Consuming the unit at the cursor keeps the rest of the snapshot safe. */
  lemma SnapConsume(snap: seq<Slot>, i: nat, credits: seq<Credits>)
    requires i < |snap| && SnapSafe(snap, i, credits) && AllValid(credits)
    ensures snap[i].q < |credits|
    ensures SnapSafe(snap, i + 1, credits[snap[i].q := Consumed(credits[snap[i].q], snap[i].r)])
  {
    var s := snap[i];
    assert snap[i..][1..] == snap[i + 1..];
    assert Count(snap[i..], s) >= 1;
    var credits' := credits[s.q := Consumed(credits[s.q], s.r)];
    assert credits[s.q].Valid();
    ConsumedLowers(credits[s.q], s.r);
    forall x
      ensures Count(snap[i + 1..], x) <= CreditAt(credits', x)
    {
      assert Count(snap[i..], x) == (if s == x then 1 else 0) + Count(snap[i + 1..], x);
    }
  }

  /** A snapshot of `under(q)` starts safe, and every unit in it belongs to the subtree of `q`. */
  lemma UnderSafe(t: QuotaTree, cs: seq<Credits>, q: nat, snap: seq<Slot>)
    requires Laid(t) && |cs| == |t.nodes| && AllValid(cs) && q < |t.nodes|
    requires multiset(snap) == multiset(UnderUnits(t, cs, q))
    ensures SnapSafe(snap, 0, cs)
    ensures forall k :: 0 <= k < |snap| ==> t.Encloses(q, snap[k].q)
    ensures InTree(t, snap)
  {
    forall s
      ensures Count(snap, s) <= CreditAt(cs, s)
      ensures Count(snap, s) > 0 ==> t.Encloses(q, s.q)
    {
      CountMultiset(snap, s);
      CountMultiset(UnderUnits(t, cs, q), s);
      UnderCount(t, cs, q, s);
    }
    assert snap[0..] == snap;
    forall k | 0 <= k < |snap|
      ensures t.Encloses(q, snap[k].q)
    {
      CountMultiset(snap, snap[k]);
    }
  }

  /** A snapshot of `all()` starts safe. */
  lemma AllSafe(cs: seq<Credits>, snap: seq<Slot>)
    requires AllValid(cs)
    requires multiset(snap) == multiset(AllUnits(cs, 0))
    ensures SnapSafe(snap, 0, cs)
    ensures forall k :: 0 <= k < |snap| ==> snap[k].q < |cs|
  {
    forall s
      ensures Count(snap, s) <= CreditAt(cs, s)
    {
      CountMultiset(snap, s);
      CountMultiset(AllUnits(cs, 0), s);
      AllCount(cs, 0, s);
    }
    assert snap[0..] == snap;
    forall k | 0 <= k < |snap|
      ensures snap[k].q < |cs|
    {
      CountMultiset(snap, snap[k]);
    }
  }

  // ---------------------------------------------------------------------
  // The reasons recorded for the weights
  // ---------------------------------------------------------------------

  function DigitText(d: nat): char
    requires d < 10
  {
    "0123456789"[d]
  }

  /** The decimal text of `n`. */
  function NatText(n: nat): string
  {
    if n < 10 then [DigitText(n)] else NatText(n / 10) + [DigitText(n % 10)]
  }

  /** How a template literal prints an integer. */
  function IntText(i: int): string
  {
    if i < 0 then "-" + NatText(-i) else NatText(i)
  }

  function Quoted(name: string): string
  {
    "「" + name + "」"
  }

  /** `subQuotas.map(sq => `「${sq.name}」`).join('，')`. */
  function NamesText(t: QuotaTree, ids: seq<nat>): string
    requires forall k :: 0 <= k < |ids| ==> ids[k] < |t.nodes|
  {
    if ids == [] then ""
    else if |ids| == 1 then Quoted(t.nodes[ids[0]].name)
    else Quoted(t.nodes[ids[0]].name) + "，" + NamesText(t, ids[1..])
  }

  /** Why a unit fills one of the `minSub` sub-quotas of `q`. */
  function MinSubReason(t: QuotaTree, q: nat): Expl
    requires ChildIdsAbove(t) && q < |t.nodes|
  {
    Expl(Quoted(t.nodes[q].name) + "は" + NamesText(t, t.nodes[q].children) + "のうち"
         + IntText(t.nodes[q].minSub) + "以上の枠が重率1の単位で埋まっている必要がある",
         ["p.9", "p.56 ※印"])
  }

  /** Why a unit fills the capacity `n` of `q`. */
  function CapacityReason(t: QuotaTree, q: nat, n: int): Expl
    requires q < |t.nodes|
  {
    Expl(Quoted(t.nodes[q].name) + "のうち成績上位" + IntText(n) + "単位は重率1", ["p.9", "p.56 ※印"])
  }

  /** Why a unit gets 0.1. */
  function TenthReason(): Expl
  {
    Expl("重率1の枠に入らなかった単位は重率0.1", ["p.56"])
  }

  // ---------------------------------------------------------------------
  // The sub-quotas a quota counts as filled, and the trim
  // ---------------------------------------------------------------------

  /**
   * `quota.subQuotas.filter(sq => sq.n != null || ones.count(sq) >= 1)`:
   * the sub-quotas with a capacity of their own or at least one unit of
   * weight 1 below them.
   */
  function CountedAmong(t: QuotaTree, ids: seq<nat>, count: seq<int>): (r: seq<Option<nat>>)
    requires forall k :: 0 <= k < |ids| ==> ids[k] < |t.nodes| && ids[k] < |count|
    ensures forall x :: x in r ==> x.Some? && x.value in ids && (t.nodes[x.value].n.Some? || count[x.value] >= 1)
    ensures forall k :: 0 <= k < |ids| && (t.nodes[ids[k]].n.Some? || count[ids[k]] >= 1) ==> Some(ids[k]) in r
  {
    if ids == [] then []
    else
      (if t.nodes[ids[0]].n.Some? || count[ids[0]] >= 1 then [Some(ids[0])] else [])
      + CountedAmong(t, ids[1..], count)
  }

  /** `s.slice(start)`: a negative start counts from the end. */
  function SliceFrom<T>(s: seq<T>, start: int): seq<T>
  {
    if start >= 0 then (if start <= |s| then s[start..] else [])
    else if -start <= |s| then s[|s| + start..]
    else s
  }

  /** The unenrolled count of a `[sq, count]` pair, the key of the trim's sort. */
  function UnenrolledKey(p: (nat, nat)): int
  {
    p.1
  }

  function QuotaOf(p: (nat, nat)): nat
  {
    p.0
  }

  /** The lists after the trim has filtered the subtrees of `ids`, one after the other. */
  function TrimmedBy(t: QuotaTree, rs: seq<seq<ScoredReport>>, ids: seq<nat>): seq<seq<ScoredReport>>
  {
    if ids == [] then rs
    else
      var last := ids[|ids| - 1];
      if last < |t.nodes| then FilteredRange(TrimmedBy(t, rs, ids[..|ids| - 1]), last, t.End(last), Kept)
      else TrimmedBy(t, rs, ids[..|ids| - 1])
  }

  /**
   * The trim leaves every list as it was or drops exactly its
   * `unenrolled-*` reports, and it touches no quota outside the subtrees
   * it was given.
   */
  lemma {:induction false} TrimmedOnlyUnenrolled(t: QuotaTree, rs: seq<seq<ScoredReport>>, ids: seq<nat>)
    requires forall k :: 0 <= k < |ids| ==> ids[k] < |t.nodes|
    ensures |TrimmedBy(t, rs, ids)| == |rs|
    ensures forall x :: 0 <= x < |rs| ==>
      TrimmedBy(t, rs, ids)[x] == rs[x] || TrimmedBy(t, rs, ids)[x] == Filter(rs[x], Kept)
    ensures forall x :: 0 <= x < |rs| && (forall k :: 0 <= k < |ids| ==> !t.Encloses(ids[k], x)) ==>
      TrimmedBy(t, rs, ids)[x] == rs[x]
  {
    if ids != [] {
      var init := ids[..|ids| - 1];
      TrimmedOnlyUnenrolled(t, rs, init);
      var before := TrimmedBy(t, rs, init);
      var last := ids[|ids| - 1];
      forall x | 0 <= x < |rs|
        ensures TrimmedBy(t, rs, ids)[x] == rs[x] || TrimmedBy(t, rs, ids)[x] == Filter(rs[x], Kept)
      {
        if last <= x < t.End(last) && before[x] == Filter(rs[x], Kept) {
          FilterFilter(rs[x], Kept, Kept, Kept);
        }
      }
      forall x | 0 <= x < |rs| && (forall k :: 0 <= k < |ids| ==> !t.Encloses(ids[k], x))
        ensures TrimmedBy(t, rs, ids)[x] == rs[x]
      {
        assert !t.Encloses(ids[|ids| - 1], x);
        assert forall k :: 0 <= k < |init| ==> init[k] == ids[k];
      }
    }
  }

  /**
   * The sub-quotas the trim strips of `unenrolled-*` reports: the
   * `[sq, count]` pairs sorted (stably) by count, after the first `minSub`.
   */
  function Dropped(counts: seq<(nat, nat)>, minSub: int): seq<nat>
  {
    Map(SliceFrom(SortBy(counts, UnenrolledKey), minSub), QuotaOf)
  }

  /** Every dropped sub-quota is one of the pairs. */
  lemma DroppedAmong(counts: seq<(nat, nat)>, minSub: int)
    ensures forall d :: d in Dropped(counts, minSub) ==> d in Map(counts, QuotaOf)
  {
    var sorted := SortBy(counts, UnenrolledKey);
    SortByPermutes(counts, UnenrolledKey);
    var sliced := SliceFrom(sorted, minSub);
    assert forall p :: p in sliced ==> p in sorted;
    forall d | d in Dropped(counts, minSub)
      ensures d in Map(counts, QuotaOf)
    {
      var j :| 0 <= j < |sliced| && QuotaOf(sliced[j]) == d;
      assert sliced[j] in multiset(counts);
      var k :| 0 <= k < |counts| && counts[k] == sliced[j];
      assert Map(counts, QuotaOf)[k] == d;
    }
  }

  /** With the pairs made from the counted list, every dropped sub-quota is counted. */
  /** Trimming sub-quotas all listed in `dsq` leaves every node outside their subtrees as it was. */
  lemma TrimmedOutside(t: QuotaTree, rs: seq<seq<ScoredReport>>, dsq: seq<Option<nat>>, ids: seq<nat>)
    requires |rs| == |t.nodes|
    requires forall k :: 0 <= k < |ids| ==> Some(ids[k]) in dsq && ids[k] < |t.nodes|
    ensures |TrimmedBy(t, rs, ids)| == |rs|
    ensures forall x :: 0 <= x < |t.nodes| ==>
      TrimmedBy(t, rs, ids)[x] == rs[x] || TrimmedBy(t, rs, ids)[x] == Filter(rs[x], Kept)
    ensures forall x :: 0 <= x < |t.nodes| && (forall c :: Some(c) in dsq && c < |t.nodes| ==> !t.Encloses(c, x)) ==>
      TrimmedBy(t, rs, ids)[x] == rs[x]
  {
    TrimmedOnlyUnenrolled(t, rs, ids);
    forall x | 0 <= x < |t.nodes| && (forall c :: Some(c) in dsq && c < |t.nodes| ==> !t.Encloses(c, x))
      ensures TrimmedBy(t, rs, ids)[x] == rs[x]
    {
      forall k | 0 <= k < |ids| ensures !t.Encloses(ids[k], x) {
        assert Some(ids[k]) in dsq;
      }
    }
  }

  lemma DroppedListed(dsq: seq<Option<nat>>, counts: seq<(nat, nat)>, minSub: int, n: nat)
    requires |counts| == |dsq|
    requires forall k :: 0 <= k < |dsq| ==> dsq[k].Some? && dsq[k].value < n && counts[k].0 == dsq[k].value
    ensures forall k :: 0 <= k < |Dropped(counts, minSub)| ==>
      Some(Dropped(counts, minSub)[k]) in dsq && Dropped(counts, minSub)[k] < n
  {
    var dropped := Dropped(counts, minSub);
    DroppedAmong(counts, minSub);
    forall k | 0 <= k < |dropped|
      ensures Some(dropped[k]) in dsq && dropped[k] < n
    {
      assert dropped[k] in Map(counts, QuotaOf);
      var i :| 0 <= i < |counts| && Map(counts, QuotaOf)[i] == dropped[k];
      assert dsq[i] == Some(dropped[k]);
    }
  }

  /**
   * The trim keeps `minSub` of the pairs and drops the others, and no kept
   * sub-quota holds more unenrolled reports than a dropped one.
   */
  lemma DroppedHaveMost(counts: seq<(nat, nat)>, minSub: int)
    requires 0 <= minSub <= |counts|
    ensures |Dropped(counts, minSub)| == |counts| - minSub
    ensures multiset(SortBy(counts, UnenrolledKey)[..minSub]) + multiset(SortBy(counts, UnenrolledKey)[minSub..])
            == multiset(counts)
    ensures Dropped(counts, minSub) == Map(SortBy(counts, UnenrolledKey)[minSub..], QuotaOf)
    ensures forall a, b :: a in SortBy(counts, UnenrolledKey)[..minSub] && b in SortBy(counts, UnenrolledKey)[minSub..]
              ==> a.1 <= b.1
  {
    var sorted := SortBy(counts, UnenrolledKey);
    var kept, dropped := sorted[..minSub], sorted[minSub..];
    SortByPermutes(counts, UnenrolledKey);
    SortBySorted(counts, UnenrolledKey);
    assert sorted == kept + dropped;
    assert multiset(sorted) == multiset(kept) + multiset(dropped);
    assert SliceFrom(sorted, minSub) == dropped;
    SplitOrdered(sorted, minSub);
  }

  lemma SplitOrdered(sorted: seq<(nat, nat)>, m: nat)
    requires SortedBy(sorted, UnenrolledKey) && m <= |sorted|
    ensures forall a, b :: a in sorted[..m] && b in sorted[m..] ==> a.1 <= b.1
  {
    forall a, b | a in sorted[..m] && b in sorted[m..]
      ensures a.1 <= b.1
    {
      var i :| 0 <= i < m && sorted[i] == a;
      var j :| m <= j < |sorted| && sorted[j] == b;
      assert UnenrolledKey(sorted[i]) <= UnenrolledKey(sorted[j]);
    }
  }

  // ---------------------------------------------------------------------
  // The result: units of weight 1, then 0.1, then 0
  // ---------------------------------------------------------------------

  /** One unit per report of `rs` at weight `w`, with the reasons `why` gives (`rs.map(...)`). */
  function Units(rs: seq<ScoredReport>, w: Weight, why: ScoredReport -> seq<Expl>): (us: seq<WeightedUnit>)
    ensures |us| == |rs|
    ensures forall k :: 0 <= k < |rs| ==> us[k].report == rs[k] && us[k].weight == w
  {
    Map(rs, (r: ScoredReport) => WeightedUnit(r, w, why(r)))
  }

  /** `[expls1.get(r)!]`. */
  function WhyOne(expls: map<ScoredReport, Expl>): ScoredReport -> seq<Expl>
  {
    (r: ScoredReport) => if r in expls then [expls[r]] else []
  }

  /** `expls01.get(r) ?? []`. */
  function WhyTenth(expls: map<ScoredReport, seq<Expl>>): ScoredReport -> seq<Expl>
  {
    (r: ScoredReport) => if r in expls then expls[r] else []
  }

  /** A report has as many units as it occurs in the list they were made from. */
  lemma {:induction false} UnitsCount(rs: seq<ScoredReport>, w: Weight, why: ScoredReport -> seq<Expl>, r: ScoredReport)
    ensures |Filter(Units(rs, w, why), Of(r))| == Count<ScoredReport>(rs, r)
  {
    if rs != [] {
      UnitsCount(rs[1..], w, why, r);
      assert Units(rs, w, why)[1..] == Units(rs[1..], w, why);
    }
  }

  /** The reports of the units of a snapshot, counted, are the units of that report. */
  lemma {:induction false} SlotReportsCount(snap: seq<Slot>, r: SpecificScoredReport)
    ensures Count<ScoredReport>(Map(snap, SlotReport), r) == |Filter(snap, SlotOf(r))|
  {
    if snap != [] {
      SlotReportsCount(snap[1..], r);
      assert Map(snap, SlotReport)[1..] == Map(snap[1..], SlotReport);
    }
  }

  /** `[...w1, ...w01, ...w0]` made from the three lists of reports and the reasons recorded. */
  function Output(ones: seq<ScoredReport>, tenth: seq<ScoredReport>, rest: seq<Slot>,
                  expls1: map<ScoredReport, Expl>, expls01: map<ScoredReport, seq<Expl>>): seq<WeightedUnit>
  {
    Units(ones, W1, WhyOne(expls1)) + Units(tenth, W01, WhyTenth(expls01)) + Units(Map(rest, SlotReport), W0, WhyTenth(expls01))
  }

  /** A report has as many units in the output as it has occurrences in the three lists together. */
  lemma OutputCount(ones: seq<ScoredReport>, tenth: seq<ScoredReport>, rest: seq<Slot>,
                    expls1: map<ScoredReport, Expl>, expls01: map<ScoredReport, seq<Expl>>, r: SpecificScoredReport)
    ensures |Filter(Output(ones, tenth, rest, expls1, expls01), Of(r))|
            == Count<ScoredReport>(ones, r) + Count<ScoredReport>(tenth, r) + |Filter(rest, SlotOf(r))|
  {
    var u1 := Units(ones, W1, WhyOne(expls1));
    var u01 := Units(tenth, W01, WhyTenth(expls01));
    var u0 := Units(Map(rest, SlotReport), W0, WhyTenth(expls01));
    FilterConcat(u1 + u01, u0, Of(r));
    FilterConcat(u1, u01, Of(r));
    UnitsCount(ones, W1, WhyOne(expls1), r);
    UnitsCount(tenth, W01, WhyTenth(expls01), r);
    UnitsCount(Map(rest, SlotReport), W0, WhyTenth(expls01), r);
    SlotReportsCount(rest, r);
  }

  /** The output is ordered 1, 0.1, 0, and only the weight-1 part can hold a report without a course. */
  lemma OutputShape(ones: seq<ScoredReport>, tenth: seq<ScoredReport>, rest: seq<Slot>,
                    expls1: map<ScoredReport, Expl>, expls01: map<ScoredReport, seq<Expl>>)
    requires forall k :: 0 <= k < |tenth| ==> tenth[k].HasCourse()
    ensures forall i, j :: 0 <= i < j < |Output(ones, tenth, rest, expls1, expls01)| ==>
      OutputRank(Output(ones, tenth, rest, expls1, expls01)[i].weight)
        >= OutputRank(Output(ones, tenth, rest, expls1, expls01)[j].weight)
    ensures forall k :: 0 <= k < |Output(ones, tenth, rest, expls1, expls01)| ==>
      OutputRank(Output(ones, tenth, rest, expls1, expls01)[k].weight) >= 0
    ensures forall k ::
      (0 <= k < |Output(ones, tenth, rest, expls1, expls01)| && Output(ones, tenth, rest, expls1, expls01)[k].weight != W1)
      ==> Output(ones, tenth, rest, expls1, expls01)[k].report.HasCourse()
  {
    var wu := Output(ones, tenth, rest, expls1, expls01);
    var n1, n01 := |ones|, |ones| + |tenth|;
    forall k | 0 <= k < |wu|
      ensures OutputRank(wu[k].weight) == (if k < n1 then 2 else if k < n01 then 1 else 0)
      ensures wu[k].weight != W1 ==> wu[k].report.HasCourse()
    {
      if k >= n01 {
        assert wu[k].report == SlotReport(rest[k - n01]);
      } else if k >= n1 {
        assert wu[k].report == tenth[k - n1];
      }
    }
  }

  /** Every report of every list has a course. */
  ghost predicate AllSpecific(rs: seq<seq<ScoredReport>>)
  {
    forall q, k :: 0 <= q < |rs| && 0 <= k < |rs[q]| ==> rs[q][k].HasCourse()
  }

  lemma AllSpecificAdd(rs: seq<seq<ScoredReport>>, q: nat, r: SpecificScoredReport)
    requires AllSpecific(rs) && q < |rs|
    ensures AllSpecific(rs[q := rs[q] + [r]])
  {
  }

  lemma {:induction false} AllSpecificFlatten(rs: seq<seq<ScoredReport>>)
    requires AllSpecific(rs)
    ensures forall k :: 0 <= k < |Flatten(rs)| ==> Flatten(rs)[k].HasCourse()
  {
    if rs != [] {
      assert AllSpecific(rs[1..]) by {
        forall q, k | 0 <= q < |rs[1..]| && 0 <= k < |rs[1..][q]|
          ensures rs[1..][q][k].HasCourse()
        {
          assert rs[1..][q] == rs[q + 1];
        }
      }
      AllSpecificFlatten(rs[1..]);
      forall k | 0 <= k < |Flatten(rs)|
        ensures Flatten(rs)[k].HasCourse()
      {
        if k >= |rs[0]| {
          assert Flatten(rs)[k] == Flatten(rs[1..])[k - |rs[0]|];
        } else {
          assert Flatten(rs)[k] == rs[0][k];
        }
      }
    }
  }

  /** Rank of the weights the engine hands out: 1 before 0.1 before 0. */
  function OutputRank(w: Weight): int
  {
    match w
    case W1 => 2
    case W01 => 1
    case W0 => 0
    case _ => -1
  }

  /** The credits of `r` summed over the quotas `[lo, |cs|)`. */
  lemma {:induction false} BalanceSum(ones: seq<seq<ScoredReport>>, tenth: seq<seq<ScoredReport>>, credits: seq<Credits>,
                                      start: seq<Credits>, r: SpecificScoredReport, lo: nat)
    requires Balanced(ones, tenth, credits, start) && lo <= |start|
    ensures CountIn(ones, r, lo, |ones|) + CountIn(tenth, r, lo, |tenth|) + LeftIn(credits[lo..], r)
              <= LeftIn(start[lo..], r)
    ensures Kept(r) ==>
      CountIn(ones, r, lo, |ones|) + CountIn(tenth, r, lo, |tenth|) + LeftIn(credits[lo..], r)
        == LeftIn(start[lo..], r)
    decreases |start| - lo
  {
    if lo < |start| {
      BalanceSum(ones, tenth, credits, start, r, lo + 1);
      assert credits[lo..][1..] == credits[lo + 1..];
      assert start[lo..][1..] == start[lo + 1..];
      assert Handled(ones, tenth, credits, lo, r) <= CreditOf(start[lo], r);
    }
  }

  /** The credits `allocate` gives report `r`: its course's credit if it lands in some quota, 0 otherwise. */
  function AllocatedCredit(t: QuotaTree, reports: seq<SpecificScoredReport>, r: SpecificScoredReport): nat
    requires QuotaTrees.Valid(t)
  {
    ValidIsLaid(t);
    if r in reports && OwnerIn(t, t.roots, CodeOf(r)).Some? then r.course.credit else 0
  }

  /** Summed over the quotas, the starting credits of a report are what `allocate` gave it. */
  lemma {:induction false} StartTotal(t: QuotaTree, reports: seq<SpecificScoredReport>, start: seq<Credits>,
                                      r: SpecificScoredReport, lo: nat)
    requires ChildIdsAbove(t) && |start| == |t.nodes| && lo <= |start|
    requires forall x :: 0 <= x < |t.nodes| ==> start[x] == CreditsOf(Filter(reports, OwnedIn(t, CodeOf, t.roots, x)))
    ensures LeftIn(start[lo..], r) ==
      if r in reports && OwnerIn(t, t.roots, CodeOf(r)).Some? && lo <= OwnerIn(t, t.roots, CodeOf(r)).value
      then r.course.credit else 0
    decreases |start| - lo
  {
    var owner := OwnerIn(t, t.roots, CodeOf(r));
    if lo < |start| {
      StartTotal(t, reports, start, r, lo + 1);
      assert start[lo..][1..] == start[lo + 1..];
      var here := CreditOf(start[lo], r);
      var later := LeftIn(start[lo + 1..], r);
      assert LeftIn(start[lo..], r) == here + later;
      var owned := Filter(reports, OwnedIn(t, CodeOf, t.roots, lo));
      CreditsOfFacts(owned);
      OwnedMember(t, reports, r, lo);
      if r in reports && owner == Some(lo) {
        assert here == r.course.credit && later == 0;
      } else {
        assert here == 0;
      }
    } else {
      assert start[lo..] == [];
      assert owner.Some? ==> owner.value < |t.nodes|;
    }
  }

  /** A report is in the list of quota `x` exactly when it is offered and lands in `x`. */
  lemma OwnedMember(t: QuotaTree, reports: seq<SpecificScoredReport>, r: SpecificScoredReport, x: nat)
    requires ChildIdsAbove(t)
    ensures r in Filter(reports, OwnedIn(t, CodeOf, t.roots, x)) <==>
      r in reports && OwnerIn(t, t.roots, CodeOf(r)) == Some(x)
  {
    FilterMembers(reports, OwnedIn(t, CodeOf, t.roots, x));
    if r in reports && OwnerIn(t, t.roots, CodeOf(r)) == Some(x) {
      var i :| 0 <= i < |reports| && reports[i] == r;
      assert OwnedIn(t, CodeOf, t.roots, x)(reports[i]);
    }
    var owned := Filter(reports, OwnedIn(t, CodeOf, t.roots, x));
    if r in owned {
      var i :| 0 <= i < |owned| && owned[i] == r;
      assert OwnedIn(t, CodeOf, t.roots, x)(owned[i]);
    }
  }

  /** `[sq, ones.countUnenrolled(sq)]` for every counted sub-quota. */
  function UnenrolledCounts(t: QuotaTree, rs: seq<seq<ScoredReport>>, dsq: seq<Option<nat>>): (ps: seq<(nat, nat)>)
    requires Laid(t) && |rs| == |t.nodes| && forall x :: x in dsq ==> x.Some? && x.value < |t.nodes|
    ensures |ps| == |dsq|
    ensures forall k :: 0 <= k < |dsq| ==> ps[k] == (dsq[k].value, UnenrolledIn(rs, dsq[k].value, t.End(dsq[k].value)))
  {
    if dsq == [] then []
    else
      var sq := dsq[0].value;
      UnenrolledRange(t, rs, sq);
      [(sq, Unenrolled(t, rs, sq))] + UnenrolledCounts(t, rs, dsq[1..])
  }

  /** One more than every id of `reports`: the first id free for a placeholder. */
  function FreshId(reports: seq<SpecificScoredReport>): (n: nat)
    ensures forall k :: 0 <= k < |reports| ==> reports[k].id < n
  {
    if reports == [] then 0
    else
      var rest := FreshId(reports[1..]);
      assert forall k :: 1 <= k < |reports| ==> reports[k] == reports[1..][k - 1];
      if reports[0].id < rest then rest else reports[0].id + 1
  }

  // ---------------------------------------------------------------------
  // The loops over a snapshot, as functions of the lists they fill
  // ---------------------------------------------------------------------

  /** Every unit of the snapshot belongs to a quota of the tree. */
  predicate InTree(t: QuotaTree, snap: seq<Slot>)
  {
    forall k :: 0 <= k < |snap| ==> snap[k].q < |t.nodes|
  }

  /** The lists of `rs'` begin with those of `rs`: units are only ever appended. */
  ghost predicate Grows(rs: seq<seq<ScoredReport>>, rs': seq<seq<ScoredReport>>)
  {
    |rs| == |rs'| && forall x :: 0 <= x < |rs| ==> rs[x] <= rs'[x]
  }

  /** `rs'` holds what `rs` held at every quota outside the subtree of `q`. */
  ghost predicate SameOutside(t: QuotaTree, q: nat, rs: seq<seq<ScoredReport>>, rs': seq<seq<ScoredReport>>)
    requires q < |t.nodes|
  {
    |rs| == |rs'| && forall x :: 0 <= x < |rs| && !t.Encloses(q, x) ==> rs'[x] == rs[x]
  }

  /** `rs'` holds what `rs` held at every quota outside `[lo, hi)`. */
  ghost predicate SameBeyond(lo: nat, hi: nat, rs: seq<seq<ScoredReport>>, rs': seq<seq<ScoredReport>>)
  {
    |rs| == |rs'| && forall x :: 0 <= x < |rs| && (x < lo || hi <= x) ==> rs'[x] == rs[x]
  }

  /** Every listed quota with `n` before position `k` holds at least `n` units. */
  ghost predicate Reached(t: QuotaTree, ids: seq<nat>, k: nat, rs: seq<seq<ScoredReport>>)
    requires Spans(t) && |rs| == |t.nodes| && k <= |ids| && forall j :: 0 <= j < |ids| ==> ids[j] < |t.nodes|
  {
    forall j :: 0 <= j < k && t.nodes[ids[j]].n.Some? ==> Held(rs, ids[j], t.End(ids[j])) >= t.nodes[ids[j]].n.value
  }

  /** No quota of the tree has a constraint. */
  ghost predicate Unconstrained(t: QuotaTree)
  {
    forall a :: 0 <= a < |t.nodes| ==> t.nodes[a].constraints == []
  }

  /** The unit `s` joins the list of its quota exactly when `check` finds nothing against it at ratio `w`. */
  function Take(t: QuotaTree, rs: seq<seq<ScoredReport>>, s: Slot, w: WeightRatio): (rs': seq<seq<ScoredReport>>)
    requires QuotaTrees.Valid(t) && |rs| == |t.nodes| && s.q < |t.nodes|
    ensures |rs'| == |rs|
  {
    if CheckUp(t, rs, s.q, s.r, w) == [] then rs[s.q := rs[s.q] + [s.r]] else rs
  }

  /** The loop of the 0.1 phase: every unit of the snapshot, in order, is offered to `point1`. */
  function Tenths(t: QuotaTree, rs: seq<seq<ScoredReport>>, snap: seq<Slot>): (rs': seq<seq<ScoredReport>>)
    requires QuotaTrees.Valid(t) && |rs| == |t.nodes| && InTree(t, snap)
    ensures |rs'| == |rs|
    decreases |snap|
  {
    if snap == [] then rs else Tenths(t, Take(t, rs, snap[0], RatioTenth), snap[1..])
  }

  /**
   * The capacity loop of quota `q`: the units of the snapshot, in order,
   * are offered to `ones` while the subtree of `q` holds fewer than `n`.
   */
  function Capacity(t: QuotaTree, q: nat, n: int, rs: seq<seq<ScoredReport>>, snap: seq<Slot>): (rs': seq<seq<ScoredReport>>)
    requires QuotaTrees.Valid(t) && q < |t.nodes| && |rs| == |t.nodes| && InTree(t, snap)
    ensures |rs'| == |rs|
    decreases |snap|
  {
    if snap == [] || Held(rs, q, t.End(q)) >= n then rs
    else Capacity(t, q, n, Take(t, rs, snap[0], RatioOne), snap[1..])
  }

  /**
   * One visit of the `minSub` loop: the unit `s` is taken when the
   * sub-quota it falls in (`None` when none of `ids` accepts it) is not
   * listed yet and `check` passes; that sub-quota is then listed.
   */
  function MinSubTake(t: QuotaTree, ids: seq<nat>, rs: seq<seq<ScoredReport>>, dsq: seq<Option<nat>>, s: Slot)
    : (next: (seq<seq<ScoredReport>>, seq<Option<nat>>))
    requires QuotaTrees.Valid(t) && |rs| == |t.nodes| && s.q < |t.nodes|
    requires forall k :: 0 <= k < |ids| ==> ids[k] < |t.nodes|
    ensures |next.0| == |rs|
  {
    var sq := FirstMatch(t, ids, CodeOf(s.r));
    if sq !in dsq && CheckUp(t, rs, s.q, s.r, RatioOne) == [] then (rs[s.q := rs[s.q] + [s.r]], dsq + [sq])
    else (rs, dsq)
  }

  /** The `minSub` loop: the units of the snapshot, in order, while fewer than `minSub` sub-quotas are listed. */
  function MinSubRun(t: QuotaTree, ids: seq<nat>, minSub: int, rs: seq<seq<ScoredReport>>, dsq: seq<Option<nat>>,
                     snap: seq<Slot>): (after: (seq<seq<ScoredReport>>, seq<Option<nat>>))
    requires QuotaTrees.Valid(t) && |rs| == |t.nodes| && InTree(t, snap)
    requires forall k :: 0 <= k < |ids| ==> ids[k] < |t.nodes|
    ensures |after.0| == |rs|
    decreases |snap|
  {
    if snap == [] || |dsq| >= minSub then (rs, dsq)
    else
      var next := MinSubTake(t, ids, rs, dsq, snap[0]);
      MinSubRun(t, ids, minSub, next.0, next.1, snap[1..])
  }

  /** What is left of a snapshot lies in the tree too. */
  lemma InTreeFrom(t: QuotaTree, snap: seq<Slot>, i: nat)
    requires InTree(t, snap) && i <= |snap|
    ensures InTree(t, snap[i..])
  {
    assert forall k :: 0 <= k < |snap[i..]| ==> snap[i..][k] == snap[i + k];
  }

  /** A turn at cursor `i` of the 0.1 loop moves its run on by the unit at the cursor. */
  lemma TenthsStep(t: QuotaTree, rs: seq<seq<ScoredReport>>, snap: seq<Slot>, i: nat)
    requires QuotaTrees.Valid(t) && |rs| == |t.nodes| && InTree(t, snap) && i < |snap|
    ensures InTree(t, snap[i..]) && InTree(t, snap[i + 1..])
    ensures Tenths(t, rs, snap[i..]) == Tenths(t, Take(t, rs, snap[i], RatioTenth), snap[i + 1..])
  {
    InTreeFrom(t, snap, i);
    InTreeFrom(t, snap, i + 1);
    assert snap[i..][0] == snap[i] && snap[i..][1..] == snap[i + 1..];
  }

  /** A turn at cursor `i` of the capacity loop, taken while `q` holds fewer than `n`. */
  lemma CapacityStep(t: QuotaTree, q: nat, n: int, rs: seq<seq<ScoredReport>>, snap: seq<Slot>, i: nat)
    requires QuotaTrees.Valid(t) && q < |t.nodes| && |rs| == |t.nodes| && InTree(t, snap) && i < |snap|
    requires Held(rs, q, t.End(q)) < n
    ensures InTree(t, snap[i..]) && InTree(t, snap[i + 1..])
    ensures Capacity(t, q, n, rs, snap[i..]) == Capacity(t, q, n, Take(t, rs, snap[i], RatioOne), snap[i + 1..])
  {
    InTreeFrom(t, snap, i);
    InTreeFrom(t, snap, i + 1);
    assert snap[i..][0] == snap[i] && snap[i..][1..] == snap[i + 1..];
  }

  /** A turn at cursor `i` of the `minSub` loop, taken while fewer than `minSub` are listed. */
  lemma MinSubStep(t: QuotaTree, ids: seq<nat>, minSub: int, rs: seq<seq<ScoredReport>>, dsq: seq<Option<nat>>,
                   snap: seq<Slot>, i: nat)
    requires QuotaTrees.Valid(t) && |rs| == |t.nodes| && InTree(t, snap) && i < |snap| && |dsq| < minSub
    requires forall k :: 0 <= k < |ids| ==> ids[k] < |t.nodes|
    ensures InTree(t, snap[i..]) && InTree(t, snap[i + 1..])
    ensures MinSubRun(t, ids, minSub, rs, dsq, snap[i..]) ==
      MinSubRun(t, ids, minSub, MinSubTake(t, ids, rs, dsq, snap[i]).0, MinSubTake(t, ids, rs, dsq, snap[i]).1, snap[i + 1..])
  {
    InTreeFrom(t, snap, i);
    InTreeFrom(t, snap, i + 1);
    assert snap[i..][0] == snap[i] && snap[i..][1..] == snap[i + 1..];
  }

  /** `k` placeholders `{ type: 'unenrolled-somewhat', scope: q }`, given the identities from `id` on. */
  function Placeholders(id: nat, q: nat, k: nat): (ps: seq<ScoredReport>)
    ensures |ps| == k
    ensures forall j :: 0 <= j < k ==> ps[j] == UnenrolledSomewhat(id + j, q) && !ps[j].HasCourse()
  {
    if k == 0 then [] else Placeholders(id, q, k - 1) + [UnenrolledSomewhat(id + k - 1, q)]
  }

  lemma PadStart(rs: seq<seq<ScoredReport>>, q: nat, id: nat)
    requires q < |rs|
    ensures rs[q := rs[q] + Placeholders(id, q, 0)] == rs
  {
    assert rs[q] + [] == rs[q];
  }

  /** One placeholder more at the end of the list of `q`. */
  lemma PadStep(rs: seq<seq<ScoredReport>>, cur: seq<seq<ScoredReport>>, q: nat, id: nat, k: nat)
    requires q < |rs| && cur == rs[q := rs[q] + Placeholders(id, q, k)]
    ensures cur[q := cur[q] + [UnenrolledSomewhat(id + k, q)]] == rs[q := rs[q] + Placeholders(id, q, k + 1)]
  {
    assert Placeholders(id, q, k + 1) == Placeholders(id, q, k) + [UnenrolledSomewhat(id + k, q)];
    assert rs[q] + Placeholders(id, q, k) + [UnenrolledSomewhat(id + k, q)] == rs[q] + Placeholders(id, q, k + 1);
  }

  /** The run of the `minSub` loop is over once the snapshot is used up or `minSub` sub-quotas are counted. */
  lemma MinSubDone(t: QuotaTree, ids: seq<nat>, minSub: int, rs: seq<seq<ScoredReport>>, dsq: seq<Option<nat>>,
                   rest: seq<Slot>)
    requires QuotaTrees.Valid(t) && |rs| == |t.nodes| && InTree(t, rest)
    requires forall k :: 0 <= k < |ids| ==> ids[k] < |t.nodes|
    requires rest == [] || |dsq| >= minSub
    ensures MinSubRun(t, ids, minSub, rs, dsq, rest) == (rs, dsq)
  {
  }

  /** The run of the capacity loop is over once the snapshot is used up or `q` holds `n` units. */
  lemma CapacityDone(t: QuotaTree, q: nat, n: int, rs: seq<seq<ScoredReport>>, rest: seq<Slot>)
    requires QuotaTrees.Valid(t) && q < |t.nodes| && |rs| == |t.nodes| && InTree(t, rest)
    requires rest == [] || Held(rs, q, t.End(q)) >= n
    ensures Capacity(t, q, n, rs, rest) == rs
  {
  }

  /** The sub-quotas of a quota, in order, cover the rest of its subtree. */
  lemma ChildrenChain(t: QuotaTree, q: nat)
    requires QuotaTrees.Valid(t) && q < |t.nodes|
    ensures Chain(t, t.nodes[q].children, q + 1, t.End(q))
  {
    ValidIsLaid(t);
  }

  /** The sub-quotas of `q` are nodes after it whose subtrees lie inside its own. */
  ghost predicate ChildrenBelow(t: QuotaTree, q: nat)
    requires q < |t.nodes|
  {
    forall k :: 0 <= k < |t.nodes[q].children| ==>
      q < t.nodes[q].children[k] < |t.nodes| && t.End(t.nodes[q].children[k]) <= t.End(q)
  }

  lemma ChildrenBelowHolds(t: QuotaTree, q: nat)
    requires QuotaTrees.Valid(t) && q < |t.nodes|
    ensures ChildrenBelow(t, q)
  {
    forall k | 0 <= k < |t.nodes[q].children|
      ensures q < t.nodes[q].children[k] < |t.nodes| && t.End(t.nodes[q].children[k]) <= t.End(q)
    {
      ChildInside(t, q, t.nodes[q].children[k]);
    }
  }

  /** The sub-quotas of a quota are nodes of the tree. */
  lemma ChildrenInTree(t: QuotaTree, q: nat)
    requires QuotaTrees.Valid(t) && q < |t.nodes|
    ensures forall k :: 0 <= k < |t.nodes[q].children| ==> t.nodes[q].children[k] < |t.nodes|
  {
    forall k | 0 <= k < |t.nodes[q].children|
      ensures t.nodes[q].children[k] < |t.nodes|
    {
      ChildInside(t, q, t.nodes[q].children[k]);
    }
  }

  /** A sub-quota's subtree lies inside its parent's, after the parent itself. */
  lemma ChildInside(t: QuotaTree, q: nat, c: nat)
    requires QuotaTrees.Valid(t) && q < |t.nodes| && c in t.nodes[q].children
    ensures q < c < |t.nodes| && t.End(c) <= t.End(q)
  {
    ValidIsLaid(t);
    var children := t.nodes[q].children;
    ChainFacts(t, children, q + 1, t.End(q));
    var k :| 0 <= k < |children| && children[k] == c;
  }

  /** The trim of `q`, which touches only subtrees of listed sub-quotas, leaves the rest of the tree alone. */
  lemma TrimmedInside(t: QuotaTree, q: nat, dsq: seq<Option<nat>>, rs: seq<seq<ScoredReport>>, rs': seq<seq<ScoredReport>>)
    requires QuotaTrees.Valid(t) && q < |t.nodes| && |rs| == |t.nodes| && |rs'| == |t.nodes|
    requires forall y :: y in dsq && y.Some? ==> y.value in t.nodes[q].children
    requires forall x :: 0 <= x < |t.nodes| && (forall c :: Some(c) in dsq && c < |t.nodes| ==> !t.Encloses(c, x)) ==>
      rs'[x] == rs[x]
    ensures SameOutside(t, q, rs, rs')
  {
    forall x | 0 <= x < |t.nodes| && !t.Encloses(q, x)
      ensures rs'[x] == rs[x]
    {
      forall c | Some(c) in dsq && c < |t.nodes|
        ensures !t.Encloses(c, x)
      {
        ChildInside(t, q, c);
      }
    }
  }

  /**
   * `distribute1` of the `k`-th of a chain of sibling subtrees changes
   * only that subtree, so the siblings before it hold what they held and
   * nothing outside the chain changes.
   */
  lemma EachStep(t: QuotaTree, ids: seq<nat>, lo: nat, hi: nat, k: nat,
                 rs0: seq<seq<ScoredReport>>, rs: seq<seq<ScoredReport>>, rs': seq<seq<ScoredReport>>)
    requires Spans(t) && k < |ids| && forall j :: 0 <= j < |ids| ==> ids[j] < |t.nodes|
    requires lo <= ids[k] && t.End(ids[k]) <= hi
    requires forall j :: 0 <= j < k ==> t.End(ids[j]) <= ids[k]
    requires |rs0| == |t.nodes| && |rs| == |t.nodes| && |rs'| == |t.nodes|
    requires Reached(t, ids, k, rs) && SameBeyond(lo, hi, rs0, rs)
    requires SameOutside(t, ids[k], rs, rs')
    requires t.nodes[ids[k]].n.Some? ==> Held(rs', ids[k], t.End(ids[k])) >= t.nodes[ids[k]].n.value
    ensures Reached(t, ids, k + 1, rs') && SameBeyond(lo, hi, rs0, rs')
  {
    forall j | 0 <= j < k
      ensures Held(rs', ids[j], t.End(ids[j])) == Held(rs, ids[j], t.End(ids[j]))
    {
      assert t.End(ids[j]) <= ids[k];
      HeldSame(rs', rs, ids[j], t.End(ids[j]));
    }
  }

  lemma SameOutsideTrans(t: QuotaTree, q: nat, a: seq<seq<ScoredReport>>, b: seq<seq<ScoredReport>>, c: seq<seq<ScoredReport>>)
    requires q < |t.nodes| && SameOutside(t, q, a, b) && SameOutside(t, q, b, c)
    ensures SameOutside(t, q, a, c)
  {
  }

  /** Subtrees of a chain over `[q + 1, End(q))` lie inside the subtree of `q`. */
  lemma BeyondOutside(t: QuotaTree, q: nat, a: seq<seq<ScoredReport>>, b: seq<seq<ScoredReport>>)
    requires q < |t.nodes| && SameBeyond(q + 1, t.End(q), a, b)
    ensures SameOutside(t, q, a, b)
  {
  }

  /** A quota of an unconstrained tree accepts every unit. */
  lemma UnconstrainedAccepts(t: QuotaTree, rs: seq<seq<ScoredReport>>, q: nat, r: SpecificScoredReport, w: WeightRatio)
    requires QuotaTrees.Valid(t) && |rs| == |t.nodes| && q < |t.nodes| && Unconstrained(t)
    ensures CheckUp(t, rs, q, r, w) == []
  {
    CheckUpPasses(t, rs, q, r, w);
  }

  /** Offering one unit appends it or leaves every list alone, so the lists hold one unit more or none. */
  lemma TakeGrows(t: QuotaTree, rs: seq<seq<ScoredReport>>, s: Slot, w: WeightRatio, lo: nat, hi: nat)
    requires QuotaTrees.Valid(t) && |rs| == |t.nodes| && s.q < |t.nodes| && lo <= hi <= |rs|
    ensures Grows(rs, Take(t, rs, s, w))
    ensures Held(Take(t, rs, s, w), lo, hi) ==
      Held(rs, lo, hi) + (if lo <= s.q < hi && CheckUp(t, rs, s.q, s.r, w) == [] then 1 else 0)
  {
    HeldUpdate(rs, s.q, rs[s.q] + [s.r], lo, hi);
  }

  lemma GrowsTrans(a: seq<seq<ScoredReport>>, b: seq<seq<ScoredReport>>, c: seq<seq<ScoredReport>>)
    requires Grows(a, b) && Grows(b, c)
    ensures Grows(a, c)
  {
    forall x | 0 <= x < |a|
      ensures a[x] <= c[x]
    {
      assert a[x] == b[x][..|a[x]|] && b[x] == c[x][..|b[x]|];
    }
  }

  /**
   * The 0.1 loop only appends, at most one unit for each unit of the
   * snapshot; in a tree without constraints it takes every one of them.
   */
  lemma {:induction false} TenthsTakes(t: QuotaTree, rs: seq<seq<ScoredReport>>, snap: seq<Slot>)
    requires QuotaTrees.Valid(t) && |rs| == |t.nodes| && InTree(t, snap)
    ensures Grows(rs, Tenths(t, rs, snap))
    ensures Held(Tenths(t, rs, snap), 0, |rs|) <= Held(rs, 0, |rs|) + |snap|
    ensures Unconstrained(t) ==> Held(Tenths(t, rs, snap), 0, |rs|) == Held(rs, 0, |rs|) + |snap|
    decreases |snap|
  {
    if snap != [] {
      var next := Take(t, rs, snap[0], RatioTenth);
      TakeGrows(t, rs, snap[0], RatioTenth, 0, |rs|);
      TenthsTakes(t, next, snap[1..]);
      GrowsTrans(rs, next, Tenths(t, next, snap[1..]));
      if Unconstrained(t) {
        UnconstrainedAccepts(t, rs, snap[0].q, snap[0].r, RatioTenth);
      }
    }
  }

  /**
   * The capacity loop only appends, and only inside the subtree of `q`
   * when the snapshot lies there.
   */
  lemma {:induction false} CapacityGrows(t: QuotaTree, q: nat, n: int, rs: seq<seq<ScoredReport>>, snap: seq<Slot>)
    requires QuotaTrees.Valid(t) && q < |t.nodes| && |rs| == |t.nodes| && InTree(t, snap)
    ensures Grows(rs, Capacity(t, q, n, rs, snap))
    ensures (forall k :: 0 <= k < |snap| ==> t.Encloses(q, snap[k].q)) ==>
      SameOutside(t, q, rs, Capacity(t, q, n, rs, snap))
    decreases |snap|
  {
    if snap != [] && Held(rs, q, t.End(q)) < n {
      var next := Take(t, rs, snap[0], RatioOne);
      TakeGrows(t, rs, snap[0], RatioOne, 0, 0);
      CapacityGrows(t, q, n, next, snap[1..]);
      GrowsTrans(rs, next, Capacity(t, q, n, next, snap[1..]));
      assert forall k :: 0 <= k < |snap[1..]| ==> snap[1..][k] == snap[k + 1];
    }
  }

  /**
   * The capacity loop leaves a quota holding `n` or more alone, and never
   * takes one holding fewer past `n`.
   */
  lemma {:induction false} CapacityBounds(t: QuotaTree, q: nat, n: int, rs: seq<seq<ScoredReport>>, snap: seq<Slot>)
    requires QuotaTrees.Valid(t) && q < |t.nodes| && |rs| == |t.nodes| && InTree(t, snap)
    ensures Held(rs, q, t.End(q)) >= n ==> Capacity(t, q, n, rs, snap) == rs
    ensures Held(rs, q, t.End(q)) < n ==> Held(Capacity(t, q, n, rs, snap), q, t.End(q)) <= n
    ensures Held(rs, q, t.End(q)) <= Held(Capacity(t, q, n, rs, snap), q, t.End(q))
    decreases |snap|
  {
    if snap != [] && Held(rs, q, t.End(q)) < n {
      TakeGrows(t, rs, snap[0], RatioOne, q, t.End(q));
      CapacityBounds(t, q, n, Take(t, rs, snap[0], RatioOne), snap[1..]);
    }
  }

  /** What the capacity loop promises about the count of `q` and the quotas outside its subtree. */
  lemma CapacityAfter(t: QuotaTree, q: nat, n: int, rs: seq<seq<ScoredReport>>, snap: seq<Slot>, before: int, after: int)
    requires QuotaTrees.Valid(t) && q < |t.nodes| && |rs| == |t.nodes| && InTree(t, snap)
    requires forall k :: 0 <= k < |snap| ==> t.Encloses(q, snap[k].q)
    requires before == Held(rs, q, t.End(q)) && after == Held(Capacity(t, q, n, rs, snap), q, t.End(q))
    ensures before >= n ==> after == before
    ensures before < n ==> before <= after <= n
    ensures SameOutside(t, q, rs, Capacity(t, q, n, rs, snap))
  {
    CapacityGrows(t, q, n, rs, snap);
    CapacityBounds(t, q, n, rs, snap);
  }

  /**
   * In a tree without constraints the capacity loop takes units until the
   * quota holds `n` or the snapshot (of units below the quota) runs out.
   */
  lemma {:induction false} CapacityFills(t: QuotaTree, q: nat, n: int, rs: seq<seq<ScoredReport>>, snap: seq<Slot>)
    requires QuotaTrees.Valid(t) && q < |t.nodes| && |rs| == |t.nodes| && InTree(t, snap) && Unconstrained(t)
    requires forall k :: 0 <= k < |snap| ==> t.Encloses(q, snap[k].q)
    requires Held(rs, q, t.End(q)) < n
    ensures Held(Capacity(t, q, n, rs, snap), q, t.End(q)) ==
      if Held(rs, q, t.End(q)) + |snap| <= n then Held(rs, q, t.End(q)) + |snap| else n
    decreases |snap|
  {
    if snap != [] {
      var next := Take(t, rs, snap[0], RatioOne);
      TakeGrows(t, rs, snap[0], RatioOne, q, t.End(q));
      UnconstrainedAccepts(t, rs, snap[0].q, snap[0].r, RatioOne);
      assert forall k :: 0 <= k < |snap[1..]| ==> snap[1..][k] == snap[k + 1];
      if Held(next, q, t.End(q)) < n {
        CapacityFills(t, q, n, next, snap[1..]);
      } else {
        assert Capacity(t, q, n, next, snap[1..]) == next;
      }
    }
  }

  /**
   * The `minSub` loop only appends, and only inside the subtree of `q`
   * when the snapshot lies there.
   */
  lemma {:induction false} MinSubGrows(t: QuotaTree, q: nat, ids: seq<nat>, minSub: int, rs: seq<seq<ScoredReport>>,
                                       dsq: seq<Option<nat>>, snap: seq<Slot>)
    requires QuotaTrees.Valid(t) && q < |t.nodes| && |rs| == |t.nodes| && InTree(t, snap)
    requires forall k :: 0 <= k < |ids| ==> ids[k] < |t.nodes|
    ensures Grows(rs, MinSubRun(t, ids, minSub, rs, dsq, snap).0)
    ensures (forall k :: 0 <= k < |snap| ==> t.Encloses(q, snap[k].q)) ==>
      SameOutside(t, q, rs, MinSubRun(t, ids, minSub, rs, dsq, snap).0)
    decreases |snap|
  {
    if snap != [] && |dsq| < minSub {
      var s := snap[0];
      var next := MinSubTake(t, ids, rs, dsq, s);
      MinSubGrows(t, q, ids, minSub, next.0, next.1, snap[1..]);
      assert forall k :: 0 <= k < |snap[1..]| ==> snap[1..][k] == snap[k + 1];
      if next.0 != rs {
        TakeGrows(t, rs, s, RatioOne, 0, |rs|);
        assert next.0 == Take(t, rs, s, RatioOne);
      }
      GrowsTrans(rs, next.0, MinSubRun(t, ids, minSub, next.0, next.1, snap[1..]).0);
    }
  }

  /** Every unit the `minSub` loop takes lists one sub-quota more: at most one unit per sub-quota. */
  lemma {:induction false} MinSubCounts(t: QuotaTree, ids: seq<nat>, minSub: int, rs: seq<seq<ScoredReport>>,
                                        dsq: seq<Option<nat>>, snap: seq<Slot>)
    requires QuotaTrees.Valid(t) && |rs| == |t.nodes| && InTree(t, snap)
    requires forall k :: 0 <= k < |ids| ==> ids[k] < |t.nodes|
    ensures Held(MinSubRun(t, ids, minSub, rs, dsq, snap).0, 0, |rs|) - Held(rs, 0, |rs|)
              == |MinSubRun(t, ids, minSub, rs, dsq, snap).1| - |dsq|
    decreases |snap|
  {
    if snap != [] && |dsq| < minSub {
      var s := snap[0];
      var next := MinSubTake(t, ids, rs, dsq, s);
      MinSubCounts(t, ids, minSub, next.0, next.1, snap[1..]);
      assert forall k :: 0 <= k < |snap[1..]| ==> snap[1..][k] == snap[k + 1];
      HeldUpdate(rs, s.q, rs[s.q] + [s.r], 0, |rs|);
    }
  }

  /**
   * The `minSub` loop lists sub-quotas of `ids` (or `None`), each at most
   * once and none past `minSub`.
   */
  lemma {:induction false} MinSubLists(t: QuotaTree, ids: seq<nat>, minSub: int, rs: seq<seq<ScoredReport>>,
                                       dsq: seq<Option<nat>>, snap: seq<Slot>)
    requires QuotaTrees.Valid(t) && |rs| == |t.nodes| && InTree(t, snap)
    requires forall k :: 0 <= k < |ids| ==> ids[k] < |t.nodes|
    ensures Extends(dsq, MinSubRun(t, ids, minSub, rs, dsq, snap).1, minSub)
    ensures forall x :: x in MinSubRun(t, ids, minSub, rs, dsq, snap).1 && x !in dsq ==> x.None? || x.value in ids
    decreases |snap|
  {
    ExtendsStart(dsq, minSub);
    if snap != [] && |dsq| < minSub {
      var s := snap[0];
      var next := MinSubTake(t, ids, rs, dsq, s);
      var after := MinSubRun(t, ids, minSub, next.0, next.1, snap[1..]);
      MinSubLists(t, ids, minSub, next.0, next.1, snap[1..]);
      assert forall k :: 0 <= k < |snap[1..]| ==> snap[1..][k] == snap[k + 1];
      if next.1 != dsq {
        var sq := FirstMatch(t, ids, CodeOf(s.r));
        assert next.1 == dsq + [sq] && sq !in dsq;
        ExtendsStep(dsq, dsq, minSub, sq);
        ExtendsTrans(dsq, dsq + [sq], after.1, minSub);
      }
    }
  }

  // ---------------------------------------------------------------------
  // The run of `distributeBasic`
  // ---------------------------------------------------------------------

  /**
   * The state `distributeBasic` shares with its inner `distribute1`: the
   * credits still waiting, the units given weight 1 and 0.1 so far, and
   * the reason recorded for each. `nextId` hands every placeholder report
   * an identity of its own.
   */
  class Distributor {
    const tree: QuotaTree
    const remains: Remain
    const ones: Distribution
    const point1: Distribution
    var expls1: map<ScoredReport, Expl>
    var expls01: map<ScoredReport, seq<Expl>>
    var nextId: nat
    /** The credits `remains` started with. */
    ghost const start: seq<Credits>

    ghost predicate Valid()
      reads this, remains, ones, point1
    {
      remains.Valid() && ones.Valid() && point1.Valid()
      && remains.tree == tree && ones.tree == tree && point1.tree == tree
      && ones != point1
      && Balanced(ones.rs, point1.rs, remains.credits, start)
      && AllSpecific(point1.rs)
    }

    /** `new Remain(quotas, reports)`, two empty `Distribution`s and empty reason maps. */
    constructor (tree: QuotaTree, reports: seq<SpecificScoredReport>)
      requires QuotaTrees.Valid(tree)
      ensures Valid() && this.tree == tree
      ensures fresh(remains) && fresh(ones) && fresh(point1)
      ensures forall x :: 0 <= x < |tree.nodes| ==>
        start[x] == CreditsOf(Filter(reports, OwnedIn(tree, CodeOf, tree.roots, x)))
      ensures forall k :: 0 <= k < |reports| ==> reports[k].id < nextId
    {
      this.tree := tree;
      var waiting := new Remain(tree, reports);
      remains := waiting;
      start := waiting.credits;
      ones := new Distribution(tree);
      point1 := new Distribution(tree);
      expls1 := map[];
      expls01 := map[];
      nextId := FreshId(reports);
      new;
      BalancedStart(ones.rs, point1.rs, start);
    }

    /** `ones.add(q, r)`, `expls1.set(r, why)` and `it.consume()` for the unit `s = [q, r]`. */
    method TakeOne(s: Slot, why: Expl)
      requires Valid() && CreditAt(remains.credits, s) >= 1
      requires ones.Check(s.q, s.r, RatioOne) == []
      modifies this, remains, ones
      ensures Valid()
      ensures ones.rs == old(ones.rs)[s.q := old(ones.rs)[s.q] + [s.r]]
      ensures forall a :: 0 <= a < |tree.nodes| ==>
        ones.count[a] == old(ones.count)[a] + (if tree.Encloses(a, s.q) then 1 else 0)
      ensures remains.credits == old(remains.credits)[s.q := Consumed(old(remains.credits)[s.q], s.r)]
      ensures expls1 == old(expls1)[s.r := why] && expls01 == old(expls01) && nextId == old(nextId)
    {
      BalancedTakeOne(ones.rs, point1.rs, remains.credits, start, s);
      ones.Add(s.q, s.r);
      expls1 := expls1[s.r := why];
      remains.Consume(s);
    }

    /** `point1.add(q, r)`, `expls01.set(r, why)` and `it3.consume()` for the unit `s = [q, r]`. */
    method TakeTenth(s: Slot, why: seq<Expl>)
      requires Valid() && CreditAt(remains.credits, s) >= 1
      requires point1.Check(s.q, s.r, RatioTenth) == []
      modifies this, remains, point1
      ensures Valid()
      ensures point1.rs == old(point1.rs)[s.q := old(point1.rs)[s.q] + [s.r]]
      ensures remains.credits == old(remains.credits)[s.q := Consumed(old(remains.credits)[s.q], s.r)]
      ensures expls01 == old(expls01)[s.r := why] && expls1 == old(expls1) && nextId == old(nextId)
    {
      BalancedTakeTenth(ones.rs, point1.rs, remains.credits, start, s);
      AllSpecificAdd(point1.rs, s.q, s.r);
      point1.Add(s.q, s.r);
      expls01 := expls01[s.r := why];
      remains.Consume(s);
    }

    /**
     * A new `{ type: 'unenrolled-somewhat', scope, grade: '未履修', point: 0 }`
     * standing for a missing unit of quota `q`, added to `ones` with its reason.
     */
    method AddPlaceholder(q: nat, why: Expl)
      requires Valid() && q < |tree.nodes|
      modifies this, ones
      ensures Valid()
      ensures ones.rs == old(ones.rs)[q := old(ones.rs)[q] + [UnenrolledSomewhat(old(nextId), q)]]
      ensures forall a :: 0 <= a < |tree.nodes| ==>
        ones.count[a] == old(ones.count)[a] + (if tree.Encloses(a, q) then 1 else 0)
      ensures nextId == old(nextId) + 1
      ensures expls1 == old(expls1)[UnenrolledSomewhat(old(nextId), q) := why] && expls01 == old(expls01)
    {
      var r := UnenrolledSomewhat(nextId, q);
      nextId := nextId + 1;
      BalancedPlaceholder(ones.rs, point1.rs, remains.credits, start, q, r);
      ones.Add(q, r);
      expls1 := expls1[r := why];
    }

    /**
     * The first loop of `distribute1`: walk `remains.under(quota)` best
     * first and give weight 1 to a unit whose sub-quota is not counted yet
     * and whose constraints accept it, until `minSub` sub-quotas are
     * counted. A unit of the quota's own (no sub-quota accepts it) counts
     * as the sub-quota `undefined`, written `None`. Only the subtree of
     * the quota changes.
     */
    method FillMinSub(quota: nat, counted: seq<Option<nat>>) returns (dsq: seq<Option<nat>>)
      requires Valid() && quota < |tree.nodes|
      modifies this, remains, ones
      ensures Valid()
      ensures InTree(tree, old(remains.Under(quota)))
      ensures (ones.rs, dsq) == MinSubRun(tree, tree.nodes[quota].children, tree.nodes[quota].minSub,
                                          old(ones.rs), counted, old(remains.Under(quota)))
      ensures Extends(counted, dsq, tree.nodes[quota].minSub)
      ensures forall x :: x in dsq && x !in counted ==> x.None? || x.value in tree.nodes[quota].children
      ensures SameOutside(tree, quota, old(ones.rs), ones.rs)
      ensures nextId == old(nextId) && expls01 == old(expls01)
    {
      ValidIsLaid(tree);
      var snap := remains.Under(quota);
      UnderSafe(tree, remains.credits, quota, snap);
      var children, minSub := tree.nodes[quota].children, tree.nodes[quota].minSub;
      dsq := MinSubLoop(quota, counted, snap);
      MinSubGrows(tree, quota, children, minSub, old(ones.rs), counted, snap);
      MinSubLists(tree, children, minSub, old(ones.rs), counted, snap);
    }

    /** The loop of `FillMinSub` over a snapshot whose units are backed by credits. */
    method MinSubLoop(quota: nat, counted: seq<Option<nat>>, snap: seq<Slot>) returns (dsq: seq<Option<nat>>)
      requires Valid() && quota < |tree.nodes| && InTree(tree, snap) && SnapSafe(snap, 0, remains.credits)
      modifies this, remains, ones
      ensures Valid()
      ensures (ones.rs, dsq) == MinSubRun(tree, tree.nodes[quota].children, tree.nodes[quota].minSub,
                                          old(ones.rs), counted, snap)
      ensures nextId == old(nextId) && expls01 == old(expls01)
    {
      ChildrenInTree(tree, quota);
      var children, minSub := tree.nodes[quota].children, tree.nodes[quota].minSub;
      ghost var before, id, e01 := ones.rs, nextId, expls01;
      dsq := counted;
      assert snap[0..] == snap;
      for i := 0 to |snap|
        invariant MinSubAt(quota, snap, i, dsq, before, counted, id, e01)
      {
        if |dsq| >= minSub {
          MinSubDone(tree, children, minSub, ones.rs, dsq, snap[i..]);
          return;
        }
        dsq := MinSubAdvance(quota, snap, i, dsq, before, counted, id, e01);
      }
      MinSubDone(tree, children, minSub, ones.rs, dsq, snap[|snap|..]);
    }

    /**
     * The state of that loop at cursor `i`: the run from the start equals
     * the run of what is left from the current lists and counted sub-quotas.
     */
    ghost predicate MinSubAt(quota: nat, snap: seq<Slot>, i: nat, dsq: seq<Option<nat>>,
                             before: seq<seq<ScoredReport>>, counted: seq<Option<nat>>, id: nat, e01: map<ScoredReport, seq<Expl>>)
      reads this, remains, ones, point1
    {
      && Valid() && quota < |tree.nodes| && i <= |snap| && InTree(tree, snap) && InTree(tree, snap[i..])
      && SnapSafe(snap, i, remains.credits) && |before| == |tree.nodes|
      && (forall k :: 0 <= k < |tree.nodes[quota].children| ==> tree.nodes[quota].children[k] < |tree.nodes|)
      && MinSubRun(tree, tree.nodes[quota].children, tree.nodes[quota].minSub, before, counted, snap)
         == MinSubRun(tree, tree.nodes[quota].children, tree.nodes[quota].minSub, ones.rs, dsq, snap[i..])
      && nextId == id && expls01 == e01
    }

    /** A turn of that loop, seen from the run: what is left of the run is one unit shorter. */
    method MinSubAdvance(quota: nat, snap: seq<Slot>, i: nat, dsq: seq<Option<nat>>, ghost before: seq<seq<ScoredReport>>,
                         ghost counted: seq<Option<nat>>, ghost id: nat, ghost e01: map<ScoredReport, seq<Expl>>)
      returns (dsq': seq<Option<nat>>)
      requires MinSubAt(quota, snap, i, dsq, before, counted, id, e01) && i < |snap| && |dsq| < tree.nodes[quota].minSub
      modifies this, remains, ones
      ensures MinSubAt(quota, snap, i + 1, dsq', before, counted, id, e01)
    {
      MinSubStep(tree, tree.nodes[quota].children, tree.nodes[quota].minSub, ones.rs, dsq, snap, i);
      dsq' := MinSubTurn(quota, snap, i, dsq);
    }

    /**
     * One turn of that loop: the unit at the cursor takes a weight-1 slot
     * when its sub-quota is not counted yet and the slot accepts it; the
     * sub-quota is then counted and the unit's credit consumed.
     */
    method MinSubTurn(quota: nat, snap: seq<Slot>, i: nat, dsq: seq<Option<nat>>) returns (dsq': seq<Option<nat>>)
      requires Valid() && quota < |tree.nodes| && i < |snap| && InTree(tree, snap)
      requires SnapSafe(snap, i, remains.credits)
      modifies this, remains, ones
      ensures Valid()
      ensures SnapSafe(snap, i + 1, remains.credits)
      ensures (ones.rs, dsq') == MinSubTake(tree, tree.nodes[quota].children, old(ones.rs), dsq, snap[i])
      ensures remains.credits == if dsq' == dsq then old(remains.credits)
        else old(remains.credits)[snap[i].q := Consumed(old(remains.credits)[snap[i].q], snap[i].r)]
      ensures expls1 == if dsq' == dsq then old(expls1) else old(expls1)[snap[i].r := MinSubReason(tree, quota)]
      ensures nextId == old(nextId) && expls01 == old(expls01)
    {
      ValidIsLaid(tree);
      var s := snap[i];
      SnapSkip(snap, i, remains.credits);
      var sq := FirstMatch(tree, tree.nodes[quota].children, CodeOf(s.r));
      dsq' := dsq;
      if sq !in dsq {
        var errors := ones.Check(s.q, s.r, RatioOne);
        if errors == [] {
          SnapConsume(snap, i, remains.credits);
          TakeOne(s, MinSubReason(tree, quota));
          dsq' := dsq + [sq];
        }
      }
    }

    /**
     * The second loop of `distribute1`: every sub-quota not counted yet,
     * in order, gets a point-0 placeholder until `minSub` are counted.
     * Afterwards `minSub` sub-quotas are counted, or all of them are.
     */
    method FillPlaceholders(quota: nat, counted: seq<Option<nat>>) returns (dsq: seq<Option<nat>>)
      requires Valid() && quota < |tree.nodes| && ChildrenBelow(tree, quota)
      modifies this, ones
      ensures Valid()
      ensures Extends(counted, dsq, tree.nodes[quota].minSub)
      ensures |dsq| >= tree.nodes[quota].minSub || ListsAll(dsq, tree.nodes[quota].children)
      ensures NewAmong(counted, dsq, tree.nodes[quota].children)
      ensures SameOutside(tree, quota, old(ones.rs), ones.rs)
      ensures expls01 == old(expls01)
    {
      var children := tree.nodes[quota].children;
      dsq := counted;
      ExtendsStart(counted, tree.nodes[quota].minSub);
      var k := 0;
      while k < |children| && |dsq| < tree.nodes[quota].minSub
        invariant Valid() && k <= |children| && ChildrenBelow(tree, quota)
        invariant Extends(counted, dsq, tree.nodes[quota].minSub)
        invariant ListsAll(dsq, children[..k])
        invariant NewAmong(counted, dsq, children)
        invariant SameOutside(tree, quota, old(ones.rs), ones.rs)
        invariant expls01 == old(expls01)
      {
        ghost var before := ones.rs;
        dsq := PlaceholderTurn(quota, counted, k, dsq);
        SameOutsideTrans(tree, quota, old(ones.rs), before, ones.rs);
        k := k + 1;
      }
      assert k < |children| ==> |dsq| >= tree.nodes[quota].minSub;
      assert k == |children| ==> children[..k] == children;
    }

    /** One turn of that loop: the `k`-th sub-quota gets a point-0 placeholder unless it is counted already. */
    method PlaceholderTurn(quota: nat, counted: seq<Option<nat>>, k: nat, dsq: seq<Option<nat>>)
      returns (dsq': seq<Option<nat>>)
      requires Valid() && quota < |tree.nodes| && ChildrenBelow(tree, quota) && k < |tree.nodes[quota].children|
      requires Extends(counted, dsq, tree.nodes[quota].minSub) && |dsq| < tree.nodes[quota].minSub
      requires ListsAll(dsq, tree.nodes[quota].children[..k]) && NewAmong(counted, dsq, tree.nodes[quota].children)
      modifies this, ones
      ensures Valid()
      ensures var sq := tree.nodes[quota].children[k];
        && dsq' == (if Some(sq) in dsq then dsq else dsq + [Some(sq)])
        && sq < |tree.nodes|
        && ones.rs == if Some(sq) in dsq then old(ones.rs)
                      else old(ones.rs)[sq := old(ones.rs)[sq] + [UnenrolledSomewhat(old(nextId), sq)]]
      ensures Extends(counted, dsq', tree.nodes[quota].minSub)
      ensures ListsAll(dsq', tree.nodes[quota].children[..k + 1]) && NewAmong(counted, dsq', tree.nodes[quota].children)
      ensures SameOutside(tree, quota, old(ones.rs), ones.rs)
      ensures expls01 == old(expls01)
    {
      var children := tree.nodes[quota].children;
      var sq := children[k];
      dsq' := dsq;
      if Some(sq) !in dsq {
        AddPlaceholder(sq, MinSubReason(tree, quota));
        ExtendsStep(counted, dsq, tree.nodes[quota].minSub, Some(sq));
        ListsAllStep(dsq, children, k, [Some(sq)]);
        dsq' := dsq + [Some(sq)];
      } else {
        ListsAllStep(dsq, children, k, []);
        assert dsq + [] == dsq;
      }
    }

    /**
     * The trim of `distribute1`: with more than `minSub` sub-quotas
     * counted, those beyond the `minSub` with the fewest unenrolled
     * reports lose their `unenrolled-*` reports. Nothing else changes.
     */
    method Trim(quota: nat, dsq: seq<Option<nat>>)
      requires Valid() && quota < |tree.nodes|
      requires |dsq| > tree.nodes[quota].minSub ==> forall x :: x in dsq ==> x.Some? && x.value < |tree.nodes|
      modifies ones
      ensures Valid()
      ensures |dsq| <= tree.nodes[quota].minSub ==> ones.rs == old(ones.rs)
      ensures |dsq| > tree.nodes[quota].minSub ==>
        ones.rs == TrimmedBy(tree, old(ones.rs), Dropped(UnenrolledCounts(tree, old(ones.rs), dsq), tree.nodes[quota].minSub))
      ensures forall x :: 0 <= x < |tree.nodes| ==>
        ones.rs[x] == old(ones.rs)[x] || ones.rs[x] == Filter(old(ones.rs)[x], Kept)
      ensures forall x :: 0 <= x < |tree.nodes| && (forall c :: Some(c) in dsq && c < |tree.nodes| ==> !tree.Encloses(c, x)) ==>
        ones.rs[x] == old(ones.rs)[x]
    {
      ghost var before := ones.rs;
      assert |before| == |tree.nodes|;
      if |dsq| > tree.nodes[quota].minSub {
        var counts := UnenrolledCounts(tree, ones.rs, dsq);
        var dropped := Dropped(counts, tree.nodes[quota].minSub);
        DroppedListed(dsq, counts, tree.nodes[quota].minSub, |tree.nodes|);
        TrimAll(dropped);
        TrimmedOutside(tree, before, dsq, dropped);
      }
    }

    /** The loop of the trim: the subtree of each of `ids` in turn loses its `unenrolled-*` reports. */
    method TrimAll(ids: seq<nat>)
      requires Valid() && forall k :: 0 <= k < |ids| ==> ids[k] < |tree.nodes|
      modifies ones
      ensures Valid()
      ensures ones.rs == TrimmedBy(tree, old(ones.rs), ids)
    {
      for k := 0 to |ids|
        invariant Valid()
        invariant ones.rs == TrimmedBy(tree, old(ones.rs), ids[..k])
      {
        var before := ones.rs;
        ones.Filter(ids[k], Kept);
        BalancedTrim(before, point1.rs, remains.credits, start, ids[k], tree.End(ids[k]));
        assert ids[..k + 1][..k] == ids[..k];
      }
      assert ids[..|ids|] == ids;
    }

    /**
     * The capacity phase of `distribute1` for a quota with `n`: the best
     * units below it take weight 1 while fewer than `n` units are counted,
     * then point-0 placeholders make up the rest. The quota ends with
     * exactly `n` units unless it had more already, and only its own
     * subtree changes.
     */
    method FillCapacity(quota: nat, n: int)
      requires Valid() && quota < |tree.nodes|
      modifies this, remains, ones
      ensures Valid()
      ensures InTree(tree, old(remains.Under(quota)))
      ensures var taken := Capacity(tree, quota, n, old(ones.rs), old(remains.Under(quota)));
        var lack := n - Held(taken, quota, tree.End(quota));
        ones.rs == if lack > 0 then taken[quota := taken[quota] + Placeholders(old(nextId), quota, lack)] else taken
      ensures ones.count[quota] == if old(ones.count[quota]) >= n then old(ones.count[quota]) else n
      ensures SameOutside(tree, quota, old(ones.rs), ones.rs)
      ensures expls01 == old(expls01)
    {
      ValidIsLaid(tree);
      var snap := remains.Under(quota);
      assert snap == old(remains.Under(quota));
      UnderSafe(tree, remains.credits, quota, snap);
      ghost var before, held := ones.rs, ones.count[quota];
      assert held == Held(before, quota, tree.End(quota));
      CapacityLoop(quota, n, snap);
      ghost var taken := ones.rs;
      var lack := n - ones.Count(quota);
      assert lack == n - Held(taken, quota, tree.End(quota));
      CapacityAfter(tree, quota, n, before, snap, held, ones.count[quota]);
      if lack > 0 {
        PadCapacity(quota, n, lack);
      }
    }

    /** The loop over the snapshot, which stops once `n` units are counted. */
    method CapacityLoop(quota: nat, n: int, snap: seq<Slot>)
      requires Valid() && quota < |tree.nodes| && InTree(tree, snap) && SnapSafe(snap, 0, remains.credits)
      modifies this, remains, ones
      ensures Valid()
      ensures ones.rs == Capacity(tree, quota, n, old(ones.rs), snap)
      ensures nextId == old(nextId) && expls01 == old(expls01)
    {
      ghost var before, id, e01 := ones.rs, nextId, expls01;
      assert snap[0..] == snap;
      for i := 0 to |snap|
        invariant CapacityAt(quota, n, snap, i, before, id, e01)
      {
        if ones.Count(quota) >= n {
          CapacityDone(tree, quota, n, ones.rs, snap[i..]);
          return;
        }
        CapacityAdvance(quota, n, snap, i, before, id, e01);
      }
      CapacityDone(tree, quota, n, ones.rs, snap[|snap|..]);
    }

    /**
     * The state of that loop at cursor `i`: the run from the start equals
     * the run of what is left from the current lists.
     */
    ghost predicate CapacityAt(quota: nat, n: int, snap: seq<Slot>, i: nat, before: seq<seq<ScoredReport>>,
                               id: nat, e01: map<ScoredReport, seq<Expl>>)
      reads this, remains, ones, point1
    {
      && Valid() && quota < |tree.nodes| && i <= |snap| && InTree(tree, snap) && InTree(tree, snap[i..])
      && SnapSafe(snap, i, remains.credits) && |before| == |tree.nodes|
      && Capacity(tree, quota, n, before, snap) == Capacity(tree, quota, n, ones.rs, snap[i..])
      && nextId == id && expls01 == e01
    }

    /** A turn of that loop, seen from the run: what is left of the run is one unit shorter. */
    method CapacityAdvance(quota: nat, n: int, snap: seq<Slot>, i: nat, ghost before: seq<seq<ScoredReport>>,
                           ghost id: nat, ghost e01: map<ScoredReport, seq<Expl>>)
      requires CapacityAt(quota, n, snap, i, before, id, e01) && i < |snap| && ones.count[quota] < n
      modifies this, remains, ones
      ensures CapacityAt(quota, n, snap, i + 1, before, id, e01)
    {
      CapacityStep(tree, quota, n, ones.rs, snap, i);
      CapacityTurn(quota, n, snap, i);
    }

    /**
     * One turn of that loop: the unit at the cursor takes weight 1 when
     * the slot accepts it, and its credit is consumed.
     */
    method CapacityTurn(quota: nat, n: int, snap: seq<Slot>, i: nat)
      requires Valid() && quota < |tree.nodes| && i < |snap| && InTree(tree, snap) && SnapSafe(snap, i, remains.credits)
      modifies this, remains, ones
      ensures Valid()
      ensures SnapSafe(snap, i + 1, remains.credits)
      ensures ones.rs == Take(tree, old(ones.rs), snap[i], RatioOne)
      ensures remains.credits == if ones.rs == old(ones.rs) then old(remains.credits)
        else old(remains.credits)[snap[i].q := Consumed(old(remains.credits)[snap[i].q], snap[i].r)]
      ensures expls1 == if ones.rs == old(ones.rs) then old(expls1) else old(expls1)[snap[i].r := CapacityReason(tree, quota, n)]
      ensures expls01 == old(expls01) && nextId == old(nextId)
    {
      var s := snap[i];
      SnapSkip(snap, i, remains.credits);
      var errors := ones.Check(s.q, s.r, RatioOne);
      if errors == [] {
        SnapConsume(snap, i, remains.credits);
        TakeOne(s, CapacityReason(tree, quota, n));
        assert |ones.rs[s.q]| == |old(ones.rs)[s.q]| + 1;
      }
    }

    /** `lack` point-0 placeholders in the quota itself, numbered on from `nextId`. */
    method PadCapacity(quota: nat, n: int, lack: nat)
      requires Valid() && quota < |tree.nodes|
      modifies this, ones
      ensures Valid()
      ensures ones.rs == old(ones.rs)[quota := old(ones.rs)[quota] + Placeholders(old(nextId), quota, lack)]
      ensures ones.count[quota] == old(ones.count[quota]) + lack
      ensures nextId == old(nextId) + lack && expls01 == old(expls01)
    {
      ghost var before, held, id := ones.rs, ones.count[quota], nextId;
      PadStart(before, quota, id);
      for k := 0 to lack
        invariant Valid()
        invariant ones.rs == before[quota := before[quota] + Placeholders(id, quota, k)]
        invariant nextId == id + k && expls01 == old(expls01)
      {
        PadTurn(quota, n, before, id, k);
      }
      HeldUpdate(before, quota, before[quota] + Placeholders(id, quota, lack), quota, tree.End(quota));
    }

    /** One turn of that loop: the `k`-th placeholder, numbered `id + k`. */
    method PadTurn(quota: nat, n: int, ghost before: seq<seq<ScoredReport>>, ghost id: nat, k: nat)
      requires Valid() && quota < |tree.nodes| && |before| == |tree.nodes|
      requires ones.rs == before[quota := before[quota] + Placeholders(id, quota, k)] && nextId == id + k
      modifies this, ones
      ensures Valid()
      ensures ones.rs == before[quota := before[quota] + Placeholders(id, quota, k + 1)]
      ensures nextId == id + k + 1 && expls01 == old(expls01)
    {
      PadStep(before, ones.rs, quota, id, k);
      AddPlaceholder(quota, CapacityReason(tree, quota, n));
    }

    /**
     * `distribute1(quota)`: the sub-quotas first, then the quota's own
     * phases. Right after it the quota holds at least `n` units, and no
     * quota outside its subtree has changed.
     */
    method Distribute1(quota: nat)
      requires Valid() && quota < |tree.nodes|
      modifies this, remains, ones
      ensures Valid()
      ensures tree.nodes[quota].n.Some? ==> ones.count[quota] >= tree.nodes[quota].n.value
      ensures SameOutside(tree, quota, old(ones.rs), ones.rs)
      ensures expls01 == old(expls01)
      decreases |tree.nodes| - quota, 2
    {
      ghost var before := ones.rs;
      ChildrenChain(tree, quota);
      DistributeChildren(quota);
      ghost var mid := ones.rs;
      FillQuota(quota);
      SameOutsideTrans(tree, quota, before, mid, ones.rs);
    }

    /** `quota.subQuotas.forEach(distribute1)`: only the subtree below the quota changes. */
    method DistributeChildren(quota: nat)
      requires Valid() && quota < |tree.nodes|
      requires Chain(tree, tree.nodes[quota].children, quota + 1, tree.End(quota))
      modifies this, remains, ones
      ensures Valid()
      ensures SameOutside(tree, quota, old(ones.rs), ones.rs)
      ensures expls01 == old(expls01)
      decreases |tree.nodes| - quota, 1
    {
      DistributeEach(tree.nodes[quota].children, quota, quota + 1, tree.End(quota));
      BeyondOutside(tree, quota, old(ones.rs), ones.rs);
    }

    /**
     * The phases of `distribute1` after the sub-quotas: `minSub`, then,
     * for a quota with `n`, the capacity phase.
     */
    method FillQuota(quota: nat)
      requires Valid() && quota < |tree.nodes|
      modifies this, remains, ones
      ensures Valid()
      ensures tree.nodes[quota].n.Some? ==> ones.count[quota] >= tree.nodes[quota].n.value
      ensures SameOutside(tree, quota, old(ones.rs), ones.rs)
      ensures expls01 == old(expls01)
    {
      ghost var before := ones.rs;
      MinSubPhase(quota);
      ghost var mid := ones.rs;
      if tree.nodes[quota].n.Some? {
        FillCapacity(quota, tree.nodes[quota].n.value);
        SameOutsideTrans(tree, quota, before, mid, ones.rs);
      }
    }

    /**
     * The `minSub` phase of `distribute1`: the sub-quotas counted so far,
     * then the trim of those beyond `minSub`.
     */
    method MinSubPhase(quota: nat)
      requires Valid() && quota < |tree.nodes|
      modifies this, remains, ones
      ensures Valid()
      ensures SameOutside(tree, quota, old(ones.rs), ones.rs)
      ensures expls01 == old(expls01)
    {
      var dsq := CountSubQuotas(quota);
      ghost var counted := ones.rs;
      Trim(quota, dsq);
      TrimmedInside(tree, quota, dsq, counted, ones.rs);
      SameOutsideTrans(tree, quota, old(ones.rs), counted, ones.rs);
    }

    /**
     * The sub-quotas already counted (those with `n` or with a unit), the
     * best units of uncounted ones, then placeholders for the rest: the
     * list `distributedSubQ` the trim works on.
     */
    method CountSubQuotas(quota: nat) returns (dsq: seq<Option<nat>>)
      requires Valid() && quota < |tree.nodes|
      modifies this, remains, ones
      ensures Valid()
      ensures forall y :: y in dsq && y.Some? ==> y.value in tree.nodes[quota].children
      ensures |dsq| > tree.nodes[quota].minSub ==> forall x :: x in dsq ==> x.Some? && x.value < |tree.nodes|
      ensures SameOutside(tree, quota, old(ones.rs), ones.rs)
      ensures expls01 == old(expls01)
    {
      ValidIsLaid(tree);
      ChildrenBelowHolds(tree, quota);
      var children := tree.nodes[quota].children;
      var counted := CountedAmong(tree, children, ones.count);
      var mid := FillMinSub(quota, counted);
      ghost var rs1 := ones.rs;
      dsq := FillPlaceholders(quota, mid);
      SameOutsideTrans(tree, quota, old(ones.rs), rs1, ones.rs);
      ExtendsTrans(counted, mid, dsq, tree.nodes[quota].minSub);
      if |dsq| > tree.nodes[quota].minSub {
        assert dsq == counted;
      }
    }

    /**
     * `ids.forEach(distribute1)`, for the sub-quotas of a quota or for the
     * top-level quotas: a chain of sibling subtrees covering `[lo, hi)`.
     * Each listed quota with `n` then holds at least `n` units, since a
     * later sibling never touches an earlier one, and nothing outside
     * `[lo, hi)` changes.
     */
    method DistributeEach(ids: seq<nat>, above: int, ghost lo: nat, ghost hi: nat)
      requires Valid() && Chain(tree, ids, lo, hi) && above < lo
      modifies this, remains, ones
      ensures Valid()
      ensures forall k :: 0 <= k < |ids| ==>
        ids[k] < |tree.nodes| && (tree.nodes[ids[k]].n.Some? ==> ones.count[ids[k]] >= tree.nodes[ids[k]].n.value)
      ensures SameBeyond(lo, hi, old(ones.rs), ones.rs)
      ensures expls01 == old(expls01)
      decreases |tree.nodes| - above, 0
    {
      ChainFacts(tree, ids, lo, hi);
      for k := 0 to |ids|
        invariant Valid()
        invariant Reached(tree, ids, k, ones.rs)
        invariant SameBeyond(lo, hi, old(ones.rs), ones.rs)
        invariant expls01 == old(expls01)
      {
        ghost var before := ones.rs;
        Distribute1(ids[k]);
        assert ones.count[ids[k]] == Held(ones.rs, ids[k], tree.End(ids[k]));
        assert forall j :: 0 <= j < k ==> tree.End(ids[j]) <= ids[k];
        EachStep(tree, ids, lo, hi, k, old(ones.rs), before, ones.rs);
      }
    }

    /**
     * The 0.1 phase: every unit still waiting, best first, takes weight
     * 0.1 when the point-0.1 slot accepts it; either way its reasons are
     * recorded. The units of weight 1 stay as they were.
     */
    method FillTenths()
      requires Valid()
      modifies this, remains, point1
      ensures Valid()
      ensures InTree(tree, old(remains.All()))
      ensures point1.rs == Tenths(tree, old(point1.rs), old(remains.All()))
      ensures expls1 == old(expls1) && nextId == old(nextId)
    {
      var snap := remains.All();
      assert snap == old(remains.All());
      AllSafe(remains.credits, snap);
      TenthLoop(snap);
    }

    /** The loop of the 0.1 phase over a snapshot whose units are backed by credits. */
    method TenthLoop(snap: seq<Slot>)
      requires Valid() && InTree(tree, snap) && SnapSafe(snap, 0, remains.credits)
      modifies this, remains, point1
      ensures Valid()
      ensures point1.rs == Tenths(tree, old(point1.rs), snap)
      ensures expls1 == old(expls1) && nextId == old(nextId)
    {
      ghost var before := point1.rs;
      assert snap[0..] == snap;
      for i := 0 to |snap|
        invariant Valid()
        invariant SnapSafe(snap, i, remains.credits)
        invariant InTree(tree, snap[i..])
        invariant Tenths(tree, before, snap) == Tenths(tree, point1.rs, snap[i..])
        invariant expls1 == old(expls1) && nextId == old(nextId)
      {
        TenthAdvance(snap, i, before);
      }
    }

    /** A turn of that loop, seen from the run: what is left of the run is one unit shorter. */
    method TenthAdvance(snap: seq<Slot>, i: nat, ghost before: seq<seq<ScoredReport>>)
      requires Valid() && i < |snap| && InTree(tree, snap) && InTree(tree, snap[i..])
      requires SnapSafe(snap, i, remains.credits) && |before| == |tree.nodes|
      requires Tenths(tree, before, snap) == Tenths(tree, point1.rs, snap[i..])
      modifies this, remains, point1
      ensures Valid() && SnapSafe(snap, i + 1, remains.credits) && InTree(tree, snap[i + 1..])
      ensures Tenths(tree, before, snap) == Tenths(tree, point1.rs, snap[i + 1..])
      ensures expls1 == old(expls1) && nextId == old(nextId)
    {
      TenthsStep(tree, point1.rs, snap, i);
      TenthTurn(snap, i);
    }

    /**
     * One turn of that loop: the unit at the cursor takes weight 0.1 when
     * the point-0.1 slot accepts it, and its credit is consumed. Its
     * reasons are what the weight-1 slot has against it, then the 0.1
     * reason or what the point-0.1 slot has against it.
     */
    method TenthTurn(snap: seq<Slot>, i: nat)
      requires Valid() && i < |snap| && InTree(tree, snap) && SnapSafe(snap, i, remains.credits)
      modifies this, remains, point1
      ensures Valid()
      ensures SnapSafe(snap, i + 1, remains.credits)
      ensures point1.rs == Take(tree, old(point1.rs), snap[i], RatioTenth)
      ensures var against := CheckUp(tree, old(point1.rs), snap[i].q, snap[i].r, RatioTenth);
        && remains.credits == (if against == [] then old(remains.credits)[snap[i].q := Consumed(old(remains.credits)[snap[i].q], snap[i].r)]
                               else old(remains.credits))
        && expls01 == old(expls01)[snap[i].r := CheckUp(tree, ones.rs, snap[i].q, snap[i].r, RatioOne)
                                               + if against == [] then [TenthReason()] else against]
      ensures expls1 == old(expls1) && nextId == old(nextId)
    {
      var s := snap[i];
      SnapSkip(snap, i, remains.credits);
      var errors1 := ones.Check(s.q, s.r, RatioOne);
      var errors01 := point1.Check(s.q, s.r, RatioTenth);
      if errors01 == [] {
        SnapConsume(snap, i, remains.credits);
        TakeTenth(s, errors1 + [TenthReason()]);
      } else {
        expls01 := expls01[s.r := errors1 + errors01];
      }
    }

    /** `[...w1, ...w01, ...w0]`: the units of weight 1, of weight 0.1, then every unit still waiting. */
    function Result(): seq<WeightedUnit>
      reads this, remains, ones, point1
    {
      Output(ones.Values(), point1.Values(), remains.All(), expls1, expls01)
    }

    /**
     * No report has more units in the result than the credits it started
     * with, and one that is not `unenrolled-*` has exactly that many: each
     * of its units is at weight 1, 0.1 or 0.
     */
    lemma ResultCounts(r: SpecificScoredReport)
      requires Valid()
      ensures |Filter(Result(), Of(r))| <= LeftIn(start, r)
      ensures Kept(r) ==> |Filter(Result(), Of(r))| == LeftIn(start, r)
    {
      OutputCount(ones.Values(), point1.Values(), remains.All(), expls1, expls01, r);
      assert ones.rs[0..] == ones.rs && point1.rs[0..] == point1.rs;
      FlattenCount(ones.rs, r, 0);
      FlattenCount(point1.rs, r, 0);
      FilterLenSortBy(AllUnits(remains.credits, 0), SlotKey, SlotOf(r));
      AllReports(remains.credits, 0, r);
      BalanceSum(ones.rs, point1.rs, remains.credits, start, r, 0);
      assert remains.credits[0..] == remains.credits && start[0..] == start;
    }

    /**
     * The result lists weight 1, then 0.1, then 0, and every unit not of
     * weight 1 is one of a real report: placeholders only ever get weight 1.
     */
    lemma ResultShape()
      requires Valid()
      ensures forall i, j :: 0 <= i < j < |Result()| ==> OutputRank(Result()[i].weight) >= OutputRank(Result()[j].weight)
      ensures forall k :: 0 <= k < |Result()| ==> OutputRank(Result()[k].weight) >= 0
      ensures forall k :: 0 <= k < |Result()| && Result()[k].weight != W1 ==> Result()[k].report.HasCourse()
    {
      AllSpecificFlatten(point1.rs);
      OutputShape(ones.Values(), point1.Values(), remains.All(), expls1, expls01);
      assert Result() == Output(ones.Values(), point1.Values(), remains.All(), expls1, expls01);
    }
  }

  /**
   * `distributeBasic(reports, requirements)`: every unit of every report
   * `allocate` places is listed once, at weight 1, 0.1 or 0, in that
   * order; a report that is not `unenrolled-*` keeps all its units, and
   * only placeholders stand for no report.
   */
  method DistributeBasic(reports: seq<SpecificScoredReport>, tree: QuotaTree) returns (wu: seq<WeightedUnit>)
    requires QuotaTrees.Valid(tree)
    ensures forall r: SpecificScoredReport :: |Filter(wu, Of(r))| <= AllocatedCredit(tree, reports, r)
    ensures forall r: SpecificScoredReport :: Kept(r) ==> |Filter(wu, Of(r))| == AllocatedCredit(tree, reports, r)
    ensures forall i, j :: 0 <= i < j < |wu| ==> OutputRank(wu[i].weight) >= OutputRank(wu[j].weight)
    ensures forall k :: 0 <= k < |wu| ==> OutputRank(wu[k].weight) >= 0
    ensures forall k :: 0 <= k < |wu| && wu[k].weight != W1 ==> wu[k].report.HasCourse()
  {
    ValidIsLaid(tree);
    var d := new Distributor(tree, reports);
    d.DistributeEach(tree.roots, -1, 0, |tree.nodes|);
    d.FillTenths();
    wu := d.Result();
    d.ResultShape();
    forall r: SpecificScoredReport
      ensures |Filter(wu, Of(r))| <= AllocatedCredit(tree, reports, r)
      ensures Kept(r) ==> |Filter(wu, Of(r))| == AllocatedCredit(tree, reports, r)
    {
      d.ResultCounts(r);
      StartTotal(tree, reports, d.start, r, 0);
      assert d.start[0..] == d.start;
    }
  }
}

=== FILE: distribute_choiki.dfy ===
/**
 * `distributeChoiki` of src/weights.ts: the weights of the average of the
 * Advanced Inter-Cultural Studies course (超域文化科学) of the College of
 * Arts and Sciences. The reports are ranked by `ordering`, best first; the
 * top six tenths of them, rounded, weigh 1 and the rest weigh 0.1, every
 * credit of a report being one unit.
 */
module ChoikiWeights {
  import opened Seqs
  import opened Reports
  import opened Weights

  function TopReason(): Expl
  {
    Expl("点数がつく全履修科目のうち点数上位6割（四捨五入）の科目の重率が1", ["p.97"])
  }

  function RestReason(): Expl
  {
    Expl("残った科目の重率は0.1", ["p.97"])
  }

  /**
   * `Math.round(len * 6 / 10)`. Six tenths of a whole number never end in
   * one half, so the result is the one integer nearest to them.
   */
  function TopCount(len: nat): (n: nat)
    ensures n <= len
    ensures -5 < 6 * len - 10 * n < 5
  {
    var q := (6 * len + 5) / 10;
    var r := (6 * len + 5) % 10;
    assert 6 * len + 5 == 10 * q + r && 0 <= r < 10;
    // `r` is odd, so it is not 0
    assert r == 2 * (3 * len - 5 * q + 2) + 1;
    q
  }

  /** `TopCount(len)` is the only integer within one half of six tenths of `len`. */
  lemma TopCountNearest(len: nat, m: int)
    requires -5 < 6 * len - 10 * m < 5
    ensures m == TopCount(len)
  {
  }

  /** The unit pushed for the report at position `k` of the ranking. */
  function UnitAt(reps: seq<SpecificScoredReport>, n: nat, k: nat): (u: WeightedUnit)
    requires k < |reps|
    ensures u.report == reps[k]
    ensures u.weight == W1 <==> k < n
    ensures u.weight == W1 || u.weight == W01
  {
    if k < n then WeightedUnit(reps[k], W1, [TopReason()])
    else WeightedUnit(reps[k], W01, [RestReason()])
  }

  /** The units the outer loop has pushed for the first `m` ranked reports. */
  function ChoikiPrefix(reps: seq<SpecificScoredReport>, n: nat, m: nat): seq<WeightedUnit>
    requires m <= |reps|
  {
    if m == 0 then []
    else ChoikiPrefix(reps, n, m - 1) + Repeat(UnitAt(reps, n, m - 1), reps[m - 1].course.credit)
  }

  /** The reports, best first: `toSorted((a, b) => -ordering(a, b))`. */
  function Ranked(reports: seq<SpecificScoredReport>): (reps: seq<SpecificScoredReport>)
    ensures |reps| == |reports|
  {
    SortBy(reports, RankKey)
  }

  /** What `distributeChoiki(reports)` returns. */
  function ChoikiUnits(reports: seq<SpecificScoredReport>): seq<WeightedUnit>
  {
    ChoikiPrefix(Ranked(reports), TopCount(|reports|), |reports|)
  }

  method DistributeChoiki(reports: seq<SpecificScoredReport>) returns (wu: seq<WeightedUnit>)
    ensures wu == ChoikiUnits(reports)
  {
    var reps := Ranked(reports);
    var n := TopCount(|reps|);
    wu := [];
    for k := 0 to |reps|
      invariant wu == ChoikiPrefix(reps, n, k)
    {
      var report := reps[k];
      var u := if k < n then WeightedUnit(report, W1, [TopReason()])
               else WeightedUnit(report, W01, [RestReason()]);
      ghost var init := wu;
      for i := 0 to report.course.credit
        invariant wu == init + Repeat(u, i)
      {
        RepeatSnoc(init, u, i);
        wu := wu + [u];
      }
      PrefixStep(reps, n, k, u);
    }
  }

  /** The units of the report at position `k` extend the prefix by its credits. */
  lemma PrefixStep(reps: seq<SpecificScoredReport>, n: nat, k: nat, u: WeightedUnit)
    requires k < |reps|
    requires u == (if k < n then WeightedUnit(reps[k], W1, [TopReason()]) else WeightedUnit(reps[k], W01, [RestReason()]))
    ensures ChoikiPrefix(reps, n, k + 1) == ChoikiPrefix(reps, n, k) + Repeat(u, reps[k].course.credit)
  {
  }

  lemma RepeatSnoc<T>(init: seq<T>, x: T, i: nat)
    ensures init + Repeat(x, i) + [x] == init + Repeat(x, i + 1)
  {
    assert forall j :: 0 <= j < i + 1 ==> (Repeat(x, i) + [x])[j] == x;
    assert Repeat(x, i) + [x] == Repeat(x, i + 1);
  }

  // ---------------------------------------------------------------------
  // What the units are
  // ---------------------------------------------------------------------

  /** Every unit of the first `m` ranked reports comes from one of them. */
  lemma {:induction false} PrefixOrigin(reps: seq<SpecificScoredReport>, n: nat, m: nat)
    requires m <= |reps|
    ensures forall j :: 0 <= j < |ChoikiPrefix(reps, n, m)| ==>
      exists k :: 0 <= k < m && ChoikiPrefix(reps, n, m)[j] == UnitAt(reps, n, k)
  {
    if m > 0 {
      PrefixOrigin(reps, n, m - 1);
      var init := ChoikiPrefix(reps, n, m - 1);
      var tail := Repeat(UnitAt(reps, n, m - 1), reps[m - 1].course.credit);
      assert ChoikiPrefix(reps, n, m) == init + tail;
      forall j | 0 <= j < |ChoikiPrefix(reps, n, m)|
        ensures exists k :: 0 <= k < m && ChoikiPrefix(reps, n, m)[j] == UnitAt(reps, n, k)
      {
        if j < |init| {
          var k :| 0 <= k < m - 1 && init[j] == UnitAt(reps, n, k);
          assert ChoikiPrefix(reps, n, m)[j] == UnitAt(reps, n, k);
        } else {
          assert ChoikiPrefix(reps, n, m)[j] == tail[j - |init|] == UnitAt(reps, n, m - 1);
        }
      }
    } else {
      assert ChoikiPrefix(reps, n, m) == [];
    }
  }

  /** The units of weight 1 come first: they are those of the first `n` reports. */
  lemma {:induction false} PrefixWeights(reps: seq<SpecificScoredReport>, n: nat, m: nat)
    requires m <= |reps|
    ensures n <= m ==> |ChoikiPrefix(reps, n, n)| <= |ChoikiPrefix(reps, n, m)|
    ensures forall j :: 0 <= j < |ChoikiPrefix(reps, n, m)| ==>
      (ChoikiPrefix(reps, n, m)[j].weight == W1 <==> (m <= n || j < |ChoikiPrefix(reps, n, n)|))
  {
    if m > 0 {
      PrefixWeights(reps, n, m - 1);
      PrefixWeightsStep(reps, n, m - 1, m);
    }
  }

  /** The step of `PrefixWeights`: the units of the report at `k` weigh 1 exactly when `k < n`. */
  lemma PrefixWeightsStep(reps: seq<SpecificScoredReport>, n: nat, k: nat, m: nat)
    requires k < |reps| && m == k + 1
    requires n <= k ==> |ChoikiPrefix(reps, n, n)| <= |ChoikiPrefix(reps, n, k)|
    requires forall j :: 0 <= j < |ChoikiPrefix(reps, n, k)| ==>
      (ChoikiPrefix(reps, n, k)[j].weight == W1 <==> (k <= n || j < |ChoikiPrefix(reps, n, n)|))
    ensures n <= m ==> |ChoikiPrefix(reps, n, n)| <= |ChoikiPrefix(reps, n, m)|
    ensures forall j :: 0 <= j < |ChoikiPrefix(reps, n, m)| ==>
      (ChoikiPrefix(reps, n, m)[j].weight == W1 <==> (m <= n || j < |ChoikiPrefix(reps, n, n)|))
  {
    var init := ChoikiPrefix(reps, n, k);
    var u := UnitAt(reps, n, k);
    var all := ChoikiPrefix(reps, n, m);
    assert all == init + Repeat(u, reps[k].course.credit);
    forall j | 0 <= j < |all|
      ensures all[j].weight == W1 <==> (m <= n || j < |ChoikiPrefix(reps, n, n)|)
    {
      if j < |init| {
        assert all[j] == init[j];
      } else {
        assert all[j] == u;
      }
    }
  }

  /** Each unit stands for one credit: a report has as many units as credits per occurrence. */
  lemma {:induction false} PrefixCounts(reps: seq<SpecificScoredReport>, n: nat, m: nat, r: SpecificScoredReport)
    requires m <= |reps|
    ensures |Filter(ChoikiPrefix(reps, n, m), Of(r))| == Count(reps[..m], r) * r.course.credit
  {
    if m > 0 {
      PrefixCounts(reps, n, m - 1, r);
      PrefixCountsStep(reps, n, m, r);
    }
  }

  /** The step of `PrefixCounts`: the units of the report at `m - 1` add its credits to the count. */
  lemma PrefixCountsStep(reps: seq<SpecificScoredReport>, n: nat, m: nat, r: SpecificScoredReport)
    requires 0 < m <= |reps|
    requires |Filter(ChoikiPrefix(reps, n, m - 1), Of(r))| == Count(reps[..m - 1], r) * r.course.credit
    ensures |Filter(ChoikiPrefix(reps, n, m), Of(r))| == Count(reps[..m], r) * r.course.credit
  {
    var init := ChoikiPrefix(reps, n, m - 1);
    var tail := Repeat(UnitAt(reps, n, m - 1), reps[m - 1].course.credit);
    RepeatCount(reps, n, m - 1, r);
    FilterConcat(init, tail, Of(r));
    CountPrefixStep(reps, m, r);
    assert ChoikiPrefix(reps, n, m) == init + tail;
    AddProducts(|Filter(init, Of(r))|, |Filter(tail, Of(r))|, |Filter(ChoikiPrefix(reps, n, m), Of(r))|,
                Count(reps[..m - 1], r), Count([reps[m - 1]], r), Count(reps[..m], r), r.course.credit);
  }

  lemma AddProducts(x: int, y: int, z: int, a: int, b: int, d: int, c: int)
    requires x == a * c && y == b * c && z == x + y && d == a + b
    ensures z == d * c
  {
  }

  /** The units of one report stand for its credits. */
  lemma RepeatCount(reps: seq<SpecificScoredReport>, n: nat, k: nat, r: SpecificScoredReport)
    requires k < |reps|
    ensures |Filter(Repeat(UnitAt(reps, n, k), reps[k].course.credit), Of(r))|
         == Count([reps[k]], r) * r.course.credit
  {
    var tail := Repeat(UnitAt(reps, n, k), reps[k].course.credit);
    if reps[k] == r {
      FilterAll(tail, Of(r));
    } else {
      FilterNone(tail, Of(r));
    }
  }

  // ---------------------------------------------------------------------
  // The properties of distributeChoiki
  // ---------------------------------------------------------------------

  /** Every report gets one unit per credit for each time it is listed. */
  lemma ChoikiCounts(reports: seq<SpecificScoredReport>, r: SpecificScoredReport)
    ensures |Filter(ChoikiUnits(reports), Of(r))| == Count(reports, r) * r.course.credit
  {
    var reps := Ranked(reports);
    PrefixCounts(reps, TopCount(|reports|), |reports|, r);
    assert reps[..|reps|] == reps;
    SortByPermutes(reports, RankKey);
    CountMultiset(reps, r);
    CountMultiset(reports, r);
  }

  /**
   * Units weigh 1 with the top-six-tenths reason or 0.1 with the other one;
   * the units of weight 1 come first, and none of them has a lower point
   * than a unit of weight 0.1.
   */
  lemma ChoikiShape(reports: seq<SpecificScoredReport>)
    ensures forall j :: 0 <= j < |ChoikiUnits(reports)| ==>
      (ChoikiUnits(reports)[j].weight == W1 && ChoikiUnits(reports)[j].expls == [TopReason()]) ||
      (ChoikiUnits(reports)[j].weight == W01 && ChoikiUnits(reports)[j].expls == [RestReason()])
    ensures forall a, b :: 0 <= a < b < |ChoikiUnits(reports)| && ChoikiUnits(reports)[b].weight == W1 ==>
      ChoikiUnits(reports)[a].weight == W1
    ensures forall a, b ::
      (0 <= a < |ChoikiUnits(reports)| && 0 <= b < |ChoikiUnits(reports)| &&
       ChoikiUnits(reports)[a].weight == W1 && ChoikiUnits(reports)[b].weight == W01) ==>
      ChoikiUnits(reports)[a].report.PointOf() >= ChoikiUnits(reports)[b].report.PointOf()
  {
    var reps := Ranked(reports);
    var n := TopCount(|reports|);
    SortBySorted(reports, RankKey);
    PrefixReasons(reps, n);
    PrefixWeights(reps, n, |reps|);
    PrefixPointsOrdered(reps, n);
  }

  /** Every unit carries the reason that goes with its weight. */
  lemma PrefixReasons(reps: seq<SpecificScoredReport>, n: nat)
    ensures forall j :: 0 <= j < |ChoikiPrefix(reps, n, |reps|)| ==>
      (ChoikiPrefix(reps, n, |reps|)[j].weight == W1 && ChoikiPrefix(reps, n, |reps|)[j].expls == [TopReason()]) ||
      (ChoikiPrefix(reps, n, |reps|)[j].weight == W01 && ChoikiPrefix(reps, n, |reps|)[j].expls == [RestReason()])
  {
    var wu := ChoikiPrefix(reps, n, |reps|);
    PrefixOrigin(reps, n, |reps|);
    forall j | 0 <= j < |wu|
      ensures (wu[j].weight == W1 && wu[j].expls == [TopReason()]) ||
              (wu[j].weight == W01 && wu[j].expls == [RestReason()])
    {
      var k :| 0 <= k < |reps| && wu[j] == UnitAt(reps, n, k);
    }
  }

  /** Over a ranking best first, no unit of weight 1 has a lower point than a unit of weight 0.1. */
  lemma PrefixPointsOrdered(reps: seq<SpecificScoredReport>, n: nat)
    requires SortedBy(reps, RankKey)
    ensures forall a, b ::
      (0 <= a < |ChoikiPrefix(reps, n, |reps|)| && 0 <= b < |ChoikiPrefix(reps, n, |reps|)| &&
       ChoikiPrefix(reps, n, |reps|)[a].weight == W1 && ChoikiPrefix(reps, n, |reps|)[b].weight == W01) ==>
      ChoikiPrefix(reps, n, |reps|)[a].report.PointOf() >= ChoikiPrefix(reps, n, |reps|)[b].report.PointOf()
  {
    var wu := ChoikiPrefix(reps, n, |reps|);
    PrefixOrigin(reps, n, |reps|);
    forall a, b | 0 <= a < |wu| && 0 <= b < |wu| && wu[a].weight == W1 && wu[b].weight == W01
      ensures wu[a].report.PointOf() >= wu[b].report.PointOf()
    {
      var ka :| 0 <= ka < |reps| && wu[a] == UnitAt(reps, n, ka);
      var kb :| 0 <= kb < |reps| && wu[b] == UnitAt(reps, n, kb);
      assert RankKey(reps[ka]) <= RankKey(reps[kb]);
      RankKeyAgrees(reps[ka], reps[kb]);
    }
  }

  /**
   * Among reports listed once, the report at position `k` of the ranking
   * weighs 1 exactly when `k` is below the rounded six tenths.
   */
  lemma ChoikiTop(reports: seq<SpecificScoredReport>)
    requires Distinct(reports)
    ensures forall j, k ::
      (0 <= j < |ChoikiUnits(reports)| && 0 <= k < |reports| &&
       ChoikiUnits(reports)[j].report == Ranked(reports)[k]) ==>
      (ChoikiUnits(reports)[j].weight == W1 <==> k < TopCount(|reports|))
  {
    var reps := Ranked(reports);
    var n := TopCount(|reports|);
    var wu := ChoikiUnits(reports);
    PrefixOrigin(reps, n, |reps|);
    SortByPermutes(reports, RankKey);
    DistinctPermutation(reports, reps);
    forall j, k | 0 <= j < |wu| && 0 <= k < |reps| && wu[j].report == reps[k]
      ensures wu[j].weight == W1 <==> k < n
    {
      var k' :| 0 <= k' < |reps| && wu[j] == UnitAt(reps, n, k');
    }
  }
}

=== FILE: distribute_eng.dfy ===
/**
 * `distributeEng` of src/weights.ts: the weights of the engineering
 * average. It starts from `distributeBasic` and lifts units of weight 0.1
 * to weight 1, best point first, as long as the unit's engineering score
 * is strictly above the engineering average of the units as they stand.
 *
 * The source sorts the unit objects themselves and changes them in place,
 * so the sorted array and the result share its elements. Here the sorted
 * array is a list of positions in the result, which says the same.
 */
module EngWeights {
  import opened Seqs
  import opened Reports
  import opened Rationals
  import opened Weights
  import opened Aggregation
  import QuotaTrees
  import opened BasicWeights

  /** The reason appended to a unit it lifts. */
  function EngReason(): Expl
  {
    Expl("工学部は点数ができるだけ高くなるように重率1に含める", ["p.97"])
  }

  /** `u.weight = 1; u.expls.push(...)`. */
  function Lifted(u: WeightedUnit): (v: WeightedUnit)
    ensures v.report == u.report && v.weight == W1 && v.expls == u.expls + [EngReason()]
    ensures v != u
  {
    u.(weight := W1, expls := u.expls + [EngReason()])
  }

  /** `u.weight === 0.1` for the unit at position `k`. */
  function IsTenthAt(wu: seq<WeightedUnit>): nat -> bool
  {
    (k: nat) => k < |wu| && wu[k].weight == W01
  }

  /** The positions of the units of weight 0.1 (`wu.filter(u => u.weight === 0.1)`). */
  function TenthPositions(wu: seq<WeightedUnit>): seq<nat>
  {
    Filter(Range(0, |wu|), IsTenthAt(wu))
  }

  /** The sort key of `(a, b) => -(a.report.point - b.report.point)`: the higher point first. */
  function PointDesc(wu: seq<WeightedUnit>): nat -> int
  {
    (k: nat) => if k < |wu| then -wu[k].report.PointOf() else 0
  }

  /** The units of weight 0.1 in the order the loop visits them. */
  function VisitOrder(wu: seq<WeightedUnit>): (order: seq<nat>)
    ensures forall k :: 0 <= k < |order| ==> order[k] < |wu| && wu[order[k]].weight == W01
  {
    FilterMembers(Range(0, |wu|), IsTenthAt(wu));
    SortByKeeps(TenthPositions(wu), PointDesc(wu), IsTenthAt(wu));
    SortBy(TenthPositions(wu), PointDesc(wu))
  }

  /**
   * `point <= average`, with the engineering average of the units compared
   * exactly: both sides multiplied by the weighted credits in tenths. The
   * sums over the units are the sums over `bundle(wu)` (`AtMostAverageExact`).
   */
  predicate AtMostAverage(wu: seq<WeightedUnit>, score: int)
  {
    score * UnitSum(wu, CreditTenths) <= UnitSum(wu, PointTenths(true))
  }

  /** What the loop does from the `j`-th visited unit on, the units as they stand being `wu`. */
  function PromoteFrom(wu: seq<WeightedUnit>, order: seq<nat>, j: nat): seq<WeightedUnit>
    requires forall k :: 0 <= k < |order| ==> order[k] < |wu|
    decreases |order| - j
  {
    if j >= |order| || AtMostAverage(wu, Score(wu[order[j]].report, true)) then wu
    else PromoteFrom(wu[order[j] := Lifted(wu[order[j]])], order, j + 1)
  }

  /** How many visited units the loop lifts from the `j`-th on. */
  function PromotedCount(wu: seq<WeightedUnit>, order: seq<nat>, j: nat): nat
    requires forall k :: 0 <= k < |order| ==> order[k] < |wu|
    decreases |order| - j
  {
    if j >= |order| || AtMostAverage(wu, Score(wu[order[j]].report, true)) then 0
    else 1 + PromotedCount(wu[order[j] := Lifted(wu[order[j]])], order, j + 1)
  }

  /** The result of the loop on the units `distributeBasic` gave. */
  function EngPromoted(base: seq<WeightedUnit>): seq<WeightedUnit>
  {
    PromoteFrom(base, VisitOrder(base), 0)
  }

  /** The visit order lists no unit twice. */
  lemma VisitOrderDistinct(wu: seq<WeightedUnit>)
    ensures Distinct(VisitOrder(wu))
  {
    var ps := TenthPositions(wu);
    FilterDistinct(Range(0, |wu|), IsTenthAt(wu));
    SortByPermutes(ps, PointDesc(wu));
    DistinctPermutation(ps, VisitOrder(wu));
  }

  /** The visit order lists every unit of weight 0.1. */
  lemma VisitOrderCovers(wu: seq<WeightedUnit>)
    ensures forall k :: 0 <= k < |wu| && wu[k].weight == W01 ==> k in VisitOrder(wu)
  {
    var ps := TenthPositions(wu);
    SortByPermutes(ps, PointDesc(wu));
    FilterMembers(Range(0, |wu|), IsTenthAt(wu));
    forall k | 0 <= k < |wu| && wu[k].weight == W01
      ensures k in VisitOrder(wu)
    {
      assert Range(0, |wu|)[k] == k && IsTenthAt(wu)(k);
      assert k in ps;
      assert k in multiset(VisitOrder(wu));
    }
  }

  /** The visit order goes by non-increasing point. */
  lemma VisitOrderDescending(wu: seq<WeightedUnit>)
    ensures forall a, b :: 0 <= a < b < |VisitOrder(wu)| ==>
      wu[VisitOrder(wu)[a]].report.PointOf() >= wu[VisitOrder(wu)[b]].report.PointOf()
  {
    var order := VisitOrder(wu);
    SortBySorted(TenthPositions(wu), PointDesc(wu));
    forall a, b | 0 <= a < b < |order|
      ensures wu[order[a]].report.PointOf() >= wu[order[b]].report.PointOf()
    {
      assert PointDesc(wu)(order[a]) <= PointDesc(wu)(order[b]);
    }
  }

  /**
   * From the `j`-th visited unit on, the loop lifts the next
   * `PromotedCount` visited units and changes nothing else.
   */
  lemma {:induction false} PromoteFromShape(wu: seq<WeightedUnit>, order: seq<nat>, j: nat)
    requires forall k :: 0 <= k < |order| ==> order[k] < |wu|
    requires Distinct(order) && j <= |order|
    ensures |PromoteFrom(wu, order, j)| == |wu|
    ensures j + PromotedCount(wu, order, j) <= |order|
    ensures forall k :: 0 <= k < |wu| && (forall t :: j <= t < |order| ==> order[t] != k) ==>
      PromoteFrom(wu, order, j)[k] == wu[k]
    ensures forall t :: j <= t < |order| ==>
      PromoteFrom(wu, order, j)[order[t]] ==
        if t < j + PromotedCount(wu, order, j) then Lifted(wu[order[t]]) else wu[order[t]]
    decreases |order| - j
  {
    if j < |order| && !AtMostAverage(wu, Score(wu[order[j]].report, true)) {
      var i := order[j];
      PromoteFromShape(wu[i := Lifted(wu[i])], order, j + 1);
      assert forall t :: j < t < |order| ==> order[t] != i;
    }
  }

  /** The unit the loop stops at is not above the average of the units it leaves. */
  lemma {:induction false} PromoteFromStops(wu: seq<WeightedUnit>, order: seq<nat>, j: nat)
    requires forall k :: 0 <= k < |order| ==> order[k] < |wu|
    requires Distinct(order) && j <= |order|
    ensures j + PromotedCount(wu, order, j) < |order| ==>
      AtMostAverage(PromoteFrom(wu, order, j),
                    Score(wu[order[j + PromotedCount(wu, order, j)]].report, true))
    decreases |order| - j
  {
    if j < |order| && !AtMostAverage(wu, Score(wu[order[j]].report, true)) {
      var i := order[j];
      var next := wu[i := Lifted(wu[i])];
      PromoteFromStops(next, order, j + 1);
      var m := PromotedCount(next, order, j + 1);
      if j + 1 + m < |order| {
        assert order[j + 1 + m] != i;
        assert next[order[j + 1 + m]].report == wu[order[j + 1 + m]].report;
      }
    }
  }

  /**
   * `distributeEng` changes nothing but units of weight 0.1, each to
   * weight 1 with the reason appended: those are the first ones in the
   * visit order (best point first), and the first one it leaves is not
   * above the engineering average of the result.
   */
  lemma EngPromotedShape(base: seq<WeightedUnit>)
    ensures |EngPromoted(base)| == |base|
    ensures forall k :: 0 <= k < |base| ==>
      EngPromoted(base)[k] == base[k] || (base[k].weight == W01 && EngPromoted(base)[k] == Lifted(base[k]))
    ensures PromotedCount(base, VisitOrder(base), 0) <= |VisitOrder(base)|
    ensures forall t :: 0 <= t < |VisitOrder(base)| ==>
      ((EngPromoted(base)[VisitOrder(base)[t]] != base[VisitOrder(base)[t]])
       <==> t < PromotedCount(base, VisitOrder(base), 0))
    ensures PromotedCount(base, VisitOrder(base), 0) < |VisitOrder(base)| ==>
      AtMostAverage(EngPromoted(base),
                    Score(base[VisitOrder(base)[PromotedCount(base, VisitOrder(base), 0)]].report, true))
  {
    var order := VisitOrder(base);
    VisitOrderDistinct(base);
    PromoteFromShape(base, order, 0);
    PromoteFromStops(base, order, 0);
  }

  /** Some unit of weight 0.1 or more makes the weighted credits positive. */
  lemma {:induction false} CreditsPositive(wu: seq<WeightedUnit>, i: nat)
    requires i < |wu| && wu[i].weight != W0
    ensures UnitSum(wu, CreditTenths) > 0
  {
    if i == 0 {
      UnitSumNonNegative(wu[1..]);
    } else {
      CreditsPositive(wu[1..], i - 1);
    }
  }

  lemma {:induction false} UnitSumNonNegative(wu: seq<WeightedUnit>)
    ensures UnitSum(wu, CreditTenths) >= 0
  {
    if wu != [] {
      UnitSumNonNegative(wu[1..]);
    }
  }

  /**
   * While a unit of weight 0.1 is left, the exact comparison is the
   * source's `point <= points / credits`, the division being defined.
   */
  lemma AtMostAverageExact(wu: seq<WeightedUnit>, i: nat, score: int)
    requires i < |wu| && wu[i].weight == W01
    ensures SumWeightedCredit(BundleOf(wu)).num != 0
    ensures AtMostAverage(wu, score) <==> (score as real) <= Average(BundleOf(wu), true).Value()
  {
    CreditsPositive(wu, i);
    BundleKeepsSums(wu, CreditTenths);
    BundleKeepsSums(wu, PointTenths(true));
    EngComparison(BundleOf(wu), score);
  }

  /**
   * `point <= sumWeightedPoint(weights, true).div(sumWeightedCredit(weights))`
   * with `weights = bundle(wu)`, compared exactly.
   */
  method NotAboveAverage(wu: seq<WeightedUnit>, point: int) returns (b: bool)
    ensures b == AtMostAverage(wu, point)
  {
    var weights := Bundle(wu);
    BundleKeepsSums(wu, CreditTenths);
    BundleKeepsSums(wu, PointTenths(true));
    b := point * Tenths10Credit(weights) <= Tenths10Point(weights, true);
  }

  /** The loop of `distributeEng` over the units `distributeBasic` gave. */
  method PromoteTenths(base: seq<WeightedUnit>) returns (wu: seq<WeightedUnit>)
    ensures wu == EngPromoted(base)
  {
    var order := VisitOrder(base);
    wu := base;
    var j := 0;
    while j < |order|
      invariant j <= |order| && |wu| == |base|
      invariant PromoteFrom(wu, order, j) == EngPromoted(base)
    {
      var u := wu[order[j]];
      var stop := NotAboveAverage(wu, EngPoint(u.report.PointOf()));
      if stop {
        break;
      }
      wu := wu[order[j] := Lifted(u)];
      j := j + 1;
    }
  }

  /** What `distributeBasic` promises of the units it returns for `reports` in `tree`. */
  ghost predicate BasicUnits(tree: QuotaTrees.QuotaTree, reports: seq<SpecificScoredReport>, base: seq<WeightedUnit>)
    requires QuotaTrees.Valid(tree)
  {
    && (forall r: SpecificScoredReport :: |Filter(base, Of(r))| <= AllocatedCredit(tree, reports, r))
    && (forall r: SpecificScoredReport :: Kept(r) ==> |Filter(base, Of(r))| == AllocatedCredit(tree, reports, r))
    && (forall i, j :: 0 <= i < j < |base| ==> OutputRank(base[i].weight) >= OutputRank(base[j].weight))
    && (forall k :: 0 <= k < |base| ==> OutputRank(base[k].weight) >= 0)
    && (forall k :: 0 <= k < |base| && base[k].weight != W1 ==> base[k].report.HasCourse())
  }

  /**
   * `distributeEng(reports, requirements)`: the units of `distributeBasic`,
   * some lifted from 0.1 to 1 by the loop `EngPromoted` describes. Every
   * report keeps its number of units.
   */
  method DistributeEng(reports: seq<SpecificScoredReport>, tree: QuotaTrees.QuotaTree) returns (wu: seq<WeightedUnit>)
    requires QuotaTrees.Valid(tree)
    ensures exists base :: BasicUnits(tree, reports, base) && wu == EngPromoted(base)
    ensures forall r: SpecificScoredReport :: |Filter(wu, Of(r))| <= AllocatedCredit(tree, reports, r)
    ensures forall r: SpecificScoredReport :: Kept(r) ==> |Filter(wu, Of(r))| == AllocatedCredit(tree, reports, r)
    ensures forall k :: 0 <= k < |wu| ==> OutputRank(wu[k].weight) >= 0
  {
    var base := DistributeBasic(reports, tree);
    wu := PromoteTenths(base);
    EngPromotedShape(base);
    SameReports(base, wu);
    assert BasicUnits(tree, reports, base) && wu == EngPromoted(base);
  }

  /** Units that keep their reports keep every report's number of units. */
  lemma SameReports(a: seq<WeightedUnit>, b: seq<WeightedUnit>)
    requires |a| == |b| && forall k :: 0 <= k < |a| ==> a[k].report == b[k].report
    ensures forall r: ScoredReport :: |Filter(a, Of(r))| == |Filter(b, Of(r))|
  {
    forall r: ScoredReport
      ensures |Filter(a, Of(r))| == |Filter(b, Of(r))|
    {
      SameReportsOf(a, b, r);
    }
  }

  lemma {:induction false} SameReportsOf(a: seq<WeightedUnit>, b: seq<WeightedUnit>, r: ScoredReport)
    requires |a| == |b| && forall k :: 0 <= k < |a| ==> a[k].report == b[k].report
    ensures |Filter(a, Of(r))| == |Filter(b, Of(r))|
  {
    if a != [] {
      SameReportsOf(a[1..], b[1..], r);
    }
  }

  // ---------------------------------------------------------------------
  // The loop as written: explanation arrays shared between units
  // ---------------------------------------------------------------------

  /**
   * Whether the units at `i` and `k` of `distributeBasic`'s result hold one
   * and the same `expls` array. A unit of weight 1 has an array of its own
   * (`[expls1.get(r)!]`); the other units of one report all hold
   * `expls01.get(r)` when it is set, and every array `expls01` holds is
   * non-empty, while an unset entry gives each unit a fresh `[]`.
   */
  predicate SharesExpls(base: seq<WeightedUnit>, i: nat, k: nat)
    requires i < |base| && k < |base|
  {
    i == k ||
    (base[i].report == base[k].report && base[i].weight != W1 && base[k].weight != W1 &&
     base[i].expls != [] && base[k].expls != [])
  }

  /**
   * `u.weight = 1; u.expls.push(...)` on the unit at `i` as the source does
   * it: the push shows in every unit holding the same array.
   */
  function SharedLift(base: seq<WeightedUnit>, wu: seq<WeightedUnit>, i: nat): (next: seq<WeightedUnit>)
    requires |wu| == |base| && i < |wu|
    ensures |next| == |wu|
    ensures forall k :: 0 <= k < |wu| ==>
      next[k].report == wu[k].report &&
      next[k].weight == (if k == i then W1 else wu[k].weight) &&
      next[k].expls == (if SharesExpls(base, i, k) then wu[k].expls + [EngReason()] else wu[k].expls)
  {
    seq(|wu|, k requires 0 <= k < |wu| =>
      var v := if k == i then wu[k].(weight := W1) else wu[k];
      if SharesExpls(base, i, k) then v.(expls := v.expls + [EngReason()]) else v)
  }

  /** The loop as written from the `j`-th visited unit on. */
  function SharedFrom(base: seq<WeightedUnit>, wu: seq<WeightedUnit>, order: seq<nat>, j: nat): seq<WeightedUnit>
    requires |wu| == |base|
    requires forall k :: 0 <= k < |order| ==> order[k] < |wu|
    decreases |order| - j
  {
    if j >= |order| || AtMostAverage(wu, Score(wu[order[j]].report, true)) then wu
    else SharedFrom(base, SharedLift(base, wu, order[j]), order, j + 1)
  }

  /** What `distributeEng` returns as written, from `distributeBasic`'s units. */
  function EngPromotedAsWritten(base: seq<WeightedUnit>): seq<WeightedUnit>
  {
    SharedFrom(base, base, VisitOrder(base), 0)
  }

  /** Two unit lists that agree on every report and weight. */
  predicate SameWeights(a: seq<WeightedUnit>, b: seq<WeightedUnit>)
  {
    |a| == |b| && forall k :: 0 <= k < |a| ==> a[k].report == b[k].report && a[k].weight == b[k].weight
  }

  /** The sums over the units see only reports and weights. */
  lemma {:induction false} SameWeightsSums(a: seq<WeightedUnit>, b: seq<WeightedUnit>, h: (ScoredReport, Weight) -> int)
    requires SameWeights(a, b)
    ensures UnitSum(a, h) == UnitSum(b, h)
  {
    if a != [] {
      SameWeightsSums(a[1..], b[1..], h);
    }
  }

  /**
   * The shared arrays change no weight and no decision to stop: the loop
   * as written and the corrected loop give the same reports and weights.
   */
  lemma {:induction false} SharedFromWeights(base: seq<WeightedUnit>, wa: seq<WeightedUnit>, wb: seq<WeightedUnit>,
                                             order: seq<nat>, j: nat)
    requires |wa| == |base| && SameWeights(wa, wb)
    requires forall k :: 0 <= k < |order| ==> order[k] < |wa|
    ensures SameWeights(SharedFrom(base, wa, order, j), PromoteFrom(wb, order, j))
    decreases |order| - j
  {
    if j < |order| {
      var i := order[j];
      SameWeightsSums(wa, wb, CreditTenths);
      SameWeightsSums(wa, wb, PointTenths(true));
      if !AtMostAverage(wa, Score(wa[i].report, true)) {
        SharedFromWeights(base, SharedLift(base, wa, i), wb[i := Lifted(wb[i])], order, j + 1);
      }
    }
  }

  /** The loop as written only ever appends to a unit's explanations. */
  lemma {:induction false} SharedFromGrows(base: seq<WeightedUnit>, wu: seq<WeightedUnit>, order: seq<nat>, j: nat)
    requires |wu| == |base|
    requires forall k :: 0 <= k < |order| ==> order[k] < |wu|
    ensures |SharedFrom(base, wu, order, j)| == |wu|
    ensures forall k :: 0 <= k < |wu| ==> wu[k].expls <= SharedFrom(base, wu, order, j)[k].expls
    decreases |order| - j
  {
    if j < |order| && !AtMostAverage(wu, Score(wu[order[j]].report, true)) {
      var next := SharedLift(base, wu, order[j]);
      var out := SharedFrom(base, next, order, j + 1);
      SharedFromGrows(base, next, order, j + 1);
      forall k | 0 <= k < |wu|
        ensures wu[k].expls <= out[k].expls
      {
        PrefixTrans(wu[k].expls, next[k].expls, out[k].expls);
      }
    }
  }

  /** When the best unit of weight 0.1 is lifted, the loop as written starts by lifting it. */
  lemma SharedFirstStep(base: seq<WeightedUnit>)
    requires 0 < PromotedCount(base, VisitOrder(base), 0)
    ensures 0 < |VisitOrder(base)|
    ensures EngPromotedAsWritten(base)
         == SharedFrom(base, SharedLift(base, base, VisitOrder(base)[0]), VisitOrder(base), 1)
  {
  }

  /**
   * The discrepancy: when the best unit of weight 0.1 is lifted, a unit of
   * weight 0 of the same report, holding the same array, keeps weight 0
   * but ends up with the engineering reason among its explanations, which
   * the corrected loop leaves untouched.
   */
  lemma SharedArraysMislabel(base: seq<WeightedUnit>, k: nat)
    requires k < |base| && base[k].weight == W0 && EngReason() !in base[k].expls
    requires 0 < PromotedCount(base, VisitOrder(base), 0)
    requires SharesExpls(base, VisitOrder(base)[0], k)
    ensures |EngPromotedAsWritten(base)| == |EngPromoted(base)| == |base|
    ensures EngPromotedAsWritten(base)[k].weight == W0
    ensures EngReason() in EngPromotedAsWritten(base)[k].expls
    ensures EngPromoted(base)[k] == base[k]
  {
    SharedReasonShows(base, k);
    SharedFromWeights(base, base, base, VisitOrder(base), 0);
    EngPromotedShape(base);
  }

  lemma SharedReasonShows(base: seq<WeightedUnit>, k: nat)
    requires k < |base| && base[k].weight == W0
    requires 0 < PromotedCount(base, VisitOrder(base), 0)
    requires SharesExpls(base, VisitOrder(base)[0], k)
    ensures |EngPromotedAsWritten(base)| == |base|
    ensures EngReason() in EngPromotedAsWritten(base)[k].expls
  {
    var order := VisitOrder(base);
    var next := SharedLift(base, base, order[0]);
    SharedFirstStep(base);
    SharedFromGrows(base, next, order, 1);
    var e := SharedFrom(base, next, order, 1)[k].expls;
    assert next[k].expls == base[k].expls + [EngReason()];
    assert e[|base[k].expls|] == next[k].expls[|base[k].expls|] == EngReason();
  }
}

=== FILE: distribution.dfy ===
/**
 * `Distribution` (src/weights.ts): the reports every quota has taken at one
 * weight, with a running count per quota of the reports in its whole
 * subtree. Adding to a quota or filtering a subtree updates the counts of
 * the quota and of every quota above it.
 */
module Distributions {
  import opened Wrappers
  import opened Seqs
  import opened Reports
  import opened QuotaDefinitions
  import opened QuotaTrees
  import opened Weights

  /** The reports held by the quotas `[lo, hi)`. */
  function Held(rs: seq<seq<ScoredReport>>, lo: nat, hi: nat): nat
    requires lo <= hi <= |rs|
    decreases hi - lo
  {
    if lo == hi then 0 else |rs[lo]| + Held(rs, lo + 1, hi)
  }

  /** The unenrolled reports held by the quotas `[lo, hi)`. */
  function UnenrolledIn(rs: seq<seq<ScoredReport>>, lo: nat, hi: nat): nat
    requires lo <= hi <= |rs|
    decreases hi - lo
  {
    if lo == hi then 0 else |Filter(rs[lo], IsUnenrolledReport)| + UnenrolledIn(rs, lo + 1, hi)
  }

  /** `r.type == 'unenrolled-specific' || r.type == 'unenrolled-somewhat'`. */
  predicate IsUnenrolledReport(r: ScoredReport)
  {
    r.IsUnenrolled()
  }

  /** `r.type == 'scored'`: the reports a constraint gets to see. */
  predicate IsScoredType(r: ScoredReport)
  {
    r.Type() == Some(ScoredType)
  }

  /** How often `r` occurs in the lists of the quotas `[lo, hi)`. */
  function CountIn(rs: seq<seq<ScoredReport>>, r: ScoredReport, lo: nat, hi: nat): nat
    requires lo <= hi <= |rs|
    decreases hi - lo
  {
    if lo == hi then 0 else Count(rs[lo], r) + CountIn(rs, r, lo + 1, hi)
  }

  /** Replacing the list of quota `q` changes the count of the range that holds `q` by the change in length. */
  lemma {:induction false} HeldUpdate(rs: seq<seq<ScoredReport>>, q: nat, s: seq<ScoredReport>, lo: nat, hi: nat)
    requires lo <= hi <= |rs| && q < |rs|
    ensures Held(rs[q := s], lo, hi) == Held(rs, lo, hi) + (if lo <= q < hi then |s| - |rs[q]| else 0)
    decreases hi - lo
  {
    if lo < hi {
      HeldUpdate(rs, q, s, lo + 1, hi);
    }
  }

  lemma {:induction false} HeldSplit(rs: seq<seq<ScoredReport>>, lo: nat, mid: nat, hi: nat)
    requires lo <= mid <= hi <= |rs|
    ensures Held(rs, lo, hi) == Held(rs, lo, mid) + Held(rs, mid, hi)
    decreases mid - lo
  {
    if lo < mid {
      HeldSplit(rs, lo + 1, mid, hi);
    }
  }

  lemma {:induction false} UnenrolledSplit(rs: seq<seq<ScoredReport>>, lo: nat, mid: nat, hi: nat)
    requires lo <= mid <= hi <= |rs|
    ensures UnenrolledIn(rs, lo, hi) == UnenrolledIn(rs, lo, mid) + UnenrolledIn(rs, mid, hi)
    decreases mid - lo
  {
    if lo < mid {
      UnenrolledSplit(rs, lo + 1, mid, hi);
    }
  }

  lemma {:induction false} HeldEmpty(rs: seq<seq<ScoredReport>>, lo: nat, hi: nat)
    requires lo <= hi <= |rs|
    requires forall x :: lo <= x < hi ==> rs[x] == []
    ensures Held(rs, lo, hi) == 0
    decreases hi - lo
  {
    if lo < hi {
      HeldEmpty(rs, lo + 1, hi);
    }
  }

  /** Ranges whose lists are the same hold the same number of reports. */
  lemma {:induction false} HeldSame(rs: seq<seq<ScoredReport>>, rs': seq<seq<ScoredReport>>, lo: nat, hi: nat)
    requires lo <= hi <= |rs| && hi <= |rs'|
    requires forall x :: lo <= x < hi ==> rs[x] == rs'[x]
    ensures Held(rs, lo, hi) == Held(rs', lo, hi)
    decreases hi - lo
  {
    if lo < hi {
      HeldSame(rs, rs', lo + 1, hi);
    }
  }

  /** Replacing the list of quota `q` changes how often `r` occurs by the change in that list. */
  lemma {:induction false} CountInUpdate(rs: seq<seq<ScoredReport>>, r: ScoredReport, q: nat, s: seq<ScoredReport>, lo: nat, hi: nat)
    requires lo <= hi <= |rs| && q < |rs|
    ensures CountIn(rs[q := s], r, lo, hi) == CountIn(rs, r, lo, hi) + (if lo <= q < hi then Count(s, r) - Count(rs[q], r) else 0)
    decreases hi - lo
  {
    if lo < hi {
      CountInUpdate(rs, r, q, s, lo + 1, hi);
    }
  }

  /** The lists flattened in order hold every report as often as all lists together. */
  lemma {:induction false} FlattenCount(rs: seq<seq<ScoredReport>>, r: ScoredReport, lo: nat)
    requires lo <= |rs|
    ensures Count(Flatten(rs[lo..]), r) == CountIn(rs, r, lo, |rs|)
    decreases |rs| - lo
  {
    if lo < |rs| {
      FlattenCount(rs, r, lo + 1);
      assert rs[lo..][1..] == rs[lo + 1..];
      CountConcat(rs[lo], Flatten(rs[lo + 1..]), r);
    }
  }

  /** Filtering by a test the report passes keeps every occurrence of it. */
  lemma {:induction false} CountFilterKept(s: seq<ScoredReport>, p: ScoredReport -> bool, r: ScoredReport)
    ensures Count(Filter(s, p), r) <= Count(s, r)
    ensures p(r) ==> Count(Filter(s, p), r) == Count(s, r)
  {
    if s != [] {
      CountFilterKept(s[1..], p, r);
      CountConcat(if p(s[0]) then [s[0]] else [], Filter(s[1..], p), r);
    }
  }

  /** The descriptions of the constraints that reject adding `r` at ratio `w`. */
  function Failures(cs: seq<CalculationConstraint>, scored: seq<ScoredReport>, r: SpecificScoredReport, w: WeightRatio): (es: seq<Expl>)
    ensures |es| <= |cs|
  {
    if cs == [] then []
    else (if cs[0].verify(scored, r, w) then [] else [Expl(cs[0].description, cs[0].references)])
         + Failures(cs[1..], scored, r, w)
  }

  /** No description comes back exactly when every constraint accepts. */
  lemma {:induction false} FailuresEmpty(cs: seq<CalculationConstraint>, scored: seq<ScoredReport>, r: SpecificScoredReport, w: WeightRatio)
    ensures Failures(cs, scored, r, w) == [] <==> forall k :: 0 <= k < |cs| ==> cs[k].verify(scored, r, w)
  {
    if cs != [] {
      FailuresEmpty(cs[1..], scored, r, w);
      assert forall k :: 1 <= k < |cs| ==> cs[k] == cs[1..][k - 1];
    }
  }

  /** Every constraint of quota `a` accepts adding `r` at ratio `w` to the scored reports `rs`. */
  predicate Accepted(t: QuotaTree, a: nat, rs: seq<ScoredReport>, r: SpecificScoredReport, w: WeightRatio)
    requires a < |t.nodes|
  {
    forall k :: 0 <= k < |t.nodes[a].constraints| ==> t.nodes[a].constraints[k].verify(rs, r, w)
  }

  /** The quotas whose subtree holds `q` are `q` and those whose subtree holds its parent. */
  lemma EnclosesStep(t: QuotaTree, q: nat, a: nat)
    requires QuotaTrees.Valid(t) && q < |t.nodes| && a < |t.nodes|
    ensures t.nodes[q].parent.Some? ==> t.nodes[q].parent.value < q
    ensures t.Encloses(a, q) <==>
      a == q || (t.nodes[q].parent.Some? && t.Encloses(a, t.nodes[q].parent.value))
  {
    AncestorsEnclose(t, q, a);
    match t.nodes[q].parent
    case None =>
    case Some(p) =>
      AncestorsEnclose(t, p, a);
  }

  /** The lists `rs` with those of the quotas `[lo, hi)` filtered by `p`. */
  function FilteredRange(rs: seq<seq<ScoredReport>>, lo: nat, hi: nat, p: ScoredReport -> bool)
    : (r: seq<seq<ScoredReport>>)
    ensures |r| == |rs|
    ensures forall x :: 0 <= x < |rs| ==> r[x] == if lo <= x < hi then Filter(rs[x], p) else rs[x]
  {
    seq(|rs|, x requires 0 <= x < |rs| => if lo <= x < hi then Filter(rs[x], p) else rs[x])
  }

  /** Filtering `[lo, mid)` and then `[mid, hi)` filters `[lo, hi)`. */
  lemma FilteredRangeSplit(rs: seq<seq<ScoredReport>>, lo: nat, mid: nat, hi: nat, p: ScoredReport -> bool)
    requires lo <= mid <= hi
    ensures FilteredRange(FilteredRange(rs, lo, mid, p), mid, hi, p) == FilteredRange(rs, lo, hi, p)
  {
  }

  /** The counts of the quotas `ids` added up (`subQuotas.reduce`). */
  function ChildCounts(count: seq<int>, ids: seq<nat>): int
    requires forall k :: 0 <= k < |ids| ==> ids[k] < |count|
  {
    if ids == [] then 0 else count[ids[0]] + ChildCounts(count, ids[1..])
  }

  /** When every count is the number of reports in its subtree, a chain of subtrees counts what its range holds. */
  lemma {:induction false} ChildCountsHeld(t: QuotaTree, rs: seq<seq<ScoredReport>>, count: seq<int>,
                                           ids: seq<nat>, lo: nat, hi: nat)
    requires Spans(t) && Chain(t, ids, lo, hi) && hi <= |t.nodes|
    requires |rs| == |t.nodes| && |count| == |t.nodes|
    requires forall x :: 0 <= x < |t.nodes| ==> count[x] == Held(rs, x, t.End(x))
    ensures forall k :: 0 <= k < |ids| ==> ids[k] < |t.nodes|
    ensures lo <= hi && ChildCounts(count, ids) == Held(rs, lo, hi)
    decreases |ids|
  {
    ChainFacts(t, ids, lo, hi);
    if ids != [] {
      ChildCountsHeld(t, rs, count, ids[1..], t.End(ids[0]), hi);
      HeldSplit(rs, lo, t.End(ids[0]), hi);
    }
  }

  /** The recursion of `countUnenrolled(q)`: the unenrolled reports of `q`, plus those of every sub-quota. */
  function Unenrolled(t: QuotaTree, rs: seq<seq<ScoredReport>>, q: nat): nat
    requires Laid(t) && |rs| == |t.nodes| && q < |t.nodes|
    decreases |t.nodes| - q, 1
  {
    |Filter(rs[q], IsUnenrolledReport)| + UnenrolledOf(t, rs, t.nodes[q].children, q)
  }

  function UnenrolledOf(t: QuotaTree, rs: seq<seq<ScoredReport>>, ids: seq<nat>, parent: nat): nat
    requires Laid(t) && |rs| == |t.nodes| && forall k :: 0 <= k < |ids| ==> parent < ids[k] < |t.nodes|
    decreases |t.nodes| - parent, 0, |ids|
  {
    if ids == [] then 0 else Unenrolled(t, rs, ids[0]) + UnenrolledOf(t, rs, ids[1..], parent)
  }

  /** The recursion counts the unenrolled reports of the whole subtree of `q`. */
  lemma {:induction false} UnenrolledRange(t: QuotaTree, rs: seq<seq<ScoredReport>>, q: nat)
    requires Laid(t) && |rs| == |t.nodes| && q < |t.nodes|
    ensures Unenrolled(t, rs, q) == UnenrolledIn(rs, q, t.End(q))
    decreases |t.nodes| - q, 1
  {
    var children, end := t.nodes[q].children, t.End(q);
    assert Chain(t, children, q + 1, end) && q < end <= |t.nodes|;
    UnenrolledOfRange(t, rs, children, q, q + 1, end);
    assert UnenrolledIn(rs, q, end) == |Filter(rs[q], IsUnenrolledReport)| + UnenrolledIn(rs, q + 1, end);
  }

  lemma {:induction false} UnenrolledOfRange(t: QuotaTree, rs: seq<seq<ScoredReport>>, ids: seq<nat>,
                                             parent: nat, lo: nat, hi: nat)
    requires Laid(t) && |rs| == |t.nodes| && forall k :: 0 <= k < |ids| ==> parent < ids[k] < |t.nodes|
    requires Chain(t, ids, lo, hi) && hi <= |t.nodes|
    ensures lo <= hi && UnenrolledOf(t, rs, ids, parent) == UnenrolledIn(rs, lo, hi)
    decreases |t.nodes| - parent, 0, |ids|
  {
    ChainFacts(t, ids, lo, hi);
    if ids != [] {
      UnenrolledRange(t, rs, ids[0]);
      UnenrolledOfRange(t, rs, ids[1..], parent, t.End(ids[0]), hi);
      UnenrolledSplit(rs, lo, t.End(ids[0]), hi);
    }
  }

  /** The walk of `check` from quota `q` up to a top-level quota. */
  function CheckUp(t: QuotaTree, rs: seq<seq<ScoredReport>>, q: nat, r: SpecificScoredReport, w: WeightRatio): seq<Expl>
    requires QuotaTrees.Valid(t) && |rs| == |t.nodes| && q < |t.nodes|
    decreases q
  {
    EnclosesStep(t, q, q);
    Failures(t.nodes[q].constraints, Filter(rs[q], IsScoredType), r, w)
    + match t.nodes[q].parent
      case None => []
      case Some(p) => CheckUp(t, rs, p, r, w)
  }

  lemma {:induction false} CheckUpPasses(t: QuotaTree, rs: seq<seq<ScoredReport>>, q: nat,
                                         r: SpecificScoredReport, w: WeightRatio)
    requires QuotaTrees.Valid(t) && |rs| == |t.nodes| && q < |t.nodes|
    ensures CheckUp(t, rs, q, r, w) == [] <==>
      forall a :: 0 <= a < |t.nodes| && t.Encloses(a, q) ==> Accepted(t, a, Filter(rs[a], IsScoredType), r, w)
    decreases q
  {
    EnclosesStep(t, q, q);
    FailuresEmpty(t.nodes[q].constraints, Filter(rs[q], IsScoredType), r, w);
    match t.nodes[q].parent
    case None =>
      forall a | 0 <= a < |t.nodes|
        ensures t.Encloses(a, q) <==> a == q
      {
        EnclosesStep(t, q, a);
      }
    case Some(p) =>
      CheckUpPasses(t, rs, p, r, w);
      forall a | 0 <= a < |t.nodes|
        ensures t.Encloses(a, q) <==> a == q || t.Encloses(a, p)
      {
        EnclosesStep(t, q, a);
      }
  }

  class Distribution {
    const tree: QuotaTree
    /** `#map.get(q).rs` for the quota with id `q`. */
    var rs: seq<seq<ScoredReport>>
    /** `#map.get(q).count` for the quota with id `q`. */
    var count: seq<int>

    /** The count of every quota is the number of reports in its subtree. */
    ghost predicate Valid()
      reads this
    {
      QuotaTrees.Valid(tree) && |rs| == |tree.nodes| && |count| == |tree.nodes|
      && forall q :: 0 <= q < |tree.nodes| ==> count[q] == Held(rs, q, tree.End(q))
    }

    /** Every quota starts with no reports and a count of 0. */
    constructor (tree: QuotaTree)
      requires QuotaTrees.Valid(tree)
      ensures Valid() && this.tree == tree
      ensures forall q :: 0 <= q < |tree.nodes| ==> rs[q] == [] && count[q] == 0
    {
      this.tree := tree;
      rs := seq(|tree.nodes|, _ => []);
      count := seq(|tree.nodes|, _ => 0);
      new;
      forall q | 0 <= q < |tree.nodes|
        ensures count[q] == Held(rs, q, tree.End(q))
      {
        HeldEmpty(rs, q, tree.End(q));
      }
    }

    /** `#updateCount(q, delta)`: the count of `q` and of every quota above it moves by `delta`. */
    method UpdateCount(q: nat, delta: int)
      requires QuotaTrees.Valid(tree) && |count| == |tree.nodes| && q < |tree.nodes|
      modifies this
      ensures rs == old(rs) && |count| == |tree.nodes|
      ensures forall a :: 0 <= a < |tree.nodes| ==>
        count[a] == old(count)[a] + (if tree.Encloses(a, q) then delta else 0)
      decreases q
    {
      EnclosesStep(tree, q, q);
      count := count[q := count[q] + delta];
      match tree.nodes[q].parent
      case None =>
        forall a | 0 <= a < |tree.nodes|
          ensures tree.Encloses(a, q) <==> a == q
        {
          EnclosesStep(tree, q, a);
        }
      case Some(p) =>
        UpdateCount(p, delta);
        forall a | 0 <= a < |tree.nodes|
          ensures tree.Encloses(a, q) <==> a == q || tree.Encloses(a, p)
        {
          EnclosesStep(tree, q, a);
        }
    }

    /** `add(q, r)`: `r` joins the list of `q`, and `q` and every quota above it count one more. */
    method Add(q: nat, r: ScoredReport)
      requires Valid() && q < |tree.nodes|
      modifies this
      ensures Valid()
      ensures rs == old(rs)[q := old(rs)[q] + [r]]
      ensures forall a :: 0 <= a < |tree.nodes| ==>
        count[a] == old(count)[a] + (if tree.Encloses(a, q) then 1 else 0)
    {
      var before := rs;
      rs := rs[q := rs[q] + [r]];
      UpdateCount(q, 1);
      forall a | 0 <= a < |tree.nodes|
        ensures count[a] == Held(rs, a, tree.End(a))
      {
        HeldUpdate(before, q, before[q] + [r], a, tree.End(a));
      }
    }

    /**
     * `filter(q, predicate)`: every list in the subtree of `q` keeps only
     * the reports passing the test, and the counts follow.
     */
    method Filter(q: nat, p: ScoredReport -> bool)
      requires Valid() && q < |tree.nodes|
      modifies this
      ensures Valid()
      ensures rs == FilteredRange(old(rs), q, tree.End(q), p)
      decreases |tree.nodes| - q, 1
    {
      var before := rs;
      var filtered := Seqs.Filter(rs[q], p);
      UpdateCount(q, |filtered| - |rs[q]|);
      rs := rs[q := filtered];
      forall a | 0 <= a < |tree.nodes|
        ensures count[a] == Held(rs, a, tree.End(a))
      {
        HeldUpdate(before, q, filtered, a, tree.End(a));
      }
      assert rs == FilteredRange(before, q, q + 1, p);
      FilterChildren(q, p);
      FilteredRangeSplit(before, q, q + 1, tree.End(q), p);
    }

    /** `q.subQuotas.forEach(sq => this.filter(sq, predicate))`. */
    method FilterChildren(q: nat, p: ScoredReport -> bool)
      requires Valid() && q < |tree.nodes|
      modifies this
      ensures Valid()
      ensures rs == FilteredRange(old(rs), q + 1, tree.End(q), p)
      decreases |tree.nodes| - q, 0
    {
      var before := rs;
      var children := tree.nodes[q].children;
      var lo: nat := q + 1;
      for k := 0 to |children|
        invariant Valid()
        invariant q < lo && Chain(tree, children[k..], lo, tree.End(q))
        invariant rs == FilteredRange(before, q + 1, lo, p)
      {
        assert children[k..][1..] == children[k + 1..];
        var c := children[k];
        assert c == lo < tree.End(c);
        Filter(c, p);
        FilteredRangeSplit(before, q + 1, c, tree.End(c), p);
        lo := tree.End(c);
      }
    }

    /** `count(q)`. */
    function Count(q: nat): int
      reads this
      requires q < |count|
    {
      count[q]
    }

    /** `countUnenrolled(q)`: the unenrolled reports of the whole subtree of `q`. */
    function CountUnenrolled(q: nat): (n: nat)
      reads this
      requires Valid() && q < |tree.nodes|
      ensures n == UnenrolledIn(rs, q, tree.End(q))
    {
      ValidIsLaid(tree);
      UnenrolledRange(tree, rs, q);
      Unenrolled(tree, rs, q)
    }

    /**
     * `check(q, r, w)`: the constraints of `q` that reject `r` at ratio
     * `w`, judged on the reports of `q` typed 'scored', then those of the
     * parent, up to a top-level quota.
     */
    function Check(q: nat, r: SpecificScoredReport, w: WeightRatio): seq<Expl>
      reads this
      requires Valid() && q < |tree.nodes|
    {
      CheckUp(tree, rs, q, r, w)
    }

    /** `values()`: the lists of all quotas, in the order of the map. */
    function Values(): seq<ScoredReport>
      reads this
    {
      Flatten(rs)
    }

    /** The count of a quota is its own reports plus the counts of its sub-quotas. */
    lemma CountSplits(q: nat)
      requires Valid() && q < |tree.nodes|
      ensures forall k :: 0 <= k < |tree.nodes[q].children| ==> tree.nodes[q].children[k] < |tree.nodes|
      ensures Count(q) == |rs[q]| + ChildCounts(count, tree.nodes[q].children)
    {
      var children, end := tree.nodes[q].children, tree.End(q);
      assert Chain(tree, children, q + 1, end) && q < end <= |tree.nodes|;
      ChildCountsHeld(tree, rs, count, children, q + 1, end);
      assert count[q] == Held(rs, q, end);
    }

    /**
     * `check` finds nothing exactly when every constraint of `q` and of
     * every quota above it accepts `r` at ratio `w`, each judged on its own
     * reports typed 'scored'.
     */
    lemma CheckPasses(q: nat, r: SpecificScoredReport, w: WeightRatio)
      requires Valid() && q < |tree.nodes|
      ensures Check(q, r, w) == [] <==>
        forall a :: 0 <= a < |tree.nodes| && tree.Encloses(a, q) ==>
          Accepted(tree, a, Seqs.Filter(rs[a], IsScoredType), r, w)
    {
      CheckUpPasses(tree, rs, q, r, w);
    }
  }
}

=== FILE: js_utils.dfy ===
/**
 * The array helpers of src/utils.ts: `exclude`, which splices the matching
 * elements out of an array in place and returns them, and `unreachable`,
 * which always throws.
 */
module JsUtils {
  import opened Wrappers
  import opened Seqs

  /** A JavaScript array, which `splice` and `unshift` change in place. */
  class JsArray<T> {
    var items: seq<T>

    /** `Array.from(s)`. */
    constructor (s: seq<T>)
      ensures items == s
    {
      items := s;
    }

    /**
     * `exclude(this, pred)`: removes the elements satisfying `pred` and
     * returns them in a new array, both sides keeping the original order.
     * `pred` is evaluated once per element, before anything is spliced.
     */
    method Exclude(pred: T -> bool) returns (excluded: JsArray<T>)
      modifies this
      ensures fresh(excluded)
      ensures excluded.items == Filter(old(items), pred)
      ensures items == Filter(old(items), Negate(pred))
    {
      ghost var o := items;
      var flags := Map(items, pred);
      var kept, res: seq<T> := items, [];
      var i: int := |flags| - 1;
      assert o[..i + 1] == o && o[i + 1..] == [];
      while i >= 0
        invariant -1 <= i < |o| && |flags| == |o|
        invariant forall k :: 0 <= k < |o| ==> flags[k] == pred(o[k])
        invariant Parted(o, pred, i, kept, res)
        decreases i
      {
        if flags[i] {
          var j := RunStart(flags, i);
          SpliceRun(o, pred, j, i, kept, res);
          res := kept[j + 1..i + 1] + res;
          kept := kept[..j + 1] + kept[i + 1..];
          i := j;
        } else {
          KeepOne(o, pred, i, kept, res);
          i := i - 1;
        }
      }
      assert o[0..] == o;
      items := kept;
      excluded := new JsArray(res);
    }
  }

  /**
   * The state of `exclude` once the elements after `i` are dealt with: the
   * array holds the first `i + 1` elements and the others that do not
   * match, and the result holds the others that match.
   */
  ghost predicate Parted<T>(o: seq<T>, pred: T -> bool, i: int, kept: seq<T>, res: seq<T>)
    requires -1 <= i < |o|
  {
    && kept == o[..i + 1] + Filter(o[i + 1..], Negate(pred))
    && res == Filter(o[i + 1..], pred)
  }

  /** The inner loop of `exclude`: walks down from `i` to just before the run of set flags ending at `i`. */
  method RunStart(flags: seq<bool>, i: int) returns (j: int)
    requires 0 <= i < |flags| && flags[i]
    ensures -1 <= j < i && !FlagAt(flags, j)
    ensures forall k :: j < k <= i ==> flags[k]
  {
    j := i - 1;
    while j >= -1 && FlagAt(flags, j)
      invariant -1 <= j < i
      invariant forall k :: j < k <= i ==> flags[k]
      decreases j
    {
      j := j - 1;
    }
  }

  /** `flags[j]`, which is `undefined` (falsy) outside the array. */
  predicate FlagAt(flags: seq<bool>, j: int)
  {
    0 <= j < |flags| && flags[j]
  }

  /**
   * `arr.splice(j + 1, i - j)` on a run of matching elements: the run moves
   * to the excluded side and the array keeps the rest.
   */
  lemma SpliceRun<T>(o: seq<T>, pred: T -> bool, j: int, i: int, items: seq<T>, res: seq<T>)
    requires -1 <= j < i < |o|
    requires forall k :: j < k <= i ==> pred(o[k])
    requires Parted(o, pred, i, items, res)
    ensures Parted(o, pred, j, items[..j + 1] + items[i + 1..], items[j + 1..i + 1] + res)
  {
    var head, run, tail := o[..j + 1], o[j + 1..i + 1], o[i + 1..];
    var kept := Filter(tail, Negate(pred));
    RunFilters(o, pred, j, i);
    SliceThree(o, j, i);
    assert items == head + (run + kept);
    SliceItems(head, run, kept, items);
    FilterConcat(run, tail, Negate(pred));
    assert Filter(o[j + 1..], Negate(pred)) == kept;
    assert items[..j + 1] + items[i + 1..] == o[..j + 1] + Filter(o[j + 1..], Negate(pred));
    FilterConcat(run, tail, pred);
    assert items[j + 1..i + 1] + res == Filter(o[j + 1..], pred);
  }

  /** A run of matching elements passes `pred` whole and its negation not at all. */
  lemma RunFilters<T>(o: seq<T>, pred: T -> bool, j: int, i: int)
    requires -1 <= j < i < |o|
    requires forall k :: j < k <= i ==> pred(o[k])
    ensures Filter(o[j + 1..i + 1], pred) == o[j + 1..i + 1]
    ensures Filter(o[j + 1..i + 1], Negate(pred)) == []
  {
    var run := o[j + 1..i + 1];
    forall k | 0 <= k < |run| ensures pred(run[k]) && !Negate(pred)(run[k]) {
      assert run[k] == o[j + 1 + k];
    }
    FilterAll(run, pred);
    FilterNone(run, Negate(pred));
  }

  /** Cutting `o` before `j + 1` and `i + 1`. */
  lemma SliceThree<T>(o: seq<T>, j: int, i: int)
    requires -1 <= j < i < |o|
    ensures o[..i + 1] == o[..j + 1] + o[j + 1..i + 1]
    ensures o[j + 1..] == o[j + 1..i + 1] + o[i + 1..]
  {
  }

  /** The three slices of an array laid out as `head + run + kept`. */
  lemma SliceItems<T>(head: seq<T>, run: seq<T>, kept: seq<T>, items: seq<T>)
    requires items == head + (run + kept)
    ensures items[..|head|] == head
    ensures items[|head|..|head| + |run|] == run
    ensures items[|head| + |run|..] == kept
  {
  }

  /** Stepping over an element that does not match leaves it in the array. */
  lemma KeepOne<T>(o: seq<T>, pred: T -> bool, i: int, kept: seq<T>, res: seq<T>)
    requires 0 <= i < |o| && !pred(o[i])
    requires Parted(o, pred, i, kept, res)
    ensures Parted(o, pred, i - 1, kept, res)
  {
    var rest := Filter(o[i + 1..], Negate(pred));
    assert o[i..] == [o[i]] + o[i + 1..];
    FilterConcat([o[i]], o[i + 1..], pred);
    FilterConcat([o[i]], o[i + 1..], Negate(pred));
    FilterNone([o[i]], pred);
    FilterAll([o[i]], Negate(pred));
    assert o[..i + 1] == o[..i] + [o[i]];
    assert kept == o[..i] + ([o[i]] + rest);
  }

  /** `unreachable(description)`: always throws with the description. */
  function Unreachable<T>(description: string): (r: Result<T, string>)
    ensures r.Err? && r.error == description
  {
    Err(description)
  }
}

=== FILE: judge.dfy ===
/**
 * `judgeSatisfaction` (src/quota/utils.ts): whether a transcript meets the
 * completion requirements. Every quota must be fulfilled by the reports
 * `allocate` gives it and its sub-quotas; then the allocated reports are
 * offered one by one as surplus credits, and a report stays in the surplus
 * only while every quota is still fulfilled without it and the total still
 * reaches `min`.
 */
module Judge {
  import opened Wrappers
  import opened Seqs
  import opened OrderedMaps
  import opened CourseCodes
  import opened Reports
  import opened QuotaDefinitions
  import opened QuotaTrees
  import opened Allocation
  import opened AllocationProperties

  /** The requirements of a program, with the quotas laid out as a tree. */
  datatype TreeRequirements = TreeRequirements(
    min: int,
    tree: QuotaTree,
    surplusMin: int,
    surplusConstraints: seq<SurplusConstraint>)

  type Allocations = OrderedMap<nat, seq<SpecificReport>>

  /** `allocations.get(quota)` is defined for every quota. */
  ghost predicate Covered(t: QuotaTree, m: Allocations)
  {
    forall x: nat :: x < |t.nodes| ==> x in m.entries
  }

  function CodeOf(r: SpecificReport): CourseCode
  {
    r.course.code
  }

  /** Every report of `s1` is in `s2`. */
  ghost predicate Within(s1: seq<SpecificReport>, s2: seq<SpecificReport>)
  {
    forall x :: x in s1 ==> x in s2
  }

  /** The credits of `reports` (`reduce((p, r) => p + r.course.credit, 0)`). */
  function Credits(reports: seq<SpecificReport>): (r: nat)
    ensures reports != [] ==> r > 0
  {
    if reports == [] then 0 else reports[0].course.credit + Credits(reports[1..])
  }

  /** The credits of the reports of `list` that are not in `surplus`. */
  function Own(list: seq<SpecificReport>, surplus: seq<SpecificReport>): nat
  {
    if list == [] then 0
    else (if list[0] in surplus then 0 else list[0].course.credit) + Own(list[1..], surplus)
  }

  /**
   * `internalJudge(q)`: `None` for `false`, otherwise the credits the
   * quota and its sub-quotas are fulfilled with.
   */
  function JudgeQuota(t: QuotaTree, m: Allocations, s: seq<SpecificReport>, q: nat): Option<int>
    requires ChildIdsAbove(t) && Covered(t, m) && q < |t.nodes|
    decreases |t.nodes| - q, 0
  {
    var node := t.nodes[q];
    LowestBelow(node.children, |t.nodes|, q + 1);
    match JudgeChildren(t, m, s, node.children, 0, 0)
    case None => None
    case Some(acc) =>
      if acc.1 < node.minSub then None
      else
        var sum := acc.0 + Own(m.entries[q], s);
        if node.n.Some? && sum < node.n.value then None else Some(sum)
  }

  /**
   * The loop over the sub-quotas `ids`, from the running `sum` and `count`:
   * a failing sub-quota fails the whole quota; a sub-quota counts when it
   * has a capacity or a positive sum.
   */
  function JudgeChildren(t: QuotaTree, m: Allocations, s: seq<SpecificReport>,
                         ids: seq<nat>, sum: int, count: int): Option<(int, int)>
    requires ChildIdsAbove(t) && Covered(t, m)
    requires forall k :: 0 <= k < |ids| ==> ids[k] < |t.nodes|
    decreases |t.nodes| - Lowest(ids, |t.nodes|), |ids| + 1
  {
    if ids == [] then Some((sum, count))
    else
      match JudgeQuota(t, m, s, ids[0])
      case None => None
      case Some(f) =>
        JudgeChildren(t, m, s, ids[1..], sum + f,
                      if t.nodes[ids[0]].n.Some? || f > 0 then count + 1 else count)
  }

  /** `internalJudge(q)`. */
  method InternalJudge(t: QuotaTree, m: Allocations, s: seq<SpecificReport>, q: nat) returns (r: Option<int>)
    requires ChildIdsAbove(t) && Covered(t, m) && q < |t.nodes|
    ensures r == JudgeQuota(t, m, s, q)
    decreases |t.nodes| - q, 0
  {
    var node := t.nodes[q];
    LowestBelow(node.children, |t.nodes|, q + 1);
    var acc := JudgeSubQuotas(t, m, s, node.children);
    if acc.None? {
      return None;
    }
    var (sum, count) := acc.value;
    if count < node.minSub {
      return None;
    }
    sum := sum + Own(m.entries[q], s);
    if node.n.Some? && sum < node.n.value {
      return None;
    }
    return Some(sum);
  }

  /** The loop of `internalJudge` over the sub-quotas `ids`, summing and counting their results. */
  method JudgeSubQuotas(t: QuotaTree, m: Allocations, s: seq<SpecificReport>, ids: seq<nat>)
    returns (acc: Option<(int, int)>)
    requires ChildIdsAbove(t) && Covered(t, m)
    requires forall k :: 0 <= k < |ids| ==> ids[k] < |t.nodes|
    ensures acc == JudgeChildren(t, m, s, ids, 0, 0)
    decreases |t.nodes| - Lowest(ids, |t.nodes|), |ids| + 1
  {
    var sum, count := 0, 0;
    var k := 0;
    while k < |ids|
      invariant 0 <= k <= |ids|
      invariant JudgeChildren(t, m, s, ids[k..], sum, count) == JudgeChildren(t, m, s, ids, 0, 0)
    {
      var sq := ids[k];
      assert ids[k..][0] == sq && ids[k..][1..] == ids[k + 1..];
      var fulfilled := InternalJudge(t, m, s, sq);
      if fulfilled.None? {
        return None;
      }
      sum := sum + fulfilled.value;
      if t.nodes[sq].n.Some? || fulfilled.value > 0 {
        count := count + 1;
      }
      k := k + 1;
    }
    assert ids[k..] == [];
    return Some((sum, count));
  }

  /** `ids.map(internalJudge)`. */
  function Results(t: QuotaTree, m: Allocations, s: seq<SpecificReport>, ids: seq<nat>): (r: seq<Option<int>>)
    requires ChildIdsAbove(t) && Covered(t, m)
    requires forall k :: 0 <= k < |ids| ==> ids[k] < |t.nodes|
    ensures |r| == |ids| && forall k {:trigger r[k]} :: 0 <= k < |ids| ==> r[k] == JudgeQuota(t, m, s, ids[k])
  {
    if ids == [] then [] else [JudgeQuota(t, m, s, ids[0])] + Results(t, m, s, ids[1..])
  }

  /** The sum of the numbers among `ns`. */
  function SumValues(ns: seq<Option<int>>): int
  {
    if ns == [] then 0 else (if ns[0].Some? then ns[0].value else 0) + SumValues(ns[1..])
  }

  /** How many of the sub-quotas `ids` have a capacity or a positive result. */
  function Counted(t: QuotaTree, ids: seq<nat>, ns: seq<Option<int>>): nat
    requires |ids| == |ns| && forall k :: 0 <= k < |ids| ==> ids[k] < |t.nodes|
  {
    if ids == [] then 0
    else
      (if ns[0].Some? && (t.nodes[ids[0]].n.Some? || ns[0].value > 0) then 1 else 0)
      + Counted(t, ids[1..], ns[1..])
  }

  /** The loop over the sub-quotas is a sum and a count over their results. */
  lemma {:induction false} ChildrenFold(t: QuotaTree, m: Allocations, s: seq<SpecificReport>,
                                        ids: seq<nat>, sum: int, count: int)
    requires ChildIdsAbove(t) && Covered(t, m)
    requires forall k :: 0 <= k < |ids| ==> ids[k] < |t.nodes|
    ensures var ns := Results(t, m, s, ids);
      JudgeChildren(t, m, s, ids, sum, count)
        == if None in ns then None else Some((sum + SumValues(ns), count + Counted(t, ids, ns)))
    decreases |ids|
  {
    if ids != [] {
      match JudgeQuota(t, m, s, ids[0])
      case None =>
        assert Results(t, m, s, ids)[0] == None;
      case Some(f) =>
        ChildrenFold(t, m, s, ids[1..], sum + f, if t.nodes[ids[0]].n.Some? || f > 0 then count + 1 else count);
        ChildrenFoldStep(t, m, s, ids, sum, count, f);
    }
  }

  /** The fold over the sub-quotas from the fold over all but the first, when the first has a number. */
  lemma ChildrenFoldStep(t: QuotaTree, m: Allocations, s: seq<SpecificReport>,
                         ids: seq<nat>, sum: int, count: int, f: int)
    requires ChildIdsAbove(t) && Covered(t, m)
    requires |ids| > 0 && forall k :: 0 <= k < |ids| ==> ids[k] < |t.nodes|
    requires JudgeQuota(t, m, s, ids[0]) == Some(f)
    requires var c := if t.nodes[ids[0]].n.Some? || f > 0 then count + 1 else count;
      var ns := Results(t, m, s, ids[1..]);
      JudgeChildren(t, m, s, ids[1..], sum + f, c)
        == if None in ns then None else Some((sum + f + SumValues(ns), c + Counted(t, ids[1..], ns)))
    ensures var ns := Results(t, m, s, ids);
      JudgeChildren(t, m, s, ids, sum, count)
        == if None in ns then None else Some((sum + SumValues(ns), count + Counted(t, ids, ns)))
  {
    var c := if t.nodes[ids[0]].n.Some? || f > 0 then count + 1 else count;
    var ns := Results(t, m, s, ids);
    var tail := Results(t, m, s, ids[1..]);
    assert ns == [Some(f)] + tail;
    ChildrenStep(t, m, s, ids, sum, count, f);
    FoldCons(t, ids, ns, tail, f);
    FoldCombine(None in ns, None in tail, SumValues(ns), SumValues(tail),
                Counted(t, ids, ns), Counted(t, ids[1..], tail), f, c - count, sum, count,
                JudgeChildren(t, m, s, ids, sum, count), JudgeChildren(t, m, s, ids[1..], sum + f, c));
  }

  /** One turn of the loop over the sub-quotas, when the first one has a number. */
  lemma ChildrenStep(t: QuotaTree, m: Allocations, s: seq<SpecificReport>,
                     ids: seq<nat>, sum: int, count: int, f: int)
    requires ChildIdsAbove(t) && Covered(t, m)
    requires |ids| > 0 && forall k :: 0 <= k < |ids| ==> ids[k] < |t.nodes|
    requires JudgeQuota(t, m, s, ids[0]) == Some(f)
    ensures JudgeChildren(t, m, s, ids, sum, count)
      == JudgeChildren(t, m, s, ids[1..], sum + f, if t.nodes[ids[0]].n.Some? || f > 0 then count + 1 else count)
  {
  }

  /** A number at the front of the results moves into the running sum and count. */
  lemma FoldCombine(bad: bool, badRest: bool, total: int, totalRest: int, counted: int, countedRest: int,
                    f: int, add: int, sum: int, count: int, whole: Option<(int, int)>, tail: Option<(int, int)>)
    requires bad == badRest && total == f + totalRest && counted == add + countedRest
    requires whole == tail
    requires tail == if badRest then None else Some((sum + f + totalRest, count + add + countedRest))
    ensures whole == if bad then None else Some((sum + total, count + counted))
  {
  }

  /** Peeling a number off the front of the results. */
  lemma FoldCons(t: QuotaTree, ids: seq<nat>, ns: seq<Option<int>>, rest: seq<Option<int>>, f: int)
    requires |ids| == |ns| > 0 && ns[0] == Some(f) && ns[1..] == rest
    requires forall k :: 0 <= k < |ids| ==> ids[k] < |t.nodes|
    ensures None in ns <==> None in rest
    ensures SumValues(ns) == f + SumValues(rest)
    ensures Counted(t, ids, ns) == (if t.nodes[ids[0]].n.Some? || f > 0 then 1 else 0) + Counted(t, ids[1..], rest)
  {
    assert ns == [Some(f)] + rest;
  }

  /**
   * `internalJudge(q)` is false exactly when a sub-quota is false, fewer
   * than `minSub` sub-quotas have a capacity or a positive sum, or the
   * quota has a capacity its sum falls short of; otherwise the sum is the
   * sub-quotas' sums plus the credits of the quota's own reports that are
   * not surplus.
   */
  lemma JudgeCases(t: QuotaTree, m: Allocations, s: seq<SpecificReport>, q: nat)
    requires ChildIdsAbove(t) && Covered(t, m) && q < |t.nodes|
    ensures var node := t.nodes[q];
      var ns := Results(t, m, s, node.children);
      var sum := SumValues(ns) + Own(m.entries[q], s);
      && (JudgeQuota(t, m, s, q).None? <==>
            None in ns || Counted(t, node.children, ns) < node.minSub
            || (node.n.Some? && sum < node.n.value))
      && (JudgeQuota(t, m, s, q).Some? ==> JudgeQuota(t, m, s, q).value == sum)
  {
    ChildrenFold(t, m, s, t.nodes[q].children, 0, 0);
  }

  /** Setting more reports aside as surplus leaves each quota with no more than before. */
  lemma {:induction false} OwnAntitone(list: seq<SpecificReport>, s1: seq<SpecificReport>, s2: seq<SpecificReport>)
    requires Within(s1, s2)
    ensures Own(list, s1) >= Own(list, s2)
  {
    if list != [] {
      OwnAntitone(list[1..], s1, s2);
    }
  }

  /**
   * A quota fulfilled with the surplus `s2` is fulfilled, with at least as
   * many credits, with any smaller surplus `s1`.
   */
  lemma {:induction false} JudgeMonotone(t: QuotaTree, m: Allocations, s1: seq<SpecificReport>,
                                         s2: seq<SpecificReport>, q: nat)
    requires ChildIdsAbove(t) && Covered(t, m) && q < |t.nodes| && Within(s1, s2)
    requires JudgeQuota(t, m, s2, q).Some?
    ensures JudgeQuota(t, m, s1, q).Some?
    ensures JudgeQuota(t, m, s1, q).value >= JudgeQuota(t, m, s2, q).value
    decreases |t.nodes| - q, 0
  {
    var node := t.nodes[q];
    LowestBelow(node.children, |t.nodes|, q + 1);
    ChildrenMonotone(t, m, s1, s2, node.children, 0, 0, 0, 0);
    OwnAntitone(m.entries[q], s1, s2);
  }

  lemma {:induction false} ChildrenMonotone(t: QuotaTree, m: Allocations, s1: seq<SpecificReport>,
                                            s2: seq<SpecificReport>, ids: seq<nat>,
                                            sum1: int, count1: int, sum2: int, count2: int)
    requires ChildIdsAbove(t) && Covered(t, m) && Within(s1, s2)
    requires forall k :: 0 <= k < |ids| ==> ids[k] < |t.nodes|
    requires sum1 >= sum2 && count1 >= count2
    requires JudgeChildren(t, m, s2, ids, sum2, count2).Some?
    ensures JudgeChildren(t, m, s1, ids, sum1, count1).Some?
    ensures JudgeChildren(t, m, s1, ids, sum1, count1).value.0 >= JudgeChildren(t, m, s2, ids, sum2, count2).value.0
    ensures JudgeChildren(t, m, s1, ids, sum1, count1).value.1 >= JudgeChildren(t, m, s2, ids, sum2, count2).value.1
    decreases |t.nodes| - Lowest(ids, |t.nodes|), |ids| + 1
  {
    if ids != [] {
      JudgeMonotone(t, m, s1, s2, ids[0]);
      var f1, f2 := JudgeQuota(t, m, s1, ids[0]).value, JudgeQuota(t, m, s2, ids[0]).value;
      var n := t.nodes[ids[0]].n;
      ChildrenMonotone(t, m, s1, s2, ids[1..], sum1 + f1, if n.Some? || f1 > 0 then count1 + 1 else count1,
                       sum2 + f2, if n.Some? || f2 > 0 then count2 + 1 else count2);
    }
  }

  /** `None` when some result is `false`, otherwise their sum. */
  function Totals(ns: seq<Option<int>>): (r: Option<int>)
    ensures r.None? <==> None in ns
    ensures r.Some? ==> r.value == SumValues(ns)
  {
    if ns == [] then Some(0)
    else if ns[0].None? then None
    else match Totals(ns[1..])
      case None => None
      case Some(v) => Some(ns[0].value + v)
  }

  /** Every top-level quota is fulfilled with the surplus `s` set aside, with `min` credits in total. */
  ghost predicate Satisfied(t: QuotaTree, m: Allocations, s: seq<SpecificReport>, min: int)
    requires ChildIdsAbove(t) && Covered(t, m)
  {
    var total := Totals(Results(t, m, s, t.roots));
    total.Some? && total.value >= min
  }

  /** A smaller surplus keeps the requirements satisfied. */
  lemma {:induction false} TotalsMonotone(t: QuotaTree, m: Allocations, s1: seq<SpecificReport>,
                                          s2: seq<SpecificReport>, ids: seq<nat>)
    requires ChildIdsAbove(t) && Covered(t, m) && Within(s1, s2)
    requires forall k :: 0 <= k < |ids| ==> ids[k] < |t.nodes|
    requires Totals(Results(t, m, s2, ids)).Some?
    ensures Totals(Results(t, m, s1, ids)).Some?
    ensures Totals(Results(t, m, s1, ids)).value >= Totals(Results(t, m, s2, ids)).value
  {
    if ids != [] {
      assert Results(t, m, s2, ids)[1..] == Results(t, m, s2, ids[1..]);
      assert Results(t, m, s1, ids)[1..] == Results(t, m, s1, ids[1..]);
      JudgeMonotone(t, m, s1, s2, ids[0]);
      TotalsMonotone(t, m, s1, s2, ids[1..]);
    }
  }

  /** `ids.map(internalJudge)`, as the loop of `Array.prototype.map`. */
  method JudgeAll(t: QuotaTree, m: Allocations, s: seq<SpecificReport>, ids: seq<nat>) returns (ns: seq<Option<int>>)
    requires ChildIdsAbove(t) && Covered(t, m)
    requires forall k :: 0 <= k < |ids| ==> ids[k] < |t.nodes|
    ensures ns == Results(t, m, s, ids)
  {
    ns := [];
    var k := 0;
    while k < |ids|
      invariant 0 <= k <= |ids| && |ns| == k
      invariant forall j :: 0 <= j < k ==> ns[j] == JudgeQuota(t, m, s, ids[j])
    {
      var n := InternalJudge(t, m, s, ids[k]);
      ns := ns + [n];
      k := k + 1;
    }
  }

  /** Every surplus constraint accepts `r` next to the surplus `s`. */
  predicate AllAccept(cs: seq<SurplusConstraint>, s: seq<SpecificReport>, r: SpecificReport)
  {
    forall k :: 0 <= k < |cs| ==> cs[k].verify(s, r)
  }

  /** `surplus.add(r)` on a `Set` kept in insertion order. */
  function Add(s: seq<SpecificReport>, r: SpecificReport): (res: seq<SpecificReport>)
    ensures r in res && forall x :: x in res <==> x in s || x == r
    ensures Distinct(s) ==> Distinct(res)
  {
    if r in s then s else s + [r]
  }

  /**
   * One turn of the surplus loop for the report `r`: if the constraints
   * accept it, it is added, and it is removed again when the requirements
   * are no longer satisfied.
   */
  ghost function Consider(t: QuotaTree, m: Allocations, cs: seq<SurplusConstraint>, min: int,
                          s: seq<SpecificReport>, r: SpecificReport): seq<SpecificReport>
    requires ChildIdsAbove(t) && Covered(t, m)
  {
    if !AllAccept(cs, s, r) then s
    else
      var added := Add(s, r);
      if Satisfied(t, m, added, min) then added else Filter(added, Other(r))
  }

  /** The surplus after the loop has offered every report of `rs`. */
  ghost function Greedy(t: QuotaTree, m: Allocations, cs: seq<SurplusConstraint>, min: int,
                        s: seq<SpecificReport>, rs: seq<SpecificReport>): seq<SpecificReport>
    requires ChildIdsAbove(t) && Covered(t, m)
    decreases |rs|
  {
    if rs == [] then s else Greedy(t, m, cs, min, Consider(t, m, cs, min, s, rs[0]), rs[1..])
  }

  /**
   * A report not yet in the surplus joins it exactly when every surplus
   * constraint accepts it and the requirements stay satisfied with it set
   * aside; no other report joins or leaves.
   */
  lemma ConsiderNew(t: QuotaTree, m: Allocations, cs: seq<SurplusConstraint>, min: int,
                    s: seq<SpecificReport>, r: SpecificReport)
    requires ChildIdsAbove(t) && Covered(t, m) && r !in s
    ensures var res := Consider(t, m, cs, min, s, r);
      && (r in res <==> AllAccept(cs, s, r) && Satisfied(t, m, s + [r], min))
      && forall x :: x != r ==> (x in res <==> x in s)
  {
    var added := Add(s, r);
    var removed := Filter(added, Other(r));
    FilterMembers(added, Other(r));
    forall x | x != r
      ensures x in removed <==> x in s
    {
      if x in s {
        assert Other(r)(x);
      }
    }
  }

  /**
   * The loop keeps the surplus free of repetitions, draws it from the
   * offered reports, and keeps the requirements satisfied whenever it is
   * not empty.
   */
  lemma {:induction false} GreedyKeeps(t: QuotaTree, m: Allocations, cs: seq<SurplusConstraint>, min: int,
                                       s: seq<SpecificReport>, rs: seq<SpecificReport>)
    requires ChildIdsAbove(t) && Covered(t, m)
    requires Distinct(s) && (s == [] || Satisfied(t, m, s, min))
    ensures var res := Greedy(t, m, cs, min, s, rs);
      && Distinct(res)
      && (forall x :: x in res ==> x in s || x in rs)
      && (res == [] || Satisfied(t, m, res, min))
    decreases |rs|
  {
    if rs != [] {
      var r := rs[0];
      var next := Consider(t, m, cs, min, s, r);
      if AllAccept(cs, s, r) {
        var added := Add(s, r);
        if !Satisfied(t, m, added, min) {
          FilterDistinct(added, Other(r));
          FilterMembers(added, Other(r));
          var removed := Filter(added, Other(r));
          assert Within(removed, s) by {
            forall x | x in removed
              ensures x in s
            {
              var i :| 0 <= i < |removed| && removed[i] == x;
              assert Other(r)(removed[i]);
            }
          }
          if s != [] {
            TotalsMonotone(t, m, removed, s, t.roots);
          } else {
            assert added == [r];
            assert removed == [];
          }
        }
      }
      GreedyKeeps(t, m, cs, min, next, rs[1..]);
      assert rs == [r] + rs[1..];
    }
  }

  /** `[...allocations.values()].flat()`: the lists in the order their quotas were first set. */
  function InOrder(m: Allocations, keys: seq<nat>): (r: seq<SpecificReport>)
    requires forall k :: 0 <= k < |keys| ==> keys[k] in m.entries
    ensures forall x :: x in r ==> exists k :: 0 <= k < |keys| && x in m.entries[keys[k]]
  {
    if keys == [] then []
    else
      var rest := InOrder(m, keys[1..]);
      assert forall x :: x in rest ==> exists k :: 1 <= k < |keys| && x in m.entries[keys[k]] by {
        forall x | x in rest
          ensures exists k :: 1 <= k < |keys| && x in m.entries[keys[k]]
        {
          var k :| 0 <= k < |keys[1..]| && x in m.entries[keys[1..][k]];
          assert keys[k + 1] == keys[1..][k];
        }
      }
      m.entries[keys[0]] + rest
  }

  /** The allocation of the reports to the quota tree. */
  function Allocated(req: TreeRequirements, reports: seq<SpecificReport>): (m: Allocations)
    requires Laid(req.tree) && Chain(req.tree, req.tree.roots, 0, |req.tree.nodes|)
    ensures Covered(req.tree, m)
    ensures forall k :: 0 <= k < |m.keys| ==> m.keys[k] in m.entries
  {
    AllocateTree(req.tree, CodeOf, reports);
    Step(req.tree, CodeOf, req.tree.roots, reports, Empty(), None).0
  }

  /** The surplus chosen by the loop, when no quota fails outright. */
  ghost function FinalSurplus(req: TreeRequirements, reports: seq<SpecificReport>): seq<SpecificReport>
    requires Laid(req.tree) && Chain(req.tree, req.tree.roots, 0, |req.tree.nodes|)
  {
    var m := Allocated(req, reports);
    Greedy(req.tree, m, req.surplusConstraints, req.min, [], InOrder(m, m.keys))
  }

  /**
   * The verdict: false when some top-level quota fails with no surplus,
   * otherwise whether the surplus credits reach `surplusMin`.
   */
  ghost predicate Verdict(req: TreeRequirements, reports: seq<SpecificReport>)
    requires Laid(req.tree) && Chain(req.tree, req.tree.roots, 0, |req.tree.nodes|)
  {
    var m := Allocated(req, reports);
    && (forall k :: 0 <= k < |req.tree.roots| ==> JudgeQuota(req.tree, m, [], req.tree.roots[k]).Some?)
    && Credits(FinalSurplus(req, reports)) >= req.surplusMin
  }

  /**
   * A positive verdict means: every top-level quota is fulfilled by the
   * reports allocated to it; the surplus is made of distinct reports of
   * the transcript worth at least `surplusMin` credits; and, when it is not
   * empty, the quotas are still fulfilled with `min` credits in total
   * without the surplus reports.
   */
  lemma VerdictSound(req: TreeRequirements, reports: seq<SpecificReport>)
    requires Laid(req.tree) && Chain(req.tree, req.tree.roots, 0, |req.tree.nodes|)
    requires Verdict(req, reports)
    ensures var m := Allocated(req, reports);
      var f := FinalSurplus(req, reports);
      && (forall k :: 0 <= k < |req.tree.roots| ==> JudgeQuota(req.tree, m, [], req.tree.roots[k]).Some?)
      && Credits(f) >= req.surplusMin
      && Distinct(f)
      && (forall x :: x in f ==> x in reports)
      && (f == [] || Satisfied(req.tree, m, f, req.min))
  {
    var t := req.tree;
    var m := Allocated(req, reports);
    AllocateTree(t, CodeOf, reports);
    var offered := InOrder(m, m.keys);
    GreedyKeeps(t, m, req.surplusConstraints, req.min, [], offered);
    forall x | x in offered
      ensures x in reports
    {
      var k :| 0 <= k < |m.keys| && x in m.entries[m.keys[k]];
      var list := Filter(reports, OwnedIn(t, CodeOf, t.roots, m.keys[k]));
      FilterMembers(reports, OwnedIn(t, CodeOf, t.roots, m.keys[k]));
      assert m.entries[m.keys[k]] == list;
      var i :| 0 <= i < |list| && list[i] == x;
    }
  }

  /** The body of the surplus loop for one report. */
  method Offer(t: QuotaTree, m: Allocations, cs: seq<SurplusConstraint>, min: int,
               s: seq<SpecificReport>, report: SpecificReport) returns (surplus: seq<SpecificReport>)
    requires ChildIdsAbove(t) && Covered(t, m)
    ensures surplus == Consider(t, m, cs, min, s, report)
  {
    surplus := s;
    if AllAccept(cs, surplus, report) {
      surplus := Add(surplus, report);
      var nList := JudgeAll(t, m, surplus, t.roots);
      var total := Totals(nList);
      var satisfied := total.Some? && total.value >= min;
      if !satisfied {
        surplus := Filter(surplus, Other(report));
      }
    }
  }

  /** `judgeSatisfaction(requirements, reports)`. */
  method JudgeSatisfaction(req: TreeRequirements, reports: seq<SpecificReport>) returns (ok: bool)
    requires Laid(req.tree) && Chain(req.tree, req.tree.roots, 0, |req.tree.nodes|)
    ensures ok == Verdict(req, reports)
  {
    var t := req.tree;
    var m := Allocate(t, CodeOf, reports);
    assert m == Allocated(req, reports);
    var roots := JudgeAll(t, m, [], t.roots);
    if None in roots {
      ghost var k :| 0 <= k < |roots| && roots[k] == None;
      assert JudgeQuota(t, m, [], t.roots[k]).None?;
      return false;
    }
    forall k | 0 <= k < |t.roots|
      ensures JudgeQuota(t, m, [], t.roots[k]).Some?
    {
      assert roots[k] != None;
    }
    var offered := InOrder(m, m.keys);
    var surplus: seq<SpecificReport> := [];
    var i := 0;
    while i < |offered|
      invariant 0 <= i <= |offered|
      invariant Greedy(t, m, req.surplusConstraints, req.min, surplus, offered[i..])
             == Greedy(t, m, req.surplusConstraints, req.min, [], offered)
    {
      var report := offered[i];
      assert offered[i..][0] == report && offered[i..][1..] == offered[i + 1..];
      surplus := Offer(t, m, req.surplusConstraints, req.min, surplus, report);
      i := i + 1;
    }
    assert offered[i..] == [];
    ok := Credits(surplus) >= req.surplusMin;
  }
}

=== FILE: ordered_map.dfy ===
/**
 * A JavaScript `Map` as a value: the entries and the order in which their
 * keys were first set. Setting an existing key keeps its place; deleting a
 * key removes it from the order.
 */
module OrderedMaps {
  import opened Seqs

  datatype OrderedMap<K(==), V> = OrderedMap(keys: seq<K>, entries: map<K, V>)
  {
    /** Every key is listed once, and exactly the keys with a value are listed. */
    predicate Valid()
    {
      Distinct(keys)
      && (forall k :: k in entries ==> k in keys)
      && forall i :: 0 <= i < |keys| ==> keys[i] in entries
    }

    /** `map.set(k, v)`. */
    function Put(k: K, v: V): (r: OrderedMap<K, V>)
      ensures r.entries == entries[k := v]
      ensures k in entries ==> r.keys == keys
      ensures k !in entries ==> r.keys == keys + [k]
    {
      if k in entries then OrderedMap(keys, entries[k := v]) else OrderedMap(keys + [k], entries[k := v])
    }

    /** `map.delete(k)`. */
    function Delete(k: K): (r: OrderedMap<K, V>)
      ensures r.entries == entries - {k}
      ensures r.keys == Filter(keys, Other(k))
    {
      OrderedMap(Filter(keys, Other(k)), entries - {k})
    }

    /** `[...map.values()]`. */
    function ValuesInOrder(): (r: seq<V>)
      requires Valid()
      ensures |r| == |keys| && forall i :: 0 <= i < |keys| ==> r[i] == entries[keys[i]]
    {
      seq(|keys|, i requires 0 <= i < |keys| => entries[keys[i]])
    }
  }

  /** Setting a key keeps the keys listed once each and in step with the entries. */
  lemma PutValid<K, V>(m: OrderedMap<K, V>, k: K, v: V)
    requires m.Valid()
    ensures m.Put(k, v).Valid()
  {
  }

  /** Deleting a key keeps the keys listed once each and in step with the entries. */
  lemma DeleteValid<K, V>(m: OrderedMap<K, V>, k: K)
    requires m.Valid()
    ensures m.Delete(k).Valid()
  {
    var ks := Filter(m.keys, Other(k));
    FilterDistinct(m.keys, Other(k));
    FilterMembers(m.keys, Other(k));
    forall x | x in m.entries - {k}
      ensures x in ks
    {
      var i :| 0 <= i < |m.keys| && m.keys[i] == x;
      assert Other(k)(m.keys[i]);
    }
    forall i | 0 <= i < |ks|
      ensures ks[i] in m.entries - {k}
    {
      assert Other(k)(ks[i]);
    }
  }

  /** The test `x => x != k`. */
  function Other<K(==)>(k: K): K -> bool
  {
    x => x != k
  }

  function Empty<K(==), V>(): (r: OrderedMap<K, V>)
    ensures r.Valid() && r.keys == [] && r.entries == map[]
  {
    OrderedMap([], map[])
  }
}

=== FILE: quota_definition.dfy ===
/**
 * Completion requirements as the departments write them down
 * (src/quota/definition.ts): a quota is a named scope of courses with an
 * optional credit capacity, ordered sub-quotas of which at least `minSub`
 * must be filled, and constraints checked while weights are distributed.
 */
module QuotaDefinitions {
  import opened Wrappers
  import opened Seqs
  import opened CourseCodes
  import opened Reports

  /** The weight a unit is about to receive: 1 or 0.1. */
  datatype WeightRatio = RatioOne | RatioTenth

  /**
   * A constraint on what a quota may take: `verify(allocated, toBeAdded,
   * ratio)` tells whether the report may join the quota's scored reports at
   * that ratio.
   */
  datatype CalculationConstraint = CalculationConstraint(
    description: string,
    references: seq<string>,
    verify: (seq<ScoredReport>, SpecificScoredReport, WeightRatio) -> bool)

  /**
   * A quota. The filters of the sub-quotas are meant to be mutually
   * exclusive; `n` is absent when the quota has no capacity of its own.
   */
  datatype Quota = Quota(
    name: string,
    filter: CourseCode -> bool,
    n: Option<int>,
    subQuotas: seq<Quota>,
    minSub: int,
    constraints: seq<CalculationConstraint>)

  /** The sub-quota part of a quota (`WithSub`). */
  datatype WithSub = WithSub(subQuotas: seq<Quota>, minSub: int)

  /** A constraint on the reports chosen as surplus credits. */
  datatype SurplusConstraint = SurplusConstraint(
    description: string,
    references: seq<string>,
    verify: (seq<SpecificReport>, SpecificReport) -> bool)

  /**
   * The requirements of a program: the quotas, the credit total `min` they
   * must reach, and the surplus credits beyond them.
   */
  datatype Requirements = Requirements(
    min: int,
    quotas: seq<Quota>,
    surplusMin: int,
    surplusConstraints: seq<SurplusConstraint>)

  /** `$quota`: by default no sub-quotas, `minSub` 0 and no constraints. */
  function MakeQuota(name: string, n: Option<int>, filter: CourseCode -> bool,
                     withSub: WithSub := WithSub([], 0),
                     withForCalculation: seq<CalculationConstraint> := []): (q: Quota)
    ensures q.name == name && q.n == n && q.filter == filter
    ensures q.subQuotas == withSub.subQuotas && q.minSub == withSub.minSub
    ensures q.constraints == withForCalculation
  {
    Quota(name, filter, n, withSub.subQuotas, withSub.minSub, withForCalculation)
  }

  /** Without the optional arguments a quota is a leaf with nothing to check. */
  lemma MakeQuotaDefaults(name: string, n: Option<int>, filter: CourseCode -> bool)
    ensures MakeQuota(name, n, filter).subQuotas == []
    ensures MakeQuota(name, n, filter).minSub == 0
    ensures MakeQuota(name, n, filter).constraints == []
  {
  }

  /** `withSub(min, ...qs)`. */
  function MakeWithSub(min: int, subQuotas: seq<Quota>): (w: WithSub)
    ensures w.subQuotas == subQuotas && w.minSub == min
  {
    WithSub(subQuotas, min)
  }

  function SubQuotasOf(sub: Option<WithSub>): seq<Quota>
  {
    match sub case None => [] case Some(w) => w.subQuotas
  }

  function MinSubOf(sub: Option<WithSub>): int
  {
    match sub case None => 0 case Some(w) => w.minSub
  }

  /**
   * `mergeWithSubs`: the sub-quotas of every given part in argument order,
   * with the sum of their `minSub`; an absent part contributes nothing.
   */
  function MergeWithSubs(subs: seq<Option<WithSub>>): WithSub
  {
    WithSub(Flatten(Map(subs, SubQuotasOf)), Sum(Map(subs, MinSubOf)))
  }

  /**
   * Merging is compositional: merging two lists of parts is merging their
   * merges, an absent part is neutral and a single part merges to itself.
   */
  lemma {:induction false} MergeWithSubsConcat(a: seq<Option<WithSub>>, b: seq<Option<WithSub>>)
    ensures MergeWithSubs(a + b).subQuotas == MergeWithSubs(a).subQuotas + MergeWithSubs(b).subQuotas
    ensures MergeWithSubs(a + b).minSub == MergeWithSubs(a).minSub + MergeWithSubs(b).minSub
  {
    MapConcat(a, b, SubQuotasOf);
    MapConcat(a, b, MinSubOf);
    FlattenConcat(Map(a, SubQuotasOf), Map(b, SubQuotasOf));
    SumConcat(Map(a, MinSubOf), Map(b, MinSubOf));
  }

  lemma MergeWithSubsUnits(w: WithSub)
    ensures MergeWithSubs([]) == WithSub([], 0)
    ensures MergeWithSubs([None]) == WithSub([], 0)
    ensures MergeWithSubs([Some(w)]) == w
  {
    assert Flatten(Map([Some(w)], SubQuotasOf)) == w.subQuotas + [];
  }

  /** `withForCalculation(...constraints)`: kept unchanged and in order. */
  function WithForCalculation(constraints: seq<CalculationConstraint>): (r: seq<CalculationConstraint>)
    ensures |r| == |constraints| && forall i :: 0 <= i < |r| ==> r[i] == constraints[i]
  {
    constraints
  }
}

=== FILE: quota_tree.dfy ===
/**
 * The quota tree as the weight engine and `allocate` see it. Quotas are
 * compared by identity in the source; here every quota is a node addressed
 * by its position in a preorder walk of the requirements, so node `q` owns
 * the positions `[q, End(q))` of its subtree, its children split
 * `(q, End(q))` in order, and `parent` is the node the engine walks up to.
 */
module QuotaTrees {
  import opened Wrappers
  import opened Seqs
  import opened CourseCodes
  import opened QuotaDefinitions

  datatype QuotaNode = QuotaNode(
    name: string,
    filter: CourseCode -> bool,
    n: Option<int>,
    children: seq<nat>,
    minSub: int,
    constraints: seq<CalculationConstraint>,
    parent: Option<nat>,
    subtreeEnd: nat)

  /** The nodes in preorder and the ids of the top-level quotas. */
  datatype QuotaTree = QuotaTree(nodes: seq<QuotaNode>, roots: seq<nat>)
  {
    function End(q: nat): nat
      requires q < |nodes|
    {
      nodes[q].subtreeEnd
    }

    /** Node `x` lies in the subtree of node `a`. */
    predicate Encloses(a: nat, x: nat)
      requires a < |nodes|
    {
      a <= x < End(a)
    }
  }

  /**
   * The shape `allocate` can walk: roots are nodes and every child id is a
   * node above its parent's id. Quotas shared between parents are allowed.
   */
  predicate ChildIdsAbove(t: QuotaTree)
  {
    (forall k :: 0 <= k < |t.roots| ==> t.roots[k] < |t.nodes|)
    && forall i, k :: 0 <= i < |t.nodes| && 0 <= k < |t.nodes[i].children| ==>
         i < t.nodes[i].children[k] < |t.nodes|
  }

  /** `ids` are consecutive subtrees that exactly cover `[lo, hi)`. */
  predicate Chain(t: QuotaTree, ids: seq<nat>, lo: nat, hi: nat)
    decreases |ids|
  {
    if ids == [] then lo == hi
    else ids[0] == lo && lo < |t.nodes| && Chain(t, ids[1..], t.nodes[lo].subtreeEnd, hi)
  }

  /** Subtrees are non-empty and inside the tree. */
  predicate Spans(t: QuotaTree)
  {
    forall i :: 0 <= i < |t.nodes| ==> i < t.nodes[i].subtreeEnd <= |t.nodes|
  }

  /** Subtrees are non-empty, inside the tree, and nested or disjoint. */
  predicate Nested(t: QuotaTree)
  {
    Spans(t)
    && forall i, j :: 0 <= i < j < |t.nodes| && j < t.nodes[i].subtreeEnd ==>
         t.nodes[j].subtreeEnd <= t.nodes[i].subtreeEnd
  }

  /** The children of every node are consecutive subtrees covering the rest of its subtree. */
  predicate ChildrenChained(t: QuotaTree)
    requires Spans(t)
  {
    forall i :: 0 <= i < |t.nodes| ==> Chain(t, t.nodes[i].children, i + 1, t.End(i))
  }

  /** The part of a valid tree that the walk of `allocate` relies on. */
  predicate Laid(t: QuotaTree)
  {
    Spans(t) && ChildIdsAbove(t) && ChildrenChained(t)
  }

  /** The parent of a node is the innermost subtree around it; a root lies in no other subtree. */
  predicate ParentsInnermost(t: QuotaTree)
    requires Nested(t)
  {
    forall i :: 0 <= i < |t.nodes| ==>
      match t.nodes[i].parent
      case None => forall a :: 0 <= a < i ==> t.End(a) <= i
      case Some(p) => p < i < t.End(p) && forall a :: p < a < i ==> t.End(a) <= i
  }

  /** A tree of quotas laid out in preorder. */
  predicate Valid(t: QuotaTree)
  {
    Nested(t)
    && Chain(t, t.roots, 0, |t.nodes|)
    && ChildrenChained(t)
    && ParentsInnermost(t)
  }

  /** What a chain of subtrees looks like element by element. */
  lemma {:induction false} ChainFacts(t: QuotaTree, ids: seq<nat>, lo: nat, hi: nat)
    requires Spans(t) && Chain(t, ids, lo, hi)
    ensures lo <= hi
    ensures forall k :: 0 <= k < |ids| ==> ids[k] < |t.nodes|
    ensures forall k :: 0 <= k < |ids| ==> lo <= ids[k] < t.End(ids[k]) <= hi
    ensures forall k :: 0 <= k < |ids| - 1 ==> ids[k + 1] == t.End(ids[k])
    ensures forall k, l {:trigger ids[k], ids[l]} :: 0 <= k < l < |ids| ==> t.End(ids[k]) <= ids[l]
    decreases |ids|
  {
    if ids != [] {
      var rest := ids[1..];
      ChainFacts(t, rest, t.End(lo), hi);
      assert forall k :: 1 <= k < |ids| ==> ids[k] == rest[k - 1];
      forall k, l {:trigger ids[k], ids[l]} | 0 <= k < l < |ids|
        ensures t.End(ids[k]) <= ids[l]
      {
        if k > 0 {
          assert ids[k] == rest[k - 1] && ids[l] == rest[l - 1];
        } else {
          assert ids[l] == rest[l - 1];
        }
      }
    }
  }

  /** Every position of `[lo, hi)` lies in one of the chained subtrees. */
  lemma {:induction false} ChainCovers(t: QuotaTree, ids: seq<nat>, lo: nat, hi: nat, x: nat)
    requires Spans(t) && Chain(t, ids, lo, hi) && lo <= x < hi
    ensures exists k :: 0 <= k < |ids| && ids[k] < |t.nodes| && ids[k] <= x < t.End(ids[k])
    decreases |ids|
  {
    var rest := ids[1..];
    if x >= t.End(lo) {
      ChainCovers(t, rest, t.End(lo), hi, x);
      var k :| 0 <= k < |rest| && rest[k] < |t.nodes| && rest[k] <= x < t.End(rest[k]);
      assert ids[k + 1] == rest[k];
    } else {
      assert ids[0] <= x < t.End(ids[0]);
    }
  }

  /** A valid tree can be walked by `allocate`. */
  lemma ValidIsLaid(t: QuotaTree)
    requires Valid(t)
    ensures Laid(t)
  {
    ChainFacts(t, t.roots, 0, |t.nodes|);
    forall i, k | 0 <= i < |t.nodes| && 0 <= k < |t.nodes[i].children|
      ensures i < t.nodes[i].children[k] < |t.nodes|
    {
      ChainFacts(t, t.nodes[i].children, i + 1, t.End(i));
    }
  }

  /** The node itself, its parent, its parent's parent, up to a root: the path `#updateCount` and `check` walk. */
  function AncestorsOrSelf(t: QuotaTree, q: nat): (r: seq<nat>)
    requires Valid(t) && q < |t.nodes|
    ensures |r| > 0 && r[0] == q
    ensures forall k :: 0 <= k < |r| ==> r[k] <= q
    decreases q
  {
    match t.nodes[q].parent
    case None => [q]
    case Some(p) => [q] + AncestorsOrSelf(t, p)
  }

  /** The path up from `q` is exactly the set of nodes whose subtree contains `q`. */
  lemma {:induction false} AncestorsEnclose(t: QuotaTree, q: nat, a: nat)
    requires Valid(t) && q < |t.nodes| && a < |t.nodes|
    ensures a in AncestorsOrSelf(t, q) <==> t.Encloses(a, q)
    decreases q
  {
    match t.nodes[q].parent
    case None =>
    case Some(p) =>
      AncestorsEnclose(t, p, a);
      if a != q {
        if t.Encloses(a, q) {
          // a cannot lie between p and q, where no subtree reaches q
        }
        if t.Encloses(a, p) && a < p {
          assert t.End(p) <= t.End(a);
        }
      }
  }

  /** The first of `ids` whose filter accepts `code` (`subQuotas.find`). */
  function FirstMatch(t: QuotaTree, ids: seq<nat>, code: CourseCode): (r: Option<nat>)
    requires forall k :: 0 <= k < |ids| ==> ids[k] < |t.nodes|
    ensures r.Some? ==> r.value in ids && t.nodes[r.value].filter(code)
    ensures r.None? <==> forall k :: 0 <= k < |ids| ==> !t.nodes[ids[k]].filter(code)
  {
    if ids == [] then None
    else if t.nodes[ids[0]].filter(code) then Some(ids[0])
    else FirstMatch(t, ids[1..], code)
  }
}

=== FILE: rational.dfy ===
/**
 * Exact rational arithmetic used for weighted averages (src/rational.ts).
 * A rational is a numerator/denominator pair that the constructor reduces by
 * the greatest common divisor of their absolute values; the sign of the
 * denominator is not normalised.
 */
module Rationals {
  import opened Wrappers

  /** Greatest common divisor by Euclid's algorithm, as a recursive definition. */
  function GcdF(a: nat, b: nat): nat
    decreases b
  {
    if b == 0 then a else GcdF(b, a % b)
  }

  /** The source's `gcd` loop, proved to compute `GcdF`. */
  method Gcd(a0: nat, b0: nat) returns (g: nat)
    ensures g == GcdF(a0, b0)
    ensures a0 > 0 || b0 > 0 ==> g > 0 && Divides(g, a0) && Divides(g, b0)
  {
    var a, b := a0, b0;
    while b != 0
      invariant GcdF(a, b) == GcdF(a0, b0)
      decreases b
    {
      a, b := b, a % b;
    }
    g := a;
    if a0 > 0 || b0 > 0 {
      GcdPositive(a0, b0);
      GcdDivides(a0, b0);
    }
  }

  ghost predicate Divides(c: int, x: int)
  {
    exists k :: x == c * k
  }

  lemma {:induction false} GcdPositive(a: nat, b: nat)
    requires a > 0 || b > 0
    ensures GcdF(a, b) > 0
    decreases b
  {
    if b != 0 {
      GcdPositive(b, a % b);
    }
  }

  /** The gcd divides both arguments. */
  lemma {:induction false} GcdDivides(a: nat, b: nat)
    ensures Divides(GcdF(a, b), a) && Divides(GcdF(a, b), b)
    decreases b
  {
    var g := GcdF(a, b);
    if b == 0 {
      assert a == g * 1 && b == g * 0;
    } else {
      GcdDivides(b, a % b);
      var k1 :| b == g * k1;
      var k2 :| a % b == g * k2;
      assert a == (a / b) * b + a % b;
      assert a == g * ((a / b) * k1 + k2);
    }
  }

  /** Every common divisor divides the gcd. */
  lemma {:induction false} DividesGcd(a: nat, b: nat, c: int)
    requires Divides(c, a) && Divides(c, b)
    ensures Divides(c, GcdF(a, b))
    decreases b
  {
    if b != 0 {
      var ka :| a == c * ka;
      var kb :| b == c * kb;
      assert a % b == a - (a / b) * b;
      assert a % b == c * (ka - (a / b) * kb);
      DividesGcd(b, a % b, c);
    }
  }

  lemma {:induction false} MulAtLeast(g: int, t: int)
    requires g > 0 && t >= 1
    ensures g * t >= g
    decreases t
  {
    if t > 1 {
      MulAtLeast(g, t - 1);
      assert g * t == g * (t - 1) + g;
    }
  }

  lemma ExactQuotient(g: int, k: int)
    requires g > 0
    ensures (g * k) / g == k
  {
    var q, m := (g * k) / g, (g * k) % g;
    assert g * (k - q) == m;
    if k - q >= 1 {
      MulAtLeast(g, k - q);
    }
  }

  lemma RealCancel(x: int, y: int, g: int)
    requires g != 0 && y != 0
    ensures ((g * x) as real) / ((g * y) as real) == (x as real) / (y as real)
  {
    var q := (x as real) / (y as real);
    assert (x as real) == q * (y as real);
    assert ((g * x) as real) == (g as real) * (x as real);
    assert ((g * y) as real) == (g as real) * (y as real);
    assert ((g * x) as real) == q * ((g * y) as real);
  }

  lemma Abs(x: int, g: int)
    requires Divides(g, if x < 0 then -x else x)
    ensures Divides(g, x)
  {
    var k :| (if x < 0 then -x else x) == g * k;
    if x < 0 {
      assert x == g * -k;
    }
  }

  function AbsInt(x: int): nat
  {
    if x < 0 then -x else x
  }

  datatype Rational = Rational(num: int, den: int)
  {
    /** The value the pair denotes (the source's `toNumber`, without rounding). */
    ghost function Value(): real
      requires den != 0
    {
      (num as real) / (den as real)
    }

    /** A pair the constructor can produce: nonzero denominator, in lowest terms. */
    ghost predicate Valid()
    {
      den != 0 && GcdF(AbsInt(num), AbsInt(den)) == 1
    }

    function Add(rhs: Rational): (r: Rational)
      requires den != 0 && rhs.den != 0
      ensures r.Valid()
      ensures r.Value() == Value() + rhs.Value()
      ensures den > 0 && rhs.den > 0 ==> r.den > 0
    {
      AddValue(num, den, rhs.num, rhs.den);
      Make(num * rhs.den + rhs.num * den, den * rhs.den)
    }

    function Sub(rhs: Rational): (r: Rational)
      requires den != 0 && rhs.den != 0
      ensures r.Valid()
      ensures r.Value() == Value() - rhs.Value()
      ensures den > 0 && rhs.den > 0 ==> r.den > 0
    {
      SubValue(num, den, rhs.num, rhs.den);
      Make(num * rhs.den - rhs.num * den, den * rhs.den)
    }

    function Mul(rhs: Rational): (r: Rational)
      requires den != 0 && rhs.den != 0
      ensures r.Valid()
      ensures r.Value() == Value() * rhs.Value()
      ensures den > 0 && rhs.den > 0 ==> r.den > 0
    {
      MulValue(num, den, rhs.num, rhs.den);
      Make(num * rhs.num, den * rhs.den)
    }

    /** Division by a rational whose value is zero is excluded (the source yields NaN or an infinity). */
    function Div(rhs: Rational): (r: Rational)
      requires den != 0 && rhs.den != 0 && rhs.num != 0
      ensures r.Valid()
      ensures r.Value() == Value() / rhs.Value()
      ensures den > 0 && rhs.den > 0 ==> (r.den > 0 <==> rhs.num > 0)
    {
      DivValue(num, den, rhs.num, rhs.den);
      Make(num * rhs.den, den * rhs.num)
    }

    /**
     * `this.toNumber() > rhs.toNumber()`, decided exactly on the pairs: the
     * difference is positive when its numerator and denominator share a sign.
     */
    predicate Exceeds(rhs: Rational)
      requires den != 0 && rhs.den != 0
      ensures Exceeds(rhs) <==> Value() > rhs.Value()
    {
      var d := Sub(rhs);
      QuotientSign(d.num, d.den);
      (d.num > 0 && d.den > 0) || (d.num < 0 && d.den < 0)
    }
  }

  /**
   * The private constructor: divides numerator and denominator by the gcd
   * of their absolute values. The result denotes the same value and is in
   * lowest terms.
   */
  function Make(n: int, d: int): (r: Rational)
    requires d != 0
    ensures r.Valid()
    ensures r.Value() == (n as real) / (d as real)
    ensures r.den > 0 <==> d > 0
  {
    var g := GcdF(AbsInt(n), AbsInt(d));
    GcdPositive(AbsInt(n), AbsInt(d));
    GcdDivides(AbsInt(n), AbsInt(d));
    Abs(n, g);
    Abs(d, g);
    var kn :| n == g * kn;
    var kd :| d == g * kd;
    ExactQuotient(g, kn);
    ExactQuotient(g, kd);
    RealCancel(kn, kd, g);
    Lowest(n, d, g, kn, kd);
    PositiveFactor(g, kd);
    Rational(n / g, d / g)
  }

  /** After division by the gcd no common factor other than 1 is left. */
  lemma Lowest(n: int, d: int, g: int, kn: int, kd: int)
    requires d != 0 && g == GcdF(AbsInt(n), AbsInt(d)) && g > 0
    requires n == g * kn && d == g * kd
    ensures GcdF(AbsInt(kn), AbsInt(kd)) == 1
  {
    var h := GcdF(AbsInt(kn), AbsInt(kd));
    assert kd != 0;
    GcdPositive(AbsInt(kn), AbsInt(kd));
    GcdDivides(AbsInt(kn), AbsInt(kd));
    AbsMul(g, kn);
    AbsMul(g, kd);
    ScaleDivides(h, g, AbsInt(kn));
    ScaleDivides(h, g, AbsInt(kd));
    DividesGcd(AbsInt(n), AbsInt(d), h * g);
    UnitFactor(g, h);
  }

  lemma PositiveFactor(g: int, k: int)
    requires g > 0
    ensures g * k > 0 <==> k > 0
  {
    if k > 0 {
      MulAtLeast(g, k);
    } else {
      assert g * k == -(g * -k);
      if k < 0 { MulAtLeast(g, -k); }
    }
  }

  lemma AbsMul(g: int, k: int)
    requires g > 0
    ensures AbsInt(g * k) == g * AbsInt(k)
  {
    if k < 0 {
      assert g * k == -(g * -k);
    }
  }

  lemma ScaleDivides(h: int, g: int, x: int)
    requires Divides(h, x)
    ensures Divides(h * g, g * x)
  {
    var a :| x == h * a;
    assert g * x == (h * g) * a;
  }

  lemma UnitFactor(g: int, h: int)
    requires g > 0 && h > 0 && Divides(h * g, g)
    ensures h == 1
  {
    var m :| g == (h * g) * m;
    assert g * (h * m - 1) == 0;
    assert h * m == 1;
  }

  lemma AddValue(na: int, da: int, nb: int, db: int)
    requires da != 0 && db != 0
    ensures ((na * db + nb * da) as real) / ((da * db) as real)
         == (na as real) / (da as real) + (nb as real) / (db as real)
  {
    var x, y := (na as real) / (da as real), (nb as real) / (db as real);
    assert (na as real) == x * (da as real);
    assert (nb as real) == y * (db as real);
    assert ((na * db + nb * da) as real) == (x + y) * ((da * db) as real);
  }

  lemma SubValue(na: int, da: int, nb: int, db: int)
    requires da != 0 && db != 0
    ensures ((na * db - nb * da) as real) / ((da * db) as real)
         == (na as real) / (da as real) - (nb as real) / (db as real)
  {
    var x, y := (na as real) / (da as real), (nb as real) / (db as real);
    assert (na as real) == x * (da as real);
    assert (nb as real) == y * (db as real);
    assert ((na * db - nb * da) as real) == (x - y) * ((da * db) as real);
  }

  lemma MulValue(na: int, da: int, nb: int, db: int)
    requires da != 0 && db != 0
    ensures ((na * nb) as real) / ((da * db) as real)
         == ((na as real) / (da as real)) * ((nb as real) / (db as real))
  {
    var x, y := (na as real) / (da as real), (nb as real) / (db as real);
    assert (na as real) == x * (da as real);
    assert (nb as real) == y * (db as real);
    assert ((na * nb) as real) == (x * y) * ((da * db) as real);
  }

  lemma DivValue(na: int, da: int, nb: int, db: int)
    requires da != 0 && db != 0 && nb != 0
    ensures ((na * db) as real) / ((da * nb) as real)
         == ((na as real) / (da as real)) / ((nb as real) / (db as real))
  {
    var x, y := (na as real) / (da as real), (nb as real) / (db as real);
    assert (na as real) == x * (da as real);
    assert (nb as real) == y * (db as real);
    assert y != 0.0;
    assert ((na * db) as real) == (x / y) * ((da * nb) as real);
  }

  /** `Rational.int`: an integer as a rational. */
  function FromInt(n: int): (r: Rational)
    ensures r == Rational(n, 1)
    ensures r.Valid() && r.Value() == n as real
  {
    Make(n, 1)
  }

  /** `Rational.int` on an arbitrary number: a non-integral argument is an error. */
  function IntOf(x: real): (r: Result<Rational, string>)
    ensures r.Ok? <==> x == x.Floor as real
    ensures r.Ok? ==> r.value.Valid() && r.value.Value() == x
  {
    if x != x.Floor as real then Err("the given number is not integer")
    else Ok(FromInt(x.Floor))
  }

  /** A quotient is positive exactly when its two operands share a sign. */
  lemma QuotientSign(n: int, d: int)
    requires d != 0
    ensures (n as real) / (d as real) > 0.0 <==> (n > 0 && d > 0) || (n < 0 && d < 0)
  {
    var q := (n as real) / (d as real);
    assert q * (d as real) == n as real;
    if d > 0 {
      if q > 0.0 { assert q * (d as real) > 0.0; }
      if q <= 0.0 { assert q * (d as real) <= 0.0; }
    } else {
      if q > 0.0 { assert q * (d as real) < 0.0; }
      if q <= 0.0 { assert q * (d as real) >= 0.0; }
    }
  }

  /** The product of two integers as rationals is the integer of their product. */
  lemma MulInts(a: int, b: int)
    ensures FromInt(a).Mul(FromInt(b)) == FromInt(a * b)
  {
  }

  /** `Rational.deci`: one tenth, the unit of most weights. */
  function Deci(): (r: Rational)
    ensures r == Rational(1, 10)
    ensures r.Valid() && r.Value() == 0.1
  {
    Make(1, 10)
  }

  /** Dividing by an integer and multiplying back gives the integer one started from. */
  lemma DivMulRoundTrip(a: int, b: int)
    requires b != 0
    ensures FromInt(a).Div(FromInt(b)).Mul(FromInt(b)).Value() == a as real
  {
    var fa, fb := FromInt(a), FromInt(b);
    MulBack(fa.Div(fb), fb, a as real);
  }

  lemma MulBack(q: Rational, y: Rational, x: real)
    requires q.den != 0 && y.den != 0 && y.num != 0
    requires q.Value() == x / y.Value()
    ensures q.Mul(y).Value() == x
  {
    RealDivMul(x, y.Value());
  }

  lemma RealDivMul(x: real, y: real)
    requires y != 0.0
    ensures (x / y) * y == x
  {
  }

  /** 1/2 + 1/3 = 5/6 and 1/2 - 1/3 = 1/6. */
  lemma AddSubExample()
    ensures FromInt(1).Div(FromInt(2)).Add(FromInt(1).Div(FromInt(3))).Value() == 5.0 / 6.0
    ensures FromInt(1).Div(FromInt(2)).Sub(FromInt(1).Div(FromInt(3))).Value() == 1.0 / 6.0
  {
  }

  /** (p1/p2)(p2/p3)(p3/p1) = 1, as in the multiplication example with three primes. */
  lemma MulCancels(p1: int, p2: int, p3: int)
    requires p1 != 0 && p2 != 0 && p3 != 0
    ensures FromInt(p1).Div(FromInt(p2)).Mul(FromInt(p2).Div(FromInt(p3))).Mul(FromInt(p3).Div(FromInt(p1))).Value() == 1.0
  {
    var x1, x2, x3 := p1 as real, p2 as real, p3 as real;
    var a := FromInt(p1).Div(FromInt(p2));
    var b := FromInt(p2).Div(FromInt(p3));
    var c := FromInt(p3).Div(FromInt(p1));
    DivValues(FromInt(p1), FromInt(p2), x1, x2);
    DivValues(FromInt(p2), FromInt(p3), x2, x3);
    DivValues(FromInt(p3), FromInt(p1), x3, x1);
    var u, v, w := x1 / x2, x2 / x3, x3 / x1;
    MulValues(a, b, u, v);
    MulValues(a.Mul(b), c, u * v, w);
    Cancel(x1, x2, x3, u, v, w);
  }

  /**
   * The value of a product, handed over as reals: callers name the operand
   * values `x` and `y` and go on reasoning about `x * y` alone.
   */
  lemma MulValues(a: Rational, b: Rational, x: real, y: real)
    requires a.den != 0 && b.den != 0 && a.Value() == x && b.Value() == y
    ensures a.Mul(b).Value() == x * y
  {
  }

  /** The value of a quotient, likewise. */
  lemma DivValues(a: Rational, b: Rational, x: real, y: real)
    requires a.den != 0 && b.den != 0 && b.num != 0 && a.Value() == x && b.Value() == y
    ensures y != 0.0 && a.Div(b).Value() == x / y
  {
    assert b.Value() == (b.num as real) / (b.den as real);
  }

  lemma Cancel(x: real, y: real, z: real, u: real, v: real, w: real)
    requires x != 0.0 && y != 0.0 && z != 0.0
    requires u == x / y && v == y / z && w == z / x
    ensures (u * v) * w == 1.0
  {
    assert u * y == x;
    assert (u * y) / z == u * (y / z);
    var r := x / z;
    assert r * z == x;
    assert (r * z) / x == r * (z / x);
  }

  /** The sign is never moved to the numerator: 1 / -2 is stored as 1 over -2. */
  lemma NegativeDenominatorExample()
    ensures FromInt(1).Div(FromInt(-2)) == Rational(1, -2)
  {
    assert GcdF(1, 2) == 1;
  }

  /** A nonzero rational divided by itself is 1. */
  lemma DivSelf(a: Rational)
    requires a.den != 0 && a.num != 0
    ensures a.Div(a).Value() == 1.0
  {
  }
}

=== FILE: remain.dfy ===
/**
 * `Remain` (src/weights.ts): the credits of every allocated report that
 * still wait for a weight, kept per quota. Its iterators hand out one unit
 * `[q, r]` per remaining credit, sorted so that the best reports come
 * first, and `consume` takes the current unit away.
 */
module Remains {
  import opened Wrappers
  import opened Seqs
  import opened OrderedMaps
  import opened CourseCodes
  import opened Courses
  import opened Reports
  import opened QuotaTrees
  import opened Allocation
  import opened AllocationProperties

  /** One unit `[q, r]`: a credit of report `r`, allocated to quota `q`. */
  datatype Slot = Slot(q: nat, r: SpecificScoredReport)

  /** The credits left of every report of one quota, in allocation order. */
  type Credits = OrderedMap<SpecificScoredReport, Credit>

  /** The code `allocate` looks at. */
  function CodeOf(r: SpecificScoredReport): CourseCode
  {
    r.course.code
  }

  /** The sort key of the iterators: `-ordering` of the reports. */
  function SlotKey(s: Slot): int
  {
    RankKey(s.r)
  }

  function SlotReport(s: Slot): SpecificScoredReport
  {
    s.r
  }

  /** The credits left of `r` in `m`, 0 once it is gone. */
  function CreditOf(m: Credits, r: SpecificScoredReport): nat
  {
    if r in m.entries then m.entries[r] else 0
  }

  /** `map.set(r, r.course.credit)` for every report of the list, in order. */
  function CreditsOf(rs: seq<SpecificScoredReport>): Credits
  {
    if rs == [] then Empty()
    else CreditsOf(rs[..|rs| - 1]).Put(rs[|rs| - 1], rs[|rs| - 1].course.credit)
  }

  /** Every listed report starts with its course's credit, and no other report is listed. */
  lemma {:induction false} CreditsOfFacts(rs: seq<SpecificScoredReport>)
    ensures CreditsOf(rs).Valid()
    ensures forall r :: r in CreditsOf(rs).entries <==> r in rs
    ensures forall r :: CreditOf(CreditsOf(rs), r) == if r in rs then r.course.credit else 0
  {
    if rs != [] {
      var init := rs[..|rs| - 1];
      CreditsOfFacts(init);
      PutValid(CreditsOf(init), rs[|rs| - 1], rs[|rs| - 1].course.credit);
      assert rs == init + [rs[|rs| - 1]];
    }
  }

  /** The loop that fills the map of one quota in the constructor. */
  method FillCredits(rs: seq<SpecificScoredReport>) returns (m: Credits)
    ensures m == CreditsOf(rs)
  {
    m := Empty();
    for i := 0 to |rs|
      invariant m == CreditsOf(rs[..i])
    {
      assert rs[..i + 1][..i] == rs[..i];
      m := m.Put(rs[i], rs[i].course.credit);
    }
    assert rs[..|rs|] == rs;
  }

  /** For every key of `ks` in order, one unit per credit left (`for (const [r, c] of map)`). */
  function OwnUnits(q: nat, m: Credits, ks: seq<SpecificScoredReport>): seq<Slot>
  {
    if ks == [] then [] else Repeat(Slot(q, ks[0]), CreditOf(m, ks[0])) + OwnUnits(q, m, ks[1..])
  }

  /** A quota hands out exactly the credits it has left, all marked with the quota. */
  lemma {:induction false} OwnCount(q: nat, m: Credits, ks: seq<SpecificScoredReport>, s: Slot)
    requires Distinct(ks)
    ensures Count(OwnUnits(q, m, ks), s) == if s.q == q && s.r in ks then CreditOf(m, s.r) else 0
  {
    if ks != [] {
      var head := Repeat(Slot(q, ks[0]), CreditOf(m, ks[0]));
      OwnCount(q, m, ks[1..], s);
      CountRepeat(Slot(q, ks[0]), CreditOf(m, ks[0]), s);
      CountConcat(head, OwnUnits(q, m, ks[1..]), s);
      assert ks == [ks[0]] + ks[1..];
      assert ks[0] !in ks[1..];
    }
  }

  /** The test "the unit is a credit of `r`". */
  function SlotOf(r: SpecificScoredReport): Slot -> bool
  {
    (s: Slot) => s.r == r
  }

  /** The units of `m` hold every report as often as credits it has left. */
  lemma {:induction false} OwnReportCount(q: nat, m: Credits, ks: seq<SpecificScoredReport>, r: SpecificScoredReport)
    requires Distinct(ks)
    ensures |Filter(OwnUnits(q, m, ks), SlotOf(r))| == if r in ks then CreditOf(m, r) else 0
  {
    if ks != [] {
      var head := Repeat(Slot(q, ks[0]), CreditOf(m, ks[0]));
      OwnReportCount(q, m, ks[1..], r);
      FilterConcat(head, OwnUnits(q, m, ks[1..]), SlotOf(r));
      RepeatReports(Slot(q, ks[0]), CreditOf(m, ks[0]), r);
      assert ks == [ks[0]] + ks[1..];
      assert ks[0] !in ks[1..];
    }
  }

  lemma {:induction false} RepeatReports(s: Slot, n: nat, r: SpecificScoredReport)
    ensures |Filter(Repeat(s, n), SlotOf(r))| == if s.r == r then n else 0
  {
    if n > 0 {
      RepeatReports(s, n - 1, r);
      assert Repeat(s, n)[1..] == Repeat(s, n - 1);
    }
  }

  /** `map.get(r)` after `consume` on a unit of `r`: 1 is deleted, 2 becomes 1, a missing entry stays missing. */
  function Consumed(m: Credits, r: SpecificScoredReport): Credits
  {
    if r !in m.entries then m
    else if m.entries[r] == 1 then m.Delete(r)
    else m.Put(r, 1)
  }

  /** `consume` lowers the credit of its report by one, down to 0, and leaves every other report alone. */
  lemma ConsumedLowers(m: Credits, r: SpecificScoredReport)
    requires m.Valid()
    ensures Consumed(m, r).Valid()
    ensures CreditOf(Consumed(m, r), r) == if CreditOf(m, r) == 0 then 0 else CreditOf(m, r) - 1
    ensures forall x :: x != r ==> CreditOf(Consumed(m, r), x) == CreditOf(m, x)
  {
    if r in m.entries {
      if m.entries[r] == 1 {
        DeleteValid(m, r);
      } else {
        PutValid(m, r, 1);
      }
    }
  }

  /** The credits left of `r` summed over the quotas of `cs`. */
  function LeftIn(cs: seq<Credits>, r: SpecificScoredReport): nat
  {
    if cs == [] then 0 else CreditOf(cs[0], r) + LeftIn(cs[1..], r)
  }

  /** Changing the map of one quota changes the sum by the change of that map. */
  lemma {:induction false} LeftInUpdate(cs: seq<Credits>, q: nat, m: Credits, r: SpecificScoredReport)
    requires q < |cs|
    ensures LeftIn(cs[q := m], r) == LeftIn(cs, r) - CreditOf(cs[q], r) + CreditOf(m, r)
  {
    if q > 0 {
      LeftInUpdate(cs[1..], q - 1, m, r);
      assert cs[q := m][1..] == cs[1..][q - 1 := m];
    }
  }

  /** The loop of the constructor: one credit map per quota of `m`, in the order of its keys. */
  method CreditsPerQuota(m: OrderedMap<nat, seq<SpecificScoredReport>>) returns (cs: seq<Credits>)
    requires forall k :: 0 <= k < |m.keys| ==> m.keys[k] in m.entries
    ensures |cs| == |m.keys|
    ensures forall x :: 0 <= x < |m.keys| ==> cs[x] == CreditsOf(m.entries[m.keys[x]])
  {
    cs := [];
    for i := 0 to |m.keys|
      invariant |cs| == i
      invariant forall x :: 0 <= x < i ==> cs[x] == CreditsOf(m.entries[m.keys[x]])
    {
      var one := FillCredits(m.entries[m.keys[i]]);
      cs := cs + [one];
    }
  }

  /** With the allocation of a laid-out tree, those maps list each quota's own reports once each. */
  lemma AllocatedCredits(tree: QuotaTree, reports: seq<SpecificScoredReport>,
                         m: OrderedMap<nat, seq<SpecificScoredReport>>, cs: seq<Credits>)
    requires Laid(tree) && m.keys == Range(0, |tree.nodes|)
    requires forall x :: 0 <= x < |tree.nodes| ==>
      x in m.entries && m.entries[x] == Filter(reports, OwnedIn(tree, CodeOf, tree.roots, x))
    requires |cs| == |m.keys| && forall x :: 0 <= x < |m.keys| ==> cs[x] == CreditsOf(m.entries[m.keys[x]])
    ensures |cs| == |tree.nodes| && AllValid(cs)
    ensures forall x :: 0 <= x < |tree.nodes| ==>
      cs[x] == CreditsOf(Filter(reports, OwnedIn(tree, CodeOf, tree.roots, x)))
  {
    forall q | 0 <= q < |cs|
      ensures cs[q].Valid()
    {
      CreditsOfFacts(m.entries[q]);
    }
  }

  class Remain {
    const tree: QuotaTree
    /** `#map`: the quota with id `q` has the map `credits[q]`. */
    var credits: seq<Credits>

    ghost predicate Valid()
      reads this
    {
      QuotaTrees.Valid(tree) && ChildIdsAbove(tree)
      && |credits| == |tree.nodes|
      && AllValid(credits)
    }

    /**
     * Every quota gets the map of the reports `allocate` gives it, each
     * with its course's credit; the map lists every quota in preorder.
     */
    constructor (tree: QuotaTree, reports: seq<SpecificScoredReport>)
      requires QuotaTrees.Valid(tree)
      ensures Valid() && this.tree == tree
      ensures forall x :: 0 <= x < |tree.nodes| ==>
        credits[x] == CreditsOf(Filter(reports, OwnedIn(tree, CodeOf, tree.roots, x)))
    {
      ValidIsLaid(tree);
      var m := Allocate(tree, CodeOf, reports);
      AllocateTree(tree, CodeOf, reports);
      var cs := CreditsPerQuota(m);
      AllocatedCredits(tree, reports, m, cs);
      this.tree := tree;
      credits := cs;
    }

    /** `under(q)`: the units below `q`, sorted with `-ordering`. */
    function Under(q: nat): (rs: seq<Slot>)
      reads this
      requires Valid() && q < |tree.nodes|
      ensures SortedBy(rs, SlotKey)
      ensures multiset(rs) == multiset(UnderUnits(tree, credits, q))
    {
      SortBySorted(UnderUnits(tree, credits, q), SlotKey);
      SortByPermutes(UnderUnits(tree, credits, q), SlotKey);
      SortBy(UnderUnits(tree, credits, q), SlotKey)
    }

    /** `all()`: every unit, sorted with `-ordering`. */
    function All(): (rs: seq<Slot>)
      reads this
      ensures SortedBy(rs, SlotKey)
      ensures multiset(rs) == multiset(AllUnits(credits, 0))
    {
      SortBySorted(AllUnits(credits, 0), SlotKey);
      SortByPermutes(AllUnits(credits, 0), SlotKey);
      SortBy(AllUnits(credits, 0), SlotKey)
    }

    /** `consume` on the unit `s` of an iterator. */
    method Consume(s: Slot)
      requires Valid() && s.q < |tree.nodes|
      modifies this
      ensures Valid()
      ensures credits == old(credits)[s.q := Consumed(old(credits)[s.q], s.r)]
    {
      ConsumedLowers(credits[s.q], s.r);
      credits := credits[s.q := Consumed(credits[s.q], s.r)];
    }
  }

  /** Every map of `cs` lists its keys once each. */
  ghost predicate AllValid(cs: seq<Credits>)
  {
    forall q :: 0 <= q < |cs| ==> cs[q].Valid()
  }

  /** Credits left of the unit's report in the unit's quota. */
  function CreditAt(cs: seq<Credits>, s: Slot): nat
  {
    if s.q < |cs| then CreditOf(cs[s.q], s.r) else 0
  }

  /** The units of quota `q`'s own reports. */
  function OwnSlots(cs: seq<Credits>, q: nat): seq<Slot>
    requires q < |cs|
  {
    OwnUnits(q, cs[q], cs[q].keys)
  }

  /** `#getUnder(q)`: the units of the sub-quotas in order, then the quota's own. */
  function UnderUnits(t: QuotaTree, cs: seq<Credits>, q: nat): seq<Slot>
    requires ChildIdsAbove(t) && |cs| == |t.nodes| && q < |t.nodes|
    decreases |t.nodes| - q, 1
  {
    UnderUnitsOf(t, cs, t.nodes[q].children, q) + OwnSlots(cs, q)
  }

  function UnderUnitsOf(t: QuotaTree, cs: seq<Credits>, ids: seq<nat>, parent: nat): seq<Slot>
    requires ChildIdsAbove(t) && |cs| == |t.nodes|
    requires forall k :: 0 <= k < |ids| ==> parent < ids[k] < |t.nodes|
    decreases |t.nodes| - parent, 0, |ids|
  {
    if ids == [] then [] else UnderUnits(t, cs, ids[0]) + UnderUnitsOf(t, cs, ids[1..], parent)
  }

  /** `#getAll()` from quota `q` on: the units of every quota, in the order of the map. */
  function AllUnits(cs: seq<Credits>, q: nat): seq<Slot>
    decreases |cs| - q
  {
    if q >= |cs| then [] else OwnSlots(cs, q) + AllUnits(cs, q + 1)
  }

  /** What a quota's own units say about one unit: its credit, if it is one of the quota's. */
  lemma OwnCredit(cs: seq<Credits>, q: nat, s: Slot)
    requires AllValid(cs) && q < |cs|
    ensures Count(OwnSlots(cs, q), s) == if s.q == q then CreditAt(cs, s) else 0
  {
    assert cs[q].Valid();
    OwnCount(q, cs[q], cs[q].keys, s);
  }

  /** The reports of a quota's own units, counted, are its credits left. */
  lemma OwnReports(cs: seq<Credits>, q: nat, r: SpecificScoredReport)
    requires AllValid(cs) && q < |cs|
    ensures |Filter(OwnSlots(cs, q), SlotOf(r))| == CreditOf(cs[q], r)
  {
    assert cs[q].Valid();
    OwnReportCount(q, cs[q], cs[q].keys, r);
  }

  /** The units below `q` are exactly the credits left in the subtree of `q`. */
  lemma {:induction false} UnderCount(t: QuotaTree, cs: seq<Credits>, q: nat, s: Slot)
    requires Laid(t) && |cs| == |t.nodes| && AllValid(cs) && q < |t.nodes|
    ensures Count(UnderUnits(t, cs, q), s) == if t.Encloses(q, s.q) then CreditAt(cs, s) else 0
    decreases |t.nodes| - q, 1
  {
    var children := t.nodes[q].children;
    ChainFacts(t, children, q + 1, t.End(q));
    UnderOfCount(t, cs, children, q, q + 1, t.End(q), s);
    OwnCredit(cs, q, s);
    CountConcat(UnderUnitsOf(t, cs, children, q), OwnSlots(cs, q), s);
  }

  lemma {:induction false} UnderOfCount(t: QuotaTree, cs: seq<Credits>, ids: seq<nat>, parent: nat, lo: nat, hi: nat, s: Slot)
    requires Laid(t) && |cs| == |t.nodes| && AllValid(cs)
    requires forall k :: 0 <= k < |ids| ==> parent < ids[k] < |t.nodes|
    requires Chain(t, ids, lo, hi)
    ensures Count(UnderUnitsOf(t, cs, ids, parent), s) == if lo <= s.q < hi then CreditAt(cs, s) else 0
    decreases |t.nodes| - parent, 0, |ids|
  {
    ChainFacts(t, ids, lo, hi);
    if ids != [] {
      UnderCount(t, cs, ids[0], s);
      UnderOfCount(t, cs, ids[1..], parent, t.End(ids[0]), hi, s);
      CountConcat(UnderUnits(t, cs, ids[0]), UnderUnitsOf(t, cs, ids[1..], parent), s);
    }
  }

  /** `all()` hands out every credit left, each once. */
  lemma {:induction false} AllCount(cs: seq<Credits>, q: nat, s: Slot)
    requires AllValid(cs)
    ensures Count(AllUnits(cs, q), s) == if q <= s.q then CreditAt(cs, s) else 0
    decreases |cs| - q
  {
    if q < |cs| {
      var own, rest := OwnSlots(cs, q), AllUnits(cs, q + 1);
      assert AllUnits(cs, q) == own + rest;
      AllCount(cs, q + 1, s);
      OwnCredit(cs, q, s);
      CountConcat(own, rest, s);
      assert Count(AllUnits(cs, q), s) == Count(own, s) + Count(rest, s);
      if s.q == q {
        assert Count(rest, s) == 0;
      } else {
        assert Count(own, s) == 0;
      }
    }
  }

  /** The units of `all()` hold every report as often as credits it has left over all quotas. */
  lemma {:induction false} AllReports(cs: seq<Credits>, q: nat, r: SpecificScoredReport)
    requires AllValid(cs) && q <= |cs|
    ensures |Filter(AllUnits(cs, q), SlotOf(r))| == LeftIn(cs[q..], r)
    decreases |cs| - q
  {
    if q < |cs| {
      AllReports(cs, q + 1, r);
      FilterConcat(OwnSlots(cs, q), AllUnits(cs, q + 1), SlotOf(r));
      OwnReports(cs, q, r);
      assert cs[q..][1..] == cs[q + 1..];
    }
  }

  /** Both iterators list better reports first: descending point, then ascending code rank. */
  lemma SnapshotOrder(rs: seq<Slot>, i: nat, j: nat)
    requires SortedBy(rs, SlotKey) && i < j < |rs|
    ensures Ordering(rs[i].r, rs[j].r) >= 0
    ensures rs[i].r.PointOf() >= rs[j].r.PointOf()
    ensures rs[i].r.PointOf() == rs[j].r.PointOf() ==>
      CodeToInt(rs[i].r.course.code) <= CodeToInt(rs[j].r.course.code)
  {
    RankKeyAgrees(rs[i].r, rs[j].r);
  }
}

=== FILE: repetition.dfy ===
/**
 * Repeating a year (src/repetition.ts): after 留年 or 降年, the absences
 * recorded before the repetition no longer count.
 */
module Repetitions {
  import opened Wrappers
  import opened Courses
  import opened Reports

  datatype RepetitionKind = Ryunen /* 留年 */ | Kounen /* 降年 */

  /** A repetition and the academic year in which it was decided. */
  datatype Repetition = Repetition(kind: RepetitionKind, year: int)

  predicate IsSummerTerm(t: Option<Term>)
  {
    t == Some(S) || t == Some(S1) || t == Some(S2)
  }

  /**
   * `disableAbsentBeforeRepetition(repetition)(report)`: whether the report
   * is still taken into account after the repetition.
   */
  predicate KeepsReport(rep: Repetition, report: SpecificReport)
  {
    match report.course.year
    case None => true
    case Some(y) =>
      if y > rep.year then true
      else if y == rep.year then !(rep.kind == Ryunen || IsSummerTerm(report.course.term))
      else false
  }

  /**
   * What the predicate keeps: a course without a year, every course after
   * the repetition year, and, in the repetition year itself, only the
   * non-summer courses and only after 降年.
   */
  lemma KeepsReportCases(rep: Repetition, report: SpecificReport)
    ensures report.course.year.None? ==> KeepsReport(rep, report)
    ensures report.course.year.Some? && report.course.year.value < rep.year ==> !KeepsReport(rep, report)
    ensures report.course.year.Some? && report.course.year.value > rep.year ==> KeepsReport(rep, report)
    ensures report.course.year == Some(rep.year) ==>
              (KeepsReport(rep, report) <==> rep.kind == Kounen && !IsSummerTerm(report.course.term))
  {
  }

  /** 留年 discards at least as much as 降年 decided in the same year. */
  lemma RyunenStricter(year: int, report: SpecificReport)
    ensures KeepsReport(Repetition(Ryunen, year), report) ==> KeepsReport(Repetition(Kounen, year), report)
  {
  }

  /** A later repetition discards at least as much as an earlier one of the same kind. */
  lemma LaterRepetitionStricter(kind: RepetitionKind, y1: int, y2: int, report: SpecificReport)
    requires y1 <= y2
    ensures KeepsReport(Repetition(kind, y2), report) ==> KeepsReport(Repetition(kind, y1), report)
  {
  }
}

=== FILE: report.dfy ===
/**
 * Transcript rows (src/report.ts): the report variants, the "top grades"
 * ordering and the point-to-grade bands.
 */
module Reports {
  import opened Wrappers
  import opened CourseCodes
  import opened Courses

  datatype Grade =
    | Yujo      // 優上
    | Yu        // 優
    | Ryo       // 良
    | Ka        // 可
    | Fuka      // 不可
    | Kesseki   // 欠席
    | Gokaku    // 合格
    | Fugokaku  // 不合格
    | Mirishu   // 未履修

  /** The `type` tag of a report. */
  datatype ReportType = ScoredType | UnscoredType | UnenrolledSpecificType | UnenrolledSomewhatType

  /**
   * A transcript row. `id` stands for the identity of the row object: rows
   * are compared by identity in maps and sets, and two rows with the same
   * contents are still different rows.
   *  - `Scored`: a course with a point.
   *  - `Unscored`: a pass/fail course, without a point.
   *  - `UnenrolledSpecific`: a named course that was not taken; grade
   *    未履修 and point 0, and its course has no year or term.
   *  - `UnenrolledSomewhat`: a placeholder for some course of a quota, with
   *    grade 未履修 and point 0; `scope` is the quota whose scope it stands for.
   *  - `Injected`: the row added for a missing required course; it has a
   *    course, grade 未履修 and point 0, but no `type` tag.
   */
  datatype Report =
    | Scored(id: nat, course: Course, grade: Grade, point: int)
    | Unscored(id: nat, course: Course, grade: Grade)
    | UnenrolledSpecific(id: nat, course: Course)
    | UnenrolledSomewhat(id: nat, scope: nat)
    | Injected(id: nat, course: Course)
  {
    /** The `type` field; the injected row has none. */
    function Type(): Option<ReportType>
    {
      match this
      case Scored(_, _, _, _) => Some(ScoredType)
      case Unscored(_, _, _) => Some(UnscoredType)
      case UnenrolledSpecific(_, _) => Some(UnenrolledSpecificType)
      case UnenrolledSomewhat(_, _) => Some(UnenrolledSomewhatType)
      case Injected(_, _) => None
    }

    function GradeOf(): Grade
    {
      match this
      case Scored(_, _, g, _) => g
      case Unscored(_, _, g) => g
      case _ => Mirishu
    }

    /** `isSpecificReport`: the row has a `course` field. */
    predicate HasCourse()
    {
      !UnenrolledSomewhat?
    }

    /** `isScoredReport`: the row has a `point` field. */
    predicate HasPoint()
    {
      !Unscored?
    }

    function PointOf(): int
      requires HasPoint()
    {
      if Scored? then point else 0
    }

    /** `type` is 'unenrolled-specific' or 'unenrolled-somewhat'. */
    predicate IsUnenrolled()
    {
      UnenrolledSpecific? || UnenrolledSomewhat?
    }
  }

  /** Which variants carry a course and which a point; the untagged row carries both. */
  lemma ReportKinds(r: Report)
    ensures r.HasCourse() <==> r.Type() != Some(UnenrolledSomewhatType)
    ensures r.HasPoint() <==> r.Type() != Some(UnscoredType)
    ensures r.HasPoint() && r.Type() != Some(ScoredType) ==> r.PointOf() == 0 && r.GradeOf() == Mirishu
  {
  }

  type SpecificReport = r: Report | r.HasCourse() witness Injected(0, Course("FC111", None, None, 1))
  type ScoredReport = r: Report | r.HasPoint() witness Injected(0, Course("FC111", None, None, 1))
  type SpecificScoredReport = r: Report | r.HasCourse() && r.HasPoint()
    witness Injected(0, Course("FC111", None, None, 1))

  /**
   * `ordering`: by point, and between equal points by reverse code rank, so
   * that after sorting by descending `ordering` the lower rank comes first.
   */
  function Ordering(a: SpecificScoredReport, b: SpecificScoredReport): int
  {
    var pointOrd := a.PointOf() - b.PointOf();
    var codeOrd := CodeToInt(a.course.code) - CodeToInt(b.course.code);
    if pointOrd != 0 then pointOrd else -codeOrd
  }

  /** `ordering` is antisymmetric. */
  lemma OrderingAntisymmetric(a: SpecificScoredReport, b: SpecificScoredReport)
    ensures Ordering(a, b) == -Ordering(b, a)
  {
  }

  /**
   * The integer key of the top-grades order: higher points first, then lower
   * code ranks. Sorting by ascending key is sorting with `-ordering`.
   */
  function RankKey(r: SpecificScoredReport): int
  {
    -r.PointOf() * 1000000 + CodeToInt(r.course.code)
  }

  /** The sign of `ordering(a, b)` is the sign of `RankKey(b) - RankKey(a)`. */
  lemma RankKeyAgrees(a: SpecificScoredReport, b: SpecificScoredReport)
    ensures Ordering(a, b) > 0 <==> RankKey(a) < RankKey(b)
    ensures Ordering(a, b) == 0 <==> RankKey(a) == RankKey(b)
    ensures Ordering(a, b) < 0 <==> RankKey(a) > RankKey(b)
  {
    var ca, cb := CodeToInt(a.course.code), CodeToInt(b.course.code);
    if a.PointOf() < b.PointOf() {
      assert RankKey(a) - RankKey(b) == (b.PointOf() - a.PointOf()) * 1000000 + ca - cb;
    } else if a.PointOf() > b.PointOf() {
      assert RankKey(b) - RankKey(a) == (a.PointOf() - b.PointOf()) * 1000000 + cb - ca;
    }
  }

  /** Ranks of the scored grades, 不可 lowest. */
  function GradeRank(g: Grade): int
  {
    match g
    case Fuka => 0 case Ka => 1 case Ryo => 2 case Yu => 3 case Yujo => 4 case _ => -1
  }

  /** `pointToGrade`: 90-100 優上, 80-89 優, 65-79 良, 50-64 可, 0-49 不可, otherwise undefined. */
  function PointToGrade(point: int): (r: Option<Grade>)
    ensures r.Some? <==> 0 <= point <= 100
    ensures r.Some? ==> GradeRank(r.value) >= 0
    ensures r.Some? && r.value == Fuka <==> 0 <= point < 50
  {
    if point > 100 then None
    else if 90 <= point then Some(Yujo)
    else if 80 <= point then Some(Yu)
    else if 65 <= point then Some(Ryo)
    else if 50 <= point then Some(Ka)
    else if 0 <= point then Some(Fuka)
    else None
  }

  /** A higher point never gets a lower grade. */
  lemma PointToGradeMonotone(p: int, q: int)
    requires 0 <= p <= q <= 100
    ensures GradeRank(PointToGrade(p).value) <= GradeRank(PointToGrade(q).value)
  {
  }
}

=== FILE: seqs.dfy ===
/**
 * Sequence helpers shared by the model: order-preserving filtering, integer
 * sums, concatenation of nested sequences and a stable sort by an integer key.
 * The sort stands for `Array.prototype.toSorted` with a comparator that is
 * consistent with an integer key: the result is ordered by the key and keeps
 * the input order among elements with equal keys.
 */
module Seqs {

  /** The elements of `s` that satisfy `p`, in their original order. */
  function Filter<T>(s: seq<T>, p: T -> bool): (r: seq<T>)
    ensures |r| <= |s|
  {
    if s == [] then [] else (if p(s[0]) then [s[0]] else []) + Filter(s[1..], p)
  }

  /** Filtering keeps exactly the elements that pass the test. */
  lemma {:induction false} FilterMembers<T>(s: seq<T>, p: T -> bool)
    ensures forall i :: 0 <= i < |Filter(s, p)| ==> Filter(s, p)[i] in s && p(Filter(s, p)[i])
    ensures forall i :: 0 <= i < |s| && p(s[i]) ==> s[i] in Filter(s, p)
  {
    if s != [] {
      FilterMembers(s[1..], p);
      var r, rest := Filter(s, p), Filter(s[1..], p);
      forall i | 0 <= i < |r| ensures r[i] in s && p(r[i]) {
        if p(s[0]) {
          if i > 0 {
            assert r[i] == rest[i - 1];
          }
        } else {
          assert r[i] == rest[i];
        }
      }
      forall i | 0 <= i < |s| && p(s[i]) ensures s[i] in r {
        if i > 0 {
          assert s[i] == s[1..][i - 1];
        }
      }
    }
  }

  /** No element occurs twice. */
  predicate Distinct<T(==)>(s: seq<T>)
  {
    forall i, j :: 0 <= i < j < |s| ==> s[i] != s[j]
  }

  /** Filtering keeps a sequence free of repetitions. */
  lemma {:induction false} FilterDistinct<T>(s: seq<T>, p: T -> bool)
    requires Distinct(s)
    ensures Distinct(Filter(s, p))
  {
    if s != [] {
      FilterDistinct(s[1..], p);
      FilterMembers(s[1..], p);
      var rest := Filter(s[1..], p);
      assert s[0] !in s[1..];
      if p(s[0]) {
        var r := [s[0]] + rest;
        assert Filter(s, p) == r;
        forall i, j | 0 <= i < j < |r|
          ensures r[i] != r[j]
        {
          assert r[j] == rest[j - 1];
          if i == 0 {
            assert rest[j - 1] in s[1..];
          } else {
            assert r[i] == rest[i - 1];
          }
        }
      } else {
        assert Filter(s, p) == rest;
      }
    }
  }

  /** The test `x => !p(x)`. */
  function Negate<T>(p: T -> bool): T -> bool
  {
    x => !p(x)
  }

  /** Filters by tests that agree everywhere agree. */
  lemma {:induction false} FilterExt<T>(s: seq<T>, p: T -> bool, q: T -> bool)
    requires forall x :: p(x) == q(x)
    ensures Filter(s, p) == Filter(s, q)
  {
    if s != [] {
      FilterExt(s[1..], p, q);
    }
  }

  lemma {:induction false} FilterConcat<T>(a: seq<T>, b: seq<T>, p: T -> bool)
    ensures Filter(a + b, p) == Filter(a, p) + Filter(b, p)
  {
    if a == [] {
      assert a + b == b;
    } else {
      var h := if p(a[0]) then [a[0]] else [];
      assert (a + b)[0] == a[0];
      assert (a + b)[1..] == a[1..] + b;
      FilterConcat(a[1..], b, p);
      calc {
        Filter(a + b, p);
        h + Filter(a[1..] + b, p);
        h + (Filter(a[1..], p) + Filter(b, p));
        (h + Filter(a[1..], p)) + Filter(b, p);
      }
    }
  }

  lemma {:induction false} FilterAll<T>(s: seq<T>, p: T -> bool)
    requires forall i :: 0 <= i < |s| ==> p(s[i])
    ensures Filter(s, p) == s
  {
    if s != [] {
      FilterAll(s[1..], p);
    }
  }

  lemma {:induction false} FilterNone<T>(s: seq<T>, p: T -> bool)
    requires forall i :: 0 <= i < |s| ==> !p(s[i])
    ensures Filter(s, p) == []
  {
    if s != [] {
      FilterNone(s[1..], p);
    }
  }

  /** The elements in reverse order (`reverse()`). */
  function Reverse<T>(s: seq<T>): (r: seq<T>)
    ensures |r| == |s|
    ensures forall i :: 0 <= i < |s| ==> r[i] == s[|s| - 1 - i]
  {
    if s == [] then [] else Reverse(s[1..]) + [s[0]]
  }

  /** `f` applied to every element (`map`). */
  function Map<T, U>(s: seq<T>, f: T -> U): (r: seq<U>)
    ensures |r| == |s|
    ensures forall i :: 0 <= i < |s| ==> r[i] == f(s[i])
  {
    if s == [] then [] else [f(s[0])] + Map(s[1..], f)
  }

  lemma MapConcat<T, U>(a: seq<T>, b: seq<T>, f: T -> U)
    ensures Map(a + b, f) == Map(a, f) + Map(b, f)
  {
  }

  /** Filtering after mapping is mapping after filtering by the composed test `g`. */
  lemma {:induction false} FilterMap<T, U>(s: seq<T>, f: T -> U, p: U -> bool, g: T -> bool)
    requires forall x :: g(x) == p(f(x))
    ensures Filter(Map(s, f), p) == Map(Filter(s, g), f)
  {
    if s != [] {
      FilterMap(s[1..], f, p, g);
      assert Map(s, f)[1..] == Map(s[1..], f);
    }
  }

  /** Two filters in a row are one filter by the conjunction `pq`. */
  lemma {:induction false} FilterFilter<T>(s: seq<T>, p: T -> bool, q: T -> bool, pq: T -> bool)
    requires forall x :: pq(x) == (p(x) && q(x))
    ensures Filter(Filter(s, p), q) == Filter(s, pq)
  {
    if s != [] {
      FilterFilter(s[1..], p, q, pq);
      var fs := Filter(s, p);
      if p(s[0]) {
        assert fs == [s[0]] + Filter(s[1..], p);
        assert fs[1..] == Filter(s[1..], p);
        assert Filter(fs, q) == (if q(s[0]) then [s[0]] else []) + Filter(fs[1..], q);
      } else {
        assert fs == Filter(s[1..], p);
      }
    }
  }

  /** When exactly the first `k` elements satisfy `p`, the filter keeps those `k`. */
  lemma FilterPrefix<T>(s: seq<T>, p: T -> bool, k: nat)
    requires k <= |s|
    requires forall i :: 0 <= i < |s| ==> (p(s[i]) <==> i < k)
    ensures Filter(s, p) == s[..k]
  {
    var pre, post := s[..k], s[k..];
    assert s == pre + post;
    forall i | 0 <= i < |pre| ensures p(pre[i]) {
      assert pre[i] == s[i];
    }
    forall i | 0 <= i < |post| ensures !p(post[i]) {
      assert post[i] == s[k + i];
    }
    FilterConcat(pre, post, p);
    FilterAll(pre, p);
    FilterNone(post, p);
  }

  /** Being a prefix is transitive. */
  lemma PrefixTrans<T>(a: seq<T>, b: seq<T>, c: seq<T>)
    requires a <= b && b <= c
    ensures a <= c
  {
    assert c[..|a|] == b[..|a|];
  }

  /** Sum of a sequence of integers, folded from the left as `reduce` does. */
  function Sum(s: seq<int>): int
  {
    if s == [] then 0 else s[0] + Sum(s[1..])
  }

  lemma {:induction false} SumConcat(a: seq<int>, b: seq<int>)
    ensures Sum(a + b) == Sum(a) + Sum(b)
  {
    if a == [] {
      assert a + b == b;
    } else {
      assert (a + b)[1..] == a[1..] + b;
      SumConcat(a[1..], b);
    }
  }

  /** Concatenation of a sequence of sequences (`flat()`). */
  function Flatten<T>(ss: seq<seq<T>>): (r: seq<T>)
  {
    if ss == [] then [] else ss[0] + Flatten(ss[1..])
  }

  lemma {:induction false} FlattenConcat<T>(a: seq<seq<T>>, b: seq<seq<T>>)
    ensures Flatten(a + b) == Flatten(a) + Flatten(b)
  {
    if a == [] {
      assert a + b == b;
    } else {
      assert (a + b)[1..] == a[1..] + b;
      FlattenConcat(a[1..], b);
    }
  }

  /** An element of the concatenation is an element of one of the parts, and the other way round. */
  lemma {:induction false} FlattenMembers<T>(ss: seq<seq<T>>, x: T)
    ensures x in Flatten(ss) <==> exists k :: 0 <= k < |ss| && x in ss[k]
  {
    if ss != [] {
      FlattenMembers(ss[1..], x);
      assert forall k :: 1 <= k < |ss| ==> ss[k] == ss[1..][k - 1];
      if x in Flatten(ss[1..]) {
        var k :| 0 <= k < |ss[1..]| && x in ss[1..][k];
        assert x in ss[k + 1];
      }
    }
  }

  /** The length of a list, as a function value. */
  function Length<T>(s: seq<T>): int
  {
    |s|
  }

  /** The concatenation is as long as its parts together. */
  lemma {:induction false} FlattenLength<T>(ss: seq<seq<T>>)
    ensures |Flatten(ss)| == Sum(Map(ss, Length<T>))
  {
    if ss != [] {
      FlattenLength(ss[1..]);
      assert Map(ss, Length<T>)[1..] == Map(ss[1..], Length<T>);
    }
  }

  /** Concatenating one-element lists lists their elements. */
  lemma {:induction false} FlattenSingles<T>(ss: seq<seq<T>>)
    requires forall k :: 0 <= k < |ss| ==> |ss[k]| == 1
    ensures |Flatten(ss)| == |ss|
    ensures forall k :: 0 <= k < |ss| ==> Flatten(ss)[k] == ss[k][0]
  {
    if ss != [] {
      FlattenSingles(ss[1..]);
      assert Flatten(ss) == ss[0] + Flatten(ss[1..]);
    }
  }

  /** `n` copies of `x`. */
  function Repeat<T>(x: T, n: nat): (r: seq<T>)
    ensures |r| == n
    ensures forall i :: 0 <= i < n ==> r[i] == x
  {
    if n == 0 then [] else [x] + Repeat(x, n - 1)
  }

  /** `s` is ordered by `key`, smallest first. */
  predicate SortedBy<T>(s: seq<T>, key: T -> int)
  {
    forall i, j :: 0 <= i < j < |s| ==> key(s[i]) <= key(s[j])
  }

  /** The elements of `s` whose key is `k`, in their order in `s`. */
  function KeyRun<T>(s: seq<T>, key: T -> int, k: int): (r: seq<T>)
  {
    if s == [] then [] else (if key(s[0]) == k then [s[0]] else []) + KeyRun(s[1..], key, k)
  }

  lemma {:induction false} KeyRunConcat<T>(a: seq<T>, b: seq<T>, key: T -> int, k: int)
    ensures KeyRun(a + b, key, k) == KeyRun(a, key, k) + KeyRun(b, key, k)
  {
    if a == [] {
      assert a + b == b;
    } else {
      var h := if key(a[0]) == k then [a[0]] else [];
      assert (a + b)[0] == a[0];
      assert (a + b)[1..] == a[1..] + b;
      KeyRunConcat(a[1..], b, key, k);
      calc {
        KeyRun(a + b, key, k);
        h + KeyRun(a[1..] + b, key, k);
        h + (KeyRun(a[1..], key, k) + KeyRun(b, key, k));
        (h + KeyRun(a[1..], key, k)) + KeyRun(b, key, k);
      }
    }
  }

  /** Inserts `x` into `t` after every element whose key is not larger. */
  function Insert<T>(t: seq<T>, x: T, key: T -> int): (r: seq<T>)
    ensures |r| == |t| + 1
  {
    if t == [] then [x]
    else if key(x) < key(t[0]) then [x] + t
    else [t[0]] + Insert(t[1..], x, key)
  }

  /**
   * Stable insertion sort by `key`, smallest key first: the model of
   * `toSorted(cmp)` for a comparator `cmp(a, b)` whose sign is that of
   * `key(a) - key(b)`.
   */
  function SortBy<T>(s: seq<T>, key: T -> int): (r: seq<T>)
    ensures |r| == |s|
  {
    if s == [] then []
    else Insert(SortBy(s[..|s| - 1], key), s[|s| - 1], key)
  }

  lemma {:induction false} InsertPermutes<T>(t: seq<T>, x: T, key: T -> int)
    ensures multiset(Insert(t, x, key)) == multiset(t) + multiset{x}
  {
    if t != [] && key(x) >= key(t[0]) {
      InsertPermutes(t[1..], x, key);
      assert t == [t[0]] + t[1..];
    }
  }

  /** The sort is a permutation of its input. */
  lemma {:induction false} SortByPermutes<T>(s: seq<T>, key: T -> int)
    ensures multiset(SortBy(s, key)) == multiset(s)
  {
    if s != [] {
      SortByPermutes(s[..|s| - 1], key);
      InsertPermutes(SortBy(s[..|s| - 1], key), s[|s| - 1], key);
      assert s == s[..|s| - 1] + [s[|s| - 1]];
    }
  }

  /** A property every input element has, every sorted element has. */
  lemma SortByKeeps<T>(s: seq<T>, key: T -> int, p: T -> bool)
    requires forall i :: 0 <= i < |s| ==> p(s[i])
    ensures forall i :: 0 <= i < |SortBy(s, key)| ==> p(SortBy(s, key)[i])
  {
    var r := SortBy(s, key);
    SortByPermutes(s, key);
    forall i | 0 <= i < |r|
      ensures p(r[i])
    {
      assert r[i] in multiset(r);
      assert r[i] in s;
    }
  }

  lemma {:induction false} InsertLowerBound<T>(t: seq<T>, x: T, key: T -> int, b: int)
    requires forall i :: 0 <= i < |t| ==> b <= key(t[i])
    requires b <= key(x)
    ensures forall i :: 0 <= i < |t| + 1 ==> b <= key(Insert(t, x, key)[i])
  {
    if t != [] && key(x) >= key(t[0]) {
      InsertLowerBound(t[1..], x, key, b);
    }
  }

  lemma {:induction false} InsertSorted<T>(t: seq<T>, x: T, key: T -> int)
    requires SortedBy(t, key)
    ensures SortedBy(Insert(t, x, key), key)
  {
    if t != [] && key(x) >= key(t[0]) {
      var rest := Insert(t[1..], x, key);
      InsertSorted(t[1..], x, key);
      InsertLowerBound(t[1..], x, key, key(t[0]));
      var r := [t[0]] + rest;
      assert forall j :: 1 <= j < |r| ==> r[j] == rest[j - 1];
    }
  }

  lemma {:induction false} InsertKeyRun<T>(t: seq<T>, x: T, key: T -> int, k: int)
    requires SortedBy(t, key)
    ensures KeyRun(Insert(t, x, key), key, k)
         == KeyRun(t, key, k) + (if key(x) == k then [x] else [])
  {
    if t == [] {
    } else if key(x) < key(t[0]) {
      // every element of t has a key above key(x), so none shares it
      if key(x) == k {
        KeyRunAbove(t, key, k);
      }
      assert ([x] + t)[1..] == t;
    } else {
      InsertKeyRun(t[1..], x, key, k);
      assert ([t[0]] + Insert(t[1..], x, key))[1..] == Insert(t[1..], x, key);
      assert KeyRun(t, key, k) == (if key(t[0]) == k then [t[0]] else []) + KeyRun(t[1..], key, k);
    }
  }

  lemma {:induction false} KeyRunAbove<T>(t: seq<T>, key: T -> int, k: int)
    requires SortedBy(t, key)
    requires t != [] && k < key(t[0])
    ensures KeyRun(t, key, k) == []
  {
    if |t| > 1 {
      KeyRunAbove(t[1..], key, k);
    }
  }

  /** The sort orders by key. */
  lemma {:induction false} SortBySorted<T>(s: seq<T>, key: T -> int)
    ensures SortedBy(SortBy(s, key), key)
  {
    if s != [] {
      SortBySorted(s[..|s| - 1], key);
      InsertSorted(SortBy(s[..|s| - 1], key), s[|s| - 1], key);
    }
  }

  /** The sort is stable: elements with equal keys keep their input order. */
  lemma {:induction false} SortByStable<T>(s: seq<T>, key: T -> int, k: int)
    ensures KeyRun(SortBy(s, key), key, k) == KeyRun(s, key, k)
  {
    if s != [] {
      var init, last := s[..|s| - 1], s[|s| - 1];
      SortByStable(init, key, k);
      SortBySorted(init, key);
      InsertKeyRun(SortBy(init, key), last, key, k);
      assert s == init + [last];
      KeyRunConcat(init, [last], key, k);
    }
  }

  /** The integers `lo, lo + 1, ..., hi - 1`. */
  function Range(lo: nat, hi: nat): (r: seq<nat>)
    ensures |r| == if lo <= hi then hi - lo else 0
    ensures forall i :: 0 <= i < |r| ==> r[i] == lo + i
    decreases hi - lo
  {
    if lo >= hi then [] else [lo] + Range(lo + 1, hi)
  }

  lemma RangeConcat(lo: nat, mid: nat, hi: nat)
    requires lo <= mid <= hi
    ensures Range(lo, mid) + Range(mid, hi) == Range(lo, hi)
  {
  }

  /** Listing `[lo, mid)` after `a` and then `[mid, hi)` lists `[lo, hi)` after `a`. */
  lemma RangeAppend(a: seq<nat>, lo: nat, mid: nat, hi: nat)
    requires lo <= mid <= hi
    ensures a + Range(lo, mid) + Range(mid, hi) == a + Range(lo, hi)
  {
    RangeConcat(lo, mid, hi);
    assert a + Range(lo, mid) + Range(mid, hi) == a + (Range(lo, mid) + Range(mid, hi));
  }
  /** How often `x` occurs in `s`. */
  function Count<T(==)>(s: seq<T>, x: T): nat
  {
    if s == [] then 0 else (if s[0] == x then 1 else 0) + Count(s[1..], x)
  }

  lemma {:induction false} CountConcat<T>(a: seq<T>, b: seq<T>, x: T)
    ensures Count(a + b, x) == Count(a, x) + Count(b, x)
  {
    if a == [] {
      assert a + b == b;
    } else {
      assert (a + b)[1..] == a[1..] + b;
      CountConcat(a[1..], b, x);
    }
  }

  lemma CountPrefixStep<T>(s: seq<T>, m: nat, x: T)
    requires 0 < m <= |s|
    ensures Count(s[..m], x) == Count(s[..m - 1], x) + Count([s[m - 1]], x)
  {
    assert s[..m] == s[..m - 1] + [s[m - 1]];
    CountConcat(s[..m - 1], [s[m - 1]], x);
  }

  /** `Count` is the multiplicity in the multiset of the sequence. */
  lemma {:induction false} CountMultiset<T>(s: seq<T>, x: T)
    ensures Count(s, x) == multiset(s)[x]
  {
    if s != [] {
      CountMultiset(s[1..], x);
      assert s == [s[0]] + s[1..];
    }
  }

  /** A sequence without repetitions holds each value at most once. */
  lemma {:induction false} DistinctCount<T>(s: seq<T>, x: T)
    requires Distinct(s)
    ensures Count(s, x) <= 1
  {
    if s != [] {
      DistinctCount(s[1..], x);
      if s[0] == x {
        CountAbsent(s[1..], x);
      }
    }
  }

  lemma {:induction false} CountAbsent<T>(s: seq<T>, x: T)
    requires x !in s
    ensures Count(s, x) == 0
  {
    if s != [] {
      CountAbsent(s[1..], x);
    }
  }

  /** A value at two positions is counted at least twice. */
  lemma {:induction false} CountTwice<T>(s: seq<T>, i: nat, j: nat)
    requires i < j < |s| && s[i] == s[j]
    ensures Count(s, s[i]) >= 2
  {
    CountConcat(s[..j], s[j..], s[i]);
    CountPresent(s[..j], i);
    CountPresent(s[j..], 0);
    assert s[..j] + s[j..] == s;
  }

  lemma {:induction false} CountPresent<T>(s: seq<T>, i: nat)
    requires i < |s|
    ensures Count(s, s[i]) >= 1
  {
    if i > 0 {
      CountPresent(s[1..], i - 1);
    }
  }

  /** A permutation of a sequence without repetitions has none either. */
  lemma DistinctPermutation<T>(a: seq<T>, b: seq<T>)
    requires multiset(a) == multiset(b) && Distinct(a)
    ensures Distinct(b)
  {
    forall i, j | 0 <= i < j < |b|
      ensures b[i] != b[j]
    {
      if b[i] == b[j] {
        CountTwice(b, i, j);
        CountMultiset(b, b[i]);
        CountMultiset(a, b[i]);
        DistinctCount(a, b[i]);
      }
    }
  }

  lemma {:induction false} CountRepeat<T>(x: T, n: nat, y: T)
    ensures Count(Repeat(x, n), y) == if x == y then n else 0
  {
    if n > 0 {
      CountRepeat(x, n - 1, y);
      assert Repeat(x, n)[1..] == Repeat(x, n - 1);
    }
  }

  lemma {:induction false} FilterLenInsert<T>(t: seq<T>, x: T, key: T -> int, p: T -> bool)
    ensures |Filter(Insert(t, x, key), p)| == |Filter(t, p)| + (if p(x) then 1 else 0)
  {
    if t != [] && key(x) >= key(t[0]) {
      FilterLenInsert(t[1..], x, key, p);
      assert ([t[0]] + Insert(t[1..], x, key))[1..] == Insert(t[1..], x, key);
    } else if t != [] {
      assert ([x] + t)[1..] == t;
    }
  }

  /** Sorting keeps how many elements pass any test. */
  lemma {:induction false} FilterLenSortBy<T>(s: seq<T>, key: T -> int, p: T -> bool)
    ensures |Filter(SortBy(s, key), p)| == |Filter(s, p)|
  {
    if s != [] {
      var init := s[..|s| - 1];
      FilterLenSortBy(init, key, p);
      FilterLenInsert(SortBy(init, key), s[|s| - 1], key, p);
      assert s == init + [s[|s| - 1]];
      FilterConcat(init, [s[|s| - 1]], p);
    }
  }
}

=== FILE: specific_weights.dfy ===
/**
 * Specified weights (src/department/specific-weights.ts). Some departments
 * fix the weight of certain courses: a rule names a scope of course codes,
 * an optional maximum number `n` of units, a weight, and whether only
 * earned credits count. `apply` runs the rules in order over the weighted
 * units; each rule gives its weight, with an explanation, to at most `n`
 * of the units in its scope, the best ones first.
 *
 * The source changes the unit objects in place. Here the units are values
 * in a sequence, and a unit is identified by its position in it.
 */
module SpecificWeights {
  import opened Wrappers
  import opened Seqs
  import opened CourseCodes
  import opened Courses
  import opened Reports
  import opened Weights
  import CourseRequirements

  /** `WeightRule`: `n` absent means no limit. */
  datatype WeightRule = WeightRule(scope: Scope, n: Option<nat>, weight: Weight, shutokuOnly: bool)

  /** The weight as JavaScript prints the number. */
  function WeightText(w: Weight): string
  {
    match w
    case W0 => "0" case W01 => "0.1" case W1 => "1" case W15 => "1.5" case W2 => "2" case W5 => "5"
  }

  /** The explanation `'指定重率' + weight`, page 99 to 101. */
  function SpecifiedReason(w: Weight): Expl
  {
    Expl("指定重率" + WeightText(w), ["p.99~101"])
  }

  /** 不可, 欠席 or 未履修: no credit was earned. */
  predicate NotEarned(g: Grade)
  {
    g == Fuka || g == Kesseki || g == Mirishu
  }

  /**
   * The three filters of a rule: the unit has a course, the course code is
   * in the scope, and, when only earned credits count, the grade earned one.
   */
  predicate IsTarget(r: ScoredReport, rule: WeightRule)
  {
    r.HasCourse() && rule.scope.Match(r.course.code) && (rule.shutokuOnly ==> !NotEarned(r.GradeOf()))
  }

  /** The report of every unit; a rule looks at nothing else. */
  function ReportsOf(us: seq<WeightedUnit>): (reps: seq<ScoredReport>)
    ensures |reps| == |us|
    ensures forall i :: 0 <= i < |us| ==> reps[i] == us[i].report
  {
    seq(|us|, i requires 0 <= i < |us| => us[i].report)
  }

  function IsTargetAt(reps: seq<ScoredReport>, rule: WeightRule): nat -> bool
  {
    (k: nat) => k < |reps| && IsTarget(reps[k], rule)
  }

  /** The sort key of `(a, b) => -ordering(a.report, b.report)` on positions. */
  function RankAt(reps: seq<ScoredReport>): nat -> int
  {
    (k: nat) => if k < |reps| && reps[k].HasCourse() then RankKey(reps[k]) else 0
  }

  /** The positions of the rule's targets, best first (`targets`). */
  function Targets(reps: seq<ScoredReport>, rule: WeightRule): (ts: seq<nat>)
    ensures forall k :: 0 <= k < |ts| ==> ts[k] < |reps| && IsTarget(reps[ts[k]], rule)
  {
    FilterMembers(Range(0, |reps|), IsTargetAt(reps, rule));
    SortByKeeps(Filter(Range(0, |reps|), IsTargetAt(reps, rule)), RankAt(reps), IsTargetAt(reps, rule));
    SortBy(Filter(Range(0, |reps|), IsTargetAt(reps, rule)), RankAt(reps))
  }

  /** How many targets the loop changes before `count >= n` stops it. */
  function Limit(rule: WeightRule, len: nat): (m: nat)
    ensures m <= len
    ensures m == len <==> rule.n.None? || len <= rule.n.value
    ensures m < len ==> m == rule.n.value
  {
    if rule.n.Some? && rule.n.value < len then rule.n.value else len
  }

  /** The positions the rule changes: the first `Limit` targets. */
  function Selected(reps: seq<ScoredReport>, rule: WeightRule): seq<nat>
  {
    Targets(reps, rule)[..Limit(rule, |Targets(reps, rule)|)]
  }

  /** `w.weight = weight; w.expls.push(...)`. */
  function Override(u: WeightedUnit, w: Weight): WeightedUnit
  {
    u.(weight := w, expls := u.expls + [SpecifiedReason(w)])
  }

  /** The units with those at the positions `sel` overridden with `w`. */
  function Overridden(us: seq<WeightedUnit>, sel: seq<nat>, w: Weight): (vs: seq<WeightedUnit>)
    ensures |vs| == |us|
  {
    seq(|us|, i requires 0 <= i < |us| => if i in sel then Override(us[i], w) else us[i])
  }

  /** The units after one rule. */
  function ApplyRule(us: seq<WeightedUnit>, rule: WeightRule): (vs: seq<WeightedUnit>)
    ensures |vs| == |us|
  {
    Overridden(us, Selected(ReportsOf(us), rule), rule.weight)
  }

  /** The units after the rules, in list order. */
  function ApplyRules(us: seq<WeightedUnit>, rules: seq<WeightRule>): (vs: seq<WeightedUnit>)
    ensures |vs| == |us|
  {
    if rules == [] then us else ApplyRule(ApplyRules(us, rules[..|rules| - 1]), rules[|rules| - 1])
  }

  /** `apply(weighted, rules)`. */
  method Apply(weighted: seq<WeightedUnit>, rules: seq<WeightRule>) returns (wu: seq<WeightedUnit>)
    ensures wu == ApplyRules(weighted, rules)
  {
    wu := weighted;
    for r := 0 to |rules|
      invariant wu == ApplyRules(weighted, rules[..r])
    {
      assert rules[..r + 1][..r] == rules[..r];
      wu := ApplyOne(wu, rules[r]);
    }
    assert rules[..|rules|] == rules;
  }

  /** One iteration of the outer loop of `apply`: the targets, then the counting loop. */
  method ApplyOne(weighted: seq<WeightedUnit>, rule: WeightRule) returns (wu: seq<WeightedUnit>)
    ensures wu == ApplyRule(weighted, rule)
  {
    var targets := Targets(ReportsOf(weighted), rule);
    TargetsDistinct(ReportsOf(weighted), rule);
    wu := ChangeTargets(weighted, targets, rule);
  }

  /** `for (const w of targets) { if (n != null && count >= n) break; ... }` */
  method ChangeTargets(weighted: seq<WeightedUnit>, targets: seq<nat>, rule: WeightRule) returns (wu: seq<WeightedUnit>)
    requires Distinct(targets)
    requires forall k :: 0 <= k < |targets| ==> targets[k] < |weighted|
    ensures wu == Overridden(weighted, targets[..Limit(rule, |targets|)], rule.weight)
  {
    wu := weighted;
    var count := 0;
    assert targets[..0] == [];
    while count < |targets|
      invariant count <= Limit(rule, |targets|)
      invariant wu == Overridden(weighted, targets[..count], rule.weight)
    {
      if rule.n.Some? && count >= rule.n.value {
        break;
      }
      OverriddenStep(weighted, targets, count, rule.weight);
      wu := wu[targets[count] := Override(wu[targets[count]], rule.weight)];
      count := count + 1;
    }
  }

  /** Overriding one more target changes that unit, which was not overridden yet, and nothing else. */
  lemma OverriddenStep(us: seq<WeightedUnit>, ts: seq<nat>, k: nat, w: Weight)
    requires Distinct(ts) && k < |ts| && ts[k] < |us|
    ensures Overridden(us, ts[..k], w)[ts[k]] == us[ts[k]]
    ensures Overridden(us, ts[..k + 1], w)
         == Overridden(us, ts[..k], w)[ts[k] := Override(us[ts[k]], w)]
  {
    assert ts[k] !in ts[..k];
    assert ts[..k + 1] == ts[..k] + [ts[k]];
  }

  // ---------------------------------------------------------------------
  // The targets
  // ---------------------------------------------------------------------

  /** Every target position is listed once. */
  lemma TargetsDistinct(reps: seq<ScoredReport>, rule: WeightRule)
    ensures Distinct(Targets(reps, rule))
  {
    var ps := Filter(Range(0, |reps|), IsTargetAt(reps, rule));
    FilterDistinct(Range(0, |reps|), IsTargetAt(reps, rule));
    SortByPermutes(ps, RankAt(reps));
    DistinctPermutation(ps, Targets(reps, rule));
  }

  /** Every unit the three filters keep is a target. */
  lemma TargetsCover(reps: seq<ScoredReport>, rule: WeightRule)
    ensures forall k :: 0 <= k < |reps| && IsTarget(reps[k], rule) ==> k in Targets(reps, rule)
  {
    var ps := Filter(Range(0, |reps|), IsTargetAt(reps, rule));
    SortByPermutes(ps, RankAt(reps));
    FilterMembers(Range(0, |reps|), IsTargetAt(reps, rule));
    forall k | 0 <= k < |reps| && IsTarget(reps[k], rule)
      ensures k in Targets(reps, rule)
    {
      assert Range(0, |reps|)[k] == k && IsTargetAt(reps, rule)(k);
      assert k in ps;
      assert k in multiset(Targets(reps, rule));
    }
  }

  /**
   * The targets go best first: a higher point before a lower one, and
   * between equal points the lower code rank first (`-ordering`).
   */
  lemma TargetsRanked(reps: seq<ScoredReport>, rule: WeightRule)
    ensures forall a, b :: 0 <= a < b < |Targets(reps, rule)| ==>
      Ordering(reps[Targets(reps, rule)[a]], reps[Targets(reps, rule)[b]]) >= 0
  {
    var ts := Targets(reps, rule);
    SortBySorted(Filter(Range(0, |reps|), IsTargetAt(reps, rule)), RankAt(reps));
    forall a, b | 0 <= a < b < |ts|
      ensures Ordering(reps[ts[a]], reps[ts[b]]) >= 0
    {
      assert RankAt(reps)(ts[a]) <= RankAt(reps)(ts[b]);
      RankKeyAgrees(reps[ts[a]], reps[ts[b]]);
    }
  }

  // ---------------------------------------------------------------------
  // The properties of one rule
  // ---------------------------------------------------------------------

  /**
   * A rule keeps every report, and changes exactly its selected units: each
   * gets the rule's weight and one more explanation.
   */
  lemma ApplyRuleUnits(us: seq<WeightedUnit>, rule: WeightRule)
    ensures ReportsOf(ApplyRule(us, rule)) == ReportsOf(us)
    ensures forall i :: 0 <= i < |us| && i in Selected(ReportsOf(us), rule) ==>
      ApplyRule(us, rule)[i].weight == rule.weight &&
      ApplyRule(us, rule)[i].expls == us[i].expls + [SpecifiedReason(rule.weight)]
    ensures forall i :: 0 <= i < |us| && i !in Selected(ReportsOf(us), rule) ==> ApplyRule(us, rule)[i] == us[i]
  {
  }

  /** The units a rule changes are exactly those it selects. */
  lemma ApplyRuleChanges(us: seq<WeightedUnit>, rule: WeightRule)
    ensures forall i :: 0 <= i < |us| ==> (ApplyRule(us, rule)[i] != us[i] <==> i in Selected(ReportsOf(us), rule))
  {
    ApplyRuleUnits(us, rule);
    forall i | 0 <= i < |us| && i in Selected(ReportsOf(us), rule)
      ensures ApplyRule(us, rule)[i] != us[i]
    {
      assert |ApplyRule(us, rule)[i].expls| == |us[i].expls| + 1;
    }
  }

  /**
   * A rule selects only targets, each once, and `n` of them, or all when
   * there are no more than `n` or no `n`.
   */
  lemma SelectedTargets(reps: seq<ScoredReport>, rule: WeightRule)
    ensures Distinct(Selected(reps, rule))
    ensures forall k :: k in Selected(reps, rule) ==> k < |reps| && IsTarget(reps[k], rule)
    ensures |Selected(reps, rule)| == Limit(rule, |Targets(reps, rule)|)
    ensures rule.n.None? ==> forall k :: 0 <= k < |reps| && IsTarget(reps[k], rule) ==> k in Selected(reps, rule)
  {
    var ts := Targets(reps, rule);
    TargetsDistinct(reps, rule);
    TargetsCover(reps, rule);
    assert Selected(reps, rule) == ts[..Limit(rule, |ts|)];
    if rule.n.None? {
      assert ts[..|ts|] == ts;
    }
  }

  /** A selected target is never ranked below a target left unselected. */
  lemma SelectedBest(reps: seq<ScoredReport>, rule: WeightRule)
    ensures forall a, b ::
      (a in Selected(reps, rule) && 0 <= b < |reps| && IsTarget(reps[b], rule) && b !in Selected(reps, rule)) ==>
      Ordering(reps[a], reps[b]) >= 0
  {
    var ts := Targets(reps, rule);
    var m := Limit(rule, |ts|);
    TargetsCover(reps, rule);
    TargetsRanked(reps, rule);
    forall a, b | a in Selected(reps, rule) && 0 <= b < |reps| && IsTarget(reps[b], rule) && b !in Selected(reps, rule)
      ensures Ordering(reps[a], reps[b]) >= 0
    {
      var x :| 0 <= x < m && ts[x] == a;
      var y :| 0 <= y < |ts| && ts[y] == b;
    }
  }

  // ---------------------------------------------------------------------
  // Several rules
  // ---------------------------------------------------------------------

  /** The rules keep the units' reports, so every rule sees the same targets. */
  lemma {:induction false} ApplyRulesReports(us: seq<WeightedUnit>, rules: seq<WeightRule>)
    ensures ReportsOf(ApplyRules(us, rules)) == ReportsOf(us)
  {
    if rules != [] {
      ApplyRulesReports(us, rules[..|rules| - 1]);
      ApplyRuleUnits(ApplyRules(us, rules[..|rules| - 1]), rules[|rules| - 1]);
    }
  }

  /** A unit no rule selects is unchanged. */
  lemma {:induction false} ApplyRulesUntouched(us: seq<WeightedUnit>, rules: seq<WeightRule>, i: nat)
    requires i < |us|
    requires forall r :: 0 <= r < |rules| ==> i !in Selected(ReportsOf(us), rules[r])
    ensures |ApplyRules(us, rules)| == |us|
    ensures ApplyRules(us, rules)[i] == us[i]
  {
    if rules != [] {
      var init := rules[..|rules| - 1];
      ApplyRulesUntouched(us, init, i);
      ApplyRulesReports(us, init);
      ApplyRuleUnits(ApplyRules(us, init), rules[|rules| - 1]);
    }
  }

  /** A unit has the weight of the last rule that selects it: a later rule overwrites an earlier one. */
  lemma {:induction false} ApplyRulesLast(us: seq<WeightedUnit>, rules: seq<WeightRule>, i: nat, r: nat)
    requires i < |us| && r < |rules|
    requires i in Selected(ReportsOf(us), rules[r])
    requires forall r' :: r < r' < |rules| ==> i !in Selected(ReportsOf(us), rules[r'])
    ensures |ApplyRules(us, rules)| == |us|
    ensures ApplyRules(us, rules)[i].weight == rules[r].weight
  {
    var init := rules[..|rules| - 1];
    ApplyRulesReports(us, init);
    ApplyRuleUnits(ApplyRules(us, init), rules[|rules| - 1]);
    if r < |rules| - 1 {
      ApplyRulesLast(us, init, i, r);
    }
  }

  // ---------------------------------------------------------------------
  // requiredCourseAllOne
  // ---------------------------------------------------------------------

  function CodeOf(c: CourseRequirements.RequiredCourse): CourseCode
  {
    c.code
  }

  /** `requiredCourseAllOne(req)`: one rule, over every collected code, without limit, of weight 1. */
  function RequiredCourseAllOne(req: CourseRequirements.Rule<CourseRequirements.RequiredCourse>): seq<WeightRule>
  {
    [WeightRule(Scope(Map(CourseRequirements.Collect(req), CodeOf), []), None, W1, false)]
  }

  /**
   * Whatever way the requirement is met, every unit of a course it takes
   * gets weight 1.
   */
  lemma RequiredCourseAllOneWeighs(req: CourseRequirements.Rule<CourseRequirements.RequiredCourse>,
                                   us: seq<WeightedUnit>, p: seq<CourseRequirements.RequiredCourse>, c: CourseRequirements.RequiredCourse, i: nat)
    requires p in CourseRequirements.Satisfy(req) && c in p
    requires i < |us| && us[i].report.HasCourse() && us[i].report.course.code == c.code
    ensures |ApplyRules(us, RequiredCourseAllOne(req))| == |us|
    ensures ApplyRules(us, RequiredCourseAllOne(req))[i].weight == W1
  {
    var rules := RequiredCourseAllOne(req);
    var rule := rules[0];
    CourseRequirements.CollectCovers(req);
    var xs := CourseRequirements.Collect(req);
    var k :| 0 <= k < |xs| && xs[k] == c;
    assert rule.scope.included[k] == c.code;
    assert rule.scope.Match(c.code);
    assert IsTarget(ReportsOf(us)[i], rule);
    SelectedTargets(ReportsOf(us), rule);
    ApplyRulesLast(us, rules, i, 0);
  }
}

=== FILE: tickets.dfy ===
/**
 * `makeTicket` of src/index.ts: the department's settings, the transcript
 * and the quota tree of its requirements become the tickets `calculate`
 * turns into averages. One ticket is built per course-requirement pattern:
 * the missing required courses are added as 未履修 rows, the scored rows
 * are weighed by the department's kind of average, the specified weight
 * rules are applied, the units are bundled and the excluded grades are
 * dropped. The bonus entries and the credit factor are shared by all
 * tickets. Of the tickets, the one with the highest average is returned
 * (see `SelectAsWritten` for the loop as the source writes it).
 */
module Tickets {
  import opened Wrappers
  import opened Seqs
  import opened Reports
  import opened Rationals
  import opened Weights
  import opened AdditionalPoints
  import opened Aggregation
  import QuotaTrees
  import CourseRequirements
  import SpecificWeights
  import BasicWeights
  import EngWeights
  import ChoikiWeights

  /**
   * What `getDepartmentInfo` yields for a department, phase and 類: the
   * kind of average, the course-requirement patterns, the specified weight
   * rules, the bonus rules and whether the average is multiplied by the
   * acquired credits.
   */
  datatype DepartmentInfo = DepartmentInfo(
    avgType: AverageType,
    courseRequirementPatterns: seq<seq<CourseRequirements.RequiredCourse>>,
    specifiedWeightRules: seq<SpecificWeights.WeightRule>,
    additionalPointRules: seq<AdditionalPointRule>,
    doesMultiplyByAcquired: bool)

  // ---------------------------------------------------------------------
  // What every ticket shares
  // ---------------------------------------------------------------------

  /** The patterns the loop visits: a department without any gets the one empty pattern. */
  function Patterns(info: DepartmentInfo): (ps: seq<seq<CourseRequirements.RequiredCourse>>)
    ensures |ps| >= 1
    ensures info.courseRequirementPatterns != [] ==> ps == info.courseRequirementPatterns
    ensures info.courseRequirementPatterns == [] ==> ps == [[]]
  {
    if info.courseRequirementPatterns == [] then [[]] else info.courseRequirementPatterns
  }

  /** `additionalPointRules.flatMap(rule => calc(reports, rule))`. */
  function Bonuses(reports: seq<SpecificReport>, rules: seq<AdditionalPointRule>): seq<AdditionalPoint>
  {
    Flatten(Map(rules, (rule: AdditionalPointRule) => Calc(reports, rule)))
  }

  /** Each bonus entry comes from one of the rules, and every rule's entries are listed. */
  lemma BonusesFromRules(reports: seq<SpecificReport>, rules: seq<AdditionalPointRule>, x: AdditionalPoint)
    ensures x in Bonuses(reports, rules) <==> exists k :: 0 <= k < |rules| && x in Calc(reports, rules[k])
  {
    var parts := Map(rules, (rule: AdditionalPointRule) => Calc(reports, rule));
    FlattenMembers(parts, x);
  }

  /** The number of entries of a rule: its earned courses in scope. */
  function CountedBy(reports: seq<SpecificReport>): AdditionalPointRule -> int
  {
    (rule: AdditionalPointRule) => |Filter(reports, CountsFor(rule))|
  }

  /** There is one entry per rule and earned course in the rule's scope. */
  lemma BonusesCount(reports: seq<SpecificReport>, rules: seq<AdditionalPointRule>)
    ensures |Bonuses(reports, rules)| == Sum(Map(rules, CountedBy(reports)))
  {
    var parts := Map(rules, (rule: AdditionalPointRule) => Calc(reports, rule));
    FlattenLength(parts);
    assert Map(parts, Length<AdditionalPoint>) == Map(rules, CountedBy(reports));
  }

  /** A row whose credits were acquired: its grade is none of 不可, 欠席, 未履修. */
  predicate Acquired(r: SpecificReport)
  {
    !SpecificWeights.NotEarned(r.GradeOf())
  }

  function CreditOf(r: SpecificReport): int
  {
    r.course.credit
  }

  /** `acquiredUnitSum`: the credits of the acquired rows. */
  function AcquiredUnitSum(reports: seq<SpecificReport>): int
  {
    Sum(Map(Filter(reports, Acquired), CreditOf))
  }

  /** The acquired credits of two transcripts add up. */
  lemma AcquiredConcat(a: seq<SpecificReport>, b: seq<SpecificReport>)
    ensures AcquiredUnitSum(a + b) == AcquiredUnitSum(a) + AcquiredUnitSum(b)
  {
    FilterConcat(a, b, Acquired);
    MapConcat(Filter(a, Acquired), Filter(b, Acquired), CreditOf);
    SumConcat(Map(Filter(a, Acquired), CreditOf), Map(Filter(b, Acquired), CreditOf));
  }

  /** The 未履修 rows added for missing required courses leave the acquired credits unchanged. */
  lemma AcquiredIgnoresApply(required: seq<CourseRequirements.RequiredCourse>, reports: seq<SpecificReport>, firstId: nat)
    ensures AcquiredUnitSum(CourseRequirements.Apply(required, reports, firstId)) == AcquiredUnitSum(reports)
  {
    var all := CourseRequirements.Apply(required, reports, firstId);
    CourseRequirements.ApplyRows(required, reports, firstId);
    var added := all[|reports|..];
    assert all == reports + added;
    forall i | 0 <= i < |added|
      ensures !Acquired(added[i])
    {
      CourseRequirements.ApplyAdded(required, reports, firstId, |reports| + i);
    }
    FilterNone(added, Acquired);
    AcquiredConcat(reports, added);
    assert Map(Filter(added, Acquired), CreditOf) == [];
  }

  /** `factor`: the acquired credits as a rational when the department multiplies by them. */
  function Factor(info: DepartmentInfo, reports: seq<SpecificReport>): (f: Option<Rational>)
    ensures f.Some? <==> info.doesMultiplyByAcquired
    ensures f.Some? ==> f.value.Valid() && f.value.den == 1
  {
    if info.doesMultiplyByAcquired then Some(FromInt(AcquiredUnitSum(reports))) else None
  }

  // ---------------------------------------------------------------------
  // One ticket per pattern
  // ---------------------------------------------------------------------

  /** An id above every row's: the rows `apply` creates are new objects. */
  function FreshId(reports: seq<SpecificReport>): (id: nat)
    ensures forall k :: 0 <= k < |reports| ==> reports[k].id < id
  {
    if reports == [] then 0
    else
      var m := FreshId(reports[..|reports| - 1]);
      if reports[|reports| - 1].id >= m then reports[|reports| - 1].id + 1 else m
  }

  /** `reps.filter(isScoredReport)`: the rows with a point, in order. */
  function ScoredOnly(reps: seq<SpecificReport>): (rs: seq<SpecificScoredReport>)
    ensures |rs| <= |reps|
    ensures forall x :: x in rs <==> x in reps && x.HasPoint()
  {
    if reps == [] then []
    else
      var last := reps[|reps| - 1];
      ScoredOnly(reps[..|reps| - 1]) + (if last.HasPoint() then [last] else [])
  }

  /** The scored rows of the transcript once a pattern's missing courses are added. */
  function ScoredFor(reports: seq<SpecificReport>, pattern: seq<CourseRequirements.RequiredCourse>): seq<SpecificScoredReport>
  {
    ScoredOnly(CourseRequirements.Apply(pattern, reports, FreshId(reports)))
  }

  /**
   * What the department's `dmap` entry may return for the scored rows:
   * `distributeChoiki`'s units exactly; `distributeBasic`'s units with
   * every promise it makes (`BasicUnits`: the counts per report, weight 1
   * before 0.1 before 0, a course on every unit not of weight 1); and for
   * `distributeEng`, the engineering promotion of such a list, with the
   * counts per report kept.
   */
  ghost predicate Distributed(avgType: AverageType, tree: QuotaTrees.QuotaTree, scored: seq<SpecificScoredReport>,
                              units: seq<WeightedUnit>)
    requires QuotaTrees.Valid(tree)
  {
    match avgType
    case Choiki => units == ChoikiWeights.ChoikiUnits(scored)
    case Basic => EngWeights.BasicUnits(tree, scored, units)
    case Eng =>
      && (exists base :: EngWeights.BasicUnits(tree, scored, base) && units == EngWeights.EngPromoted(base))
      && (forall r: SpecificScoredReport :: |Filter(units, Of(r))| <= BasicWeights.AllocatedCredit(tree, scored, r))
      && (forall r: SpecificScoredReport :: BasicWeights.Kept(r) ==>
            |Filter(units, Of(r))| == BasicWeights.AllocatedCredit(tree, scored, r))
  }

  /** `w => !exclude.includes(w.report.grade)`. */
  function NotExcluded(exclude: seq<Grade>): Weighted -> bool
  {
    (w: Weighted) => w.report.GradeOf() !in exclude
  }

  /**
   * The ticket of one pattern, from the units the distribution produced:
   * the specified weights applied, the units bundled, the excluded grades
   * dropped. With no excluded grade the source keeps every bundle, which
   * is what the filter does then (`NoExclusion`).
   */
  function TicketOf(info: DepartmentInfo, units: seq<WeightedUnit>, additionalPoint: seq<AdditionalPoint>,
                    factor: Option<Rational>, exclude: seq<Grade>): (t: CalculationTicket)
  {
    CalculationTicket(info.avgType,
      Filter(BundleOf(SpecificWeights.ApplyRules(units, info.specifiedWeightRules)), NotExcluded(exclude)),
      additionalPoint, factor)
  }

  /**
   * A ticket keeps exactly the bundles whose grade is not excluded, each
   * with its weights, and every bundle of the units of a row is there when
   * nothing is excluded.
   */
  lemma TicketWeights(info: DepartmentInfo, units: seq<WeightedUnit>, additionalPoint: seq<AdditionalPoint>,
                      factor: Option<Rational>, exclude: seq<Grade>)
    ensures forall w :: w in TicketOf(info, units, additionalPoint, factor, exclude).weights <==>
      (w in BundleOf(SpecificWeights.ApplyRules(units, info.specifiedWeightRules)) && w.report.GradeOf() !in exclude)
    ensures exclude == [] ==>
      TicketOf(info, units, additionalPoint, factor, exclude).weights ==
      BundleOf(SpecificWeights.ApplyRules(units, info.specifiedWeightRules))
  {
    var bundled := BundleOf(SpecificWeights.ApplyRules(units, info.specifiedWeightRules));
    assert TicketOf(info, units, additionalPoint, factor, exclude).weights == Filter(bundled, NotExcluded(exclude));
    KeptBundles(bundled, exclude);
  }

  /** Dropping the bundles of excluded grades keeps exactly the others. */
  lemma KeptBundles(bundled: seq<Weighted>, exclude: seq<Grade>)
    ensures forall w :: w in Filter(bundled, NotExcluded(exclude)) <==> (w in bundled && w.report.GradeOf() !in exclude)
    ensures exclude == [] ==> Filter(bundled, NotExcluded(exclude)) == bundled
  {
    var kept := Filter(bundled, NotExcluded(exclude));
    FilterMembers(bundled, NotExcluded(exclude));
    forall w | w in bundled && w.report.GradeOf() !in exclude
      ensures w in kept
    {
      var i :| 0 <= i < |bundled| && bundled[i] == w;
      assert NotExcluded(exclude)(bundled[i]);
    }
    forall w | w in kept
      ensures w in bundled && w.report.GradeOf() !in exclude
    {
      var i :| 0 <= i < |kept| && kept[i] == w;
      assert NotExcluded(exclude)(kept[i]);
    }
    if exclude == [] {
      forall i | 0 <= i < |bundled| ensures NotExcluded(exclude)(bundled[i]) {
      }
      FilterAll(bundled, NotExcluded(exclude));
    }
  }

  /** The body of the pattern loop, up to the comparison. */
  method PatternTicket(info: DepartmentInfo, reports: seq<SpecificReport>, requirements: QuotaTrees.QuotaTree,
                       pattern: seq<CourseRequirements.RequiredCourse>, additionalPoint: seq<AdditionalPoint>,
                       factor: Option<Rational>, exclude: seq<Grade>)
    returns (ticket: CalculationTicket, ghost units: seq<WeightedUnit>)
    requires QuotaTrees.Valid(requirements)
    requires additionalPoint == Bonuses(reports, info.additionalPointRules) && factor == Factor(info, reports)
    ensures TicketSpec(info, reports, requirements, exclude)(pattern, units, ticket)
    ensures ticket.avgType == info.avgType && ticket.additionalPoint == additionalPoint && ticket.factor == factor
  {
    var reps := CourseRequirements.Apply(pattern, reports, FreshId(reports));
    var scored := ScoredOnly(reps);
    var weighted: seq<WeightedUnit>;
    match info.avgType {
      case Basic =>
        weighted := BasicWeights.DistributeBasic(scored, requirements);
      case Eng =>
        weighted := EngWeights.DistributeEng(scored, requirements);
      case Choiki =>
        weighted := ChoikiWeights.DistributeChoiki(scored);
    }
    units := weighted;
    weighted := SpecificWeights.Apply(weighted, info.specifiedWeightRules);
    var bundled := Bundle(weighted);
    ticket := CalculationTicket(info.avgType, Filter(bundled, NotExcluded(exclude)), additionalPoint, factor);
    assert Distributed(info.avgType, requirements, ScoredFor(reports, pattern), units);
    assert ticket == TicketOf(info, units, additionalPoint, factor, exclude);
  }

  // ---------------------------------------------------------------------
  // Choosing a ticket
  // ---------------------------------------------------------------------

  predicate FactorOk(t: CalculationTicket)
  {
    t.factor.Some? ==> t.factor.value.den != 0
  }

  predicate AllFactorsOk(ts: seq<CalculationTicket>)
  {
    forall k :: 0 <= k < |ts| ==> FactorOk(ts[k])
  }

  /** Averages as `calculate` returns them: NaN (`None`) or a rational with a nonzero denominator. */
  predicate Defined(vs: seq<Option<Rational>>)
  {
    forall k :: 0 <= k < |vs| && vs[k].Some? ==> vs[k].value.den != 0
  }

  /** `calculate` of each ticket. */
  function Averages(ts: seq<CalculationTicket>): (vs: seq<Option<Rational>>)
    requires AllFactorsOk(ts)
    ensures |vs| == |ts| && Defined(vs)
    ensures forall k :: 0 <= k < |ts| ==> vs[k] == Calculated(ts[k])
  {
    seq(|ts|, k requires 0 <= k < |ts| => Calculated(ts[k]))
  }

  /** The averages of one more ticket. */
  lemma AveragesSnoc(ts: seq<CalculationTicket>, t: CalculationTicket)
    requires AllFactorsOk(ts) && FactorOk(t)
    ensures AllFactorsOk(ts + [t])
    ensures Averages(ts + [t]) == Averages(ts) + [Calculated(t)]
  {
  }

  /** The starting value of `avg`. */
  function MinusOne(): (r: Rational)
    ensures r.den != 0 && r.Value() == -1.0
  {
    FromInt(-1)
  }

  /** `v.toNumber() > bar`; NaN is greater than nothing. */
  predicate Beats(v: Option<Rational>, bar: Rational)
    requires (v.Some? ==> v.value.den != 0) && bar.den != 0
  {
    v.Some? && v.value.Exceeds(bar)
  }

  /** The ticket at `i`, if there is one. */
  function Pick(ts: seq<CalculationTicket>, i: Option<nat>): Option<CalculationTicket>
  {
    if i.Some? && i.value < |ts| then Some(ts[i.value]) else None
  }

  /**
   * The position `makeTicket` keeps as written: `avg` stays -1, so every
   * ticket whose average exceeds -1 replaces the one kept before, and the
   * last such ticket wins.
   */
  function LastAbove(vs: seq<Option<Rational>>): (i: Option<nat>)
    requires Defined(vs)
    ensures i.Some? ==> (i.value < |vs| && Beats(vs[i.value], MinusOne()) &&
                         forall j :: i.value < j < |vs| ==> !Beats(vs[j], MinusOne()))
    ensures i.None? ==> forall j :: 0 <= j < |vs| ==> !Beats(vs[j], MinusOne())
  {
    if vs == [] then None
    else if Beats(vs[|vs| - 1], MinusOne()) then Some(|vs| - 1)
    else LastAbove(vs[..|vs| - 1])
  }

  /** One more average: it is kept when it exceeds -1, else the earlier choice stands. */
  lemma LastAboveStep(vs: seq<Option<Rational>>, k: nat)
    requires Defined(vs) && k < |vs|
    ensures Defined(vs[..k]) && Defined(vs[..k + 1])
    ensures LastAbove(vs[..k + 1]) == if Beats(vs[k], MinusOne()) then Some(k) else LastAbove(vs[..k])
  {
    assert vs[..k + 1][..k] == vs[..k];
  }

  /** The state of the corrected loop: the position kept and the average to beat. */
  datatype Choice = Choice(index: Option<nat>, avg: Rational)

  /**
   * The corrected loop, which raises `avg` to each kept ticket's average
   * (`BestIsHighest` states what it keeps).
   */
  function Best(vs: seq<Option<Rational>>): (c: Choice)
    requires Defined(vs)
    ensures c.avg.den != 0
    ensures c.index.None? ==> c.avg == MinusOne()
    ensures c.index.Some? ==> c.index.value < |vs| && vs[c.index.value] == Some(c.avg)
  {
    if vs == [] then Choice(None, MinusOne())
    else
      var c := Best(vs[..|vs| - 1]);
      var v := vs[|vs| - 1];
      if Beats(v, c.avg) then Choice(Some(|vs| - 1), v.value) else c
  }

  /** One more average: the corrected loop's step. */
  lemma BestStep(vs: seq<Option<Rational>>, v: Option<Rational>)
    requires Defined(vs) && (v.Some? ==> v.value.den != 0)
    ensures Defined(vs + [v])
    ensures Best(vs + [v]) == if Beats(v, Best(vs).avg) then Choice(Some(|vs|), v.value) else Best(vs)
  {
    assert (vs + [v])[..|vs|] == vs;
  }

  /**
   * The kept average exceeds -1 and is the highest of all, and no average
   * before it reaches it; when nothing is kept, every average is NaN or at
   * most -1.
   */
  lemma {:induction false} BestIsHighest(vs: seq<Option<Rational>>)
    requires Defined(vs)
    ensures Best(vs).index.Some? ==> Best(vs).avg.Value() > -1.0
    ensures forall j :: 0 <= j < |vs| && vs[j].Some? ==> vs[j].value.Value() <= Best(vs).avg.Value()
    ensures Best(vs).index.Some? ==>
      forall j :: 0 <= j < Best(vs).index.value && vs[j].Some? ==> vs[j].value.Value() < Best(vs).avg.Value()
  {
    if vs != [] {
      var init := vs[..|vs| - 1];
      var v := vs[|vs| - 1];
      BestIsHighest(init);
      BestStep(init, v);
      assert vs == init + [v];
      var c := Best(init);
      if Beats(v, c.avg) {
        assert Best(vs).avg.Value() > c.avg.Value();
        assert c.avg.Value() >= -1.0 by {
          if c.index.None? { assert c.avg == MinusOne(); }
        }
      }
    }
  }

  /** The selection loop exactly as written: `avg` is never updated. */
  method SelectAsWritten(ts: seq<CalculationTicket>) returns (res: Option<CalculationTicket>)
    requires AllFactorsOk(ts)
    ensures res == Pick(ts, LastAbove(Averages(ts)))
  {
    res := None;
    var avg := MinusOne();
    ghost var vs := Averages(ts);
    for k := 0 to |ts|
      invariant res == Pick(ts, LastAbove(vs[..k]))
    {
      LastAboveStep(vs, k);
      var v := Calculate(ts[k]);
      assert v == vs[k];
      if v.Some? && v.value.Exceeds(avg) {
        res := Some(ts[k]);
      }
    }
    assert vs[..|ts|] == vs;
  }

  /**
   * Two patterns whose averages exceed -1 and come in decreasing order: as
   * written the second, lower one is kept, where the highest is meant.
   */
  lemma AsWrittenKeepsLower(vs: seq<Option<Rational>>)
    requires |vs| == 2 && Defined(vs) && vs[0].Some? && vs[1].Some?
    requires vs[0].value.Value() > vs[1].value.Value() > -1.0
    ensures LastAbove(vs) == Some(1)
    ensures Best(vs).index == Some(0)
  {
    assert vs[..1][..0] == [];
    assert Beats(vs[1], MinusOne());
  }

  /**
   * The tickets built: one per pattern so far, each from the units
   * `P` allows for its pattern.
   */
  ghost predicate Built<A, B, C>(P: (A, B, C) -> bool, patterns: seq<A>, units: seq<B>, tickets: seq<C>)
  {
    |units| == |tickets| <= |patterns| &&
    forall k :: 0 <= k < |tickets| ==> P(patterns[k], units[k], tickets[k])
  }

  lemma BuiltSnoc<A, B, C>(P: (A, B, C) -> bool, patterns: seq<A>, units: seq<B>, tickets: seq<C>, u: B, t: C)
    requires Built(P, patterns, units, tickets) && |tickets| < |patterns| && P(patterns[|tickets|], u, t)
    ensures Built(P, patterns, units + [u], tickets + [t])
  {
    assert forall k :: 0 <= k < |tickets| ==> (tickets + [t])[k] == tickets[k] && (units + [u])[k] == units[k];
  }

  /** What a pattern's ticket is: built from units its distribution may produce. */
  ghost function TicketSpec(info: DepartmentInfo, reports: seq<SpecificReport>, requirements: QuotaTrees.QuotaTree,
                            exclude: seq<Grade>): (seq<CourseRequirements.RequiredCourse>, seq<WeightedUnit>, CalculationTicket) -> bool
  {
    (pattern: seq<CourseRequirements.RequiredCourse>, units: seq<WeightedUnit>, t: CalculationTicket) =>
      QuotaTrees.Valid(requirements) &&
      Distributed(info.avgType, requirements, ScoredFor(reports, pattern), units) &&
      t == TicketOf(info, units, Bonuses(reports, info.additionalPointRules), Factor(info, reports), exclude)
  }

  /**
   * All tickets built share the kind of average, the bonus entries and the
   * factor, and each holds the bundles of its pattern's units that are not
   * excluded.
   */
  lemma BuiltShared(info: DepartmentInfo, reports: seq<SpecificReport>, requirements: QuotaTrees.QuotaTree,
                    exclude: seq<Grade>, units: seq<seq<WeightedUnit>>, tickets: seq<CalculationTicket>)
    requires Built(TicketSpec(info, reports, requirements, exclude), Patterns(info), units, tickets)
    ensures forall k :: 0 <= k < |tickets| ==>
      tickets[k].avgType == info.avgType &&
      tickets[k].additionalPoint == Bonuses(reports, info.additionalPointRules) &&
      tickets[k].factor == Factor(info, reports) &&
      forall w :: w in tickets[k].weights ==> w.report.GradeOf() !in exclude
  {
    forall k | 0 <= k < |tickets|
      ensures tickets[k].avgType == info.avgType
      ensures tickets[k].additionalPoint == Bonuses(reports, info.additionalPointRules)
      ensures tickets[k].factor == Factor(info, reports)
      ensures forall w :: w in tickets[k].weights ==> w.report.GradeOf() !in exclude
    {
      assert TicketSpec(info, reports, requirements, exclude)(Patterns(info)[k], units[k], tickets[k]);
      assert tickets[k] == TicketOf(info, units[k], Bonuses(reports, info.additionalPointRules), Factor(info, reports), exclude);
      TicketWeights(info, units[k], Bonuses(reports, info.additionalPointRules), Factor(info, reports), exclude);
    }
  }

  /**
   * `makeTicket`, with the comparison against the highest average so far.
   * `tickets` are the tickets of the patterns, in order, which the source
   * builds and discards; the ticket returned is the first of highest
   * average among them, or none when every average is NaN or at most -1
   * (the source then returns `undefined`).
   */
  method MakeTicket(reports: seq<SpecificReport>, requirements: QuotaTrees.QuotaTree, info: DepartmentInfo,
                    exclude: seq<Grade>)
    returns (res: Option<CalculationTicket>, tickets: seq<CalculationTicket>, ghost units: seq<seq<WeightedUnit>>)
    requires QuotaTrees.Valid(requirements)
    ensures |tickets| == |Patterns(info)|
    ensures Built(TicketSpec(info, reports, requirements, exclude), Patterns(info), units, tickets)
    ensures AllFactorsOk(tickets)
    ensures res == Pick(tickets, Best(Averages(tickets)).index)
  {
    var patterns := Patterns(info);
    var additionalPoint := Bonuses(reports, info.additionalPointRules);
    var factor := Factor(info, reports);
    res := None;
    var avg := MinusOne();
    tickets, units := [], [];
    ghost var spec := TicketSpec(info, reports, requirements, exclude);
    for k := 0 to |patterns|
      invariant |tickets| == k
      invariant Built(spec, patterns, units, tickets)
      invariant AllFactorsOk(tickets)
      invariant res == Pick(tickets, Best(Averages(tickets)).index) && avg == Best(Averages(tickets)).avg
    {
      var ticket, us := PatternTicket(info, reports, requirements, patterns[k], additionalPoint, factor, exclude);
      res, avg := Consider(tickets, ticket, res, avg);
      BuiltSnoc(spec, patterns, units, tickets, us, ticket);
      tickets, units := tickets + [ticket], units + [us];
    }
  }

  /** `if (calculate(ticket) > avg) { res = ticket; avg = calculate(ticket); }` */
  method Consider(tickets: seq<CalculationTicket>, ticket: CalculationTicket, res: Option<CalculationTicket>, avg: Rational)
    returns (res': Option<CalculationTicket>, avg': Rational)
    requires AllFactorsOk(tickets) && FactorOk(ticket)
    requires res == Pick(tickets, Best(Averages(tickets)).index) && avg == Best(Averages(tickets)).avg
    ensures AllFactorsOk(tickets + [ticket])
    ensures res' == Pick(tickets + [ticket], Best(Averages(tickets + [ticket])).index)
    ensures avg' == Best(Averages(tickets + [ticket])).avg
  {
    AveragesSnoc(tickets, ticket);
    var v := Calculate(ticket);
    BestStep(Averages(tickets), v);
    res', avg' := res, avg;
    if v.Some? && v.value.Exceeds(avg) {
      res' := Some(ticket);
      avg' := v.value;
    }
  }
}

=== FILE: weights.dfy ===
/**
 * The weighted units of src/weights.ts and `bundle`, which groups the units
 * of every report by weight. Every credit of a report is handled as a unit
 * of its own while weights are distributed; `bundle` puts the units of a
 * report back together, one group of credits per weight.
 */
module Weights {
  import opened Wrappers
  import opened Seqs
  import opened OrderedMaps
  import opened Reports

  /** The weights a unit can get: 0, 0.1, 1, 1.5, 2 and 5. */
  datatype Weight = W0 | W01 | W1 | W15 | W2 | W5
  {
    /** `Math.round(weight * 10)`: the weight in tenths. */
    function Tenths(): (r: nat)
      ensures r == 0 <==> this == W0
      ensures r < 10 <==> this == W0 || this == W01
    {
      match this
      case W0 => 0 case W01 => 1 case W1 => 10 case W15 => 15 case W2 => 20 case W5 => 50
    }
  }

  /** Different weights are different numbers of tenths. */
  lemma TenthsInjective(a: Weight, b: Weight)
    ensures a.Tenths() == b.Tenths() <==> a == b
  {
  }

  /** Why a unit got its weight. */
  datatype Expl = Expl(description: string, references: seq<string>)

  /** One credit of a report with its weight (`WeightedUnit`). */
  datatype WeightedUnit = WeightedUnit(report: ScoredReport, weight: Weight, expls: seq<Expl>)

  /** `credit` credits of one report at the weight `value`. */
  datatype Group = Group(credit: nat, value: Weight, expls: seq<Expl>)

  /** A report with its credits grouped by weight (`Weighted`). */
  datatype Weighted = Weighted(report: ScoredReport, weights: seq<Group>)

  /** A unit as a group of one credit (the `map` at the start of `bundle`'s callback). */
  function ToGroup(u: WeightedUnit): Group
  {
    Group(1, u.weight, u.expls)
  }

  /** `s` without its element at `i` (`splice(i, 1)`). */
  function RemoveAt<T>(s: seq<T>, i: nat): (r: seq<T>)
    requires i < |s|
    ensures |r| == |s| - 1
    ensures forall k :: 0 <= k < i ==> r[k] == s[k]
    ensures forall k :: i <= k < |r| ==> r[k] == s[k + 1]
  {
    s[..i] + s[i + 1..]
  }

  /** The first position from `j` on, before `i`, whose group has the weight of group `i`. */
  function SameBefore(ws: seq<Group>, i: nat, j: nat): (r: Option<nat>)
    requires i < |ws| && j <= i
    ensures r.Some? ==> j <= r.value < i && ws[r.value].value == ws[i].value
    ensures r.Some? ==> forall k :: j <= k < r.value ==> ws[k].value != ws[i].value
    ensures r.None? ==> forall k :: j <= k < i ==> ws[k].value != ws[i].value
    decreases i - j
  {
    if j == i then None
    else if ws[j].value == ws[i].value then Some(j)
    else SameBefore(ws, i, j + 1)
  }

  /**
   * The outer loop of the merge in `bundle`, from position `i` on: group
   * `i` joins the first earlier group of the same weight and is spliced
   * out; the loop then goes on at `i + 1`, so the group that moved into
   * position `i` is never looked at.
   */
  function MergeFrom(ws: seq<Group>, i: nat): seq<Group>
    decreases |ws| - i
  {
    if i >= |ws| then ws
    else
      match SameBefore(ws, i, 0)
      case None => MergeFrom(ws, i + 1)
      case Some(j) => MergeFrom(RemoveAt(ws[j := ws[j].(credit := ws[j].credit + 1)], i), i + 1)
  }

  /** The groups of the units of one report, as `bundle` merges them. */
  method Merge(units: seq<WeightedUnit>) returns (weights: seq<Group>)
    ensures weights == MergeFrom(Map(units, ToGroup), 1)
  {
    weights := Map(units, ToGroup);
    var i := 1;
    while i < |weights|
      invariant 1 <= i
      invariant MergeFrom(weights, i) == MergeFrom(Map(units, ToGroup), 1)
      decreases |weights| - i
    {
      ghost var before := weights;
      var j := 0;
      while j < i
        invariant 0 <= j <= i < |weights| && weights == before
        invariant SameBefore(weights, i, 0) == SameBefore(weights, i, j)
      {
        if weights[j].value == weights[i].value {
          weights := weights[j := weights[j].(credit := weights[j].credit + 1)];
          weights := weights[..i] + weights[i + 1..];
          break;
        }
        j := j + 1;
      }
      assert MergeFrom(before, i) == MergeFrom(weights, i + 1);
      i := i + 1;
    }
  }

  /** The sum of `credit * f(value)` over the groups. */
  function GroupSum(ws: seq<Group>, f: Weight -> int): int
  {
    if ws == [] then 0 else ws[0].credit * f(ws[0].value) + GroupSum(ws[1..], f)
  }

  lemma {:induction false} GroupSumConcat(a: seq<Group>, b: seq<Group>, f: Weight -> int)
    ensures GroupSum(a + b, f) == GroupSum(a, f) + GroupSum(b, f)
  {
    if a == [] {
      assert a + b == b;
    } else {
      assert (a + b)[1..] == a[1..] + b;
      GroupSumConcat(a[1..], b, f);
    }
  }

  /** A sum split around position `k`. */
  lemma GroupSumAt(ws: seq<Group>, k: nat, f: Weight -> int)
    requires k < |ws|
    ensures GroupSum(ws, f) == GroupSum(ws[..k], f) + ws[k].credit * f(ws[k].value) + GroupSum(ws[k + 1..], f)
  {
    assert ws == ws[..k] + [ws[k]] + ws[k + 1..];
    GroupSumConcat(ws[..k] + [ws[k]], ws[k + 1..], f);
    GroupSumConcat(ws[..k], [ws[k]], f);
  }

  /** Moving the single credit of group `i` into an earlier group of the same weight keeps every weighted sum. */
  lemma MergeStepSum(ws: seq<Group>, i: nat, j: nat, f: Weight -> int)
    requires j < i < |ws| && ws[i].credit == 1 && ws[j].value == ws[i].value
    ensures GroupSum(RemoveAt(ws[j := ws[j].(credit := ws[j].credit + 1)], i), f) == GroupSum(ws, f)
  {
    var up := ws[j := ws[j].(credit := ws[j].credit + 1)];
    var v := f(ws[i].value);
    var c := ws[j].credit;
    assert up[j].credit * f(up[j].value) == c * v + v;
    assert ws[j].credit * f(ws[j].value) == c * v;
    assert RemoveAt(up, i) == up[..i] + ws[i + 1..];
    GroupSumConcat(up[..i], ws[i + 1..], f);
    GroupSumAt(ws, i, f);
    GroupSumAt(ws[..i], j, f);
    GroupSumAt(up[..i], j, f);
    assert up[..i][..j] == ws[..i][..j];
    assert up[..i][j + 1..] == ws[..i][j + 1..];
  }

  /**
   * Merging keeps every weighted sum of the groups, so the credits at each
   * weight are exactly the units at that weight.
   */
  lemma {:induction false} MergeKeepsSums(ws: seq<Group>, i: nat, f: Weight -> int)
    requires forall k :: i <= k < |ws| ==> ws[k].credit == 1
    ensures GroupSum(MergeFrom(ws, i), f) == GroupSum(ws, f)
    decreases |ws| - i
  {
    if i < |ws| {
      match SameBefore(ws, i, 0)
      case None =>
        MergeKeepsSums(ws, i + 1, f);
      case Some(j) =>
        MergeStepSum(ws, i, j, f);
        MergeKeepsSums(RemoveAt(ws[j := ws[j].(credit := ws[j].credit + 1)], i), i + 1, f);
    }
  }

  /** The weights of a report with at most two units end up in distinct groups. */
  lemma MergeDistinctSmall(units: seq<WeightedUnit>)
    requires |units| <= 2
    ensures var ws := MergeFrom(Map(units, ToGroup), 1);
      forall a, b :: 0 <= a < b < |ws| ==> ws[a].value != ws[b].value
  {
    var gs := Map(units, ToGroup);
    if |gs| == 2 {
      match SameBefore(gs, 1, 0)
      case None =>
        assert MergeFrom(gs, 1) == MergeFrom(gs, 2) == gs;
      case Some(j) =>
        var next := RemoveAt(gs[j := gs[j].(credit := gs[j].credit + 1)], 1);
        assert MergeFrom(gs, 1) == MergeFrom(next, 2) == next;
    }
  }

  /**
   * With three units of one weight the merge leaves two groups of that
   * weight, of two credits and one: the third unit moves into position 1
   * when the second is spliced out, and the loop has already passed it.
   */
  lemma MergeThreeEqual(e: seq<Expl>)
    ensures MergeFrom([Group(1, W1, e), Group(1, W1, e), Group(1, W1, e)], 1)
         == [Group(2, W1, e), Group(1, W1, e)]
  {
    var gs := [Group(1, W1, e), Group(1, W1, e), Group(1, W1, e)];
    assert SameBefore(gs, 1, 0) == Some(0);
    var next := RemoveAt(gs[0 := gs[0].(credit := 2)], 1);
    assert next == [Group(2, W1, e), Group(1, W1, e)];
    assert MergeFrom(gs, 1) == MergeFrom(next, 2) == next;
  }

  /** The reports of `us` in the order of their first unit (the keys of `bundle`'s map). */
  function Firsts(us: seq<WeightedUnit>): (r: seq<ScoredReport>)
    ensures Distinct(r)
    ensures forall k :: 0 <= k < |us| ==> us[k].report in r
    ensures forall x :: x in r ==> exists k :: 0 <= k < |us| && us[k].report == x
  {
    if us == [] then []
    else
      var f := Firsts(us[..|us| - 1]);
      var x := us[|us| - 1].report;
      assert forall k :: 0 <= k < |us| - 1 ==> us[..|us| - 1][k] == us[k];
      if x in f then f else f + [x]
  }

  /** The test `u => u.report === r`. */
  function Of(r: ScoredReport): WeightedUnit -> bool
  {
    (u: WeightedUnit) => u.report == r
  }

  /** The units of report `r`, in their order in `us`. */
  function UnitsOf(us: seq<WeightedUnit>, r: ScoredReport): (res: seq<WeightedUnit>)
    ensures forall k :: 0 <= k < |res| ==> res[k].report == r
  {
    FilterMembers(us, Of(r));
    Filter(us, Of(r))
  }

  /** What `bundle(us)` returns: every report once, with its units merged by weight. */
  function BundleOf(us: seq<WeightedUnit>): (res: seq<Weighted>)
    ensures |res| == |Firsts(us)|
    ensures forall k :: 0 <= k < |res| ==> res[k].report == Firsts(us)[k]
  {
    var f := Firsts(us);
    seq(|f|, k requires 0 <= k < |f| => Weighted(f[k], MergeFrom(Map(UnitsOf(us, f[k]), ToGroup), 1)))
  }

  /** The first loop of `bundle`: an empty list for every report, in the order of first appearance. */
  method EmptyLists(us: seq<WeightedUnit>) returns (m: OrderedMap<ScoredReport, seq<WeightedUnit>>)
    ensures m.keys == Firsts(us)
    ensures forall x :: x in m.entries <==> x in m.keys
    ensures forall x :: x in m.entries ==> m.entries[x] == []
  {
    m := Empty();
    for i := 0 to |us|
      invariant m.keys == Firsts(us[..i])
      invariant forall x :: x in m.entries <==> x in m.keys
      invariant forall x :: x in m.entries ==> m.entries[x] == []
    {
      assert us[..i + 1][..i] == us[..i];
      m := m.Put(us[i].report, []);
    }
    assert us[..|us|] == us;
  }

  /** The second loop of `bundle`: every unit is pushed onto the list of its report. */
  method FillLists(us: seq<WeightedUnit>, m0: OrderedMap<ScoredReport, seq<WeightedUnit>>)
    returns (m: OrderedMap<ScoredReport, seq<WeightedUnit>>)
    requires m0.keys == Firsts(us)
    requires forall x :: x in m0.entries <==> x in m0.keys
    requires forall x :: x in m0.entries ==> m0.entries[x] == []
    ensures m.keys == Firsts(us)
    ensures forall x :: x in m.entries <==> x in m.keys
    ensures forall x :: x in m.entries ==> m.entries[x] == UnitsOf(us, x)
  {
    m := m0;
    for i := 0 to |us|
      invariant m.keys == Firsts(us)
      invariant forall x :: x in m.entries <==> x in m.keys
      invariant forall x :: x in m.entries ==> m.entries[x] == UnitsOf(us[..i], x)
    {
      var u := us[i];
      assert u.report in m.entries by { assert u.report in Firsts(us); }
      ghost var before := m.entries;
      m := m.Put(u.report, m.entries[u.report] + [u]);
      FillStep(us, i, before, m.entries);
    }
    assert us[..|us|] == us;
  }

  /** Pushing the unit at `i` onto its report's list keeps every list equal to that report's units so far. */
  lemma FillStep(us: seq<WeightedUnit>, i: nat, lists: map<ScoredReport, seq<WeightedUnit>>,
                 after: map<ScoredReport, seq<WeightedUnit>>)
    requires i < |us| && us[i].report in lists
    requires forall x :: x in lists ==> lists[x] == UnitsOf(us[..i], x)
    requires after == lists[us[i].report := lists[us[i].report] + [us[i]]]
    ensures forall x :: x in after ==> after[x] == UnitsOf(us[..i + 1], x)
  {
    forall x | x in after
      ensures after[x] == UnitsOf(us[..i + 1], x)
    {
      UnitsOfSnoc(us, i, x);
    }
  }

  /** One more unit joins the list of its own report and no other. */
  lemma UnitsOfSnoc(us: seq<WeightedUnit>, i: nat, x: ScoredReport)
    requires i < |us|
    ensures UnitsOf(us[..i + 1], x) == UnitsOf(us[..i], x) + (if us[i].report == x then [us[i]] else [])
  {
    var u := us[i];
    assert us[..i + 1] == us[..i] + [u];
    FilterConcat(us[..i], [u], Of(x));
    assert Filter([u], Of(x)) == if u.report == x then [u] else [];
  }

  /** The last step of `bundle`: the units of every report, merged by weight, in the order of the keys. */
  method MergeAll(m: OrderedMap<ScoredReport, seq<WeightedUnit>>) returns (res: seq<Weighted>)
    requires forall k :: 0 <= k < |m.keys| ==> m.keys[k] in m.entries
    ensures |res| == |m.keys|
    ensures forall k :: 0 <= k < |m.keys| ==>
      res[k] == Weighted(m.keys[k], MergeFrom(Map(m.entries[m.keys[k]], ToGroup), 1))
  {
    res := [];
    for k := 0 to |m.keys|
      invariant |res| == k
      invariant forall l :: 0 <= l < k ==>
        res[l] == Weighted(m.keys[l], MergeFrom(Map(m.entries[m.keys[l]], ToGroup), 1))
    {
      var r := m.keys[k];
      var weights := Merge(m.entries[r]);
      res := res + [Weighted(r, weights)];
    }
  }

  /** `bundle(us)`. */
  method Bundle(us: seq<WeightedUnit>) returns (res: seq<Weighted>)
    ensures res == BundleOf(us)
  {
    var m := EmptyLists(us);
    m := FillLists(us, m);
    res := MergeAll(m);
  }

  /** The sum of `h(report, weight)` over the units. */
  function UnitSum(us: seq<WeightedUnit>, h: (ScoredReport, Weight) -> int): int
  {
    if us == [] then 0 else h(us[0].report, us[0].weight) + UnitSum(us[1..], h)
  }

  lemma {:induction false} UnitSumConcat(a: seq<WeightedUnit>, b: seq<WeightedUnit>, h: (ScoredReport, Weight) -> int)
    ensures UnitSum(a + b, h) == UnitSum(a, h) + UnitSum(b, h)
  {
    if a == [] {
      assert a + b == b;
    } else {
      assert (a + b)[1..] == a[1..] + b;
      UnitSumConcat(a[1..], b, h);
    }
  }

  /** The test `w => h(r, w)`. */
  function At(h: (ScoredReport, Weight) -> int, r: ScoredReport): Weight -> int
  {
    w => h(r, w)
  }

  /** The sum of `credit * h(report, value)` over every group of every report. */
  function WeightedSum(ws: seq<Weighted>, h: (ScoredReport, Weight) -> int): int
  {
    if ws == [] then 0 else GroupSum(ws[0].weights, At(h, ws[0].report)) + WeightedSum(ws[1..], h)
  }

  /** The groups of one report's units weigh what its units weigh. */
  lemma {:induction false} GroupsOfUnits(units: seq<WeightedUnit>, r: ScoredReport, h: (ScoredReport, Weight) -> int)
    requires forall k :: 0 <= k < |units| ==> units[k].report == r
    ensures GroupSum(Map(units, ToGroup), At(h, r)) == UnitSum(units, h)
  {
    if units != [] {
      GroupsOfUnits(units[1..], r, h);
      assert Map(units, ToGroup)[1..] == Map(units[1..], ToGroup);
    }
  }

  /** Summing report by report over the first-appearance order is summing unit by unit. */
  lemma {:induction false} ByReport(us: seq<WeightedUnit>, reps: seq<ScoredReport>, h: (ScoredReport, Weight) -> int)
    requires Distinct(reps) && forall k :: 0 <= k < |us| ==> us[k].report in reps
    ensures UnitSumOver(us, reps, h) == UnitSum(us, h)
    decreases |us|
  {
    if us != [] {
      var u := us[|us| - 1];
      var p := us[..|us| - 1];
      assert us == p + [u];
      assert forall k :: 0 <= k < |p| ==> p[k] == us[k];
      assert u.report in reps;
      ByReport(p, reps, h);
      UnitSumConcat(p, [u], h);
      assert UnitSum([u], h) == h(u.report, u.weight);
      SplitOver(p, u, reps, h);
    } else {
      NoUnits(reps, h);
    }
  }

  lemma {:induction false} NoUnits(reps: seq<ScoredReport>, h: (ScoredReport, Weight) -> int)
    ensures UnitSumOver([], reps, h) == 0
  {
    if reps != [] {
      NoUnits(reps[1..], h);
    }
  }

  /** `Σ_{r in reps} UnitSum(UnitsOf(us, r))`. */
  function UnitSumOver(us: seq<WeightedUnit>, reps: seq<ScoredReport>, h: (ScoredReport, Weight) -> int): int
  {
    if reps == [] then 0 else UnitSum(UnitsOf(us, reps[0]), h) + UnitSumOver(us, reps[1..], h)
  }

  lemma {:induction false} SplitOver(p: seq<WeightedUnit>, u: WeightedUnit, reps: seq<ScoredReport>, h: (ScoredReport, Weight) -> int)
    requires Distinct(reps)
    ensures UnitSumOver(p + [u], reps, h)
         == UnitSumOver(p, reps, h) + (if u.report in reps then h(u.report, u.weight) else 0)
  {
    if reps != [] {
      SplitOver(p, u, reps[1..], h);
      FilterConcat(p, [u], Of(reps[0]));
      assert Filter([u], Of(reps[0])) == if u.report == reps[0] then [u] else [];
      assert UnitSum([u], h) == h(u.report, u.weight);
      UnitSumConcat(UnitsOf(p, reps[0]), if u.report == reps[0] then [u] else [], h);
      assert reps[0] !in reps[1..];
      assert u.report in reps <==> u.report == reps[0] || u.report in reps[1..];
    }
  }

  /**
   * `bundle` loses and invents nothing: any sum of `credit * h(report,
   * weight)` over its groups equals the sum of `h` over the units.
   */
  lemma BundleKeepsSums(us: seq<WeightedUnit>, h: (ScoredReport, Weight) -> int)
    ensures WeightedSum(BundleOf(us), h) == UnitSum(us, h)
  {
    var f := Firsts(us);
    BundleSumFrom(us, f, h);
    ByReport(us, f, h);
  }

  lemma {:induction false} BundleSumFrom(us: seq<WeightedUnit>, reps: seq<ScoredReport>, h: (ScoredReport, Weight) -> int)
    ensures var ws := seq(|reps|, k requires 0 <= k < |reps| => Weighted(reps[k], MergeFrom(Map(UnitsOf(us, reps[k]), ToGroup), 1)));
      WeightedSum(ws, h) == UnitSumOver(us, reps, h)
  {
    var ws := seq(|reps|, k requires 0 <= k < |reps| => Weighted(reps[k], MergeFrom(Map(UnitsOf(us, reps[k]), ToGroup), 1)));
    if reps != [] {
      var r := reps[0];
      var units := UnitsOf(us, r);
      BundleSumFrom(us, reps[1..], h);
      assert ws[1..] == seq(|reps[1..]|, k requires 0 <= k < |reps[1..]| => Weighted(reps[1..][k], MergeFrom(Map(UnitsOf(us, reps[1..][k]), ToGroup), 1)));
      MergeKeepsSums(Map(units, ToGroup), 1, At(h, r));
      GroupsOfUnits(units, r, h);
    }
  }

  /** One per credit, whatever the weight. */
  function PerCredit(w: Weight): int
  {
    1
  }

  /** One per unit, whatever the report and weight. */
  function PerUnit(r: ScoredReport, w: Weight): int
  {
    1
  }

  lemma {:induction false} GroupSumExt(ws: seq<Group>, f: Weight -> int, g: Weight -> int)
    requires forall w :: f(w) == g(w)
    ensures GroupSum(ws, f) == GroupSum(ws, g)
  {
    if ws != [] {
      GroupSumExt(ws[1..], f, g);
    }
  }

  /** `bundle` lists no report twice. */
  lemma BundleDistinct(us: seq<WeightedUnit>)
    ensures forall a, b :: 0 <= a < b < |BundleOf(us)| ==> BundleOf(us)[a].report != BundleOf(us)[b].report
  {
    var res := BundleOf(us);
    var f := Firsts(us);
    forall a, b | 0 <= a < b < |res|
      ensures res[a].report != res[b].report
    {
      assert res[a].report == f[a] && res[b].report == f[b];
    }
  }

  /** `bundle` lists the report of every unit. */
  lemma BundleCovers(us: seq<WeightedUnit>)
    ensures forall k :: 0 <= k < |us| ==> exists l :: 0 <= l < |BundleOf(us)| && BundleOf(us)[l].report == us[k].report
  {
    var res := BundleOf(us);
    var f := Firsts(us);
    forall k | 0 <= k < |us|
      ensures exists l :: 0 <= l < |res| && res[l].report == us[k].report
    {
      var l :| 0 <= l < |f| && f[l] == us[k].report;
      assert res[l].report == f[l];
    }
  }

  /** `bundle` lists only reports that have units. */
  lemma BundleListed(us: seq<WeightedUnit>)
    ensures forall l :: 0 <= l < |BundleOf(us)| ==> exists k :: 0 <= k < |us| && us[k].report == BundleOf(us)[l].report
  {
    var res := BundleOf(us);
    var f := Firsts(us);
    forall l | 0 <= l < |res|
      ensures exists k :: 0 <= k < |us| && us[k].report == res[l].report
    {
      assert f[l] in f;
    }
  }

  /** `bundle` lists the reports in the order of their first units. */
  lemma BundleOrder(us: seq<WeightedUnit>)
    ensures forall a, b :: 0 <= a < b < |BundleOf(us)| ==> EarlierUnit(us, BundleOf(us)[a].report, BundleOf(us)[b].report)
  {
    FirstsOrdered(us);
  }

  /** The credits `bundle` gives a report add up to its number of units. */
  lemma BundleCredits(us: seq<WeightedUnit>)
    ensures var res := BundleOf(us);
      forall l :: 0 <= l < |res| ==> GroupSum(res[l].weights, PerCredit) == |UnitsOf(us, res[l].report)|
  {
    var res := BundleOf(us);
    var f := Firsts(us);
    forall l | 0 <= l < |res|
      ensures GroupSum(res[l].weights, PerCredit) == |UnitsOf(us, res[l].report)|
    {
      var units := UnitsOf(us, f[l]);
      assert res[l] == Weighted(f[l], MergeFrom(Map(units, ToGroup), 1));
      MergeKeepsSums(Map(units, ToGroup), 1, PerCredit);
      GroupsOfUnits(units, f[l], PerUnit);
      GroupSumExt(Map(units, ToGroup), PerCredit, At(PerUnit, f[l]));
      UnitSumOne(units);
    }
  }

  /** A report listed before another has a unit before every unit of the other. */
  lemma {:induction false} FirstsOrdered(us: seq<WeightedUnit>)
    ensures forall a, b :: 0 <= a < b < |Firsts(us)| ==> EarlierUnit(us, Firsts(us)[a], Firsts(us)[b])
  {
    if us != [] {
      var p := us[..|us| - 1];
      var u := us[|us| - 1];
      assert us == p + [u];
      FirstsOrdered(p);
      var f := Firsts(us);
      var fp := Firsts(p);
      assert f == if u.report in fp then fp else fp + [u.report];
      forall a, b | 0 <= a < b < |f|
        ensures EarlierUnit(us, f[a], f[b])
      {
        assert f[a] == fp[a];
        if b < |fp| {
          assert f[b] == fp[b];
          EarlierExtend(p, u, fp[a], fp[b]);
        } else {
          assert fp[a] in fp;
          EarlierNew(p, u, fp[a]);
        }
      }
    }
  }

  lemma EarlierExtend(p: seq<WeightedUnit>, u: WeightedUnit, r: ScoredReport, s: ScoredReport)
    requires EarlierUnit(p, r, s)
    ensures EarlierUnit(p + [u], r, s)
  {
    var k :| 0 <= k < |p| && p[k].report == r && forall k' :: 0 <= k' <= k ==> p[k'].report != s;
    assert (p + [u])[k] == p[k];
    assert forall k' :: 0 <= k' <= k ==> (p + [u])[k'] == p[k'];
  }

  lemma EarlierNew(p: seq<WeightedUnit>, u: WeightedUnit, r: ScoredReport)
    requires exists k :: 0 <= k < |p| && p[k].report == r
    requires forall k :: 0 <= k < |p| ==> p[k].report != u.report
    ensures EarlierUnit(p + [u], r, u.report)
  {
    var k :| 0 <= k < |p| && p[k].report == r;
    assert (p + [u])[k] == p[k];
    assert forall k' :: 0 <= k' <= k ==> (p + [u])[k'] == p[k'];
  }

  /** Some unit of `r` comes before every unit of `s`. */
  ghost predicate EarlierUnit(us: seq<WeightedUnit>, r: ScoredReport, s: ScoredReport)
  {
    exists k :: 0 <= k < |us| && us[k].report == r && forall k' :: 0 <= k' <= k ==> us[k'].report != s
  }

  lemma {:induction false} UnitSumOne(us: seq<WeightedUnit>)
    ensures UnitSum(us, PerUnit) == |us|
  {
    if us != [] {
      UnitSumOne(us[1..]);
    }
  }
}

=== FILE: wrappers.dfy ===
/** Option and Result: the shapes `T | undefined` and "returns or throws" take in this model. */
module Wrappers {

  datatype Option<+T> = None | Some(value: T) {
    function GetOr(default: T): T {
      match this
      case Some(v) => v
      case None => default
    }
  }

  datatype Result<+T, +E> = Ok(value: T) | Err(error: E)
}
